=== FILE: README.md ===
# ecxx core, modelled in Dafny

ecxx is a C++ entity-component-system library. This project models its core
as pure functions and short methods over immutable Dafny datatypes, and
proves what the code promises about them.

**The sparse-set engine (v2 / impl):**

- `EntitySpec` and `EntityValue`: the 32-bit entity handle, a 20-bit index and a 12-bit version.
- `EntityPool`: the pool. Its free list is threaded through the slots.
- `EntityMaps`: the per-component sparse set. It keeps a sparse table, a dense handle list with a null placeholder in slot 0, and data kept in step with the dense list.
- `ComponentsDb`: the lazily filled registry of maps.
- Three intersection iterators:
  - `Views` (the static view, sorted once by size);
  - `MutableViews` (back to front);
  - `RuntimeViews`.
- Helpers for these iterators:
  - `SortOrder`: the sort by map size.
  - `ViewTables`: the validity test.
  - `Scans`: the forward and backward walks over a driver's dense list.
- `Worlds`: `base_world`.
- `WorldViews`: the views taken from a world.

**The legacy bitmask engine (v1 and the single header `ecxx.h`):**

- `BitVectors`: the byte-packed `bit_vector`.
- `ComponentDbV1`: the component managers and the bitmask component database.
- `FamilyAspects`: the include/exclude aspects.
- `ViewFilters`: the view filters.
- `ActiveEntities`: the filtered id-range iterator.
- `ManagedFamilies`: `fill_enabled_bits` and `managed_family`.
- `WorldV1` and `WorldV1Proofs`: the v1 world, with its stack allocator and its deferred destroy/change pipeline.
- `EcsNodes`: the scene graph of `ecs_node_storage`, with parent, child and sibling links.
- `WorldsMap`: the first-free-slot registry of worlds.
- `LegacyWorld`: the world of `ecxx.h`. Its `component_db` (`src/ecxx/ecxx.h:48-136`) is the same code as `src/ecxx/v1/component_db.h` without `disable_all` and `manager<Tag>()` (src/ecxx/v1/component_db.h:48-58), so `ComponentDbV1` models both.

`Seqs` and `Wrappers` hold shared sequence facts and `Option`.

The state of each component is a datatype. Each operation is a function, or a
method where the source loops. Most contracts are stated against an
independent description of the state:

- a sparse set's stored handles and values as maps;
- a pool's free chain;
- a node storage's child lists as sequences (`kids`);
- a world's free ids as the inactive ones.

A source assertion is either a `requires` clause or, where the failure is
worth seeing, a `None` result.

## Model

| member | source | states |
|---|---|---|
| EntitySpec.IndexMaskWord | src/ecxx/v2/entity_spec.h:17-19 | index_mask as a 32-bit word is 2^20 - 1 |
| EntitySpec.VersionMaskWord | src/ecxx/v2/entity_spec.h:21-23 | version_mask as a 32-bit word is 2^12 - 1 |
| EntitySpec.LayoutFacts | src/ecxx/v2/entity_spec.h:13-23 | index_cap and version_cap are 2^index_bits and 2^version_bits; the two widths add up to the 32 bits of value_type; version_mask fits the 16-bit version_type and index_mask the 32-bit index_type |
| EntitySpec.MasksDisjoint | src/ecxx/v2/entity_spec.h:17-23 | the index bits and the version bits shifted by index_bits do not overlap, and together they cover the whole word |
| EntityValue.Make | src/ecxx/impl/entity_value.h:28-43 | the (index, version) constructor reads back its index exactly and its version modulo 2^12, for an index up to index_mask and any 16-bit version |
| EntityValue.Index | src/ecxx/impl/entity_value.h:41-43 | index() keeps the low 20 bits, so it never exceeds index_mask; EntityValue.Decompose shows that index and version together give back the word |
| EntityValue.Version | src/ecxx/impl/entity_value.h:33-35 | version() never exceeds version_mask; EntityValue.Make shows it reads back the packed version modulo 2^12 |
| EntityValue.IsNull | src/ecxx/impl/entity_value.h:57-59 | `== nullptr` holds exactly for the null handle |
| EntityValue.ToBool | src/ecxx/impl/entity_value.h:65-67 | `operator bool` holds exactly for a handle other than null |
| EntityValue.BitOperatorsAreArithmetic | src/ecxx/impl/entity_value.h:28-43 | on 32-bit words, `& index_mask`, `(w >> 20) & version_mask` and the OR of `i` with `v << 20` are the remainder, quotient and sum the model uses |
| EntityValue.Default | src/ecxx/impl/entity_value.h:16-21 | the default handle has index 0 and version 0 and is null |
| EntityValue.SetVersion | src/ecxx/impl/entity_value.h:37-39 | version(v) sets the version to v and keeps the index |
| EntityValue.SetIndex | src/ecxx/impl/entity_value.h:45-47 | index(v), for v up to index_mask, sets the index to v and keeps the version |
| EntityValue.Decompose | src/ecxx/impl/entity_value.h:28-43 | every word is the packing of its own index and version |
| EntityValue.MakeInjective | src/ecxx/impl/entity_value.h:28-31 | packing is injective on in-range (index, version) pairs |
| EntityValue.EqualityIsByWord | src/ecxx/impl/entity_value.h:49-55 | two handles are equal exactly when index and version both agree |
| EntityValue.NullTests | src/ecxx/impl/entity_value.h:57-67 | `== nullptr` and `operator bool` are exact opposites, and only index 0 with version 0 is null |
| EntityPool.New | src/ecxx/v2/entity_pool.h:18-20 | a new pool is valid, with size() and available_for_recycling() both 0, and only slot 0 alive |
| EntityPool.NullSlotIsAlive | src/ecxx/v2/entity_pool.h:73-75 | in every valid pool, is_alive(0) holds |
| EntityPool.Size | src/ecxx/v2/entity_pool.h:57-59 | size() and available_for_recycling() together account for every slot but slot 0; EntityPool.LiveCountIsSize shows size() counts the live slots |
| EntityPool.Current | src/ecxx/v2/entity_pool.h:68-71 | current(i) fits the version field, and a live slot i stores exactly the handle (i, current(i)) |
| EntityPool.AvailableForRecycling | src/ecxx/v2/entity_pool.h:78-80 | in a valid pool, available_for_recycling() is the length of the free list |
| EntityPool.IsAlive | src/ecxx/v2/entity_pool.h:73-75 | no contract of its own; EntityPool.NullSlotIsAlive, EntityPool.Allocate and EntityPool.Deallocate state which slots it reports alive |
| EntityPool.Allocate | src/ecxx/v2/entity_pool.h:22-35 | keeps the pool valid. With an empty free list it appends (slot count, version 0); otherwise it pops the free head with its stored version. The slot goes from dead to alive, no other slot changes, size() grows by one and the free count shrinks by one |
| EntityPool.HeadIsFree | src/ecxx/v2/entity_pool.h:23-26 | with free slots, the free-list head is a dead slot other than 0 |
| EntityPool.Deallocate | src/ecxx/v2/entity_pool.h:46-51 | keeps the pool valid and kills the slot. The slot stores version+1 mod 2^12, which differs from the handle's; the slot becomes the free head; no other slot changes; size() shrinks by one and available_ grows by one |
| EntityPool.AllocateMany | src/ecxx/v2/entity_pool.h:37-44 | n allocations in a row keep the pool valid, return n handles, grow size() by n and keep every live slot; the handles were dead before, are alive after, sit in their own slots and have pairwise different indices |
| EntityPool.FreshAllocationsAreContiguous | src/ecxx/v2/entity_pool.h:30-33 | with no free slot, n allocations hand out the next n indices with version 0 |
| EntityPool.NewPoolCountsFromOne | src/ecxx/v2/entity_pool.h:18-33 | a new pool hands out indices 1, 2, 3, ... with version 0 |
| EntityPool.DeallocateThenAllocate | src/ecxx/v2/entity_pool.h:23-29 | freeing a live handle and allocating again returns its slot with the next version, and restores every other part of the pool |
| EntityPool.RecyclingIsLifo | src/ecxx/v2/entity_pool.h:23-29 | two freed slots come back in last-in, first-out order |
| EntityPool.StaleHandleDetected | src/ecxx/v2/entity_pool.h:68-71 | after recycling, current(index) is the new handle's version and not the stale handle's |
| EntityPool.LiveCountIsSize | src/ecxx/v2/entity_pool.h:57-59 | in a valid pool, size() is the number of live slots other than 0 |
| EntityPool.Each | src/ecxx/v2/entity_pool.h:82-100 | on both the fast and slow paths, each visits exactly the live slots other than 0, in ascending index order, each once, size() of them |
| EntityMaps.New | src/ecxx/impl/entity_map.h:22-24 | a new map is valid and empty, and holds only the placeholder in its dense and data lists |
| EntityMaps.Emplace | src/ecxx/impl/entity_map.h:84-101 | for an absent e: the map stays valid and now has e, with size() one larger. e is the last dense entry and the table points to it. The stored handles and values gain exactly e and its datum; an empty type returns data_[0] and leaves data_ alone |
| EntityMaps.Erase | src/ecxx/impl/entity_map.h:103-123 | for a present e: the map stays valid and loses e, with size() one smaller. Membership of every other index is kept; the stored handles and values lose exactly e's index; entries before e's slot do not move |
| EntityMaps.EraseSwapFacts | src/ecxx/impl/entity_map.h:106-122 | the swap-with-back branch keeps table and dense list inverse and moves data in step with the handles |
| EntityMaps.EraseBackFacts | src/ecxx/impl/entity_map.h:106-122 | the branch that erases the last entry keeps the map valid and drops exactly e |
| EntityMaps.Get | src/ecxx/impl/entity_map.h:125-129 | get(e) is the datum stored for e's index, or data_[0] for an empty type |
| EntityMaps.GetOrCreate | src/ecxx/impl/entity_map.h:131-136 | leaves e present and returns its datum. It changes nothing when e was present and emplaces otherwise |
| EntityMaps.GetOrDefault | src/ecxx/impl/entity_map.h:138-144 | get(e) for a member, the placeholder data_[0] otherwise |
| EntityMaps.EmplaceDyn | src/ecxx/v2/entity_map.h:129-131 | emplace with the type's default datum |
| EntityMaps.EraseDyn | src/ecxx/v2/entity_map.h:133-135 | erase |
| EntityMaps.HasIffStoredIndex | src/ecxx/impl/entity_map.h:33-35 | has(e) holds exactly when some dense entry shares e's index |
| EntityMaps.Size | src/ecxx/impl/entity_map.h:57-59 | size() is the number of entries begin() .. end() iterates; EntityMaps.MembersAreStored shows those are the stored handles |
| EntityMaps.Has | src/ecxx/impl/entity_map.h:33-35 | no contract of its own; EntityMaps.HasIffStoredIndex and EntityMaps.HasIgnoresVersion state that it tests the index only |
| EntityMaps.HasIgnoresVersion | src/ecxx/impl/entity_map.h:33-35 | a handle with a member's index and another version reads as present |
| EntityMaps.MembersDistinct | src/ecxx/impl/entity_map.h:37-51 | the entries from begin() to end() have pairwise different indices, so no duplicates |
| EntityMaps.MembersAreStored | src/ecxx/impl/entity_map.h:37-59 | the iterated entries are exactly the stored handles, and there are size() of them |
| EntityMaps.MemberIffStored | src/ecxx/impl/entity_map.h:33-51 | a handle is iterated exactly when its index is present and the stored handle is that very handle |
| EntityMaps.EmplaceEraseRoundTrip | src/ecxx/impl/entity_map.h:84-123 | emplacing an absent handle and erasing it again gives back the same map |
| EntityMaps.EraseKeepsOthers | src/ecxx/impl/entity_map.h:103-129 | erasing one member leaves every other member present, with the same handle and datum |
| ComponentsDb.Empty | src/ecxx/v2/components_db.h:67-68 | the default registry is valid and try_get answers null for every type id |
| ComponentsDb.TryGet | src/ecxx/v2/components_db.h:41-57 | try_get(t) is null when t is past the table or the slot is null, and otherwise a valid map; it reads the registry only |
| ComponentsDb.Grow | src/ecxx/v2/components_db.h:27-30 | resize(cid + 1) keeps every slot and pads with null slots up to cid + 1 |
| ComponentsDb.Ensure | src/ecxx/v2/components_db.h:24-39 | ensure<C>() leaves a valid map under C's id and returns it. The map is the existing one, or a new empty one when the slot was null. The table grows to at least cid + 1; every other type's slot is kept |
| ComponentsDb.Put | src/ecxx/v2/components_db.h:38 | writing through the reference ensure returns changes that type's map and no other |
| ComponentsDb.RemoveAll | src/ecxx/v2/components_db.h:59-65 | after remove_all_c(e), no map has e. A map that held e loses exactly e's index, with its data; a map without e is unchanged; no slot appears or disappears |
| ComponentsDb.EnsureIdempotent | src/ecxx/v2/components_db.h:32-38 | a second ensure of the same type returns the same map and changes nothing |
| ComponentsDb.EnsureKeepsMembership | src/ecxx/v2/components_db.h:24-39 | ensure never changes whether any type's map has any entity |
| ComponentsDb.RemoveAllMembership | src/ecxx/v2/components_db.h:59-65 | after remove_all_c(e) no type has e, and every entity with another index keeps its memberships |
| ComponentsDb.RemoveAllIdempotent | src/ecxx/v2/components_db.h:59-65 | remove_all_c twice is remove_all_c once |
| SortOrder.Insert | src/ecxx/impl/view.h:87-89 | one insertion step of the sort: the result is sorted by size and its multiset is the input's plus the new position |
| SortOrder.SortPrefix | src/ecxx/impl/view.h:87-89 | sorting the first n positions yields a size-ascending arrangement of exactly the positions 0 .. n-1 |
| SortOrder.SortBySize | src/ecxx/impl/view.h:87-89 | the table order is a permutation of the map positions, ascending by map size |
| SortOrder.Permute | src/ecxx/impl/view.h:85-89 | table_[k] is access_[perm[k]] |
| SortOrder.PermutationCovers | src/ecxx/impl/view.h:87-89 | every map position appears somewhere in the sorted table |
| ViewTables.CheckFrom | src/ecxx/impl/view.h:56-63 | the loop from table position i passes exactly when every map from i on has e |
| ViewTables.IsValid | src/ecxx/impl/view.h:56-63 | valid(e) holds exactly when every map after the driver has e |
| ViewTables.MemberInAll | src/ecxx/impl/view.h:56-63 | for an entity of the driver, valid(e) is membership in every map of the table |
| Scans.FwdSkip | src/ecxx/impl/view.h:48-54 | skips() stops at the first slot from it on that passes valid, or at the end, and does not change what the walk yields |
| Scans.BwdSkip | src/ecxx/v2/mutable_view.h:46-54 | the backward skips() stops at the first slot at or below it that is 0 or passes valid, and does not change what the walk yields |
| Scans.ForwardScan | src/ecxx/impl/view.h:32-54 | begin() to end() with ++, run as a loop, yields the forward walk of the driver's dense list |
| Scans.BackwardScan | src/ecxx/v2/mutable_view.h:32-54 | begin() at slot size() down to slot 0 with ++, run as a loop, yields the backward walk of the driver's dense list |
| Scans.FwdRestIsFilter | src/ecxx/impl/view.h:32-54 | the forward walk from slot it is the passing entries of dense[it..], cut at the first null handle (the end iterator is the null handle) |
| Scans.BwdRestIsReverseFilter | src/ecxx/v2/mutable_view.h:32-54 | the backward walk from slot it is the passing entries of slots 1 .. it in reverse, cut at the first null handle |
| Scans.YieldsWithoutNull | src/ecxx/impl/view.h:32-54 | with no null handle among the members, the forward walk is exactly the members that pass, in dense order and without repeats, and the backward walk is its reverse |
| Scans.FilterDistinct | src/ecxx/impl/view.h:32-54 | the walk over a list without duplicates yields no duplicates |
| Scans.EraseCurrent | src/ecxx/impl/entity_map.h:103-123 | erasing the driver's entity at slot it inside the callback removes it and moves no slot below it |
| Scans.CallbackStep | src/ecxx/v2/mutable_view.h:32-54 | one callback-then-++ round: the driver's slots up to the new position are untouched, so the rest of the walk is what it would have been without the erase |
| Scans.BackwardScanErasing | src/ecxx/v2/mutable_view.h:32-54 | a back-to-front walk whose callback erases the yielded entity yields the same sequence as the walk over the unchanged driver, so nothing is skipped or revisited, and every dropped entity is gone |
| Views.Sizes | src/ecxx/impl/view.h:87-89 | the sort keys are the maps' size() |
| Views.Table | src/ecxx/impl/view.h:85-89 | table_ has one entry per listed component |
| Views.EnsureAll | src/ecxx/impl/view.h:84-85 | the fold of ensure over the component list leaves every listed type with a valid map, in list order. It keeps every existing map and changes no membership |
| Views.Make | src/ecxx/impl/view.h:83-90 | construction ensures every listed map in declaration order (access_), changes no membership, and sorts table_ so that table_[0] is no larger than any listed map |
| Views.SmallestDrives | src/ecxx/impl/view.h:87-94 | the driver table_[0] is no larger than any listed map |
| Views.TableIsAccess | src/ecxx/impl/view.h:83-90 | an entity is in every map of table_ exactly when it is in every map of access_ |
| Views.Keep | src/ecxx/impl/view.h:56-63 | the view's filter is valid(e) over table_ |
| Views.Iterate | src/ecxx/impl/view.h:92-98 | a range-for over the view yields the forward walk of table_[0]'s dense list |
| Views.YieldIsIntersection | src/ecxx/impl/view.h:32-98 | with no null handle in any map, the view yields the driver's members that every listed map has, in driver order, each once |
| Views.DriverFacts | src/ecxx/impl/entity_map.h:37-51 | the driver's members exclude the null handle and have no duplicates |
| Views.YieldedInAll | src/ecxx/impl/view.h:56-63 | every yielded entity is in every listed map |
| Views.Each | src/ecxx/impl/view.h:105-111 | one call per yielded entity; argument k is component k's datum for it, read from access_[k] |
| Views.CallAll | src/ecxx/impl/view.h:105-111 | the argument lists of each, one per entity, in order |
| Views.Args | src/ecxx/impl/view.h:100-109 | the arguments of one call: component k's datum for e, from access_[k] |
| MutableViews.Iterate | src/ecxx/v2/mutable_view.h:92-98 | a range-for over the mutable view yields the backward walk of the driver's dense list |
| MutableViews.YieldIsReversedIntersection | src/ecxx/v2/mutable_view.h:32-98 | with no null handle in any map, the mutable view yields exactly the static view's entities, in reverse: the members of every listed map |
| MutableViews.Each | src/ecxx/v2/mutable_view.h:100-111 | one call per yielded entity, back to front; argument k is component k's datum, from access_[k] |
| MutableViews.EachErasing | src/ecxx/v2/mutable_view.h:32-54 | each with a callback that erases its entity from the driver yields the same entities as without the erase, and the erased ones are gone |
| RuntimeViews.Make | src/ecxx/impl/runtime_view.h:77-84 | construction keeps the given list as access_ and orders table_ ascending by size; on a non-empty list of valid maps the view is well formed |
| RuntimeViews.Each | src/ecxx/impl/runtime_view.h:31-99 | func(e) once per yielded entity: the driver's members that are in every listed map, in driver order, without repeats |
| Worlds.MemberIsLive | src/ecxx/v2/world.h:24-44 | under the world invariant, a component map has e only when e's slot is alive and non-null, and the map stores the pool's handle for it |
| Worlds.New | src/ecxx/v2/world.h:18 | a new world satisfies the invariant, has no live entity and no component map |
| Worlds.Assign | src/ecxx/v2/world.h:51-55 | for e without C: C's map is ensured and then gains exactly e with its datum (the given one, for a non-empty type). Other types' maps and other entities' memberships are kept, as is the invariant for a live e |
| Worlds.Has | src/ecxx/v2/world.h:57-60 | answers whether C's map has e. It may create C's empty map but changes no membership and keeps the invariant |
| Worlds.Get | src/ecxx/v2/world.h:62-74 | the datum C's map stores for e, with C's map existing and having e |
| Worlds.Remove | src/ecxx/v2/world.h:76-81 | C's map loses exactly e and its datum; other types' maps and the invariant are kept |
| Worlds.Destroy | src/ecxx/v2/world.h:41-44 | e leaves every map, other entities keep their memberships, the pool loses one live entity, e's slot is dead, valid(e) is false, and the invariant is kept |
| Worlds.IsValidAlive | src/ecxx/v2/world.h:121-124 | valid(e) with a liveness test: e is non-null and equals the handle its slot currently stores (is_alive and current() together, entity_pool.h:68-75) |
| Worlds.IsValid | src/ecxx/v2/world.h:121-124 | valid(e) as written: never true for null, and true for every handle the liveness test accepts (Worlds.ValidAcceptsUnissuedHandle shows the converse fails) |
| Worlds.LiveHandleIsValid | src/ecxx/v2/world.h:121-124 | every live handle passes valid |
| Worlds.ValidAcceptsUnissuedHandle | src/ecxx/v2/world.h:121-124 | after creating and destroying (1, 0), the handle (1, 1), which was never issued, passes valid although its slot is dead |
| Worlds.AssignAll | src/ecxx/v2/world.h:27 | the fold of assign over distinct listed types gives e every one of them and leaves unlisted types and other entities alone |
| Worlds.Create | src/ecxx/v2/world.h:24-29 | create<Cs...>() returns a handle whose slot was dead and is now live, present in every listed map and in no other; size grows by one, other entities keep their memberships, and the invariant is kept |
| Worlds.AllocateTracks | src/ecxx/v2/world.h:26 | an allocation that keeps every live slot keeps the maps in step with the pool |
| Worlds.FreshIsInNoMap | src/ecxx/v2/world.h:24-29 | a dead slot's entity is in no component map |
| Worlds.AssignEvery | src/ecxx/v2/world.h:34-38 | the loop over a handle range gives each handle every listed component and leaves other entities alone |
| Worlds.CreateMany | src/ecxx/v2/world.h:31-39 | create<Cs...>(begin, end): n handles, all freshly live with pairwise different slots, each present in every listed map, size grown by n, invariant kept |
| Worlds.FreshHandlesInWorld | src/ecxx/v2/world.h:33 | a bulk allocation's handles are live, had dead slots, are pairwise different and are in no map yet |
| Worlds.AssignThenGet | src/ecxx/v2/world.h:51-74 | get after assign reads back the assigned datum of a non-empty type |
| Worlds.AssignThenRemove | src/ecxx/v2/world.h:51-81 | remove after assign restores the type's stored handles and values and leaves every other type's map as it was |
| WorldViews.RegisteredHasNoNull | src/ecxx/v2/world.h:24-55 | under the world invariant no map has a handle of index 0 |
| WorldViews.WorldYield | src/ecxx/impl/view.h:32-98 | any view over a world's maps yields exactly the live handles that every listed map has |
| WorldViews.EnsureAllTracks | src/ecxx/v2/world.h:84-86 | ensuring the view's maps keeps the world invariant |
| WorldViews.StaticView | src/ecxx/v2/world.h:83-86 | view<Cs...>() keeps the invariant and every membership, and gives a well-formed view whose access_ are the listed types' maps |
| WorldViews.StaticViewYieldsHolders | src/ecxx/v2/world.h:83-86 | a static view yields exactly the live entities holding every listed component |
| WorldViews.RegisteredMaps | src/ecxx/v2/world.h:90-96 | the table runtime_view builds holds only maps of listed ids, and the map of every listed id that has one |
| WorldViews.RegisteredHas | src/ecxx/v2/world.h:90-96 | being in every map of that table is being in the map of every listed id that has a map |
| WorldViews.RuntimeView | src/ecxx/v2/world.h:88-98 | runtime_view(begin, end) is built over registered maps only, and is well formed when at least one id is registered |
| WorldViews.RuntimeEach | src/ecxx/v2/world.h:88-98 | as written, with at least one id registered, each yields without repeats the live entities in every registered listed map; unregistered ids impose nothing |
| WorldViews.RuntimeViewIgnoresUnregistered | src/ecxx/v2/world.h:91-95 | a runtime view over a registered t and an unregistered u yields an entity holding t, although it cannot hold u |
| WorldViews.UnregisteredWitness | src/ecxx/v2/world.h:24-29 | such a world exists: a fresh world after create<C0>() has type 0 registered and type 1 not |
| WorldViews.NoRegisteredIdEmptyTable | src/ecxx/impl/runtime_view.h:86-92 | with no listed id registered the table is empty, so begin() has no table_[0] to read |
| WorldViews.RuntimeEachChecked | src/ecxx/v2/world.h:88-98 | the corrected runtime view yields exactly the live entities holding every listed component, which is nothing when an id is unregistered or none is listed |
| BitVectors.Address | src/ecxx/bit_vector.h:113-115 | the byte index of a bit is the one whose eight bits contain it |
| BitVectors.Bytes | src/ecxx/bit_vector.h:40-43 | the storage holds size / 8 + 1 bytes |
| BitVectors.StorageCovers | src/ecxx/bit_vector.h:40-43 | every index below the size addresses a byte inside that storage |
| BitVectors.New | src/ecxx/bit_vector.h:40-43 | a new vector has the requested size, every bit clear and every byte zero |
| BitVectors.GetTestsByte | src/ecxx/bit_vector.h:59-62 | reading a bit is testing its byte against the mask 1 << (index & 7) |
| BitVectors.Get | src/ecxx/bit_vector.h:59-62 | no contract of its own; BitVectors.GetTestsByte states that it tests the bit's byte against its mask |
| BitVectors.Size | src/ecxx/bit_vector.h:96-98 | no contract of its own; BitVectors.New states that a new vector has the requested size |
| BitVectors.Enable | src/ecxx/bit_vector.h:49-52 | the bit becomes set and every other bit keeps its value |
| BitVectors.EnableWritesByte | src/ecxx/bit_vector.h:49-52 | enabling ORs the mask into exactly one byte and leaves the other bytes alone |
| BitVectors.Disable | src/ecxx/bit_vector.h:54-57 | the bit becomes clear and every other bit keeps its value |
| BitVectors.DisableWritesByte | src/ecxx/bit_vector.h:54-57 | disabling ANDs the inverted mask into exactly one byte and leaves the other bytes alone |
| BitVectors.Set | src/ecxx/bit_vector.h:64-67 | afterwards the bit reads the given value and no other bit changes |
| BitVectors.AssignThroughReference | src/ecxx/bit_vector.h:20-23 | assigning through the proxy reference rewrites one byte and agrees with set |
| BitVectors.IsFalse | src/ecxx/bit_vector.h:79-82 | is_false is the negation of get |
| BitVectors.IsFalseTestsByte | src/ecxx/bit_vector.h:79-82 | is_false tests that the masked byte is zero |
| BitVectors.EnableIfNot | src/ecxx/bit_vector.h:84-94 | returns true exactly when the bit was clear; afterwards it is set and no other bit changes |
| BitVectors.SetThenGet | src/ecxx/bit_vector.h:64-72 | a bit reads back the value last set |
| BitVectors.EnableIfNotTwice | src/ecxx/bit_vector.h:84-94 | a second enable_if_not on the same bit reports false and changes nothing |
| BitVectors.EnableAddsOne | src/ecxx/bit_vector.h:49-52 | enabling a clear bit adds exactly that index to the set bits |
| BitVectors.DisableRemovesOne | src/ecxx/bit_vector.h:54-57 | disabling a set bit removes exactly that index from the set bits |
| ComponentDbV1.NewManager | src/ecxx/v1/component_managers.h:7-10 | a manager built for a capacity has a mask of that size with no bit set and default data |
| ComponentDbV1.ManagerHas | src/ecxx/v1/component_managers.h:20-22 | a manager has an entity exactly when its mask bit is set |
| ComponentDbV1.Initialize | src/ecxx/v1/component_managers.h:46-49 | the entity's slot holds the new value, the mask and every other slot are unchanged |
| ComponentDbV1.Reset | src/ecxx/v1/component_managers.h:51 | reset leaves the mask and every slot as they were |
| ComponentDbV1.InitializeThenView | src/ecxx/v1/component_managers.h:38-49 | view returns what initialize stored |
| ComponentDbV1.View | src/ecxx/v1/component_managers.h:38-44 | no contract of its own; ComponentDbV1.InitializeThenView states that it returns what initialize stored |
| ComponentDbV1.Get | src/ecxx/v1/entity_impl.h:28-38 | no contract of its own; ComponentDbV1.EnableThenHas states that it returns the value enable stored |
| ComponentDbV1.Empty | src/ecxx/v1/component_db.h:13 | a new database has no type registered |
| ComponentDbV1.RegisterType | src/ecxx/v1/component_db.h:21-35 | the table grows to hold the new id when needed, the type gets the given manager, and no other registration changes |
| ComponentDbV1.RegisterKeepsValid | src/ecxx/v1/component_db.h:21-35 | registering a manager sized for the world keeps every manager sized for the world |
| ComponentDbV1.Has | src/ecxx/v1/component_db.h:69-72 | has reads the registered type's mask bit |
| ComponentDbV1.Enable | src/ecxx/v1/component_db.h:74-80 | the entity gets the component with the given value; other entities and other types are unchanged |
| ComponentDbV1.Disable | src/ecxx/v1/component_db.h:82-86 | the entity loses the component and keeps its stale data; other entities and other types are unchanged |
| ComponentDbV1.DisableAll | src/ecxx/v1/component_db.h:88-97 | afterwards no registered type holds the entity, and every other entity is unchanged in every type |
| ComponentDbV1.EnableThenHas | src/ecxx/v1/component_db.h:74-86 | enable then has is true with the stored value; a following disable makes has false |
| FamilyAspects.AllHave | src/ecxx/v1/family_aspect_data.h:22-26 | true exactly when every listed mask holds the entity |
| FamilyAspects.NoneHas | src/ecxx/v1/family_aspect_data.h:27-31 | true exactly when no listed mask holds the entity |
| FamilyAspects.NewData | src/ecxx/v1/family_aspect_data.h:12-15 | a new aspect has no required and no excluded type |
| FamilyAspects.NewDataAcceptsAll | src/ecxx/v1/family_aspect_data.h:12-33 | a new aspect accepts every entity |
| FamilyAspects.Check | src/ecxx/v1/family_aspect_data.h:17-33 | check holds exactly when the entity has every required component and none of the excluded ones |
| FamilyAspects.Require | src/ecxx/v1/family_aspect_data.h:35-40 | require adds the type to the required list and leaves the excluded list alone |
| FamilyAspects.Exclude | src/ecxx/v1/family_aspect_data.h:42-47 | exclude adds the type to the excluded list and leaves the required list alone |
| FamilyAspects.RequireThenCheck | src/ecxx/v1/family_aspect_data.h:21-40 | after require, check is the old check and the entity has the new component |
| FamilyAspects.ExcludeThenCheck | src/ecxx/v1/family_aspect_data.h:21-47 | after exclude, check is the old check and the entity lacks the new component |
| FamilyAspects.NewFamilyAspect | src/ecxx/v1/family_aspect_data.h:58-66 | a static aspect lists at least one type, each registered, in argument order |
| FamilyAspects.Test | src/ecxx/v1/family_aspect_data.h:68-79 | test holds exactly when the entity has every listed component |
| FamilyAspects.TestIsRequireAll | src/ecxx/v1/family_aspect_data.h:21-79 | a static aspect tests the same as a dynamic aspect requiring the same types |
| ViewFilters.Accepts | src/ecxx/v1/family_aspect_data.h:17-19 | an aspect accepts by check (dynamic) or by test (static) |
| ViewFilters.Pass | src/ecxx/v1/view_filters.h:16-18 | a mask filter passes the entities whose bit is set; a component filter passes the active entities its aspect accepts |
| ViewFilters.InactiveSkipsAspect | src/ecxx/v1/view_filters.h:33-35 | the && short-circuits: an inactive entity fails without reading the aspect |
| ViewFilters.ComponentFilterMeaning | src/ecxx/v1/view_filters.h:51-53 | a component filter over a dynamic aspect passes exactly the active entities holding every required and no excluded component |
| ActiveEntities.SkipEls | src/ecxx/v1/active_entities.h:40-44 | skips to the first passing id at or after the start, or to end when there is none |
| ActiveEntities.Begin | src/ecxx/v1/active_entities.h:53-55 | begin is the first passing id from 1, or end |
| ActiveEntities.Next | src/ecxx/v1/active_entities.h:19-26 | ++ moves to the next passing id after the current one, or to end |
| ActiveEntities.Iterate | src/ecxx/v1/active_entities.h:12-59 | the loop from begin to end yields, in increasing order, exactly the ids in [1, end) that pass the filter |
| ManagedFamilies.SetBitsMeaning | src/ecxx/v1/managed_family.h:18-28 | the reference list of set bits in a range is increasing, stays in the range, and holds exactly the set bits there |
| ManagedFamilies.ByteRange | src/ecxx/v1/managed_family.h:12-16 | the byte range starts at or before begin_index and, with end_index 0 meaning the whole vector, covers every bit below the end without leaving the storage |
| ManagedFamilies.FillEnabledBits | src/ecxx/v1/managed_family.h:10-30 | the byte-by-byte, bit-by-bit scan writes exactly the set bits of the covered bytes, in increasing order |
| ManagedFamilies.WholeScan | src/ecxx/v1/managed_family.h:46-48 | scanning the whole vector lists exactly its set bits, increasing, one per set bit |
| ManagedFamilies.New | src/ecxx/v1/managed_family.h:34-38 | a new family has an empty list, nothing changed and no member |
| ManagedFamilies.AddEntity | src/ecxx/v1/managed_family.h:64-76 | a non-member the aspect accepts becomes a member, counting one more and marking the family changed; otherwise nothing changes |
| ManagedFamilies.RemoveEntity | src/ecxx/v1/managed_family.h:78-89 | a member stops being one, counting one less and marking the family changed; otherwise nothing changes |
| ManagedFamilies.Change | src/ecxx/v1/managed_family.h:52-62 | afterwards membership equals the aspect's verdict, and the family is marked changed exactly when membership moved |
| ManagedFamilies.Invalidate | src/ecxx/v1/managed_family.h:46-50 | the list becomes the members in increasing order, as many as the count, and the changed flag clears |
| ManagedFamilies.Resize | src/ecxx/v1/managed_family.h:47 | `list_.resize(n)`: the list gets length n, keeps its first entries up to n and is padded with zeros |
| WorldV1.New | src/ecxx/v1/world.h:18-35 | the pool counts down from capacity - 1 to 1, every version is 1, every mask is clear, nothing is queued and no type is registered |
| WorldV1.MakeComponentType | src/ecxx/v1/world.h:64-69 | registers a new type whose manager holds no entity, changing nothing else |
| WorldV1.MarkChanged | src/ecxx/v1/world.h:188-193 | sets the changed bit and queues the entity only when the bit was clear |
| WorldV1.Allocate | src/ecxx/v1/world.h:41-53 | pops the pool's last id, counts it used, makes it active and alive and marks it changed |
| WorldV1.Sub32 | src/ecxx/v1/world_impl.h:118-119 | the unsigned subtraction wraps modulo 2^32 and is exact when it does not underflow |
| WorldV1.Bump | src/ecxx/v1/world.h:56 | the 16-bit version increment wraps and always changes the version |
| WorldV1.Available | src/ecxx/v1/world.h:103-114 | available() is end - used whenever used <= end and both fit 32 bits |
| WorldV1.IsValid | src/ecxx/v1/world.h:87-93 | no contract of its own; WorldV1Proofs.NewAllocatesInOrder and WorldV1Proofs.StaleAfterDeallocate state which handles it accepts |
| WorldV1.Deallocate | src/ecxx/v1/world.h:55-62 | bumps the version, pushes the id on the pool, sets the removed bit and queues the id only when it was not already removed |
| WorldV1.DeallocateDeferred | src/ecxx/v1/world.h:55-62 | the corrected deallocate: the same as deallocate except that the pool is left for destroy_entities to refill |
| WorldV1.DestroyComponents | src/ecxx/v1/world.h:169-172 | every registered type drops the entity, no other entity changes, and the entity is marked changed |
| WorldV1.RemoveFromAll | src/ecxx/v1/world_impl.h:105-107 | no family holds the entity afterwards and every other entity keeps its memberships |
| WorldV1.ChangeAll | src/ecxx/v1/world_impl.h:80-82 | each family's membership of the entity becomes its aspect's verdict, other entities unchanged |
| WorldV1.DestroyOneEffect | src/ecxx/v1/world_impl.h:102-113 | destroying one queued entity clears its masks, families and components and touches no other entity |
| WorldV1.DestroyOne | src/ecxx/v1/world_impl.h:102-113 | destroying one entity pushes it on the pool and changes only the pool, masks, families and components; WorldV1.DestroyOneEffect states the per-entity effect |
| WorldV1.DestroyEntities | src/ecxx/v1/world_impl.h:96-125 | the removed queue empties onto the pool and used drops by its length, with 32-bit wrap-around |
| WorldV1.ChangeOneEffect | src/ecxx/v1/world_impl.h:75-90 | an alive active entity's memberships follow the aspects, an alive inactive one leaves every family, a dead one changes no family; its changed bit clears |
| WorldV1.ChangeOne | src/ecxx/v1/world_impl.h:75-90 | updating one changed entity touches only the families and the changed bits; WorldV1.ChangeOneEffect states how memberships move |
| WorldV1.ChangeEntities | src/ecxx/v1/world_impl.h:68-94 | the changed queue empties and only families and changed bits move |
| WorldV1.UpdateFamilies | src/ecxx/v1/world_impl.h:127-133 | every changed family rebuilds its list as its sorted members; unchanged families stay as they were |
| WorldV1.Flush | src/ecxx/v1/world_impl.h:140-142 | destroy then change: both queues empty and the removed entities return to the pool |
| WorldV1.Invalidate | src/ecxx/v1/world_impl.h:135-147 | with both queues empty nothing changes; otherwise the world is flushed and every family is up to date |
| WorldV1.ActiveEntitiesView | src/ecxx/v1/world_impl.h:8-10 | yields, in increasing order, exactly the active ids from 1 |
| WorldV1.AspectEntities | src/ecxx/v1/world_impl.h:17-20 | yields, in increasing order, exactly the active ids the aspect accepts |
| WorldV1.View | src/ecxx/v1/world_impl.h:22-25 | yields, in increasing order, exactly the active ids holding every listed component |
| WorldV1Proofs.NewAllocatesInOrder | src/ecxx/v1/world.h:27-53 | a new world hands out ids 1 then 2, each valid at version 1 |
| WorldV1Proofs.StaleAfterDeallocate | src/ecxx/v1/world.h:87-93 | after deallocate the old version fails is_valid and the bumped one passes |
| WorldV1Proofs.AvailableCounts | src/ecxx/v1/world.h:103-114 | available is end - used; allocate takes one, deallocate alone gives none back |
| WorldV1Proofs.MarkChangedOnce | src/ecxx/v1/world.h:188-193 | marking twice is marking once; the queue grows by at most one |
| WorldV1Proofs.DestroyListMasks | src/ecxx/v1/world_impl.h:99-116 | the destroyed entities lose their active, alive and removed bits and no other entity's bits move |
| WorldV1Proofs.DestroyListFamilies | src/ecxx/v1/world_impl.h:105-107 | the destroyed entities leave every family and no other membership moves |
| WorldV1Proofs.DestroyListComponents | src/ecxx/v1/world_impl.h:109 | the destroyed entities lose every component and no other entity's components move |
| WorldV1Proofs.ChangeListEffect | src/ecxx/v1/world_impl.h:72-92 | each queued entity ends with its changed bit clear and its memberships settled; every other entity is untouched |
| WorldV1Proofs.ChangeEntitiesEffect | src/ecxx/v1/world_impl.h:68-94 | change_entities settles exactly the queued entities and leaves the masks and components alone |
| WorldV1Proofs.DestroyedReentersNoFamily | src/ecxx/v1/world_impl.h:135-143 | after invalidate an entity destroyed in the frame is neither alive nor active nor in any family |
| WorldV1Proofs.ReleaseAsWritten | src/ecxx/v1/world_impl.h:113 | deallocate then invalidate leaves the released id on the pool twice |
| WorldV1Proofs.DoubleAllocation | src/ecxx/v1/world.h:57 | after one release the next two allocations both return id 1 while it is alive |
| WorldV1Proofs.ReleaseDeferred | src/ecxx/v1/world_impl.h:113 | with the corrected deallocate the released id is on the pool once |
| WorldV1Proofs.NoDoubleAllocation | src/ecxx/v1/world_impl.h:113 | with the corrected deallocate the same run allocates 1, then 1 again, then 2 |
| WorldV1Proofs.NewInv | src/ecxx/v1/world.h:18-35 | a new world satisfies the pool/alive bookkeeping invariant |
| WorldV1Proofs.MakeComponentTypeInv | src/ecxx/v1/world.h:64-69 | registering a type keeps the invariant |
| WorldV1Proofs.MarkChangedInv | src/ecxx/v1/world.h:188-193 | marking an entity changed keeps the invariant |
| WorldV1Proofs.DestroyComponentsInv | src/ecxx/v1/world.h:169-172 | destroying components keeps the invariant |
| WorldV1Proofs.AllocateInv | src/ecxx/v1/world.h:41-53 | under the invariant allocate returns a non-null id that was not alive, and keeps the invariant |
| WorldV1Proofs.DeallocateDeferredInv | src/ecxx/v1/world.h:55-62 | the corrected deallocate of an alive entity keeps the invariant |
| WorldV1Proofs.QueueFits | src/ecxx/v1/world_impl.h:113-119 | pool and queue together hold no id twice and the queue is shorter than used, so used never wraps |
| WorldV1Proofs.DestroyEntitiesInv | src/ecxx/v1/world_impl.h:96-125 | destroy_entities keeps the invariant |
| WorldV1Proofs.ChangeEntitiesInv | src/ecxx/v1/world_impl.h:68-94 | change_entities keeps the invariant |
| WorldV1Proofs.FlushInv | src/ecxx/v1/world_impl.h:135-147 | invalidate's flush keeps the invariant |
| EcsNodes.New | src/ecxx/v1/ecs_node.h:12-37 | a new node store of the world's capacity is a well-formed forest in which no node has children |
| EcsNodes.EnableNodeWf | src/ecxx/v1/ecs_node.h:72-74 | giving an entity the node component with fresh links keeps the forest well-formed and every child list unchanged |
| EcsNodes.EnableNode | src/ecxx/v1/ecs_node.h:72-74 | world_enable_node sets the entity's bit and gives it null parent, child and sibling links |
| EcsNodes.RemoveFromParentAt | src/ecxx/v1/ecs_node.h:208-233 | unlinking rewires exactly the neighbours' links and the parent's first or last child, and clears the entity's own links |
| EcsNodes.RemoveFromParentWf | src/ecxx/v1/ecs_node.h:208-233 | the entity leaves its parent's child list, the rest of the forest keeps its shape, and a node without parent or component is left alone |
| EcsNodes.RemoveFromParent | src/ecxx/v1/ecs_node.h:208-233 | remove_from_parent keeps every bit, does nothing without the component or a parent, and leaves an entity with the component parentless; EcsNodes.RemoveFromParentWf states the list effect |
| EcsNodes.TakeWf | src/ecxx/v1/ecs_node.h:56-59 | enabling a missing node then unlinking it leaves it detached with no siblings, other parents unchanged |
| EcsNodes.Take | src/ecxx/v1/ecs_node.h:56-59 | the steps every insertion starts with give the child the component and leave it without a parent |
| EcsNodes.LinkAfterAt | src/ecxx/v1/ecs_node.h:60-69 | insert_after's relinking writes exactly the links of the entity, the new sibling and the old next sibling, or the parent's last child |
| EcsNodes.LinkBeforeAt | src/ecxx/v1/ecs_node.h:93-102 | insert_before's relinking writes exactly the links of the entity, the new sibling and the old previous sibling, or the parent's first child |
| EcsNodes.LinkLastSplices | src/ecxx/v1/ecs_node.h:122-131 | append's relinking puts the child at the end of the parent's list |
| EcsNodes.LinkFirstSplices | src/ecxx/v1/ecs_node.h:151-160 | prepend's relinking puts the child at the front of the parent's list |
| EcsNodes.InsertAfter | src/ecxx/v1/ecs_node.h:53-55 | insert_after refuses exactly when the entity has no parent |
| EcsNodes.InsertBefore | src/ecxx/v1/ecs_node.h:86-88 | insert_before refuses exactly when the entity has no parent |
| EcsNodes.InsertAfterWf | src/ecxx/v1/ecs_node.h:53-70 | the child leaves its old list and lands right after the entity in the entity's parent's list; the forest stays well-formed |
| EcsNodes.InsertBeforeWf | src/ecxx/v1/ecs_node.h:86-103 | the child leaves its old list and lands right before the entity in the entity's parent's list; the forest stays well-formed |
| EcsNodes.AppendWf | src/ecxx/v1/ecs_node.h:110-132 | the child leaves its old list and becomes the entity's last child; the lists stay well-formed |
| EcsNodes.PrependWf | src/ecxx/v1/ecs_node.h:139-161 | the child leaves its old list and becomes the entity's first child; the lists stay well-formed |
| EcsNodes.Append | src/ecxx/v1/ecs_node.h:110-132 | append gives both nodes the component, makes the entity the child's parent and the child its last child; EcsNodes.AppendWf and EcsNodes.AppendParents state the list effect |
| EcsNodes.Prepend | src/ecxx/v1/ecs_node.h:139-161 | prepend gives both nodes the component, makes the entity the child's parent and the child its first child; EcsNodes.PrependWf states the list effect |
| EcsNodes.AppendParents | src/ecxx/v1/ecs_node.h:110-132 | append changes only the child's parent and gives both nodes the component |
| EcsNodes.ChildrenCount | src/ecxx/v1/ecs_node.h:170-180 | counts the entity's child list, or 0 without the component |
| EcsNodes.ChildFirst | src/ecxx/v1/ecs_node.h:279-281 | child_first is null without the component; EcsNodes.ChildAccessors shows it is the head of the child list |
| EcsNodes.ChildLast | src/ecxx/v1/ecs_node.h:288-290 | child_last is null without the component; EcsNodes.ChildAccessors shows it is the tail of the child list |
| EcsNodes.SiblingNext | src/ecxx/v1/ecs_node.h:297-299 | sibling_next is null without the component; EcsNodes.SiblingAccessors shows it is the next entry of the entity's list |
| EcsNodes.SiblingPrev | src/ecxx/v1/ecs_node.h:306-308 | sibling_prev is null without the component; EcsNodes.SiblingAccessors shows it is the previous entry of the entity's list |
| EcsNodes.Parent | src/ecxx/v1/ecs_node.h:315-317 | parent is null without the component; EcsNodes.ParentAccessor shows it names the one list the entity is in |
| EcsNodes.HasChildren | src/ecxx/v1/ecs_node.h:323-325 | has_children is false without the component; EcsNodes.ChildAccessors shows it is the non-emptiness of the child list |
| EcsNodes.RemoveChildren | src/ecxx/v1/ecs_node.h:239-253 | every child is detached with no siblings, the entity's list empties, and the forest stays well-formed |
| EcsNodes.ChildAccessors | src/ecxx/v1/ecs_node.h:279-290 | child_first and child_last are the ends of the child list and has_children is its non-emptiness |
| EcsNodes.ParentAccessor | src/ecxx/v1/ecs_node.h:315-317 | parent names the one list the entity is in |
| EcsNodes.SiblingAccessors | src/ecxx/v1/ecs_node.h:297-308 | the siblings are the entity's neighbours in its parent's list, null when it has no parent |
| EcsNodes.WalkSound | src/ecxx/v1/ecs_node.h:263-268 | when the parent walk answers, the answer is whether the ancestor is above the entity |
| EcsNodes.WalkFinishes | src/ecxx/v1/ecs_node.h:263-268 | in an acyclic forest the walk answers within the entity's depth |
| EcsNodes.Walk | src/ecxx/v1/ecs_node.h:263-268 | the walk from null answers false, and it answers true only from a non-null start after at least one step; EcsNodes.WalkSound states what the answer means |
| EcsNodes.IsDescendant | src/ecxx/v1/ecs_node.h:258-271 | is_descendant answers false unless both nodes hold the component, and answers true only from a non-null entity; EcsNodes.IsDescendantMeaning states what the answer means |
| EcsNodes.IsDescendantMeaning | src/ecxx/v1/ecs_node.h:258-271 | is_descendant always answers in an acyclic forest, and answers whether the ancestor lies on the parent chain |
| EcsNodes.CycleNeverAnswers | src/ecxx/v1/ecs_node.h:263-268 | with two nodes each other's parent the walk never stops and no depth ranking exists |
| EcsNodes.AppendMakesCycle | src/ecxx/v1/ecs_node.h:110-132 | appending an entity to its own descendant is accepted and makes two nodes each other's parent |
| EcsNodes.AppendChecked | src/ecxx/v1/ecs_node.h:110-132 | the checked append, when it accepts, does exactly what append does |
| EcsNodes.AppendCheckedKeepsTree | src/ecxx/v1/ecs_node.h:110-132 | the checked append refuses a child that is the entity or above it, accepts otherwise, and keeps the forest well-formed and acyclic |
| WorldsMap.FirstFree | src/ecxx/v1/worlds_map.cpp:10 | the first null slot, with every slot before it in use, or the table's length |
| WorldsMap.Add | src/ecxx/v1/worlds_map.cpp:8-19 | add grows the table by one exactly when no slot is null, and the 8-bit id it returns always names a slot in use (not necessarily w's) |
| WorldsMap.AddFillsLowestFree | src/ecxx/v1/worlds_map.cpp:8-19 | add takes the lowest null slot or appends one. Appending adds w as the last slot; reusing writes slot i mod 256, the slot the 8-bit id names, and no other. The id is the slot cut to 8 bits, and below 256 get finds w under it |
| WorldsMap.Get | src/ecxx/v1/worlds_map.cpp:21-26 | get takes an 8-bit id and answers exactly for an existing non-null slot |
| WorldsMap.Remove | src/ecxx/v1/worlds_map.cpp:28-33 | remove, given the world's 8-bit id, succeeds exactly when that slot holds the world |
| WorldsMap.RemoveFreesSlot | src/ecxx/v1/worlds_map.cpp:28-33 | remove nulls exactly that slot |
| WorldsMap.RemoveThenAddReuses | src/ecxx/v1/worlds_map.cpp:8-33 | after removing the lowest used slot of a full prefix, the next add reuses its id |
| WorldsMap.NoHoleAboveKept | src/ecxx/v1/worlds_map.cpp:8-33 | add and remove keep every slot from 256 on in use, so in such a table add's reuse branch finds a slot below 256 and writes that very slot |
| WorldsMap.BuiltTablesHaveNoHoleAbove | src/ecxx/v1/worlds_map.cpp:8-33 | every table built from empty by adds and removes has every slot from 256 on in use |
| WorldsMap.AddWrapsAround | src/ecxx/v1/worlds_map.cpp:9-16 | with 256 worlds the 257th gets id 0, and get(0) finds the first world instead |
| WorldsMap.AddChecked | src/ecxx/v1/worlds_map.cpp:8-19 | the checked add, when it accepts, does what add does |
| WorldsMap.AddCheckedRoundTrip | src/ecxx/v1/worlds_map.cpp:8-19 | the checked add refuses exactly when all 256 ids are taken, and otherwise get finds the world under its id |
| LegacyWorld.New | src/ecxx/ecxx.h:203-217 | the pool holds every id from 1 to capacity - 1 once, no id is active, every version is 1 and capacity - 1 ids are available |
| LegacyWorld.CountdownFree | src/ecxx/ecxx.h:209-211 | the constructor's pool lists each of 1 .. capacity - 1 exactly once and nothing else |
| LegacyWorld.Version | src/ecxx/ecxx.h:259-261 | a version always fits the 16-bit version tag |
| LegacyWorld.IsValid | src/ecxx/ecxx.h:263-269 | is_valid accepts only a version that fits the 16-bit tag; LegacyWorld.Ref and LegacyWorld.DestroyInvalidates state which handles it accepts |
| LegacyWorld.Available | src/ecxx/ecxx.h:279-290 | no contract of its own; LegacyWorld.AvailableCountsFree states that it equals the number of free ids |
| LegacyWorld.Ref | src/ecxx/ecxx.h:255-257 | ref builds a handle for the id that is valid at the moment it is made |
| LegacyWorld.Allocate | src/ecxx/ecxx.h:223-232 | allocate fails exactly when no id is available (the source asserts), and otherwise returns an id below end |
| LegacyWorld.Bump | src/ecxx/ecxx.h:235 | the 16-bit version increment wraps and always changes the version |
| LegacyWorld.Deallocate | src/ecxx/ecxx.h:234-238 | deallocate keeps the world well-formed |
| LegacyWorld.Create | src/ecxx/ecxx.h:247-249 | create returns a handle whose id is inside the world |
| LegacyWorld.Destroy | src/ecxx/ecxx.h:251-253 | destroy keeps the world well-formed |
| LegacyWorld.AllocateKeepsAccounted | src/ecxx/ecxx.h:223-232 | allocate pops a free non-null id, makes it live, uses one more, and touches no other id or version |
| LegacyWorld.DeallocateBumpsVersion | src/ecxx/ecxx.h:234-238 | deallocate makes the id not live, pushes it on the pool and bumps its version, leaving every other id alone |
| LegacyWorld.DestroyInvalidates | src/ecxx/ecxx.h:251-269 | after destroy the old handle is invalid and every other id's validity is unchanged |
| LegacyWorld.CreateIsValid | src/ecxx/ecxx.h:247-249 | with an id available create succeeds and returns a live, valid handle for an id that was free |
| LegacyWorld.DeallocateThenAllocate | src/ecxx/ecxx.h:223-238 | the id deallocated last is the next one allocated, and it is live again |
| LegacyWorld.AvailableNeverGrows | src/ecxx/ecxx.h:279-290 | allocate lowers available by one, but deallocate never raises it back |
| LegacyWorld.AllocateTimes | src/ecxx/ecxx.h:223-232 | repeated allocation keeps the world well-formed and its end fixed |
| LegacyWorld.NewAllocatesInOrder | src/ecxx/ecxx.h:209-232 | a new world hands out 1, 2, 3, ... in order |
| LegacyWorld.RecycledIdStarves | src/ecxx/ecxx.h:234-238 | in a world of capacity 2, allocating then deallocating id 1 leaves it on the pool and not live, yet allocate refuses |
| LegacyWorld.Release | src/ecxx/ecxx.h:234-238 | the corrected deallocate keeps the world well-formed |
| LegacyWorld.LiveIdBoundsPool | src/ecxx/ecxx.h:223-238 | while some non-null id is live the pool holds at most end - 2 ids |
| LegacyWorld.ReleaseKeepsAccounted | src/ecxx/ecxx.h:234-238 | the corrected deallocate accepts exactly a live non-null id, frees it for the next allocate, makes one more id available and invalidates the old handle |
| LegacyWorld.AvailableCountsFree | src/ecxx/ecxx.h:279-290 | available equals the pool size, and the pool is exactly the non-null ids that are not live |
| LegacyWorld.ActiveFilter | src/ecxx/ecxx.h:419 | the iterator's filter passes exactly the live ids |
| LegacyWorld.ActiveIdsAsWritten | src/ecxx/ecxx.h:418-446 | the view as written yields id 1 whether or not it is live, then exactly the live ids above it, in increasing order |
| LegacyWorld.FreshViewYieldsInactiveId | src/ecxx/ecxx.h:440-442 | in a new world of capacity 2 id 1 is not live, yet every result the view as written can give is exactly [1] |
| LegacyWorld.ActiveIds | src/ecxx/ecxx.h:409-446 | the corrected view yields, in increasing order, exactly the live ids |

## Left out

- EntityPool.Allocate: requires fewer than 2^20 slots when no slot is free; past that the source packs an index that spills into the version bits (src/ecxx/v2/entity_pool.h:31); the source neither checks nor reports it, so the model makes it the caller's obligation.
- EntityPool.AllocateMany: requires the slots to stay below 2^20, for the same reason as EntityPool.Allocate.
- Worlds.Create: requires fewer than 2^20 slots when no slot is free, for the same reason as EntityPool.Allocate.
- Worlds.CreateMany: requires the slots to stay below 2^20, for the same reason as EntityPool.Allocate.
- Views.Each: the source fills the callback's arguments with `i++` inside a pack expansion, whose evaluation order C++ leaves unspecified (src/ecxx/impl/view.h:109). The model pairs argument k with `access_[k]`, the pairing the callback's parameter types expect (test/view_test.cpp:11).
- MutableViews.Each: same unspecified argument order (src/ecxx/v2/mutable_view.h:109), modelled the same way.
- Views.Each, MutableViews.Each and RuntimeViews.Each: these require that no map holds the null handle. The iterators stop at a null entry, and a world never stores one (WorldViews.RegisteredHasNoNull).
- EntityPool.Deallocate: requires a live, non-null handle. The source does not check this; freeing a dead slot would corrupt its free list.
- Component type ids and the `sparse_vector` table are not part of this model. Type ids are given naturals, and the sparse table is a `map<nat, nat>`.
- One data type `D` per map or database stands in for the type-erased storage (`void*`, `static_cast`, virtual destructors).
- `new`/`delete`, the `cleaners_` list and the destructors are left out; nothing is freed in a value model.
- `impl/components_db.h` and `impl/entity_pool.h` are not part of this model; they mirror the v2 files modelled here.
- `bit_vector` has no `is_true`, which `family_aspect_data::check` and the view filters call (src/ecxx/v1/family_aspect_data.h:28, src/ecxx/v1/view_filters.h:16-53). It is modelled as `get`.
- `new uint8_t[...]` leaves a `bit_vector`'s bytes uninitialised (src/ecxx/bit_vector.h:41). The model starts from zeroed bytes, the state every use of the type relies on.
- ManagedFamilies.ByteRange: the float `ceil(end_index / 8.0f)` (src/ecxx/v1/managed_family.h:16) is integer ceiling division. The two agree for every 32-bit index small enough for a float to hold exactly.
- ManagedFamilies.FillEnabledBits: the caller must size `dst` for every set bit, as the source assumes; an undersized `dst` is out-of-bounds writing.
- WorldV1.Allocate: requires a non-empty pool as well as `used_ < end_`. The v1 world as written can empty its pool while `used_ < end_` because of the double push; that run is shown by WorldV1Proofs.DoubleAllocation.
- WorldV1.ChangeEntities and WorldV1.DestroyEntities: the source's nested `while` loops re-read the list length so that entries appended during the pass are handled. Nothing appends during either pass, so each is modelled as one pass over the list.
- The `families_` list of the v1 world is never filled by any code the repository shows. The model carries it as data, and the world functions operate on whatever families it holds.
- `commit` (src/ecxx/v1/world.h:177-179) is `mark_entity_as_changed` and is modelled as WorldV1.MarkChanged.
- Each world's id from `worlds_map` is not kept inside `WorldV1.World` or `LegacyWorld.World`. The registry is modelled on its own in `WorldsMap`.
- `ECXX_DEBUG` guards and snapshots (src/ecxx/v1/world_impl.h:28-66, src/ecxx/v1/managed_family.h:97-124) are assertions only and are left out.
- EcsNodes.IsDescendant: the parent walk has a fuel bound. `None` means the walk has not finished within the fuel, which in a cycle is forever (EcsNodes.CycleNeverAnswers).
- EcsNodes.AppendChecked: refuses an ancestor using the same fuel-bounded walk, with the capacity as fuel. It is proved to accept every legal append when the entity's depth rank is below the capacity. That every acyclic forest has such a ranking is not proved.
- `destroy` and `destroy_children` of `ecs_node_storage` (src/ecxx/v1/ecs_node.h:42-45, 187-202) call back into the world's `deallocate` and its component database. They are not part of this model.
- EcsNodes.InsertAfterWf, EcsNodes.InsertBeforeWf, EcsNodes.AppendWf and EcsNodes.PrependWf: these require non-null entities and `child != entity`. The source does not exclude self-insertion, which corrupts the sibling links.
- EcsNodes.InsertAfter and EcsNodes.InsertBefore: the `par != null_entity` assertion is modelled as a `None` result.
- EcsNodes.ChildrenCount and EcsNodes.RemoveChildren: require a well-formed forest. Without one the source's loop need not end.
- EcsNodes.EnableNode: `world_enable_node` goes through the component database. It is modelled as setting the node mask bit and initialising the links.
- LegacyWorld.New: the `capacity > 0` assertion is a precondition. Capacity is below 2^16 because it is a 16-bit `entity_id_t`.
- LegacyWorld.Deallocate: requires `id < end`, which the source indexes without checking.
- LegacyWorld.Release: the corrected deallocate also refuses an id that is not live, which the source cannot detect.
- LegacyWorld: the `component_db` of `ecxx.h` (src/ecxx/ecxx.h:48-136) is the v1 database without `disable_all` and `manager<Tag>()` (src/ecxx/v1/component_db.h:48-58), so it is modelled by `ComponentDbV1`.
- Versions wrap at 2^16 in the legacy worlds and at 2^12 in the v2 pool. A handle that is stale by exactly that many deallocations reads as valid again; the model keeps the wrap-around, and no lemma claims otherwise.
- Entity wrappers (src/ecxx/v2/entity_wrapper.h, src/ecxx/v1/entity.h) are one-line forwards to the world and are left out, along with the demo program, tests and benchmarks.
- Reference and iterator invalidation after a `std::vector` reallocates is a memory-safety concern outside a value model.

## Findings

| source | as written | input that shows it | evidently intended | confidence | as-written member | corrected member |
|---|---|---|---|---|---|---|
| src/ecxx/v2/world.h:121-124 | `valid(e)` compares only the slot's version with the handle's | create and destroy (1, 0); the never-issued handle (1, 1) then passes `valid` | `valid` holds only for the handle the slot currently issues | not executed | Worlds.ValidAcceptsUnissuedHandle | Worlds.IsValidAlive |
| src/ecxx/v2/world.h:91-95 | `runtime_view` silently drops ids that have no map | a view over a registered t and an unregistered u yields an entity holding only t | an unregistered id means no entity can match, so the view yields nothing | not executed | WorldViews.RuntimeViewIgnoresUnregistered | WorldViews.RuntimeEachChecked |
| src/ecxx/v1/world.h:57 | `deallocate` pushes the id on the pool, and `destroy_entities` pushes it again (src/ecxx/v1/world_impl.h:113) | world of capacity 3: allocate (1), deallocate, invalidate, then allocate twice; both return 1 | the id returns to the pool once, after destruction | not executed | WorldV1Proofs.DoubleAllocation | WorldV1Proofs.NoDoubleAllocation |
| src/ecxx/v1/ecs_node.h:110-132 | `append` accepts a child that is an ancestor of the entity | append 1 under 3, 2 under 1, then 1 under 2: nodes 1 and 2 become each other's parent and `is_descendant(1, 3)` never returns | refuse to append an ancestor under its descendant | not executed | EcsNodes.AppendMakesCycle | EcsNodes.AppendCheckedKeepsTree |
| src/ecxx/v1/worlds_map.cpp:12 | the slot index is cut to the 8-bit `world_id_t` | with 256 worlds and no free slot, the next world gets id 0 and `get(0)` returns the first world | refuse a 257th world | not executed | WorldsMap.AddWrapsAround | WorldsMap.AddCheckedRoundTrip |
| src/ecxx/ecxx.h:234-238 | `deallocate` never decrements `used_` | capacity 2: allocate (1), deallocate 1; id 1 is on the pool but `allocate` asserts `used_ < end_` and refuses | freeing an id makes it available again | not executed | LegacyWorld.RecycledIdStarves | LegacyWorld.ReleaseKeepsAccounted |
| src/ecxx/ecxx.h:440-442 | `begin()` starts at id 1 without skipping inactive ids | in a new world with no entity, the view yields id 1 | begin skips to the first active id, as `++` does | not executed | LegacyWorld.ActiveIdsAsWritten | LegacyWorld.ActiveIds |

=== FILE: active_entities.dfy ===
/**
 * The filtered id-range view of the v1 world: an iterator over entity ids
 * that starts at 1, stops at the world's end (its capacity), and skips every
 * id the filter rejects, both when it is built and after each increment. The
 * filter is any predicate on ids that can be applied below the end.
 */
module ActiveEntities {
  import opened Seqs

  /** The filter can be applied to every id in [lo, hi). */
  ghost predicate ReadableOn(pass: nat --> bool, lo: nat, hi: nat)
  {
    forall x :: lo <= x < hi ==> pass.requires(x)
  }

  /** skip_els: advance while the id is below end and the filter rejects it. */
  function SkipEls(pass: nat --> bool, id: nat, end: nat): (r: nat)
    requires id <= end && ReadableOn(pass, id, end)
    ensures id <= r <= end
    ensures forall x :: id <= x < r ==> !pass(x)
    ensures r < end ==> pass(r)
    decreases end - id
  {
    if id < end && !pass(id) then SkipEls(pass, id + 1, end) else id
  }

  /** begin(): the iterator built at id 1, which skips to the first passing id. */
  function Begin(pass: nat --> bool, end: nat): (r: nat)
    requires 1 <= end && ReadableOn(pass, 1, end)
    ensures 1 <= r <= end
    ensures forall x :: 1 <= x < r ==> !pass(x)
    ensures r < end ==> pass(r)
  {
    SkipEls(pass, 1, end)
  }

  /** end(): the iterator built at end_, which never moves. */
  function End(pass: nat --> bool, end: nat): (r: nat)
    ensures r == end
  {
    SkipEls(pass, end, end)
  }

  /** operator++: step once, then skip to the next passing id. */
  function Next(pass: nat --> bool, id: nat, end: nat): (r: nat)
    requires id < end && ReadableOn(pass, id + 1, end)
    ensures id < r <= end
    ensures forall x :: id < x < r ==> !pass(x)
    ensures r < end ==> pass(r)
  {
    SkipEls(pass, id + 1, end)
  }

  /**
   * A range-for over the view: from begin() until the iterator equals end(),
   * collecting each id it yields.
   */
  method Iterate(pass: nat --> bool, end: nat) returns (ids: seq<nat>)
    requires 1 <= end && ReadableOn(pass, 1, end)
    ensures Increasing(ids)
    ensures forall x :: x in ids <==> 1 <= x < end && pass(x)
  {
    ids := [];
    var id := Begin(pass, end);
    while id != End(pass, end)
      invariant 1 <= id <= end
      invariant forall k :: 0 <= k < |ids| ==> ids[k] < id
      invariant Increasing(ids)
      invariant id < end ==> pass(id)
      invariant forall x :: x in ids <==> 1 <= x < id && pass(x)
      decreases end - id
    {
      ids := ids + [id];
      id := Next(pass, id, end);
    }
  }
}

=== FILE: bit_vector.dfy ===
/**
 * bit_vector: a fixed-size bit set stored one byte per eight bits. Bit i
 * lives in byte i >> 3 under the mask 1 << (i & 7); a vector of `size` bits
 * owns (size >> 3) + 1 bytes. Fresh storage is taken to be zeroed.
 *
 * The state is kept as the sequence of bits; `Bytes` is the storage the
 * source manipulates, and the byte lemmas show that every operation is the
 * byte update the source performs (`data_[address(i)] |= mask(i)` and so on).
 */
module BitVectors {
  /** bits_per_element, bit_shift and bit_mask. */
  const BitsPerElement: nat := 8
  const BitShift: nat := 3
  const BitMask: nat := 7
  /** size_type is uint32_t. */
  const SizeCap: nat := 0x1_0000_0000

  datatype BitVector = BitVector(bits: seq<bool>)

  ghost predicate Valid(b: BitVector)
  {
    |b.bits| < SizeCap
  }

  /** size(). */
  function Size(b: BitVector): nat
  {
    |b.bits|
  }

  /** address(i): the byte holding bit i, i >> bit_shift. */
  function Address(i: nat): (a: nat)
    ensures a * 8 <= i < a * 8 + 8
  {
    i / 8
  }

  /** mask(i): the single bit of bit i within its byte, 0x1u << (i & bit_mask). */
  function Mask(i: nat): (m: bv8)
  {
    (1 as bv8) << (i % 8)
  }

  /** Bit j, reading past the end as clear (fresh storage is zeroed). */
  function BitOr0(bits: seq<bool>, j: nat): bool
  {
    j < |bits| && bits[j]
  }

  /** A byte from its eight bits, lowest first. */
  function ByteOf(c: seq<bool>): bv8
    requires |c| == 8
  {
    (if c[0] then 1 else 0) | (if c[1] then 2 else 0) | (if c[2] then 4 else 0) | (if c[3] then 8 else 0)
    | (if c[4] then 16 else 0) | (if c[5] then 32 else 0) | (if c[6] then 64 else 0) | (if c[7] then 128 else 0)
  }

  /** The eight bits stored at address a: bit k of the byte is bit 8a + k. */
  function Octet(bits: seq<bool>, a: nat): (c: seq<bool>)
    ensures |c| == 8 && forall k :: 0 <= k < 8 ==> c[k] == BitOr0(bits, a * 8 + k)
  {
    seq(8, k requires 0 <= k => BitOr0(bits, a * 8 + k))
  }

  /** The byte at address a. */
  function ByteAt(bits: seq<bool>, a: nat): bv8
  {
    ByteOf(Octet(bits, a))
  }

  /** The storage: (size >> 3) + 1 bytes. */
  function Bytes(b: BitVector): (data: seq<bv8>)
    ensures |data| == Size(b) / 8 + 1
  {
    seq(Size(b) / 8 + 1, a requires 0 <= a => ByteAt(b.bits, a))
  }

  /** (size >> 3) + 1 bytes hold every bit below size. */
  lemma {:induction false} StorageCovers(b: BitVector, i: nat)
    requires i < Size(b)
    ensures Address(i) < |Bytes(b)|
  {
  }

  /** The mask of bit k of a byte, for each k. */
  lemma {:induction false} MaskValues(i: nat)
    ensures i % 8 == 0 ==> Mask(i) == 1
    ensures i % 8 == 1 ==> Mask(i) == 2
    ensures i % 8 == 2 ==> Mask(i) == 4
    ensures i % 8 == 3 ==> Mask(i) == 8
    ensures i % 8 == 4 ==> Mask(i) == 16
    ensures i % 8 == 5 ==> Mask(i) == 32
    ensures i % 8 == 6 ==> Mask(i) == 64
    ensures i % 8 == 7 ==> Mask(i) == 128
  {
  }

  /** Reading a byte through the mask of bit k reads bit k. */
  lemma {:induction false} ReadBit(c: seq<bool>, i: nat)
    requires |c| == 8
    ensures (ByteOf(c) & Mask(i) != 0) == c[i % 8]
  {
    MaskValues(i);
  }

  /** Reading a byte through a mask reads one bit. */
  lemma {:induction false} ReadByte(bits: seq<bool>, i: nat)
    ensures (ByteAt(bits, Address(i)) & Mask(i) != 0) == BitOr0(bits, i)
  {
    ReadBit(Octet(bits, Address(i)), i);
  }

  lemma {:induction false} WriteBit0(c: seq<bool>, v: bool)
    requires |c| == 8
    ensures ByteOf(c[0 := v]) == if v then ByteOf(c) | 1 else ByteOf(c) & !1
  {
  }

  lemma {:induction false} WriteBit1(c: seq<bool>, v: bool)
    requires |c| == 8
    ensures ByteOf(c[1 := v]) == if v then ByteOf(c) | 2 else ByteOf(c) & !2
  {
  }

  lemma {:induction false} WriteBit2(c: seq<bool>, v: bool)
    requires |c| == 8
    ensures ByteOf(c[2 := v]) == if v then ByteOf(c) | 4 else ByteOf(c) & !4
  {
  }

  lemma {:induction false} WriteBit3(c: seq<bool>, v: bool)
    requires |c| == 8
    ensures ByteOf(c[3 := v]) == if v then ByteOf(c) | 8 else ByteOf(c) & !8
  {
  }

  lemma {:induction false} WriteBit4(c: seq<bool>, v: bool)
    requires |c| == 8
    ensures ByteOf(c[4 := v]) == if v then ByteOf(c) | 16 else ByteOf(c) & !16
  {
  }

  lemma {:induction false} WriteBit5(c: seq<bool>, v: bool)
    requires |c| == 8
    ensures ByteOf(c[5 := v]) == if v then ByteOf(c) | 32 else ByteOf(c) & !32
  {
  }

  lemma {:induction false} WriteBit6(c: seq<bool>, v: bool)
    requires |c| == 8
    ensures ByteOf(c[6 := v]) == if v then ByteOf(c) | 64 else ByteOf(c) & !64
  {
  }

  lemma {:induction false} WriteBit7(c: seq<bool>, v: bool)
    requires |c| == 8
    ensures ByteOf(c[7 := v]) == if v then ByteOf(c) | 128 else ByteOf(c) & !128
  {
  }

  /** Writing bit k of a byte is an or or an and-not with its mask. */
  lemma {:induction false} WriteBit(c: seq<bool>, i: nat, v: bool)
    requires |c| == 8
    ensures ByteOf(c[i % 8 := v]) == if v then ByteOf(c) | Mask(i) else ByteOf(c) & !Mask(i)
  {
    MaskValues(i);
    var k := i % 8;
    if k == 0 { WriteBit0(c, v); }
    else if k == 1 { WriteBit1(c, v); }
    else if k == 2 { WriteBit2(c, v); }
    else if k == 3 { WriteBit3(c, v); }
    else if k == 4 { WriteBit4(c, v); }
    else if k == 5 { WriteBit5(c, v); }
    else if k == 6 { WriteBit6(c, v); }
    else { WriteBit7(c, v); }
  }

  /** Changing bit i to v rewrites its byte under the mask. */
  lemma {:induction false} WriteSameByte(bits: seq<bool>, i: nat, v: bool)
    requires i < |bits|
    ensures var x := ByteAt(bits, Address(i));
      ByteAt(bits[i := v], Address(i)) == if v then x | Mask(i) else x & !Mask(i)
  {
    var a := Address(i);
    var c := Octet(bits, a);
    assert Octet(bits[i := v], a) == c[i % 8 := v];
    WriteBit(c, i, v);
  }

  /** Changing bit i leaves every other byte as it was. */
  lemma {:induction false} WriteOtherByte(bits: seq<bool>, i: nat, v: bool, a: nat)
    requires i < |bits| && a != Address(i)
    ensures ByteAt(bits[i := v], a) == ByteAt(bits, a)
  {
    assert Octet(bits[i := v], a) == Octet(bits, a);
  }

  /** bit_vector(size): zeroed storage. */
  function New(size: nat): (b: BitVector)
    requires size < SizeCap
    ensures Valid(b) && Size(b) == size
    ensures forall i :: 0 <= i < size ==> !Get(b, i)
    ensures forall a :: 0 <= a < |Bytes(b)| ==> Bytes(b)[a] == 0
  {
    var b := BitVector(seq(size, _ => false));
    forall a | 0 <= a < |Bytes(b)| ensures Bytes(b)[a] == 0 {
      ClearByte(Octet(b.bits, a));
    }
    b
  }

  /** A byte with no bit set is zero. */
  lemma {:induction false} ClearByte(c: seq<bool>)
    requires |c| == 8 && forall k :: 0 <= k < 8 ==> !c[k]
    ensures ByteOf(c) == 0
  {
  }

  /** get(i) and the const operator[]: the byte at address(i) under mask(i). */
  function Get(b: BitVector, i: nat): bool
    requires i < Size(b)
  {
    b.bits[i]
  }

  /** get(i) tests bit i's mask in the byte at i's address. */
  lemma {:induction false} GetTestsByte(b: BitVector, i: nat)
    requires i < Size(b)
    ensures Get(b, i) == (Bytes(b)[Address(i)] & Mask(i) != 0)
  {
    ReadByte(b.bits, i);
  }

  /** The abstract contents: the set of enabled bits. */
  ghost function Ones(b: BitVector): set<nat>
  {
    set j: nat | j < Size(b) && Get(b, j)
  }

  /** The byte that rewriting bit i to v leaves at its address. */
  function Written(x: bv8, i: nat, v: bool): bv8
  {
    if v then x | Mask(i) else x & !Mask(i)
  }

  /** Byte x of the storage after bit i changes to v. */
  lemma {:induction false} ByteAfterWrite(b: BitVector, i: nat, v: bool, x: nat)
    requires i < Size(b) && x < |Bytes(b)|
    ensures Bytes(BitVector(b.bits[i := v]))[x] == if x == Address(i) then Written(Bytes(b)[x], i, v) else Bytes(b)[x]
  {
    if x == Address(i) {
      WriteSameByte(b.bits, i, v);
    } else {
      WriteOtherByte(b.bits, i, v, x);
    }
  }

  /** The storage after bit i changes to v: one byte rewritten under the mask. */
  lemma {:induction false} BytesAfterWrite(b: BitVector, i: nat, v: bool)
    requires i < Size(b)
    ensures var a := Address(i);
      Bytes(BitVector(b.bits[i := v])) == Bytes(b)[a := Written(Bytes(b)[a], i, v)]
  {
    StorageCovers(b, i);
    var a := Address(i);
    var r := Bytes(BitVector(b.bits[i := v]));
    var e := Bytes(b)[a := Written(Bytes(b)[a], i, v)];
    forall x | 0 <= x < |r| ensures r[x] == e[x] {
      ByteAfterWrite(b, i, v, x);
    }
  }

  /** enable(i): bit i is set and no other bit moves. */
  function Enable(b: BitVector, i: nat): (r: BitVector)
    requires Valid(b) && i < Size(b)
    ensures Valid(r) && Size(r) == Size(b)
    ensures Get(r, i) && forall j :: 0 <= j < Size(b) && j != i ==> Get(r, j) == Get(b, j)
  {
    BitVector(b.bits[i := true])
  }

  /** enable(i) is data_[address(i)] |= mask(i) on the storage. */
  lemma {:induction false} EnableWritesByte(b: BitVector, i: nat)
    requires Valid(b) && i < Size(b)
    ensures Bytes(Enable(b, i)) == Bytes(b)[Address(i) := Bytes(b)[Address(i)] | Mask(i)]
  {
    BytesAfterWrite(b, i, true);
  }

  /** disable(i): bit i is cleared and no other bit moves. */
  function Disable(b: BitVector, i: nat): (r: BitVector)
    requires Valid(b) && i < Size(b)
    ensures Valid(r) && Size(r) == Size(b)
    ensures !Get(r, i) && forall j :: 0 <= j < Size(b) && j != i ==> Get(r, j) == Get(b, j)
  {
    BitVector(b.bits[i := false])
  }

  /** disable(i) is data_[address(i)] &= ~mask(i) on the storage. */
  lemma {:induction false} DisableWritesByte(b: BitVector, i: nat)
    requires Valid(b) && i < Size(b)
    ensures Bytes(Disable(b, i)) == Bytes(b)[Address(i) := Bytes(b)[Address(i)] & !Mask(i)]
  {
    BytesAfterWrite(b, i, false);
  }

  /**
   * set(i, value): enable or disable. The mutable operator[] reference
   * assigns through the same byte and mask, so it has the same effect.
   */
  function Set(b: BitVector, i: nat, value: bool): (r: BitVector)
    requires Valid(b) && i < Size(b)
    ensures Valid(r) && Size(r) == Size(b)
    ensures forall j :: 0 <= j < Size(b) ==> Get(r, j) == (if j == i then value else Get(b, j))
  {
    if value then Enable(b, i) else Disable(b, i)
  }

  /** operator[] returning a reference, then assigning value through it: the byte is rewritten under the mask. */
  function AssignThroughReference(b: BitVector, i: nat, value: bool): (r: BitVector)
    requires Valid(b) && i < Size(b)
    ensures Bytes(r) == Bytes(b)[Address(i) := Written(Bytes(b)[Address(i)], i, value)]
    ensures r == Set(b, i, value)
  {
    BytesAfterWrite(b, i, value);
    BitVector(b.bits[i := value])
  }

  /** is_false(i): bit i is clear. */
  function IsFalse(b: BitVector, i: nat): (f: bool)
    requires i < Size(b)
    ensures f == !Get(b, i)
  {
    !b.bits[i]
  }

  /** is_false(i) tests the mask in the byte at the address for zero. */
  lemma {:induction false} IsFalseTestsByte(b: BitVector, i: nat)
    requires i < Size(b)
    ensures IsFalse(b, i) == (Bytes(b)[Address(i)] & Mask(i) == 0)
  {
    GetTestsByte(b, i);
  }

  /** enable_if_not(i): when the bit is clear, set it and report true; otherwise report false. */
  function EnableIfNot(b: BitVector, i: nat): (r: (BitVector, bool))
    requires Valid(b) && i < Size(b)
    ensures Valid(r.0) && Size(r.0) == Size(b)
    ensures r.1 == !Get(b, i) && Get(r.0, i)
    ensures forall j :: 0 <= j < Size(b) && j != i ==> Get(r.0, j) == Get(b, j)
  {
    if IsFalse(b, i) then (Enable(b, i), true) else (b, false)
  }

  // ---- properties ----

  /** set(i, v) then get(i) gives v. */
  lemma {:induction false} SetThenGet(b: BitVector, i: nat, value: bool)
    requires Valid(b) && i < Size(b)
    ensures Get(Set(b, i, value), i) == value
  {
  }

  /** A second enable_if_not of the same bit reports false and changes nothing. */
  lemma {:induction false} EnableIfNotTwice(b: BitVector, i: nat)
    requires Valid(b) && i < Size(b)
    ensures var r := EnableIfNot(b, i).0; EnableIfNot(r, i) == (r, false)
  {
  }

  /** Enabling a clear bit adds exactly that bit to the enabled set. */
  lemma {:induction false} EnableAddsOne(b: BitVector, i: nat)
    requires Valid(b) && i < Size(b) && !Get(b, i)
    ensures Ones(Enable(b, i)) == Ones(b) + {i} && i !in Ones(b)
    ensures |Ones(Enable(b, i))| == |Ones(b)| + 1
  {
    var r := Enable(b, i);
    assert Ones(r) == Ones(b) + {i};
  }

  /** Disabling a set bit removes exactly that bit from the enabled set. */
  lemma {:induction false} DisableRemovesOne(b: BitVector, i: nat)
    requires Valid(b) && i < Size(b) && Get(b, i)
    ensures Ones(Disable(b, i)) == Ones(b) - {i} && i in Ones(b)
    ensures |Ones(Disable(b, i))| == |Ones(b)| - 1
  {
    var r := Disable(b, i);
    assert Ones(r) == Ones(b) - {i};
  }
}

=== FILE: component_db_v1.dfy ===
/**
 * The bitmask component database of the legacy engine. Each registered
 * component type has a manager holding a presence mask and a data slot per
 * entity id, both sized to the world's capacity; the database's matrix is
 * indexed by component type id and holds the manager (and so its mask) or
 * nothing. The same code backs both the v1 world and the single-header
 * `world_t`.
 */
module ComponentDbV1 {
  import opened Wrappers
  import BitVectors

  type BitVector = BitVectors.BitVector

  /** generic_component_manager: the mask of basic_component_manager plus data_. */
  datatype Manager<D> = Manager(mask: BitVector, data: seq<D>)

  /** Both the mask and the data are sized to the capacity. */
  ghost predicate ManagerValid<D>(m: Manager<D>, capacity: nat)
  {
    BitVectors.Valid(m.mask) && BitVectors.Size(m.mask) == capacity && |m.data| == capacity
  }

  /** The constructor: mask_{capacity} and data_.resize(capacity) of value-initialised data. */
  function NewManager<D>(capacity: nat, zero: D): (m: Manager<D>)
    requires capacity < BitVectors.SizeCap
    ensures ManagerValid(m, capacity)
    ensures forall e :: 0 <= e < capacity ==> !ManagerHas(m, e) && View(m, e) == zero
  {
    Manager(BitVectors.New(capacity), seq(capacity, _ => zero))
  }

  /** basic_component_manager::has: the mask bit. */
  function ManagerHas<D>(m: Manager<D>, e: nat): (b: bool)
    requires e < BitVectors.Size(m.mask)
    ensures b == BitVectors.Get(m.mask, e)
  {
    BitVectors.Get(m.mask, e)
  }

  /** view(entity): the entity's data slot. */
  function View<D>(m: Manager<D>, e: nat): D
    requires e < |m.data|
  {
    m.data[e]
  }

  /** initialize(entity, args...): store a freshly built component. */
  function Initialize<D>(m: Manager<D>, e: nat, d: D): (r: Manager<D>)
    requires e < |m.data|
    ensures |r.data| == |m.data| && r.mask == m.mask
    ensures View(r, e) == d
    ensures forall x :: 0 <= x < |m.data| && x != e ==> View(r, x) == View(m, x)
  {
    m.(data := m.data[e := d])
  }

  /** reset(entity): a no-op, so the stored data survives. */
  function Reset<D>(m: Manager<D>, e: nat): (r: Manager<D>)
    ensures forall x :: 0 <= x < |m.data| ==> x < |r.data| && View(r, x) == View(m, x)
    ensures r.mask == m.mask
  {
    m
  }

  /**
   * component_db: the matrix of masks and the storage table, one slot per
   * component type id. Both tables always have the same length and point at
   * the same manager, so one table of optional managers stands for both.
   */
  datatype Db<D> = Db(managers: seq<Option<Manager<D>>>)

  /** A component_db whose every manager is sized to the world's capacity. */
  ghost predicate Valid<D>(db: Db<D>, capacity: nat)
  {
    forall c :: 0 <= c < |db.managers| && db.managers[c].Some? ==> ManagerValid(db.managers[c].value, capacity)
  }

  /** The default-constructed database. */
  function Empty<D>(): (db: Db<D>)
    ensures forall capacity: nat :: Valid(db, capacity)
    ensures forall c: nat :: !Registered(db, c)
  {
    Db([])
  }

  /** storage_impl and bits_impl assert that the type id has a slot and that it is filled. */
  predicate Registered<D>(db: Db<D>, c: nat)
  {
    c < |db.managers| && db.managers[c].Some?
  }

  /** The manager of a registered type. */
  function ManagerOf<D>(db: Db<D>, c: nat): Manager<D>
    requires Registered(db, c)
  {
    db.managers[c].value
  }

  /**
   * register_type: grow both tables to ci + 1 when needed, require the slot
   * to be empty, and store the manager (and so its mask).
   */
  function RegisterType<D>(db: Db<D>, ci: nat, m: Manager<D>): (r: Db<D>)
    requires !Registered(db, ci)
    ensures |r.managers| == if ci < |db.managers| then |db.managers| else ci + 1
    ensures Registered(r, ci) && ManagerOf(r, ci) == m
    ensures forall c :: 0 <= c < |r.managers| && c != ci ==>
      (Registered(r, c) <==> Registered(db, c)) && (Registered(db, c) ==> ManagerOf(r, c) == ManagerOf(db, c))
    ensures forall c :: c != ci && c >= |r.managers| ==> !Registered(db, c)
  {
    var grown := if ci < |db.managers| then db.managers
      else db.managers + seq(ci + 1 - |db.managers|, _ => None);
    Db(grown[ci := Some(m)])
  }

  /** Registering a manager sized to the capacity keeps every manager sized to it. */
  lemma {:induction false} RegisterKeepsValid<D>(db: Db<D>, ci: nat, m: Manager<D>, capacity: nat)
    requires Valid(db, capacity) && !Registered(db, ci) && ManagerValid(m, capacity)
    ensures Valid(RegisterType(db, ci, m), capacity)
  {
    var r := RegisterType(db, ci, m);
    forall c | 0 <= c < |r.managers| && r.managers[c].Some? ensures ManagerValid(r.managers[c].value, capacity) {
      if c != ci {
        assert Registered(r, c);
      }
    }
  }

  /** has<T>(entity): the type's mask bit; the type must be registered. */
  function Has<D>(db: Db<D>, c: nat, e: nat): (b: bool)
    requires Registered(db, c) && e < BitVectors.Size(ManagerOf(db, c).mask)
    ensures b == ManagerHas(ManagerOf(db, c), e)
  {
    BitVectors.Get(ManagerOf(db, c).mask, e)
  }

  /** The data of a registered type's entity. */
  function Get<D>(db: Db<D>, c: nat, e: nat): D
    requires Registered(db, c) && e < |ManagerOf(db, c).data|
  {
    View(ManagerOf(db, c), e)
  }

  /** The same types are registered. */
  ghost predicate SameTypes<D>(db: Db<D>, r: Db<D>)
  {
    |r.managers| == |db.managers| && forall c :: Registered(r, c) <==> Registered(db, c)
  }

  /** enable<T>(entity, args...): set the bit and initialise the data. */
  function Enable<D>(db: Db<D>, capacity: nat, c: nat, e: nat, d: D): (r: Db<D>)
    requires Valid(db, capacity) && Registered(db, c) && e < capacity
    ensures Valid(r, capacity) && SameTypes(db, r)
    ensures Has(r, c, e) && Get(r, c, e) == d
    ensures forall x :: 0 <= x < capacity && x != e ==> Has(r, c, x) == Has(db, c, x) && Get(r, c, x) == Get(db, c, x)
    ensures forall t :: t != c && Registered(db, t) ==> ManagerOf(r, t) == ManagerOf(db, t)
  {
    var m := ManagerOf(db, c);
    var m' := Initialize(m.(mask := BitVectors.Enable(m.mask, e)), e, d);
    Db(db.managers[c := Some(m')])
  }

  /** disable<T>(entity): clear the bit; reset leaves the data. */
  function Disable<D>(db: Db<D>, capacity: nat, c: nat, e: nat): (r: Db<D>)
    requires Valid(db, capacity) && Registered(db, c) && e < capacity
    ensures Valid(r, capacity) && SameTypes(db, r)
    ensures !Has(r, c, e) && Get(r, c, e) == Get(db, c, e)
    ensures forall x :: 0 <= x < capacity && x != e ==> Has(r, c, x) == Has(db, c, x) && Get(r, c, x) == Get(db, c, x)
    ensures forall t :: t != c && Registered(db, t) ==> ManagerOf(r, t) == ManagerOf(db, t)
  {
    var m := ManagerOf(db, c);
    var m' := Reset(m.(mask := BitVectors.Disable(m.mask, e)), e);
    Db(db.managers[c := Some(m')])
  }

  /** disable_all has visited the types below i: those no longer hold e, the rest are untouched. */
  ghost predicate ClearedBelow<D>(db: Db<D>, r: Db<D>, capacity: nat, e: nat, i: nat)
  {
    e < capacity && Valid(db, capacity) && Valid(r, capacity) && SameTypes(db, r) && i <= |r.managers|
    && (forall c :: 0 <= c < i && Registered(r, c) ==> !Has(r, c, e) && Get(r, c, e) == Get(db, c, e))
    && (forall c :: i <= c && Registered(r, c) ==> ManagerOf(r, c) == ManagerOf(db, c))
    && (forall c, x :: Registered(r, c) && 0 <= x < capacity && x != e ==>
         Has(r, c, x) == Has(db, c, x) && Get(r, c, x) == Get(db, c, x))
  }

  /** One step of disable_all: type i is visited. */
  lemma {:induction false} ClearStep<D>(db: Db<D>, r: Db<D>, capacity: nat, e: nat, i: nat)
    requires ClearedBelow(db, r, capacity, e, i) && i < |r.managers|
    ensures var r' := if Registered(r, i) && Has(r, i, e) then Disable(r, capacity, i, e) else r;
      ClearedBelow(db, r', capacity, e, i + 1)
  {
    if Registered(r, i) && Has(r, i, e) {
      ClearOne(db, r, capacity, e, i);
    }
  }

  /** Visiting a type whose mask holds e clears that bit and nothing else. */
  lemma {:induction false} ClearOne<D>(db: Db<D>, r: Db<D>, capacity: nat, e: nat, i: nat)
    requires ClearedBelow(db, r, capacity, e, i) && i < |r.managers| && Registered(r, i)
    ensures ClearedBelow(db, Disable(r, capacity, i, e), capacity, e, i + 1)
  {
    var r' := Disable(r, capacity, i, e);
    forall c | 0 <= c < i + 1 && Registered(r', c) ensures !Has(r', c, e) && Get(r', c, e) == Get(db, c, e) {
      if c != i {
        assert ManagerOf(r', c) == ManagerOf(r, c);
      }
    }
    forall c | i + 1 <= c && Registered(r', c) ensures ManagerOf(r', c) == ManagerOf(db, c) {
      assert ManagerOf(r', c) == ManagerOf(r, c);
    }
    forall c, x | Registered(r', c) && 0 <= x < capacity && x != e
      ensures Has(r', c, x) == Has(db, c, x) && Get(r', c, x) == Get(db, c, x)
    {
      if c != i {
        assert ManagerOf(r', c) == ManagerOf(r, c);
      }
    }
  }

  /** The walk of disable_all from type i onwards. */
  function DisableFrom<D>(db: Db<D>, r: Db<D>, capacity: nat, e: nat, i: nat): (out: Db<D>)
    requires ClearedBelow(db, r, capacity, e, i)
    ensures ClearedBelow(db, out, capacity, e, |out.managers|)
    decreases |r.managers| - i
  {
    if i >= |r.managers| then r
    else
      ClearStep(db, r, capacity, e, i);
      var r' := if r.managers[i].Some? && BitVectors.Get(r.managers[i].value.mask, e) then Disable(r, capacity, i, e) else r;
      DisableFrom(db, r', capacity, e, i + 1)
  }

  /**
   * disable_all(entity): walk the matrix and clear the entity's bit in every
   * registered mask that has it.
   */
  function DisableAll<D>(db: Db<D>, capacity: nat, e: nat): (r: Db<D>)
    requires Valid(db, capacity) && e < capacity
    ensures Valid(r, capacity) && SameTypes(db, r)
    ensures forall c :: Registered(r, c) ==> !Has(r, c, e) && Get(r, c, e) == Get(db, c, e)
    ensures forall c, x :: Registered(r, c) && 0 <= x < capacity && x != e ==>
      Has(r, c, x) == Has(db, c, x) && Get(r, c, x) == Get(db, c, x)
  {
    DisableFrom(db, db, capacity, e, 0)
  }

  /** enable then has: the entity holds the component, with the given data. */
  lemma {:induction false} EnableThenHas<D>(db: Db<D>, capacity: nat, c: nat, e: nat, d: D)
    requires Valid(db, capacity) && Registered(db, c) && e < capacity
    ensures var r := Enable(db, capacity, c, e, d); Has(r, c, e) && Get(r, c, e) == d
    ensures !Has(Disable(Enable(db, capacity, c, e, d), capacity, c, e), c, e)
  {
  }

  /** initialize then view reads back the component built from the arguments. */
  lemma {:induction false} InitializeThenView<D>(m: Manager<D>, e: nat, d: D)
    requires e < |m.data|
    ensures View(Initialize(m, e, d), e) == d
  {
  }
}

=== FILE: components_db.dfy ===
/**
 * The component registry (components_db): one optional sparse set per
 * component type id, created lazily by `ensure`. All component types share
 * one datum type D here; a type is identified by its id, its default datum
 * and whether it is an empty type.
 */
module ComponentsDb {
  import opened Wrappers
  import opened EntityValue
  import EntityMaps

  type EntityMap<D> = EntityMaps.EntityMap<D>

  /** A component type: its id from the identity generator, its default datum, is_empty_data. */
  datatype ComponentType<D> = ComponentType(id: nat, zero: D, emptyData: bool)

  datatype Db<D> = Db(pools: seq<Option<EntityMap<D>>>)

  /** Every registered map is a well-formed sparse set. */
  ghost predicate Valid<D>(db: Db<D>)
  {
    forall t :: 0 <= t < |db.pools| && db.pools[t].Some? ==> EntityMaps.Valid(db.pools[t].value)
  }

  function Empty<D>(): (db: Db<D>)
    ensures Valid(db) && forall t :: TryGet(db, t) == None
  {
    Db([])
  }

  /** try_get(type): the map registered under `t`, or null. */
  function TryGet<D>(db: Db<D>, t: nat): (r: Option<EntityMap<D>>)
    ensures Valid(db) && r.Some? ==> EntityMaps.Valid(r.value)
  {
    if t < |db.pools| then db.pools[t] else None
  }

  /** The pool list grown with null slots to length at least n. */
  function Grow<D>(pools: seq<Option<EntityMap<D>>>, n: nat): (r: seq<Option<EntityMap<D>>>)
    ensures |r| == if n <= |pools| then |pools| else n
    ensures forall t :: 0 <= t < |pools| ==> r[t] == pools[t]
    ensures forall t :: |pools| <= t < |r| ==> r[t] == None
  {
    if n <= |pools| then pools else pools + seq(n - |pools|, _ => None)
  }

  /**
   * ensure<C>(): grow the pool list to hold id c.id, create C's map if the
   * slot is null, and return the map.
   */
  function Ensure<D>(db: Db<D>, c: ComponentType<D>): (r: (Db<D>, EntityMap<D>))
    requires Valid(db)
    ensures Valid(r.0) && EntityMaps.Valid(r.1)
    ensures TryGet(r.0, c.id) == Some(r.1)
    ensures |r.0.pools| == if c.id < |db.pools| then |db.pools| else c.id + 1
    ensures TryGet(db, c.id).Some? ==> r.1 == TryGet(db, c.id).value
    ensures TryGet(db, c.id).None? ==> r.1 == EntityMaps.New(c.zero, c.emptyData)
    ensures forall t :: t != c.id ==> TryGet(r.0, t) == TryGet(db, t)
    ensures forall t :: 0 <= t < |db.pools| && t != c.id ==> r.0.pools[t] == db.pools[t]
  {
    var grown := Grow(db.pools, c.id + 1);
    if grown[c.id].Some? then
      (Db(grown), grown[c.id].value)
    else
      var m := EntityMaps.New(c.zero, c.emptyData);
      (Db(grown[c.id := Some(m)]), m)
  }

  /** Replace the map under a registered id (the effect of mutating it through the reference). */
  function Put<D>(db: Db<D>, t: nat, m: EntityMap<D>): (r: Db<D>)
    requires Valid(db) && t < |db.pools| && EntityMaps.Valid(m)
    ensures Valid(r) && TryGet(r, t) == Some(m)
    ensures forall u :: u != t ==> TryGet(r, u) == TryGet(db, u)
  {
    Db(db.pools[t := Some(m)])
  }

  /** The effect of remove_all_c on one slot. */
  function EraseFrom<D>(o: Option<EntityMap<D>>, e: Entity): (r: Option<EntityMap<D>>)
    requires o.Some? ==> EntityMaps.Valid(o.value)
  {
    if o.Some? && EntityMaps.Has(o.value, e) then Some(EntityMaps.EraseDyn(o.value, e)) else o
  }

  /** remove_all_c(e): erase e from every registered map that has it. */
  function RemoveAll<D>(db: Db<D>, e: Entity): (r: Db<D>)
    requires Valid(db)
    ensures Valid(r) && |r.pools| == |db.pools|
    ensures forall t :: TryGet(r, t).Some? <==> TryGet(db, t).Some?
    ensures forall t :: TryGet(r, t).Some? ==> !EntityMaps.Has(TryGet(r, t).value, e)
    ensures forall t :: TryGet(db, t).Some? && EntityMaps.Has(TryGet(db, t).value, e) ==>
      EntityMaps.Stored(TryGet(r, t).value) == EntityMaps.Stored(TryGet(db, t).value) - {Index(e)}
      && EntityMaps.Values(TryGet(r, t).value) == EntityMaps.Values(TryGet(db, t).value) - {Index(e)}
    ensures forall t :: TryGet(db, t).Some? && !EntityMaps.Has(TryGet(db, t).value, e) ==>
      TryGet(r, t) == TryGet(db, t)
  {
    Db(seq(|db.pools|, t requires 0 <= t < |db.pools| => EraseFrom(db.pools[t], e)))
  }

  /** Has by type id, false for an unregistered type. */
  predicate HasIn<D>(db: Db<D>, t: nat, e: Entity)
  {
    TryGet(db, t).Some? && EntityMaps.Has(TryGet(db, t).value, e)
  }

  // ---- properties ----

  /** A second ensure returns the same map and changes nothing. */
  lemma {:induction false} EnsureIdempotent<D>(db: Db<D>, c: ComponentType<D>)
    requires Valid(db)
    ensures var (db1, m1) := Ensure(db, c); Ensure(db1, c) == (db1, m1)
  {
  }

  /** ensure never changes membership of any type, registered or not. */
  lemma {:induction false} EnsureKeepsMembership<D>(db: Db<D>, c: ComponentType<D>, t: nat, e: Entity)
    requires Valid(db)
    ensures HasIn(Ensure(db, c).0, t, e) <==> HasIn(db, t, e)
  {
  }

  /** After remove_all_c(e) no type has e, and every other entity keeps its membership. */
  lemma {:induction false} RemoveAllMembership<D>(db: Db<D>, e: Entity, t: nat, x: Entity)
    requires Valid(db)
    ensures !HasIn(RemoveAll(db, e), t, e)
    ensures Index(x) != Index(e) ==> (HasIn(RemoveAll(db, e), t, x) <==> HasIn(db, t, x))
  {
    var r := RemoveAll(db, e);
    if TryGet(db, t).Some? && EntityMaps.Has(TryGet(db, t).value, e) && Index(x) != Index(e) {
      assert EntityMaps.Stored(TryGet(r, t).value) == EntityMaps.Stored(TryGet(db, t).value) - {Index(e)};
      assert Index(x) in EntityMaps.Stored(TryGet(r, t).value) <==> Index(x) in EntityMaps.Stored(TryGet(db, t).value);
    }
  }

  /** remove_all_c is idempotent. */
  lemma {:induction false} RemoveAllIdempotent<D>(db: Db<D>, e: Entity)
    requires Valid(db)
    ensures RemoveAll(RemoveAll(db, e), e) == RemoveAll(db, e)
  {
    var r := RemoveAll(db, e);
    var r2 := RemoveAll(r, e);
    assert forall t :: 0 <= t < |r.pools| ==> r2.pools[t] == r.pools[t] by {
      forall t | 0 <= t < |r.pools| ensures r2.pools[t] == r.pools[t] {
        assert TryGet(r, t) == r.pools[t];
      }
    }
  }
}

=== FILE: ecs_node.dfy ===
/**
 * The scene-graph component of the v1 world: for every entity id, the
 * parent, the first and last child, and the next and previous sibling, with
 * the null id 0 for "none", plus the component's mask. Children of one
 * parent form a doubly linked list through the sibling links.
 *
 * The link tables are the source's state; the ghost child lists `kids`
 * (one per id) are the abstraction the lemmas speak in: `Wf(s, kids)` says
 * the links spell out exactly those lists.
 */
module EcsNodes {
  import opened Seqs
  import opened Wrappers

  const Null: nat := 0

  /** ecs_node_storage: the node mask and the five link tables. */
  datatype Nodes = Nodes(mask: seq<bool>, parent: seq<nat>, next: seq<nat>, prev: seq<nat>,
                         first: seq<nat>, last: seq<nat>)

  /** The world's capacity: the length of every table. */
  function Cap(s: Nodes): nat
  {
    |s.mask|
  }

  /** Every table has the capacity's length and every link names an id below it. */
  ghost predicate Sized(s: Nodes)
  {
    0 < Cap(s) && |s.parent| == Cap(s) && |s.next| == Cap(s) && |s.prev| == Cap(s)
    && |s.first| == Cap(s) && |s.last| == Cap(s)
    && (forall x :: 0 <= x < Cap(s) ==>
          s.parent[x] < Cap(s) && s.next[x] < Cap(s) && s.prev[x] < Cap(s)
          && s.first[x] < Cap(s) && s.last[x] < Cap(s))
  }

  // ---- the abstraction ----

  /** The links of p spell out the child list cs: ends, sibling links both ways, parents. */
  ghost predicate Linked(s: Nodes, p: nat, cs: seq<nat>)
    requires Sized(s) && p < Cap(s)
  {
    (cs == [] ==> s.first[p] == Null && s.last[p] == Null)
    && (cs != [] ==> s.first[p] == cs[0] && s.last[p] == cs[|cs| - 1])
    && Distinct(cs)
    && forall i :: 0 <= i < |cs| ==>
         0 < cs[i] < Cap(s) && s.mask[cs[i]] && s.parent[cs[i]] == p
         && s.next[cs[i]] == (if i + 1 < |cs| then cs[i + 1] else Null)
         && s.prev[cs[i]] == (if 0 < i then cs[i - 1] else Null)
  }

  /** Position i of the list cs hangs under p between its neighbours: one conjunct of Linked. */
  ghost predicate Slot(s: Nodes, p: nat, cs: seq<nat>, i: nat)
    requires Sized(s) && i < |cs|
  {
    0 < cs[i] < Cap(s) && s.mask[cs[i]] && s.parent[cs[i]] == p
    && s.next[cs[i]] == (if i + 1 < |cs| then cs[i + 1] else Null)
    && s.prev[cs[i]] == (if 0 < i then cs[i - 1] else Null)
  }

  /** Linked from its ends, distinctness and every slot. */
  lemma {:induction false} LinkedFromSlots(s: Nodes, p: nat, cs: seq<nat>)
    requires Sized(s) && p < Cap(s) && Distinct(cs)
    requires cs == [] ==> s.first[p] == Null && s.last[p] == Null
    requires cs != [] ==> s.first[p] == cs[0] && s.last[p] == cs[|cs| - 1]
    requires forall i :: 0 <= i < |cs| ==> Slot(s, p, cs, i)
    ensures Linked(s, p, cs)
  {
    forall i | 0 <= i < |cs|
      ensures 0 < cs[i] < Cap(s) && s.mask[cs[i]] && s.parent[cs[i]] == p
      ensures s.next[cs[i]] == (if i + 1 < |cs| then cs[i + 1] else Null)
      ensures s.prev[cs[i]] == (if 0 < i then cs[i - 1] else Null)
    {
      assert Slot(s, p, cs, i);
    }
  }

  /** Every id's links spell out its child list. */
  ghost predicate AllLinked(s: Nodes, kids: seq<seq<nat>>)
    requires Sized(s) && |kids| == Cap(s)
  {
    forall p :: 0 <= p < Cap(s) ==> Linked(s, p, kids[p])
  }

  /** Every id with a parent is on its parent's child list. */
  ghost predicate Listed(s: Nodes, kids: seq<seq<nat>>)
    requires Sized(s) && |kids| == Cap(s)
  {
    forall x :: 0 < x < Cap(s) && s.parent[x] != Null ==> x in kids[s.parent[x]]
  }

  /** An id without a parent has no sibling links. */
  ghost predicate Detached(s: Nodes)
    requires Sized(s)
  {
    forall x :: 0 < x < Cap(s) && s.parent[x] == Null ==> s.next[x] == Null && s.prev[x] == Null
  }

  /** An id without the component has no parent and no children; the null id never has it. */
  ghost predicate Bare(s: Nodes, kids: seq<seq<nat>>)
    requires Sized(s) && |kids| == Cap(s)
  {
    !s.mask[Null]
    && forall x :: 0 <= x < Cap(s) && !s.mask[x] ==> s.parent[x] == Null && kids[x] == []
  }

  /** The storage is well formed and kids are its child lists. */
  ghost predicate Wf(s: Nodes, kids: seq<seq<nat>>)
  {
    Sized(s) && |kids| == Cap(s) && AllLinked(s, kids) && Listed(s, kids) && Detached(s) && Bare(s, kids)
  }

  /** The position of x in a list that holds it. */
  ghost function IndexOf(cs: seq<nat>, x: nat): (i: nat)
    requires x in cs
    ensures i < |cs| && cs[i] == x
  {
    if cs[0] == x then 0 else 1 + IndexOf(cs[1..], x)
  }

  /** The list without position i. */
  ghost function Without(cs: seq<nat>, i: nat): (r: seq<nat>)
    requires i < |cs|
    ensures |r| == |cs| - 1
    ensures forall j :: 0 <= j < |r| ==> r[j] == (if j < i then cs[j] else cs[j + 1])
  {
    cs[..i] + cs[i + 1..]
  }

  /** Dropping one position keeps a list free of repeats and drops exactly that element. */
  lemma {:induction false} WithoutDistinct(cs: seq<nat>, i: nat)
    requires i < |cs| && Distinct(cs)
    ensures Distinct(Without(cs, i))
    ensures forall y :: y in Without(cs, i) <==> y in cs && y != cs[i]
  {
    var r := Without(cs, i);
    forall y | y in cs && y != cs[i] ensures y in r {
      var k :| 0 <= k < |cs| && cs[k] == y;
      if k < i { assert r[k] == y; } else { assert r[k - 1] == y; }
    }
  }

  /** The child lists once c has left its parent's list. */
  ghost function DetachKids(s: Nodes, kids: seq<seq<nat>>, c: nat): (r: seq<seq<nat>>)
    requires Wf(s, kids) && 0 < c < Cap(s)
    ensures |r| == |kids|
  {
    var p := s.parent[c];
    if s.mask[c] && p != Null then kids[p := Without(kids[p], IndexOf(kids[p], c))] else kids
  }

  // ---- construction and the component's own hooks ----

  /** The constructor: tables sized to the capacity with every link null, and no entity holding the component. */
  function New(capacity: nat): (s: Nodes)
    requires 0 < capacity
    ensures Sized(s) && Cap(s) == capacity
    ensures Wf(s, seq(capacity, _ => []))
  {
    var z := seq(capacity, _ => Null);
    var s := Nodes(seq(capacity, _ => false), z, z, z, z, z);
    assert forall p :: 0 <= p < capacity ==> Linked(s, p, []);
    s
  }

  /** initialize(e): every link of e null. */
  function Initialize(s: Nodes, e: nat): (r: Nodes)
    requires Sized(s) && e < Cap(s)
    ensures Sized(r) && r.mask == s.mask
  {
    s.(parent := s.parent[e := Null], first := s.first[e := Null], last := s.last[e := Null],
       next := s.next[e := Null], prev := s.prev[e := Null])
  }

  /** world_enable_node(e): the component database sets e's bit, then initializes e. */
  function EnableNode(s: Nodes, e: nat): (r: Nodes)
    requires Sized(s) && e < Cap(s)
    ensures Sized(r) && r.mask == s.mask[e := true]
    ensures r.parent[e] == Null && r.first[e] == Null && r.last[e] == Null
    ensures r.next[e] == Null && r.prev[e] == Null
  {
    Initialize(s.(mask := s.mask[e := true]), e)
  }

  /** On a well-formed storage, enabling an id without the component only sets its bit. */
  lemma {:induction false} EnableNodeWf(s: Nodes, kids: seq<seq<nat>>, e: nat)
    requires Wf(s, kids) && 0 < e < Cap(s) && !s.mask[e]
    ensures EnableNode(s, e) == s.(mask := s.mask[e := true])
    ensures Wf(EnableNode(s, e), kids)
  {
    assert Linked(s, e, kids[e]);
    assert s.parent[e] == Null && s.next[e] == Null && s.prev[e] == Null;
    assert s.parent[e := Null] == s.parent && s.next[e := Null] == s.next && s.prev[e := Null] == s.prev;
    assert s.first[e := Null] == s.first && s.last[e := Null] == s.last;
    MaskSetWf(s, kids, e);
  }

  /** Setting the bit of an id that is on no list and heads none keeps the storage well formed. */
  lemma {:induction false} MaskSetWf(s: Nodes, kids: seq<seq<nat>>, e: nat)
    requires Wf(s, kids) && 0 < e < Cap(s)
    ensures Wf(s.(mask := s.mask[e := true]), kids)
  {
    var r := s.(mask := s.mask[e := true]);
    forall p | 0 <= p < Cap(s) ensures Linked(r, p, kids[p]) {
      MaskSetLinked(s, e, p, kids[p]);
    }
    assert Listed(r, kids) && Detached(r);
    forall x | 0 <= x < Cap(r) && !r.mask[x] ensures r.parent[x] == Null && kids[x] == [] {
      assert !s.mask[x];
    }
  }

  /** Setting a bit keeps every list linked: links never ask for a bit to be clear. */
  lemma {:induction false} MaskSetLinked(s: Nodes, e: nat, p: nat, cs: seq<nat>)
    requires Sized(s) && e < Cap(s) && p < Cap(s) && Linked(s, p, cs)
    ensures Linked(s.(mask := s.mask[e := true]), p, cs)
  {
    var r := s.(mask := s.mask[e := true]);
    forall i | 0 <= i < |cs| ensures r.mask[cs[i]] {
      assert s.mask[cs[i]];
    }
  }

  // ---- remove_from_parent ----

  /**
   * remove_from_parent(e): without the component or a parent, nothing
   * happens; otherwise the neighbours are linked to each other (or the
   * parent's first/last moves), and e's parent and sibling links are nulled.
   */
  function RemoveFromParent(s: Nodes, e: nat): (r: Nodes)
    requires Sized(s) && e < Cap(s)
    ensures Sized(r) && r.mask == s.mask
    ensures !s.mask[e] || s.parent[e] == Null ==> r == s
    ensures s.mask[e] ==> r.parent[e] == Null
  {
    if !s.mask[e] || s.parent[e] == Null then s
    else
      var par := s.parent[e];
      var prev := s.prev[e];
      var next := s.next[e];
      var s1 := if prev != Null then s.(next := s.next[prev := next]) else s.(first := s.first[par := next]);
      var s2 := if next != Null then s1.(prev := s1.prev[next := prev]) else s1.(last := s1.last[par := prev]);
      s2.(parent := s2.parent[e := Null], next := s2.next[e := Null], prev := s2.prev[e := Null])
  }

  /** The links of position k of a linked list. */
  lemma {:induction false} LinkedAt(s: Nodes, p: nat, cs: seq<nat>, k: nat)
    requires Sized(s) && p < Cap(s) && Linked(s, p, cs) && k < |cs|
    ensures 0 < cs[k] < Cap(s) && s.mask[cs[k]] && s.parent[cs[k]] == p
    ensures s.next[cs[k]] == (if k + 1 < |cs| then cs[k + 1] else Null)
    ensures s.prev[cs[k]] == (if 0 < k then cs[k - 1] else Null)
  {
  }

  /** A list stays linked when its ends and its members' links are kept. */
  lemma {:induction false} LinkedFrame(s: Nodes, r: Nodes, p: nat, cs: seq<nat>)
    requires Sized(s) && Sized(r) && Cap(r) == Cap(s) && p < Cap(s) && Linked(s, p, cs)
    requires r.first[p] == s.first[p] && r.last[p] == s.last[p]
    requires forall i :: 0 <= i < |cs| ==>
      r.mask[cs[i]] == s.mask[cs[i]] && r.parent[cs[i]] == s.parent[cs[i]]
      && r.next[cs[i]] == s.next[cs[i]] && r.prev[cs[i]] == s.prev[cs[i]]
    ensures Linked(r, p, cs)
  {
  }

  /** The links remove_from_parent leaves at one id x. */
  lemma {:induction false} RemoveFromParentAt(s: Nodes, e: nat, x: nat)
    requires Sized(s) && e < Cap(s) && s.mask[e] && s.parent[e] != Null && x < Cap(s)
    ensures var r := RemoveFromParent(s, e);
      var par := s.parent[e];
      var prev := s.prev[e];
      var next := s.next[e];
      r.mask[x] == s.mask[x]
      && r.parent[x] == (if x == e then Null else s.parent[x])
      && r.next[x] == (if x == e then Null else if x == prev && prev != Null then next else s.next[x])
      && r.prev[x] == (if x == e then Null else if x == next && next != Null then prev else s.prev[x])
      && r.first[x] == (if x == par && prev == Null then next else s.first[x])
      && r.last[x] == (if x == par && next == Null then prev else s.last[x])
  {
  }

  /** r is s with e unlinked from its parent's list: the table-by-table effect of remove_from_parent(e). */
  ghost predicate Unlinked(s: Nodes, e: nat, r: Nodes)
    requires Sized(s) && Sized(r) && Cap(r) == Cap(s) && e < Cap(s)
  {
    var par := s.parent[e];
    var prev := s.prev[e];
    var next := s.next[e];
    forall x :: 0 <= x < Cap(s) ==>
      r.mask[x] == s.mask[x]
      && r.parent[x] == (if x == e then Null else s.parent[x])
      && r.next[x] == (if x == e then Null else if x == prev && prev != Null then next else s.next[x])
      && r.prev[x] == (if x == e then Null else if x == next && next != Null then prev else s.prev[x])
      && r.first[x] == (if x == par && prev == Null then next else s.first[x])
      && r.last[x] == (if x == par && next == Null then prev else s.last[x])
  }

  /** remove_from_parent(e) on an id with the component and a parent unlinks it. */
  lemma {:induction false} RemoveFromParentUnlinks(s: Nodes, e: nat)
    requires Sized(s) && e < Cap(s) && s.mask[e] && s.parent[e] != Null
    ensures Unlinked(s, e, RemoveFromParent(s, e))
  {
    forall x | 0 <= x < Cap(s) { RemoveFromParentAt(s, e, x); }
  }

  /** Unlinking cs[i] leaves member k of p's list with its parent, and its links skip position i. */
  lemma {:induction false} UnlinkedSkips(s: Nodes, r: Nodes, p: nat, cs: seq<nat>, i: nat, k: nat)
    requires Sized(s) && Sized(r) && Cap(r) == Cap(s) && 0 < p < Cap(s) && Linked(s, p, cs)
    requires i < |cs| && k < |cs| && k != i && Unlinked(s, cs[i], r)
    ensures r.mask[cs[k]] && r.parent[cs[k]] == p
    ensures r.next[cs[k]] == (if k + 1 == i then (if i + 1 < |cs| then cs[i + 1] else Null)
                              else if k + 1 < |cs| then cs[k + 1] else Null)
    ensures r.prev[cs[k]] == (if k == i + 1 then (if 0 < i then cs[i - 1] else Null)
                              else if 0 < k then cs[k - 1] else Null)
  {
    var e := cs[i];
    var x := cs[k];
    assert x != e;
    LinkedAt(s, p, cs, k);
    LinkedAt(s, p, cs, i);
    if k + 1 < |cs| && k + 1 != i { assert cs[k + 1] != e; }
    if 0 < k && k != i + 1 { assert cs[k - 1] != e; }
    if 0 < i && k + 1 != i { assert cs[i - 1] != x; }
    if i + 1 < |cs| && k != i + 1 { assert cs[i + 1] != x; }
  }

  /** Unlinking cs[i] links position j of cs without position i to its new neighbours. */
  lemma {:induction false} UnlinkedMemberAt(s: Nodes, r: Nodes, p: nat, cs: seq<nat>, i: nat, j: nat)
    requires Sized(s) && Sized(r) && Cap(r) == Cap(s) && 0 < p < Cap(s) && Linked(s, p, cs)
    requires i < |cs| && Unlinked(s, cs[i], r) && j < |cs| - 1
    ensures Slot(r, p, Without(cs, i), j)
  {
    var ds := Without(cs, i);
    var k := if j < i then j else j + 1;
    UnlinkedSkips(s, r, p, cs, i, k);
    LinkedAt(s, p, cs, k);
    assert ds[j] == cs[k];
    if j + 1 < |ds| { assert ds[j + 1] == if j + 1 < i then cs[j + 1] else cs[j + 2]; }
    if 0 < j { assert ds[j - 1] == if j - 1 < i then cs[j - 1] else cs[j]; }
  }

  /** Unlinking cs[i] links every member of cs without position i to its new neighbours. */
  lemma {:induction false} UnlinkedMembers(s: Nodes, r: Nodes, p: nat, cs: seq<nat>, i: nat)
    requires Sized(s) && Sized(r) && Cap(r) == Cap(s) && 0 < p < Cap(s) && Linked(s, p, cs)
    requires i < |cs| && Unlinked(s, cs[i], r)
    ensures forall j :: 0 <= j < |Without(cs, i)| ==> Slot(r, p, Without(cs, i), j)
  {
    forall j | 0 <= j < |Without(cs, i)|
      ensures Slot(r, p, Without(cs, i), j)
    {
      UnlinkedMemberAt(s, r, p, cs, i, j);
    }
  }

  /** Unlinking cs[i] makes p's first and last the ends of cs without position i. */
  lemma {:induction false} UnlinkedEnds(s: Nodes, r: Nodes, p: nat, cs: seq<nat>, i: nat)
    requires Sized(s) && Sized(r) && Cap(r) == Cap(s) && 0 < p < Cap(s) && Linked(s, p, cs)
    requires i < |cs| && Unlinked(s, cs[i], r)
    ensures var ds := Without(cs, i);
      (ds == [] ==> r.first[p] == Null && r.last[p] == Null)
      && (ds != [] ==> r.first[p] == ds[0] && r.last[p] == ds[|ds| - 1])
  {
    var ds := Without(cs, i);
    LinkedAt(s, p, cs, i);
    assert r.first[p] == (if 0 == i then s.next[cs[i]] else s.first[p]);
    assert r.last[p] == (if i + 1 == |cs| then s.prev[cs[i]] else s.last[p]);
    if ds != [] {
      if 0 < i { assert ds[0] == cs[0]; } else { assert ds[0] == cs[1]; }
      if i + 1 < |cs| { assert ds[|ds| - 1] == cs[|cs| - 1]; } else { assert ds[|ds| - 1] == cs[i - 1]; }
    }
  }

  /** After remove_from_parent(cs[i]), p's list is cs without position i. */
  lemma {:induction false} RemoveFromParentOwnList(s: Nodes, p: nat, cs: seq<nat>, i: nat)
    requires Sized(s) && 0 < p < Cap(s) && Linked(s, p, cs) && i < |cs|
    ensures Linked(RemoveFromParent(s, cs[i]), p, Without(cs, i))
  {
    LinkedAt(s, p, cs, i);
    var r := RemoveFromParent(s, cs[i]);
    RemoveFromParentUnlinks(s, cs[i]);
    WithoutDistinct(cs, i);
    UnlinkedMembers(s, r, p, cs, i);
    UnlinkedEnds(s, r, p, cs, i);
    LinkedFromSlots(r, p, Without(cs, i));
  }

  /** Unlinking e leaves every list but its parent's alone. */
  lemma {:induction false} UnlinkedOtherLists(s: Nodes, kids: seq<seq<nat>>, r: Nodes, e: nat)
    requires Wf(s, kids) && 0 < e < Cap(s) && s.mask[e] && s.parent[e] != Null
    requires Sized(r) && Cap(r) == Cap(s) && Unlinked(s, e, r)
    ensures forall q :: 0 <= q < Cap(s) && q != s.parent[e] ==> Linked(r, q, kids[q])
  {
    var p := s.parent[e];
    assert Linked(s, p, kids[p]);
    var i := IndexOf(kids[p], e);
    LinkedAt(s, p, kids[p], i);
    forall q | 0 <= q < Cap(s) && q != p ensures Linked(r, q, kids[q]) {
      assert Linked(s, q, kids[q]);
      forall k | 0 <= k < |kids[q]|
        ensures r.mask[kids[q][k]] == s.mask[kids[q][k]] && r.parent[kids[q][k]] == s.parent[kids[q][k]]
        ensures r.next[kids[q][k]] == s.next[kids[q][k]] && r.prev[kids[q][k]] == s.prev[kids[q][k]]
      {
        LinkedAt(s, q, kids[q], k);
      }
      LinkedFrame(s, r, q, kids[q]);
    }
  }

  /** Unlinking e keeps every id with a parent on its parent's list, once e is off its own. */
  lemma {:induction false} UnlinkedListed(s: Nodes, kids: seq<seq<nat>>, r: Nodes, e: nat)
    requires Wf(s, kids) && 0 < e < Cap(s) && s.mask[e] && s.parent[e] != Null
    requires Sized(r) && Cap(r) == Cap(s) && Unlinked(s, e, r)
    ensures Listed(r, DetachKids(s, kids, e))
  {
    var p := s.parent[e];
    var cs := kids[p];
    var kids' := DetachKids(s, kids, e);
    WithoutDistinct(cs, IndexOf(cs, e));
    forall x | 0 < x < Cap(r) && r.parent[x] != Null ensures x in kids'[r.parent[x]] {
      assert x != e && r.parent[x] == s.parent[x];
    }
  }

  /** Unlinking e keeps ids without a parent free of sibling links. */
  lemma {:induction false} UnlinkedDetached(s: Nodes, kids: seq<seq<nat>>, r: Nodes, e: nat)
    requires Wf(s, kids) && 0 < e < Cap(s) && s.mask[e] && s.parent[e] != Null
    requires Sized(r) && Cap(r) == Cap(s) && Unlinked(s, e, r)
    ensures Detached(r)
  {
    var p := s.parent[e];
    assert Linked(s, p, kids[p]);
    LinkedAt(s, p, kids[p], IndexOf(kids[p], e));
    forall x | 0 < x < Cap(r) && r.parent[x] == Null ensures r.next[x] == Null && r.prev[x] == Null {
      if x != e {
        assert s.parent[x] == Null;
      }
    }
  }

  /** Unlinking e keeps ids without the component bare. */
  lemma {:induction false} UnlinkedBare(s: Nodes, kids: seq<seq<nat>>, r: Nodes, e: nat)
    requires Wf(s, kids) && 0 < e < Cap(s) && s.mask[e] && s.parent[e] != Null
    requires Sized(r) && Cap(r) == Cap(s) && Unlinked(s, e, r)
    ensures Bare(r, DetachKids(s, kids, e))
  {
    var p := s.parent[e];
    assert e in kids[p];
    assert s.mask[p];
  }

  /** Unlinking e keeps the storage well formed, with e taken off its parent's list. */
  lemma {:induction false} UnlinkedWf(s: Nodes, kids: seq<seq<nat>>, r: Nodes, e: nat)
    requires Wf(s, kids) && 0 < e < Cap(s) && s.mask[e] && s.parent[e] != Null
    requires Sized(r) && Cap(r) == Cap(s) && Unlinked(s, e, r)
    requires Linked(r, s.parent[e], Without(kids[s.parent[e]], IndexOf(kids[s.parent[e]], e)))
    ensures Wf(r, DetachKids(s, kids, e))
  {
    UnlinkedOtherLists(s, kids, r, e);
    UnlinkedListed(s, kids, r, e);
    UnlinkedDetached(s, kids, r, e);
    UnlinkedBare(s, kids, r, e);
  }

  /**
   * remove_from_parent(e) keeps the storage well formed: e leaves its
   * parent's list and every other list is kept. Without the component or a
   * parent nothing changes.
   */
  lemma {:induction false} RemoveFromParentWf(s: Nodes, kids: seq<seq<nat>>, e: nat)
    requires Wf(s, kids) && 0 < e < Cap(s)
    ensures Wf(RemoveFromParent(s, e), DetachKids(s, kids, e))
    ensures !s.mask[e] || s.parent[e] == Null ==> RemoveFromParent(s, e) == s
    ensures RemoveFromParent(s, e).parent[e] == Null
  {
    if s.mask[e] && s.parent[e] != Null {
      var p := s.parent[e];
      assert Linked(s, p, kids[p]);
      var i := IndexOf(kids[p], e);
      RemoveFromParentOwnList(s, p, kids[p], i);
      RemoveFromParentUnlinks(s, e);
      UnlinkedWf(s, kids, RemoveFromParent(s, e), e);
    }
  }

  // ---- splicing a detached node into a list ----

  /** The list with c inserted at position j. */
  ghost function Insert(cs: seq<nat>, j: nat, c: nat): (r: seq<nat>)
    requires j <= |cs|
    ensures |r| == |cs| + 1
    ensures forall m :: 0 <= m < |r| ==> r[m] == (if m < j then cs[m] else if m == j then c else cs[m - 1])
  {
    cs[..j] + [c] + cs[j..]
  }

  /** Inserting at either end is prepending or appending. */
  lemma {:induction false} InsertAtEnds(cs: seq<nat>, c: nat)
    ensures Insert(cs, 0, c) == [c] + cs
    ensures Insert(cs, |cs|, c) == cs + [c]
  {
  }

  /** Inserting a new element keeps a list free of repeats and adds exactly that element. */
  lemma {:induction false} InsertDistinct(cs: seq<nat>, j: nat, c: nat)
    requires j <= |cs| && Distinct(cs) && c !in cs
    ensures Distinct(Insert(cs, j, c))
    ensures forall y :: y in Insert(cs, j, c) <==> y in cs || y == c
  {
    var r := Insert(cs, j, c);
    assert r[j] == c;
    forall y | y in cs ensures y in r {
      var k :| 0 <= k < |cs| && cs[k] == y;
      if k < j { assert r[k] == y; } else { assert r[k + 1] == y; }
    }
  }

  /**
   * r is s with c spliced into p's list cs at position j: c takes p as
   * parent and its neighbours as siblings, the neighbours (or p's first and
   * last) point at c, and nothing else changes.
   */
  ghost predicate Spliced(s: Nodes, p: nat, cs: seq<nat>, j: nat, c: nat, r: Nodes)
    requires Sized(s) && Sized(r) && Cap(r) == Cap(s) && j <= |cs|
  {
    var before := if 0 < j then cs[j - 1] else Null;
    var after := if j < |cs| then cs[j] else Null;
    forall x :: 0 <= x < Cap(s) ==>
      r.mask[x] == s.mask[x]
      && r.parent[x] == (if x == c then p else s.parent[x])
      && r.next[x] == (if x == c then after else if x == before && before != Null then c else s.next[x])
      && r.prev[x] == (if x == c then before else if x == after && after != Null then c else s.prev[x])
      && r.first[x] == (if x == p && j == 0 then c else s.first[x])
      && r.last[x] == (if x == p && j == |cs| then c else s.last[x])
  }

  /** A node without a parent is on no list. */
  lemma {:induction false} DetachedNotListed(s: Nodes, kids: seq<seq<nat>>, c: nat, q: nat)
    requires Wf(s, kids) && 0 < c < Cap(s) && s.parent[c] == Null && q < Cap(s)
    ensures c !in kids[q]
  {
    if q == Null {
      assert !s.mask[q];
    } else {
      assert Linked(s, q, kids[q]);
      forall k | 0 <= k < |kids[q]| ensures kids[q][k] != c {
        LinkedAt(s, q, kids[q], k);
      }
    }
  }

  /** Splicing c at position j leaves a member before j linked to its old neighbours, or to c. */
  lemma {:induction false} SplicedBefore(s: Nodes, r: Nodes, p: nat, cs: seq<nat>, j: nat, c: nat, m: nat)
    requires Sized(s) && Sized(r) && Cap(r) == Cap(s) && 0 < p < Cap(s) && Linked(s, p, cs)
    requires j <= |cs| && c !in cs && Spliced(s, p, cs, j, c, r)
    requires m < j
    ensures r.mask[cs[m]] && r.parent[cs[m]] == p
    ensures r.next[cs[m]] == (if m + 1 < j then cs[m + 1] else c)
    ensures r.prev[cs[m]] == (if 0 < m then cs[m - 1] else Null)
  {
    LinkedAt(s, p, cs, m);
    if m + 1 < j { assert cs[j - 1] != cs[m]; }
    if j < |cs| { assert cs[j] != cs[m]; }
  }

  /** Splicing c at position j leaves a member from j on linked to its old neighbours, or to c. */
  lemma {:induction false} SplicedAfter(s: Nodes, r: Nodes, p: nat, cs: seq<nat>, j: nat, c: nat, m: nat)
    requires Sized(s) && Sized(r) && Cap(r) == Cap(s) && 0 < p < Cap(s) && Linked(s, p, cs)
    requires j <= |cs| && c !in cs && Spliced(s, p, cs, j, c, r)
    requires j <= m < |cs|
    ensures r.mask[cs[m]] && r.parent[cs[m]] == p
    ensures r.next[cs[m]] == (if m + 1 < |cs| then cs[m + 1] else Null)
    ensures r.prev[cs[m]] == (if j < m then cs[m - 1] else c)
  {
    LinkedAt(s, p, cs, m);
    if 0 < j { assert cs[j - 1] != cs[m]; }
    if j < m { assert cs[j] != cs[m]; }
  }

  /** Splicing c at position j links c to the members around position j. */
  lemma {:induction false} SplicedAt(s: Nodes, r: Nodes, p: nat, cs: seq<nat>, j: nat, c: nat)
    requires Sized(s) && Sized(r) && Cap(r) == Cap(s) && 0 < p < Cap(s) && Linked(s, p, cs)
    requires j <= |cs| && 0 < c < Cap(s) && s.mask[c] && Spliced(s, p, cs, j, c, r)
    ensures r.mask[c] && r.parent[c] == p
    ensures r.next[c] == (if j < |cs| then cs[j] else Null)
    ensures r.prev[c] == (if 0 < j then cs[j - 1] else Null)
  {
  }

  /** Splicing c at position j links position m of the new list to its neighbours. */
  lemma {:induction false} SplicedMemberAt(s: Nodes, r: Nodes, p: nat, cs: seq<nat>, j: nat, c: nat, m: nat)
    requires Sized(s) && Sized(r) && Cap(r) == Cap(s) && 0 < p < Cap(s) && Linked(s, p, cs)
    requires j <= |cs| && 0 < c < Cap(s) && s.mask[c] && c !in cs && Spliced(s, p, cs, j, c, r)
    requires m <= |cs|
    ensures Slot(r, p, Insert(cs, j, c), m)
  {
    if m < j {
      SplicedSlotBefore(s, r, p, cs, j, c, m);
    } else if m == j {
      SplicedSlotAt(s, r, p, cs, j, c);
    } else {
      SplicedSlotAfter(s, r, p, cs, j, c, m);
    }
  }

  lemma {:induction false} SplicedSlotBefore(s: Nodes, r: Nodes, p: nat, cs: seq<nat>, j: nat, c: nat, m: nat)
    requires Sized(s) && Sized(r) && Cap(r) == Cap(s) && 0 < p < Cap(s) && Linked(s, p, cs)
    requires j <= |cs| && 0 < c < Cap(s) && s.mask[c] && c !in cs && Spliced(s, p, cs, j, c, r)
    requires m < j
    ensures Slot(r, p, Insert(cs, j, c), m)
  {
    var ds := Insert(cs, j, c);
    LinkedAt(s, p, cs, m);
    SplicedBefore(s, r, p, cs, j, c, m);
    assert ds[m] == cs[m];
    assert ds[m + 1] == (if m + 1 < j then cs[m + 1] else c);
    if 0 < m { assert ds[m - 1] == cs[m - 1]; }
  }

  lemma {:induction false} SplicedSlotAt(s: Nodes, r: Nodes, p: nat, cs: seq<nat>, j: nat, c: nat)
    requires Sized(s) && Sized(r) && Cap(r) == Cap(s) && 0 < p < Cap(s) && Linked(s, p, cs)
    requires j <= |cs| && 0 < c < Cap(s) && s.mask[c] && c !in cs && Spliced(s, p, cs, j, c, r)
    ensures Slot(r, p, Insert(cs, j, c), j)
  {
    var ds := Insert(cs, j, c);
    SplicedAt(s, r, p, cs, j, c);
    if j + 1 < |ds| { assert ds[j + 1] == cs[j]; }
    if 0 < j { assert ds[j - 1] == cs[j - 1]; }
  }

  lemma {:induction false} SplicedSlotAfter(s: Nodes, r: Nodes, p: nat, cs: seq<nat>, j: nat, c: nat, m: nat)
    requires Sized(s) && Sized(r) && Cap(r) == Cap(s) && 0 < p < Cap(s) && Linked(s, p, cs)
    requires j <= |cs| && 0 < c < Cap(s) && s.mask[c] && c !in cs && Spliced(s, p, cs, j, c, r)
    requires j < m <= |cs|
    ensures Slot(r, p, Insert(cs, j, c), m)
  {
    var ds := Insert(cs, j, c);
    LinkedAt(s, p, cs, m - 1);
    SplicedAfter(s, r, p, cs, j, c, m - 1);
    assert ds[m] == cs[m - 1];
    if m + 1 < |ds| { assert ds[m + 1] == cs[m]; }
    assert ds[m - 1] == (if j < m - 1 then cs[m - 2] else c);
  }

  /** Splicing c at position j links every member of the new list to its neighbours. */
  lemma {:induction false} SplicedMembers(s: Nodes, r: Nodes, p: nat, cs: seq<nat>, j: nat, c: nat)
    requires Sized(s) && Sized(r) && Cap(r) == Cap(s) && 0 < p < Cap(s) && Linked(s, p, cs)
    requires j <= |cs| && 0 < c < Cap(s) && s.mask[c] && c !in cs && Spliced(s, p, cs, j, c, r)
    ensures forall m :: 0 <= m < |Insert(cs, j, c)| ==> Slot(r, p, Insert(cs, j, c), m)
  {
    forall m | 0 <= m < |Insert(cs, j, c)|
      ensures Slot(r, p, Insert(cs, j, c), m)
    {
      SplicedMemberAt(s, r, p, cs, j, c, m);
    }
  }

  /** After the splice, p's list is cs with c at position j. */
  lemma {:induction false} SplicedOwnList(s: Nodes, r: Nodes, p: nat, cs: seq<nat>, j: nat, c: nat)
    requires Sized(s) && Sized(r) && Cap(r) == Cap(s) && 0 < p < Cap(s) && Linked(s, p, cs)
    requires j <= |cs| && 0 < c < Cap(s) && s.mask[c] && c !in cs && Spliced(s, p, cs, j, c, r)
    ensures Linked(r, p, Insert(cs, j, c))
  {
    var ds := Insert(cs, j, c);
    InsertDistinct(cs, j, c);
    SplicedMembers(s, r, p, cs, j, c);
    assert r.first[p] == (if j == 0 then c else s.first[p]);
    assert r.last[p] == (if j == |cs| then c else s.last[p]);
    assert ds[0] == (if 0 < j then cs[0] else c);
    assert ds[|ds| - 1] == (if j < |cs| then cs[|cs| - 1] else c);
    LinkedFromSlots(r, p, ds);
  }

  /** The splice leaves every list but p's alone. */
  lemma {:induction false} SplicedOtherLists(s: Nodes, kids: seq<seq<nat>>, r: Nodes, p: nat, j: nat, c: nat)
    requires Wf(s, kids) && 0 < p < Cap(s) && j <= |kids[p]| && 0 < c < Cap(s) && s.parent[c] == Null
    requires Sized(r) && Cap(r) == Cap(s) && Spliced(s, p, kids[p], j, c, r)
    ensures forall q :: 0 <= q < Cap(s) && q != p ==> Linked(r, q, kids[q])
  {
    var cs := kids[p];
    assert Linked(s, p, cs);
    if 0 < j { LinkedAt(s, p, cs, j - 1); }
    if j < |cs| { LinkedAt(s, p, cs, j); }
    forall q | 0 <= q < Cap(s) && q != p ensures Linked(r, q, kids[q]) {
      assert Linked(s, q, kids[q]);
      DetachedNotListed(s, kids, c, q);
      forall k | 0 <= k < |kids[q]|
        ensures r.mask[kids[q][k]] == s.mask[kids[q][k]] && r.parent[kids[q][k]] == s.parent[kids[q][k]]
        ensures r.next[kids[q][k]] == s.next[kids[q][k]] && r.prev[kids[q][k]] == s.prev[kids[q][k]]
      {
        LinkedAt(s, q, kids[q], k);
      }
      LinkedFrame(s, r, q, kids[q]);
    }
  }

  /** The splice keeps every id with a parent on its parent's list. */
  lemma {:induction false} SplicedListed(s: Nodes, kids: seq<seq<nat>>, r: Nodes, p: nat, j: nat, c: nat)
    requires Wf(s, kids) && 0 < p < Cap(s) && j <= |kids[p]| && 0 < c < Cap(s) && s.parent[c] == Null
    requires Sized(r) && Cap(r) == Cap(s) && Spliced(s, p, kids[p], j, c, r)
    ensures Listed(r, kids[p := Insert(kids[p], j, c)])
  {
    var kids' := kids[p := Insert(kids[p], j, c)];
    forall x | 0 < x < Cap(r) && r.parent[x] != Null ensures x in kids'[r.parent[x]] {
      assert r.parent[x] == (if x == c then p else s.parent[x]);
      InsertMembers(kids[p], j, c, x);
    }
  }

  /** The list after an insertion holds the inserted element and every old one. */
  lemma {:induction false} InsertMembers(cs: seq<nat>, j: nat, c: nat, x: nat)
    requires j <= |cs|
    ensures x in Insert(cs, j, c) <==> x == c || x in cs
  {
    assert Insert(cs, j, c) == cs[..j] + [c] + cs[j..];
    assert cs == cs[..j] + cs[j..];
  }

  /** The splice keeps ids without a parent free of sibling links. */
  lemma {:induction false} SplicedDetached(s: Nodes, kids: seq<seq<nat>>, r: Nodes, p: nat, j: nat, c: nat)
    requires Wf(s, kids) && 0 < p < Cap(s) && j <= |kids[p]| && 0 < c < Cap(s) && s.parent[c] == Null
    requires Sized(r) && Cap(r) == Cap(s) && Spliced(s, p, kids[p], j, c, r)
    ensures Detached(r)
  {
    var cs := kids[p];
    assert Linked(s, p, cs);
    if 0 < j { LinkedAt(s, p, cs, j - 1); }
    if j < |cs| { LinkedAt(s, p, cs, j); }
  }

  /** The splice keeps ids without the component bare. */
  lemma {:induction false} SplicedBare(s: Nodes, kids: seq<seq<nat>>, r: Nodes, p: nat, j: nat, c: nat)
    requires Sized(s) && |kids| == Cap(s) && Bare(s, kids)
    requires p < Cap(s) && s.mask[p] && j <= |kids[p]| && c < Cap(s) && s.mask[c]
    requires Sized(r) && Cap(r) == Cap(s) && Spliced(s, p, kids[p], j, c, r)
    ensures Bare(r, kids[p := Insert(kids[p], j, c)])
  {
    var k := kids[p := Insert(kids[p], j, c)];
    assert r.mask[Null] == s.mask[Null];
    forall x | 0 <= x < Cap(r) && !r.mask[x] ensures r.parent[x] == Null && k[x] == [] {
      assert r.mask[x] == s.mask[x] && r.parent[x] == (if x == c then p else s.parent[x]);
    }
  }

  /** Splicing a detached node with the component into a list keeps the storage well formed. */
  lemma {:induction false} SplicedWf(s: Nodes, kids: seq<seq<nat>>, r: Nodes, p: nat, j: nat, c: nat)
    requires Wf(s, kids) && 0 < p < Cap(s) && s.mask[p] && j <= |kids[p]|
    requires 0 < c < Cap(s) && s.mask[c] && s.parent[c] == Null
    requires Sized(r) && Cap(r) == Cap(s) && Spliced(s, p, kids[p], j, c, r)
    ensures Wf(r, kids[p := Insert(kids[p], j, c)])
  {
    assert Linked(s, p, kids[p]);
    DetachedNotListed(s, kids, c, p);
    SplicedOwnList(s, r, p, kids[p], j, c);
    SplicedOtherLists(s, kids, r, p, j, c);
    SplicedListed(s, kids, r, p, j, c);
    SplicedDetached(s, kids, r, p, j, c);
    SplicedBare(s, kids, r, p, j, c);
  }

  // ---- insert_after, insert_before, append, prepend ----

  /**
   * The steps every insertion starts with: give c the component if it has
   * none, then remove_from_parent(c). (append and prepend guard the call
   * with `parent != null`, the test remove_from_parent makes first.)
   */
  function Take(s: Nodes, c: nat): (r: Nodes)
    requires Sized(s) && c < Cap(s)
    ensures Sized(r) && Cap(r) == Cap(s)
    ensures r.mask == s.mask[c := true] && r.parent[c] == Null
  {
    var s1 := if !s.mask[c] then EnableNode(s, c) else s;
    RemoveFromParent(s1, c)
  }

  /** Taking c keeps the storage well formed and leaves c with the component, detached. */
  lemma {:induction false} TakeWf(s: Nodes, kids: seq<seq<nat>>, c: nat)
    requires Wf(s, kids) && 0 < c < Cap(s)
    ensures var t := Take(s, c);
      Wf(t, DetachKids(s, kids, c)) && t.mask == s.mask[c := true]
      && t.parent[c] == Null && t.next[c] == Null && t.prev[c] == Null
      && forall x :: 0 <= x < Cap(s) && x != c ==> t.parent[x] == s.parent[x]
  {
    if !s.mask[c] {
      EnableNodeWf(s, kids, c);
    } else if s.parent[c] != Null {
      RemoveFromParentWf(s, kids, c);
      RemoveFromParentUnlinks(s, c);
    } else {
      RemoveFromParentWf(s, kids, c);
    }
  }

  /** The last steps of append(e, c): link c after e's last child, or as its only child, and make e its parent. */
  function LinkLast(s: Nodes, e: nat, c: nat): (r: Nodes)
    requires Sized(s) && e < Cap(s) && c < Cap(s)
    ensures Sized(r) && Cap(r) == Cap(s)
    ensures r.mask == s.mask && r.parent == s.parent[c := e] && r.last[e] == c
  {
    var tail := s.last[e];
    var s1 := if tail != Null then s.(next := s.next[tail := c], prev := s.prev[c := tail], last := s.last[e := c])
              else s.(first := s.first[e := c], last := s.last[e := c]);
    s1.(parent := s1.parent[c := e])
  }

  /** The last steps of prepend(e, c): link c before e's first child, or as its only child, and make e its parent. */
  function LinkFirst(s: Nodes, e: nat, c: nat): (r: Nodes)
    requires Sized(s) && e < Cap(s) && c < Cap(s)
    ensures Sized(r) && Cap(r) == Cap(s)
    ensures r.mask == s.mask && r.parent == s.parent[c := e] && r.first[e] == c
  {
    var head := s.first[e];
    var s1 := if head != Null then s.(next := s.next[c := head], prev := s.prev[head := c], first := s.first[e := c])
              else s.(first := s.first[e := c], last := s.last[e := c]);
    s1.(parent := s1.parent[c := e])
  }

  /** The last steps of insert_after(e, c), with par the parent e had on entry. */
  function LinkAfter(s: Nodes, par: nat, e: nat, c: nat): (r: Nodes)
    requires Sized(s) && par < Cap(s) && e < Cap(s) && c < Cap(s)
    ensures Sized(r) && Cap(r) == Cap(s)
  {
    var next := s.next[e];
    var s1 := s.(next := s.next[e := c], prev := s.prev[c := e]);
    var s2 := if next != Null then s1.(prev := s1.prev[next := c], next := s1.next[c := next])
              else s1.(last := s1.last[par := c]);
    s2.(parent := s2.parent[c := s2.parent[e]])
  }

  /** The last steps of insert_before(e, c), with par the parent e had on entry. */
  function LinkBefore(s: Nodes, par: nat, e: nat, c: nat): (r: Nodes)
    requires Sized(s) && par < Cap(s) && e < Cap(s) && c < Cap(s)
    ensures Sized(r) && Cap(r) == Cap(s)
  {
    var prev := s.prev[e];
    var s1 := s.(prev := s.prev[e := c], next := s.next[c := e]);
    var s2 := if prev != Null then s1.(next := s1.next[prev := c], prev := s1.prev[c := prev])
              else s1.(first := s1.first[par := c]);
    s2.(parent := s2.parent[c := s2.parent[e]])
  }

  /** append(e, c): c becomes the last child of e; both get the component first if they lack it. */
  function Append(s: Nodes, e: nat, c: nat): (r: Nodes)
    requires Sized(s) && e < Cap(s) && c < Cap(s)
    ensures Sized(r) && Cap(r) == Cap(s)
    ensures r.mask == s.mask[e := true][c := true] && r.parent[c] == e && r.last[e] == c
  {
    var s1 := if !s.mask[e] then EnableNode(s, e) else s;
    LinkLast(Take(s1, c), e, c)
  }

  /** prepend(e, c): c becomes the first child of e; both get the component first if they lack it. */
  function Prepend(s: Nodes, e: nat, c: nat): (r: Nodes)
    requires Sized(s) && e < Cap(s) && c < Cap(s)
    ensures Sized(r) && Cap(r) == Cap(s)
    ensures r.mask == s.mask[e := true][c := true] && r.parent[c] == e && r.first[e] == c
  {
    var s1 := if !s.mask[e] then EnableNode(s, e) else s;
    LinkFirst(Take(s1, c), e, c)
  }

  /** insert_after(e, c): c becomes the sibling right after e; an e without a parent fails the source's assertion. */
  function InsertAfter(s: Nodes, e: nat, c: nat): (r: Option<Nodes>)
    requires Sized(s) && e < Cap(s) && c < Cap(s)
    ensures r.Some? <==> s.parent[e] != Null
    ensures r.Some? ==> Sized(r.value) && Cap(r.value) == Cap(s)
  {
    var par := s.parent[e];
    if par == Null then None else Some(LinkAfter(Take(s, c), par, e, c))
  }

  /** insert_before(e, c): c becomes the sibling right before e; an e without a parent fails the source's assertion. */
  function InsertBefore(s: Nodes, e: nat, c: nat): (r: Option<Nodes>)
    requires Sized(s) && e < Cap(s) && c < Cap(s)
    ensures r.Some? <==> s.parent[e] != Null
    ensures r.Some? ==> Sized(r.value) && Cap(r.value) == Cap(s)
  {
    var par := s.parent[e];
    if par == Null then None else Some(LinkBefore(Take(s, c), par, e, c))
  }

  /** On a well-formed storage, linking a detached c last under e splices it at the end of e's list. */
  lemma {:induction false} LinkLastSplices(s: Nodes, kids: seq<seq<nat>>, e: nat, c: nat)
    requires Wf(s, kids) && 0 < e < Cap(s) && 0 < c < Cap(s) && e != c
    requires s.parent[c] == Null && s.next[c] == Null && s.prev[c] == Null
    ensures Spliced(s, e, kids[e], |kids[e]|, c, LinkLast(s, e, c))
  {
    assert Linked(s, e, kids[e]);
    LinkLastSplicesList(s, e, kids[e], c);
  }

  lemma {:induction false} LinkLastSplicesList(s: Nodes, e: nat, cs: seq<nat>, c: nat)
    requires Sized(s) && 0 < e < Cap(s) && 0 < c < Cap(s) && e != c && Linked(s, e, cs)
    requires s.parent[c] == Null && s.next[c] == Null && s.prev[c] == Null
    ensures Spliced(s, e, cs, |cs|, c, LinkLast(s, e, c))
  {
    if cs != [] { LinkedAt(s, e, cs, |cs| - 1); }
  }

  /** On a well-formed storage, linking a detached c first under e splices it at the front of e's list. */
  lemma {:induction false} LinkFirstSplices(s: Nodes, kids: seq<seq<nat>>, e: nat, c: nat)
    requires Wf(s, kids) && 0 < e < Cap(s) && 0 < c < Cap(s) && e != c
    requires s.parent[c] == Null && s.next[c] == Null && s.prev[c] == Null
    ensures Spliced(s, e, kids[e], 0, c, LinkFirst(s, e, c))
  {
    assert Linked(s, e, kids[e]);
    LinkFirstSplicesList(s, e, kids[e], c);
  }

  lemma {:induction false} LinkFirstSplicesList(s: Nodes, e: nat, cs: seq<nat>, c: nat)
    requires Sized(s) && 0 < e < Cap(s) && 0 < c < Cap(s) && e != c && Linked(s, e, cs)
    requires s.parent[c] == Null && s.next[c] == Null && s.prev[c] == Null
    ensures Spliced(s, e, cs, 0, c, LinkFirst(s, e, c))
  {
    if cs != [] { LinkedAt(s, e, cs, 0); }
  }

  /** The links LinkAfter leaves at one id x, for a detached c that is not e's next sibling. */
  lemma {:induction false} LinkAfterAt(s: Nodes, par: nat, e: nat, c: nat, x: nat)
    requires Sized(s) && par < Cap(s) && e < Cap(s) && c < Cap(s) && x < Cap(s) && e != c
    requires s.next[c] == Null && s.next[e] != c
    ensures var r := LinkAfter(s, par, e, c);
      var next := s.next[e];
      r.mask[x] == s.mask[x]
      && r.parent[x] == (if x == c then s.parent[e] else s.parent[x])
      && r.next[x] == (if x == c then next else if x == e then c else s.next[x])
      && r.prev[x] == (if x == c then e else if x == next && next != Null then c else s.prev[x])
      && r.first[x] == s.first[x]
      && r.last[x] == (if x == par && next == Null then c else s.last[x])
  {
  }

  /** The links LinkBefore leaves at one id x, for a detached c that is not e's previous sibling. */
  lemma {:induction false} LinkBeforeAt(s: Nodes, par: nat, e: nat, c: nat, x: nat)
    requires Sized(s) && par < Cap(s) && e < Cap(s) && c < Cap(s) && x < Cap(s) && e != c
    requires s.prev[c] == Null && s.prev[e] != c
    ensures var r := LinkBefore(s, par, e, c);
      var prev := s.prev[e];
      r.mask[x] == s.mask[x]
      && r.parent[x] == (if x == c then s.parent[e] else s.parent[x])
      && r.next[x] == (if x == c then e else if x == prev && prev != Null then c else s.next[x])
      && r.prev[x] == (if x == c then prev else if x == e then c else s.prev[x])
      && r.first[x] == (if x == par && prev == Null then c else s.first[x])
      && r.last[x] == s.last[x]
  {
  }

  /** On a well-formed storage, linking a detached c after e splices it right after e in e's parent's list. */
  lemma {:induction false} LinkAfterSplices(s: Nodes, kids: seq<seq<nat>>, e: nat, c: nat)
    requires Wf(s, kids) && 0 < e < Cap(s) && s.parent[e] != Null && 0 < c < Cap(s) && e != c
    requires s.parent[c] == Null && s.next[c] == Null && s.prev[c] == Null
    ensures var p := s.parent[e];
      e in kids[p] && Spliced(s, p, kids[p], IndexOf(kids[p], e) + 1, c, LinkAfter(s, p, e, c))
  {
    var p := s.parent[e];
    var cs := kids[p];
    assert Linked(s, p, cs);
    var i := IndexOf(cs, e);
    LinkedAt(s, p, cs, i);
    if i + 1 < |cs| { LinkedAt(s, p, cs, i + 1); }
    forall x | 0 <= x < Cap(s) { LinkAfterAt(s, p, e, c, x); }
  }

  /** On a well-formed storage, linking a detached c before e splices it right before e in e's parent's list. */
  lemma {:induction false} LinkBeforeSplices(s: Nodes, kids: seq<seq<nat>>, e: nat, c: nat)
    requires Wf(s, kids) && 0 < e < Cap(s) && s.parent[e] != Null && 0 < c < Cap(s) && e != c
    requires s.parent[c] == Null && s.next[c] == Null && s.prev[c] == Null
    ensures var p := s.parent[e];
      e in kids[p] && Spliced(s, p, kids[p], IndexOf(kids[p], e), c, LinkBefore(s, p, e, c))
  {
    var p := s.parent[e];
    var cs := kids[p];
    assert Linked(s, p, cs);
    var i := IndexOf(cs, e);
    LinkedAt(s, p, cs, i);
    if 0 < i { LinkedAt(s, p, cs, i - 1); }
    forall x | 0 <= x < Cap(s) { LinkBeforeAt(s, p, e, c, x); }
  }

  /** Giving e the component if it lacks it keeps the storage well formed and the lists unchanged. */
  lemma {:induction false} EnableIfMissingWf(s: Nodes, kids: seq<seq<nat>>, e: nat, c: nat)
    requires Wf(s, kids) && 0 < e < Cap(s) && 0 < c < Cap(s) && e != c
    ensures var s1 := if !s.mask[e] then EnableNode(s, e) else s;
      Wf(s1, kids) && s1.mask[e] && DetachKids(s1, kids, c) == DetachKids(s, kids, c)
  {
    if !s.mask[e] { EnableNodeWf(s, kids, e); }
  }

  /**
   * append(e, c) keeps the storage well formed: c leaves its old parent's
   * list and becomes the last child of e; every other list is kept.
   */
  lemma {:induction false} AppendWf(s: Nodes, kids: seq<seq<nat>>, e: nat, c: nat)
    requires Wf(s, kids) && 0 < e < Cap(s) && 0 < c < Cap(s) && e != c
    ensures var k := DetachKids(s, kids, c);
      Wf(Append(s, e, c), k[e := k[e] + [c]])
  {
    var s1 := if !s.mask[e] then EnableNode(s, e) else s;
    EnableIfMissingWf(s, kids, e, c);
    TakeWf(s1, kids, c);
    var t := Take(s1, c);
    var k := DetachKids(s, kids, c);
    LinkLastSplices(t, k, e, c);
    SplicedWf(t, k, Append(s, e, c), e, |k[e]|, c);
    InsertAtEnds(k[e], c);
  }

  /**
   * prepend(e, c) keeps the storage well formed: c leaves its old parent's
   * list and becomes the first child of e; every other list is kept.
   */
  lemma {:induction false} PrependWf(s: Nodes, kids: seq<seq<nat>>, e: nat, c: nat)
    requires Wf(s, kids) && 0 < e < Cap(s) && 0 < c < Cap(s) && e != c
    ensures var k := DetachKids(s, kids, c);
      Wf(Prepend(s, e, c), k[e := [c] + k[e]])
  {
    var s1 := if !s.mask[e] then EnableNode(s, e) else s;
    EnableIfMissingWf(s, kids, e, c);
    TakeWf(s1, kids, c);
    var t := Take(s1, c);
    var k := DetachKids(s, kids, c);
    LinkFirstSplices(t, k, e, c);
    SplicedWf(t, k, Prepend(s, e, c), e, 0, c);
    InsertAtEnds(k[e], c);
  }

  /**
   * insert_after(e, c) on an e with a parent keeps the storage well formed:
   * c leaves its old list and sits right after e in e's parent's list.
   */
  lemma {:induction false} InsertAfterWf(s: Nodes, kids: seq<seq<nat>>, e: nat, c: nat)
    requires Wf(s, kids) && 0 < e < Cap(s) && 0 < c < Cap(s) && e != c && s.parent[e] != Null
    ensures var p := s.parent[e];
      var k := DetachKids(s, kids, c);
      e in k[p] && Wf(InsertAfter(s, e, c).value, k[p := Insert(k[p], IndexOf(k[p], e) + 1, c)])
  {
    var p := s.parent[e];
    var t := Take(s, c);
    var k := DetachKids(s, kids, c);
    TakeWf(s, kids, c);
    TakeParent(s, c);
    assert t.parent[e] == p;
    LinkAfterWf(t, k, p, e, c);
    var r := InsertAfter(s, e, c).value;
    var k' := k[p := Insert(k[p], IndexOf(k[p], e) + 1, c)];
    assert r == LinkAfter(t, p, e, c);
    assert Sized(r) && |k'| == Cap(r);
    assert AllLinked(r, k') && Listed(r, k') && Detached(r) && Bare(r, k');
  }

  /** Linking a detached c after e keeps the storage well formed. */
  lemma {:induction false} LinkAfterWf(t: Nodes, k: seq<seq<nat>>, p: nat, e: nat, c: nat)
    requires Wf(t, k) && 0 < e < Cap(t) && 0 < c < Cap(t) && e != c && p == t.parent[e] != Null
    requires t.mask[c] && t.parent[c] == Null && t.next[c] == Null && t.prev[c] == Null
    ensures e in k[p] && Wf(LinkAfter(t, p, e, c), k[p := Insert(k[p], IndexOf(k[p], e) + 1, c)])
  {
    LinkAfterSplices(t, k, e, c);
    assert t.mask[p] by { assert Bare(t, k) && k[p] != []; }
    SplicedWf(t, k, LinkAfter(t, p, e, c), p, IndexOf(k[p], e) + 1, c);
  }

  /**
   * insert_before(e, c) on an e with a parent keeps the storage well formed:
   * c leaves its old list and sits right before e in e's parent's list.
   */
  lemma {:induction false} InsertBeforeWf(s: Nodes, kids: seq<seq<nat>>, e: nat, c: nat)
    requires Wf(s, kids) && 0 < e < Cap(s) && 0 < c < Cap(s) && e != c && s.parent[e] != Null
    ensures var p := s.parent[e];
      var k := DetachKids(s, kids, c);
      e in k[p] && Wf(InsertBefore(s, e, c).value, k[p := Insert(k[p], IndexOf(k[p], e), c)])
  {
    var p := s.parent[e];
    var t := Take(s, c);
    var k := DetachKids(s, kids, c);
    TakeWf(s, kids, c);
    TakeParent(s, c);
    assert t.parent[e] == p;
    LinkBeforeWf(t, k, p, e, c);
    var r := InsertBefore(s, e, c).value;
    var k' := k[p := Insert(k[p], IndexOf(k[p], e), c)];
    assert r == LinkBefore(t, p, e, c);
    assert Sized(r) && |k'| == Cap(r);
    assert AllLinked(r, k') && Listed(r, k') && Detached(r) && Bare(r, k');
  }

  /** Linking a detached c before e keeps the storage well formed. */
  lemma {:induction false} LinkBeforeWf(t: Nodes, k: seq<seq<nat>>, p: nat, e: nat, c: nat)
    requires Wf(t, k) && 0 < e < Cap(t) && 0 < c < Cap(t) && e != c && p == t.parent[e] != Null
    requires t.mask[c] && t.parent[c] == Null && t.next[c] == Null && t.prev[c] == Null
    ensures e in k[p] && Wf(LinkBefore(t, p, e, c), k[p := Insert(k[p], IndexOf(k[p], e), c)])
  {
    LinkBeforeSplices(t, k, e, c);
    assert t.mask[p] by { assert Bare(t, k) && k[p] != []; }
    SplicedWf(t, k, LinkBefore(t, p, e, c), p, IndexOf(k[p], e), c);
  }

  // ---- children_count and remove_children ----

  /** children_count(e): walk e's sibling chain from its first child; 0 without the component. */
  method ChildrenCount(s: Nodes, ghost kids: seq<seq<nat>>, e: nat) returns (num: nat)
    requires Wf(s, kids) && e < Cap(s)
    ensures num == (if s.mask[e] then |kids[e]| else 0)
  {
    num := 0;
    if s.mask[e] {
      ghost var cs := kids[e];
      assert Linked(s, e, cs);
      var child := s.first[e];
      while child != Null
        invariant num <= |cs|
        invariant child == (if num < |cs| then cs[num] else Null)
        decreases |cs| - num
      {
        LinkedAt(s, e, cs, num);
        num := num + 1;
        child := s.next[child];
      }
    }
  }

  /** r is s with e's children cs cut loose: their parent and sibling links and e's first and last are null. */
  ghost predicate Orphaned(s: Nodes, e: nat, cs: seq<nat>, r: Nodes)
    requires Sized(s) && Sized(r) && Cap(r) == Cap(s)
  {
    forall x :: 0 <= x < Cap(s) ==>
      r.mask[x] == s.mask[x]
      && r.parent[x] == (if x in cs then Null else s.parent[x])
      && r.next[x] == (if x in cs then Null else s.next[x])
      && r.prev[x] == (if x in cs then Null else s.prev[x])
      && r.first[x] == (if x == e then Null else s.first[x])
      && r.last[x] == (if x == e then Null else s.last[x])
  }

  /** Cutting e's children loose leaves every other list alone. */
  lemma {:induction false} OrphanedOtherLists(s: Nodes, kids: seq<seq<nat>>, e: nat, r: Nodes)
    requires Wf(s, kids) && e < Cap(s) && Sized(r) && Cap(r) == Cap(s) && Orphaned(s, e, kids[e], r)
    ensures forall q :: 0 <= q < Cap(s) && q != e ==> Linked(r, q, kids[q])
  {
    forall q | 0 <= q < Cap(s) && q != e ensures Linked(r, q, kids[q]) {
      assert Linked(s, q, kids[q]);
      assert Linked(s, e, kids[e]);
      forall k | 0 <= k < |kids[q]| ensures kids[q][k] !in kids[e] {
        LinkedAt(s, q, kids[q], k);
        forall j | 0 <= j < |kids[e]| ensures kids[e][j] != kids[q][k] {
          LinkedAt(s, e, kids[e], j);
        }
      }
      LinkedFrame(s, r, q, kids[q]);
    }
  }

  /** Cutting e's children loose keeps the storage well formed, with e's list empty. */
  lemma {:induction false} OrphanedWf(s: Nodes, kids: seq<seq<nat>>, e: nat, r: Nodes)
    requires Wf(s, kids) && e < Cap(s) && Sized(r) && Cap(r) == Cap(s) && Orphaned(s, e, kids[e], r)
    ensures Wf(r, kids[e := []])
  {
    var kids' := kids[e := []];
    OrphanedOtherLists(s, kids, e, r);
    assert Linked(r, e, kids'[e]);
    OrphanedListed(s, kids, e, r);
    OrphanedDetached(s, kids, e, r);
    OrphanedBare(s, kids, e, r);
  }

  lemma {:induction false} OrphanedListed(s: Nodes, kids: seq<seq<nat>>, e: nat, r: Nodes)
    requires Wf(s, kids) && e < Cap(s) && Sized(r) && Cap(r) == Cap(s) && Orphaned(s, e, kids[e], r)
    ensures Listed(r, kids[e := []])
  {
    var kids' := kids[e := []];
    forall x | 0 < x < Cap(r) && r.parent[x] != Null ensures x in kids'[r.parent[x]] {
      assert x !in kids[e] && s.parent[x] != e;
    }
  }

  lemma {:induction false} OrphanedDetached(s: Nodes, kids: seq<seq<nat>>, e: nat, r: Nodes)
    requires Wf(s, kids) && e < Cap(s) && Sized(r) && Cap(r) == Cap(s) && Orphaned(s, e, kids[e], r)
    ensures Detached(r)
  {
    forall x | 0 < x < Cap(r) && r.parent[x] == Null ensures r.next[x] == Null && r.prev[x] == Null {
      if x !in kids[e] {
        assert s.parent[x] == Null;
      }
    }
  }

  lemma {:induction false} OrphanedBare(s: Nodes, kids: seq<seq<nat>>, e: nat, r: Nodes)
    requires Wf(s, kids) && e < Cap(s) && Sized(r) && Cap(r) == Cap(s) && Orphaned(s, e, kids[e], r)
    ensures Bare(r, kids[e := []])
  {
    assert r.mask[Null] == s.mask[Null];
    forall x | 0 <= x < Cap(r) && !r.mask[x] ensures r.parent[x] == Null && kids[e := []][x] == [] {
      assert !s.mask[x];
    }
  }

  /** The loop state of remove_children: the first n children have lost their parent and sibling links. */
  ghost predicate Cleared(s: Nodes, cs: seq<nat>, n: nat, r: Nodes)
    requires Sized(s) && n <= |cs|
  {
    r.mask == s.mask && r.first == s.first && r.last == s.last
    && |r.parent| == Cap(s) && |r.next| == Cap(s) && |r.prev| == Cap(s)
    && forall x :: 0 <= x < Cap(s) ==>
         r.parent[x] == (if x in cs[..n] then Null else s.parent[x])
         && r.next[x] == (if x in cs[..n] then Null else s.next[x])
         && r.prev[x] == (if x in cs[..n] then Null else s.prev[x])
  }

  /** One turn of the remove_children loop: the next child is read intact, then cleared. */
  lemma {:induction false} ClearStep(s: Nodes, e: nat, cs: seq<nat>, n: nat, r: Nodes)
    requires Sized(s) && e < Cap(s) && Linked(s, e, cs) && n < |cs| && Cleared(s, cs, n, r)
    ensures cs[n] < Cap(s) && r.next[cs[n]] == (if n + 1 < |cs| then cs[n + 1] else Null)
    ensures Cleared(s, cs, n + 1,
              r.(parent := r.parent[cs[n] := Null], next := r.next[cs[n] := Null], prev := r.prev[cs[n] := Null]))
  {
    LinkedAt(s, e, cs, n);
    PrefixSnoc(cs, n, cs[n]);
    ClearedSnoc(s, cs, n, r);
  }

  /** Clearing the next child extends the cleared prefix by one. */
  lemma {:induction false} ClearedSnoc(s: Nodes, cs: seq<nat>, n: nat, r: Nodes)
    requires Sized(s) && n < |cs| && cs[n] < Cap(s) && Cleared(s, cs, n, r)
    ensures Cleared(s, cs, n + 1,
              r.(parent := r.parent[cs[n] := Null], next := r.next[cs[n] := Null], prev := r.prev[cs[n] := Null]))
  {
    var c := cs[n];
    var r' := r.(parent := r.parent[c := Null], next := r.next[c := Null], prev := r.prev[c := Null]);
    forall x | 0 <= x < Cap(s)
      ensures r'.parent[x] == (if x in cs[..n + 1] then Null else s.parent[x])
      ensures r'.next[x] == (if x in cs[..n + 1] then Null else s.next[x])
      ensures r'.prev[x] == (if x in cs[..n + 1] then Null else s.prev[x])
    {
      PrefixSnoc(cs, n, x);
    }
  }

  /** Once every child is cleared, nulling e's first and last cuts them all loose. */
  lemma {:induction false} ClearedOrphaned(s: Nodes, e: nat, cs: seq<nat>, r: Nodes)
    requires Sized(s) && e < Cap(s) && Linked(s, e, cs) && Cleared(s, cs, |cs|, r)
    ensures var r' := r.(first := r.first[e := Null], last := r.last[e := Null]);
      Sized(r') && Cap(r') == Cap(s) && Orphaned(s, e, cs, r')
  {
    assert cs[..|cs|] == cs;
  }

  /**
   * remove_children(e): walk e's children, nulling each one's parent and
   * sibling links (the next child is read before the links are cleared),
   * then null e's first and last. Nothing happens without the component.
   */
  method RemoveChildren(s: Nodes, ghost kids: seq<seq<nat>>, e: nat) returns (r: Nodes)
    requires Wf(s, kids) && e < Cap(s)
    ensures Sized(r) && Cap(r) == Cap(s)
    ensures Wf(r, kids[e := []])
    ensures s.mask[e] ==> Orphaned(s, e, kids[e], r)
    ensures !s.mask[e] ==> r == s
  {
    r := s;
    if !s.mask[e] {
      assert kids[e := []] == kids;
      return;
    }
    ghost var cs := kids[e];
    assert Linked(s, e, cs);
    var child := s.first[e];
    ghost var i := 0;
    assert cs[..0] == [];
    while child != Null
      invariant i <= |cs| && Cleared(s, cs, i, r)
      invariant child == (if i < |cs| then cs[i] else Null)
      decreases |cs| - i
    {
      ClearStep(s, e, cs, i, r);
      var temp := child;
      child := r.next[child];
      r := r.(parent := r.parent[temp := Null], next := r.next[temp := Null], prev := r.prev[temp := Null]);
      i := i + 1;
    }
    ClearedOrphaned(s, e, cs, r);
    r := r.(first := r.first[e := Null], last := r.last[e := Null]);
    OrphanedWf(s, kids, e, r);
  }

  // ---- accessors ----

  /** child_first(e): e's first child, null without the component. */
  function ChildFirst(s: Nodes, e: nat): (r: nat)
    requires Sized(s) && e < Cap(s)
    ensures r < Cap(s)
    ensures !s.mask[e] ==> r == Null
  {
    if s.mask[e] then s.first[e] else Null
  }

  /** child_last(e): e's last child, null without the component. */
  function ChildLast(s: Nodes, e: nat): (r: nat)
    requires Sized(s) && e < Cap(s)
    ensures r < Cap(s)
    ensures !s.mask[e] ==> r == Null
  {
    if s.mask[e] then s.last[e] else Null
  }

  /** sibling_next(e): e's next sibling, null without the component. */
  function SiblingNext(s: Nodes, e: nat): (r: nat)
    requires Sized(s) && e < Cap(s)
    ensures r < Cap(s)
    ensures !s.mask[e] ==> r == Null
  {
    if s.mask[e] then s.next[e] else Null
  }

  /** sibling_prev(e): e's previous sibling, null without the component. */
  function SiblingPrev(s: Nodes, e: nat): (r: nat)
    requires Sized(s) && e < Cap(s)
    ensures r < Cap(s)
    ensures !s.mask[e] ==> r == Null
  {
    if s.mask[e] then s.prev[e] else Null
  }

  /** parent(e): e's parent, null without the component. */
  function Parent(s: Nodes, e: nat): (r: nat)
    requires Sized(s) && e < Cap(s)
    ensures r < Cap(s)
    ensures !s.mask[e] ==> r == Null
  {
    if s.mask[e] then s.parent[e] else Null
  }

  /** has_children(e): whether e has a first child. */
  function HasChildren(s: Nodes, e: nat): (r: bool)
    requires Sized(s) && e < Cap(s)
    ensures r ==> s.mask[e]
  {
    ChildFirst(s, e) != Null
  }

  /** On a well-formed storage, child_first, child_last and has_children read off e's child list. */
  lemma {:induction false} ChildAccessors(s: Nodes, kids: seq<seq<nat>>, e: nat)
    requires Wf(s, kids) && e < Cap(s)
    ensures ChildFirst(s, e) == (if kids[e] == [] then Null else kids[e][0])
    ensures ChildLast(s, e) == (if kids[e] == [] then Null else kids[e][|kids[e]| - 1])
    ensures HasChildren(s, e) <==> kids[e] != []
  {
    assert Linked(s, e, kids[e]);
    if kids[e] != [] { LinkedAt(s, e, kids[e], 0); }
  }

  /** On a well-formed storage, parent(e) names the one list e is on, and is null exactly when e is on none. */
  lemma {:induction false} ParentAccessor(s: Nodes, kids: seq<seq<nat>>, e: nat, q: nat)
    requires Wf(s, kids) && 0 < e < Cap(s) && q < Cap(s)
    ensures e in kids[q] <==> Parent(s, e) == q && q != Null
  {
    assert Linked(s, q, kids[q]);
    if e in kids[q] { LinkedAt(s, q, kids[q], IndexOf(kids[q], e)); }
    if Parent(s, e) != Null { assert Listed(s, kids) && s.parent[e] != Null; }
  }

  /** On a well-formed storage, sibling_next and sibling_prev are e's neighbours on its list, and null off one. */
  lemma {:induction false} SiblingAccessors(s: Nodes, kids: seq<seq<nat>>, e: nat)
    requires Wf(s, kids) && 0 < e < Cap(s)
    ensures Parent(s, e) == Null ==> SiblingNext(s, e) == Null && SiblingPrev(s, e) == Null
    ensures Parent(s, e) != Null ==>
      var cs := kids[Parent(s, e)];
      var i := IndexOf(cs, e);
      SiblingNext(s, e) == (if i + 1 < |cs| then cs[i + 1] else Null)
      && SiblingPrev(s, e) == (if 0 < i then cs[i - 1] else Null)
  {
    if Parent(s, e) != Null {
      var p := Parent(s, e);
      assert e in kids[p];
      assert Linked(s, p, kids[p]);
      LinkedAt(s, p, kids[p], IndexOf(kids[p], e));
    }
  }

  // ---- is_descendant ----

  /**
   * The loop of is_descendant: while x is not null, step to its parent and
   * answer true on meeting a. The source loop has no bound; here it runs
   * for at most fuel steps and None means it has not finished.
   */
  function Walk(s: Nodes, x: nat, a: nat, fuel: nat): (r: Option<bool>)
    requires Sized(s) && x < Cap(s)
    ensures x == Null ==> r == Some(false)
    ensures r == Some(true) ==> x != Null && 0 < fuel
    decreases fuel
  {
    if x == Null then Some(false)
    else if fuel == 0 then None
    else
      var y := s.parent[x];
      if y == a then Some(true) else Walk(s, y, a, fuel - 1)
  }

  /** is_descendant(e, a): false unless both hold the component, otherwise the walk up from e. */
  function IsDescendant(s: Nodes, e: nat, a: nat, fuel: nat): (r: Option<bool>)
    requires Sized(s) && e < Cap(s) && a < Cap(s)
    ensures !s.mask[e] || !s.mask[a] ==> r == Some(false)
    ensures r == Some(true) ==> s.mask[e] && s.mask[a] && e != Null
  {
    if !s.mask[e] || !s.mask[a] then Some(false) else Walk(s, e, a, fuel)
  }

  /** rank witnesses that the parent links have no cycle: every parent ranks below its child. */
  ghost predicate Ranked(s: Nodes, rank: seq<nat>)
    requires Sized(s)
  {
    |rank| == Cap(s) && forall x :: 0 <= x < Cap(s) && s.parent[x] != Null ==> rank[s.parent[x]] < rank[x]
  }

  /** a is a proper ancestor of x: reached by following parent links from x (rank bounds the recursion). */
  ghost predicate Above(s: Nodes, rank: seq<nat>, x: nat, a: nat)
    requires Sized(s) && Ranked(s, rank) && x < Cap(s)
    decreases rank[x]
  {
    var y := s.parent[x];
    y != Null && (y == a || Above(s, rank, y, a))
  }

  /** A walk that finishes gives the right answer. */
  lemma {:induction false} WalkSound(s: Nodes, rank: seq<nat>, x: nat, a: nat, fuel: nat)
    requires Sized(s) && Ranked(s, rank) && x < Cap(s) && a != Null
    requires Walk(s, x, a, fuel).Some?
    ensures Walk(s, x, a, fuel).value == (x != Null && Above(s, rank, x, a))
    decreases fuel
  {
    if x != Null && s.parent[x] != a {
      WalkSound(s, rank, s.parent[x], a, fuel - 1);
    }
  }

  /** On an acyclic graph, a walk given more steps than x's rank finishes. */
  lemma {:induction false} WalkFinishes(s: Nodes, rank: seq<nat>, x: nat, a: nat, fuel: nat)
    requires Sized(s) && Ranked(s, rank) && x < Cap(s) && rank[x] < fuel
    ensures Walk(s, x, a, fuel).Some?
    decreases fuel
  {
    if x != Null && s.parent[x] != a && s.parent[x] != Null {
      WalkFinishes(s, rank, s.parent[x], a, fuel - 1);
    }
  }

  /** On a well-formed storage only an id with the component is anyone's ancestor. */
  lemma {:induction false} AboveHasComponent(s: Nodes, kids: seq<seq<nat>>, rank: seq<nat>, x: nat, a: nat)
    requires Wf(s, kids) && Ranked(s, rank) && x < Cap(s) && a < Cap(s) && Above(s, rank, x, a)
    ensures s.mask[a]
    decreases rank[x]
  {
    var y := s.parent[x];
    if y == a {
      assert x != Null && x in kids[a];
    } else {
      AboveHasComponent(s, kids, rank, y, a);
    }
  }

  /**
   * On a well-formed acyclic storage, is_descendant(e, a) answers whether a
   * is a proper ancestor of e, and finishes once given more steps than e's rank.
   */
  lemma {:induction false} IsDescendantMeaning(s: Nodes, kids: seq<seq<nat>>, rank: seq<nat>, e: nat, a: nat, fuel: nat)
    requires Wf(s, kids) && Ranked(s, rank) && e < Cap(s) && a < Cap(s)
    ensures rank[e] < fuel ==> IsDescendant(s, e, a, fuel).Some?
    ensures IsDescendant(s, e, a, fuel).Some? ==> IsDescendant(s, e, a, fuel).value == Above(s, rank, e, a)
  {
    if Above(s, rank, e, a) {
      AboveHasComponent(s, kids, rank, e, a);
    }
    if s.mask[e] && s.mask[a] {
      if rank[e] < fuel { WalkFinishes(s, rank, e, a, fuel); }
      if Walk(s, e, a, fuel).Some? { WalkSound(s, rank, e, a, fuel); }
    }
  }

  // ---- append and cycles ----

  /** Linking c last under e sets c's parent to e and leaves the mask and every other parent alone. */
  lemma {:induction false} LinkLastParents(s: Nodes, e: nat, c: nat)
    requires Sized(s) && e < Cap(s) && c < Cap(s)
    ensures LinkLast(s, e, c).parent == s.parent[c := e] && LinkLast(s, e, c).mask == s.mask
  {
  }

  /** On a well-formed storage, append(e, c) changes one parent link, c's, and gives both the component. */
  lemma {:induction false} AppendParents(s: Nodes, kids: seq<seq<nat>>, e: nat, c: nat)
    requires Wf(s, kids) && 0 < e < Cap(s) && 0 < c < Cap(s) && e != c
    ensures Append(s, e, c).parent == s.parent[c := e]
    ensures Append(s, e, c).mask == s.mask[e := true][c := true]
  {
    assert s.mask[e] || s.parent[e] == Null;
    var s1 := if !s.mask[e] then EnableNode(s, e) else s;
    assert s1.parent == s.parent && s1.mask == s.mask[e := true];
    TakeParent(s1, c);
    LinkLastParents(Take(s1, c), e, c);
  }

  /** take(c) clears c's parent link, gives c the component and leaves every other parent link. */
  lemma {:induction false} TakeParent(s: Nodes, c: nat)
    requires Sized(s) && c < Cap(s)
    ensures Take(s, c).parent == s.parent[c := Null] && Take(s, c).mask == s.mask[c := true]
  {
    var s1 := if !s.mask[c] then EnableNode(s, c) else s;
    assert s1.mask[c] && s1.mask == s.mask[c := true];
    assert s1.parent[c := Null] == s.parent[c := Null];
    if s1.parent[c] == Null {
      assert s1.parent == s1.parent[c := Null];
    }
  }

  /** One append of a concrete run: the storage stays well formed under some child lists. */
  lemma {:induction false} AppendStep(s: Nodes, kids: seq<seq<nat>>, e: nat, c: nat) returns (kids': seq<seq<nat>>)
    requires Wf(s, kids) && 0 < e < Cap(s) && 0 < c < Cap(s) && e != c
    ensures Wf(Append(s, e, c), kids')
    ensures Append(s, e, c).parent == s.parent[c := e]
    ensures Append(s, e, c).mask == s.mask[e := true][c := true]
  {
    AppendWf(s, kids, e, c);
    AppendParents(s, kids, e, c);
    var k := DetachKids(s, kids, c);
    kids' := k[e := k[e] + [c]];
  }

  /** The parent links after c moves under e, with nothing else moving. */
  ghost predicate Reparented(s: Nodes, r: Nodes, e: nat, c: nat)
    requires Sized(s) && Sized(r) && c < Cap(s)
  {
    r.parent == s.parent[c := e]
  }

  /** The ranks with c's subtree lifted above e. */
  ghost function Lift(s: Nodes, rank: seq<nat>, e: nat, c: nat): (r: seq<nat>)
    requires Sized(s) && Ranked(s, rank) && e < Cap(s) && c < Cap(s)
    ensures |r| == Cap(s)
    ensures forall x :: 0 <= x < Cap(s) ==>
      r[x] == (if x == c || Above(s, rank, x, c) then rank[x] + rank[e] + 1 else rank[x])
  {
    seq(Cap(s), x requires 0 <= x < Cap(s) =>
      if x == c || Above(s, rank, x, c) then rank[x] + rank[e] + 1 else rank[x])
  }

  /** Moving c under an e that is neither c nor below c keeps the parent links acyclic. */
  lemma {:induction false} ReparentRanked(s: Nodes, rank: seq<nat>, r: Nodes, e: nat, c: nat)
    requires Sized(s) && Sized(r) && Cap(r) == Cap(s) && Ranked(s, rank)
    requires 0 < e < Cap(s) && c < Cap(s) && c != e && !Above(s, rank, e, c)
    requires Reparented(s, r, e, c)
    ensures Ranked(r, Lift(s, rank, e, c))
  {
    var rank' := Lift(s, rank, e, c);
    forall x | 0 <= x < Cap(r) && r.parent[x] != Null ensures rank'[r.parent[x]] < rank'[x] {
      if x != c {
        var y := s.parent[x];
        assert Above(s, rank, x, c) == (y == c || Above(s, rank, y, c));
      }
    }
  }

  /** The source walk from 1 in the cycle 1 <-> 2 never meets 3 and never reaches null. */
  lemma {:induction false} WalkLoops(s: Nodes, fuel: nat)
    requires Sized(s) && 3 < Cap(s) && s.parent[1] == 2 && s.parent[2] == 1
    ensures Walk(s, 1, 3, fuel) == None && Walk(s, 2, 3, fuel) == None
    decreases fuel
  {
    if fuel > 0 {
      WalkLoops(s, fuel - 1);
    }
  }

  /** With 1 and 2 each other's parent, no rank exists and is_descendant(1, 3) never returns. */
  lemma {:induction false} CycleNeverAnswers(s: Nodes)
    requires Sized(s) && 3 < Cap(s) && s.parent[1] == 2 && s.parent[2] == 1 && s.mask[1] && s.mask[3]
    ensures forall fuel :: IsDescendant(s, 1, 3, fuel) == None
    ensures forall rank :: !Ranked(s, rank)
  {
    forall fuel: nat ensures IsDescendant(s, 1, 3, fuel) == None {
      WalkLoops(s, fuel);
    }
    forall rank ensures !Ranked(s, rank) {
    }
  }

  /** append(3, 1), append(1, 2), append(2, 1) on a fresh storage of capacity 4. */
  function CycleExample(): (s: Nodes)
    ensures Sized(s) && Cap(s) == 4
  {
    Append(Append(Append(New(4), 3, 1), 1, 2), 2, 1)
  }

  /** The first two appends of the cycle example: 1 under 3, then 2 under 1. */
  lemma {:induction false} ChainOfTwo() returns (s2: Nodes, kids2: seq<seq<nat>>)
    ensures s2 == Append(Append(New(4), 3, 1), 1, 2)
    ensures Wf(s2, kids2) && Cap(s2) == 4
    ensures s2.parent[1] == 3 && s2.parent[2] == 1 && s2.mask[1] && s2.mask[2] && s2.mask[3]
  {
    var s1, k1 := OneUnderThree();
    s2, kids2 := TwoUnderOne(s1, k1);
  }

  /** The second append of the cycle example, on any well-formed storage with 1 under 3. */
  lemma {:induction false} TwoUnderOne(s1: Nodes, k1: seq<seq<nat>>) returns (s2: Nodes, kids2: seq<seq<nat>>)
    requires Wf(s1, k1) && Cap(s1) == 4 && s1.parent[1] == 3 && s1.mask[1] && s1.mask[3]
    ensures s2 == Append(s1, 1, 2)
    ensures Wf(s2, kids2) && Cap(s2) == 4
    ensures s2.parent[1] == 3 && s2.parent[2] == 1 && s2.mask[1] && s2.mask[2] && s2.mask[3]
  {
    kids2 := AppendStep(s1, k1, 1, 2);
    s2 := Append(s1, 1, 2);
  }

  /** The first append of the cycle example: 1 under 3. */
  lemma {:induction false} OneUnderThree() returns (s1: Nodes, kids1: seq<seq<nat>>)
    ensures s1 == Append(New(4), 3, 1)
    ensures Wf(s1, kids1) && Cap(s1) == 4
    ensures s1.parent[1] == 3 && s1.mask[1] && s1.mask[3]
  {
    var s0 := New(4);
    kids1 := AppendStep(s0, seq(4, _ => []), 3, 1);
    s1 := Append(s0, 3, 1);
  }

  /**
   * append as written accepts a child that is already an ancestor: with 1
   * under 3 and 2 under 1, append(2, 1) makes 1 and 2 each other's parent.
   * The lists stay well formed, but the parent links have a cycle and
   * is_descendant(1, 3) never returns.
   */
  lemma {:induction false} AppendMakesCycle()
    ensures CycleExample().parent[1] == 2 && CycleExample().parent[2] == 1
    ensures forall fuel :: IsDescendant(CycleExample(), 1, 3, fuel) == None
    ensures forall rank :: !Ranked(CycleExample(), rank)
  {
    var s2, k2 := ChainOfTwo();
    var s3 := OneUnderTwo(s2, k2);
    assert s3 == CycleExample();
    CycleNeverAnswers(s3);
  }

  /** The third append of the cycle example, on any well-formed storage with 2 under 1. */
  lemma {:induction false} OneUnderTwo(s2: Nodes, k2: seq<seq<nat>>) returns (s3: Nodes)
    requires Wf(s2, k2) && Cap(s2) == 4 && s2.parent[2] == 1 && s2.mask[1] && s2.mask[2] && s2.mask[3]
    ensures s3 == Append(s2, 2, 1)
    ensures Sized(s3) && Cap(s3) == 4 && s3.parent[1] == 2 && s3.parent[2] == 1 && s3.mask[1] && s3.mask[3]
  {
    var _ := AppendStep(s2, k2, 2, 1);
    s3 := Append(s2, 2, 1);
  }

  /**
   * append with the check the source leaves out: refuse when c is e itself
   * or an ancestor of e (asked with is_descendant, given the capacity as
   * its step bound).
   */
  function AppendChecked(s: Nodes, e: nat, c: nat): (r: Option<Nodes>)
    requires Sized(s) && e < Cap(s) && c < Cap(s)
    ensures r.Some? ==> r.value == Append(s, e, c)
  {
    if c == e || IsDescendant(s, e, c, Cap(s)) != Some(false) then None else Some(Append(s, e, c))
  }

  /**
   * On a well-formed acyclic storage, the checked append always refuses a
   * move that would close a cycle, refuses nothing else once the capacity
   * exceeds e's rank, and on success keeps the lists well formed and the
   * parent links acyclic.
   */
  lemma {:induction false} AppendCheckedKeepsTree(s: Nodes, kids: seq<seq<nat>>, rank: seq<nat>, e: nat, c: nat)
    requires Wf(s, kids) && Ranked(s, rank) && 0 < e < Cap(s) && 0 < c < Cap(s)
    ensures c == e || Above(s, rank, e, c) ==> AppendChecked(s, e, c).None?
    ensures rank[e] < Cap(s) && c != e && !Above(s, rank, e, c) ==> AppendChecked(s, e, c).Some?
    ensures AppendChecked(s, e, c).Some? ==>
      var k := DetachKids(s, kids, c);
      Wf(AppendChecked(s, e, c).value, k[e := k[e] + [c]])
      && Ranked(AppendChecked(s, e, c).value, Lift(s, rank, e, c))
  {
    IsDescendantMeaning(s, kids, rank, e, c, Cap(s));
    if AppendChecked(s, e, c).Some? {
      AppendWf(s, kids, e, c);
      AppendParents(s, kids, e, c);
      ReparentRanked(s, rank, Append(s, e, c), e, c);
    }
  }
}

=== FILE: entity_map.dfy ===
/**
 * The per-component sparse set (entity_map). A sparse table maps an entity
 * index to a dense slot; the dense handle list starts with a null placeholder
 * at slot 0; the data list moves in lockstep with the dense list. For empty
 * component types (`is_empty_data`) the data list never grows: every member
 * shares the placeholder datum data[0].
 */
module EntityMaps {
  import opened EntitySpec
  import opened EntityValue
  import opened Seqs

  datatype EntityMap<D> = EntityMap(table: map<nat, nat>, dense: seq<Entity>, data: seq<D>, emptyData: bool)

  /** Table and dense list are mutually inverse; the data list has the right length. */
  ghost predicate Valid<D>(m: EntityMap<D>)
  {
    && |m.dense| >= 1 && m.dense[0] == Null
    && (forall k :: k in m.table ==> 1 <= m.table[k] < |m.dense| && Index(m.dense[m.table[k]]) == k)
    && (forall s :: 1 <= s < |m.dense| ==> Index(m.dense[s]) in m.table && m.table[Index(m.dense[s])] == s)
    && |m.data| == (if m.emptyData then 1 else |m.dense|)
  }

  /** entity_map(): the null handle and the placeholder datum only. */
  function New<D>(zero: D, emptyData: bool): (m: EntityMap<D>)
    ensures Valid(m) && Size(m) == 0 && Members(m) == []
    ensures forall e :: !Has(m, e)
    ensures m.dense == [Null] && m.data == [zero]
  {
    EntityMap(map[], [Null], [zero], emptyData)
  }

  /** has(e): only the index of e is consulted. */
  predicate Has<D>(m: EntityMap<D>, e: Entity)
  {
    Index(e) in m.table
  }

  /** size(): dense slots minus the placeholder. */
  function Size<D>(m: EntityMap<D>): (n: int)
    ensures |m.dense| >= 1 ==> n == |Members(m)|
  {
    |m.dense| - 1
  }

  /** begin() .. end(): the dense list after the placeholder. */
  function Members<D>(m: EntityMap<D>): seq<Entity>
    requires |m.dense| >= 1
  {
    m.dense[1..]
  }

  /** at(i): the handle in dense slot i. */
  function At<D>(m: EntityMap<D>, i: nat): Entity
    requires i < |m.dense|
  {
    m.dense[i]
  }

  /** The data slot a member's datum lives in. */
  function DataSlot<D>(m: EntityMap<D>, s: nat): nat
  {
    if m.emptyData then 0 else s
  }

  /** The abstract contents: member index to the handle stored for it. */
  ghost function Stored<D>(m: EntityMap<D>): map<nat, Entity>
    requires Valid(m)
  {
    map k | k in m.table :: m.dense[m.table[k]]
  }

  /** The abstract contents: member index to the datum `get` returns for it. */
  ghost function Values<D>(m: EntityMap<D>): map<nat, D>
    requires Valid(m)
  {
    map k | k in m.table :: m.data[DataSlot(m, m.table[k])]
  }

  /**
   * emplace(e, d): requires !has(e); appends e to the dense list, records its
   * slot and appends d (or, for an empty type, keeps the shared datum).
   * Returns the new map and the datum the reference points to.
   */
  function Emplace<D>(m: EntityMap<D>, e: Entity, d: D): (r: (EntityMap<D>, D))
    requires Valid(m) && !Has(m, e)
    ensures Valid(r.0) && Has(r.0, e) && Size(r.0) == Size(m) + 1
    ensures r.0.dense == m.dense + [e] && r.0.table[Index(e)] == |m.dense|
    ensures r.1 == (if m.emptyData then m.data[0] else d)
    ensures Stored(r.0) == Stored(m)[Index(e) := e]
    ensures Values(r.0) == Values(m)[Index(e) := r.1]
    ensures r.0.emptyData == m.emptyData && (m.emptyData ==> r.0.data == m.data)
  {
    var t := m.table[Index(e) := |m.dense|];
    var r := EntityMap(t, m.dense + [e], if m.emptyData then m.data else m.data + [d], m.emptyData);
    EmplaceValid(m, e, d, r);
    EmplaceContents(m, e, d, r);
    (r, r.data[DataSlot(r, |m.dense|)])
  }

  lemma {:induction false} EmplaceValid<D>(m: EntityMap<D>, e: Entity, d: D, r: EntityMap<D>)
    requires Valid(m) && !Has(m, e)
    requires r == EntityMap(m.table[Index(e) := |m.dense|], m.dense + [e],
      if m.emptyData then m.data else m.data + [d], m.emptyData)
    ensures Valid(r)
  {
    assert forall k :: k in r.table ==> 1 <= r.table[k] < |r.dense| && Index(r.dense[r.table[k]]) == k by {
      forall k | k in r.table ensures 1 <= r.table[k] < |r.dense| && Index(r.dense[r.table[k]]) == k {
        if k != Index(e) {
          assert r.dense[m.table[k]] == m.dense[m.table[k]];
        }
      }
    }
    assert forall s :: 1 <= s < |r.dense| ==> Index(r.dense[s]) in r.table && r.table[Index(r.dense[s])] == s by {
      forall s | 1 <= s < |r.dense| ensures Index(r.dense[s]) in r.table && r.table[Index(r.dense[s])] == s {
        if s < |m.dense| {
          assert r.dense[s] == m.dense[s];
        }
      }
    }
  }

  lemma {:induction false} EmplaceContents<D>(m: EntityMap<D>, e: Entity, d: D, r: EntityMap<D>)
    requires Valid(m) && !Has(m, e) && Valid(r)
    requires r == EntityMap(m.table[Index(e) := |m.dense|], m.dense + [e],
      if m.emptyData then m.data else m.data + [d], m.emptyData)
    ensures Stored(r) == Stored(m)[Index(e) := e]
    ensures Values(r) == Values(m)[Index(e) := r.data[DataSlot(r, |m.dense|)]]
  {
    EmplaceStored(m, e, r.dense, r.table);
    EmplaceValues(m, e, r);
  }

  lemma {:induction false} EmplaceStored<D>(m: EntityMap<D>, e: Entity, dense: seq<Entity>, table: map<nat, nat>)
    requires Valid(m) && !Has(m, e)
    requires table == m.table[Index(e) := |m.dense|] && dense == m.dense + [e]
    ensures (map k | k in table :: dense[table[k]]) == Stored(m)[Index(e) := e]
  {
    forall k | k in m.table ensures dense[table[k]] == m.dense[m.table[k]] {
      assert k != Index(e);
    }
  }

  lemma {:induction false} EmplaceValues<D>(m: EntityMap<D>, e: Entity, r: EntityMap<D>)
    requires Valid(m) && !Has(m, e) && Valid(r)
    requires r.table == m.table[Index(e) := |m.dense|] && r.emptyData == m.emptyData && |r.dense| == |m.dense| + 1
    requires |r.data| >= |m.data| && forall s :: 0 <= s < |m.data| ==> r.data[s] == m.data[s]
    ensures Values(r) == Values(m)[Index(e) := r.data[DataSlot(r, |m.dense|)]]
  {
    forall k | k in m.table ensures r.data[DataSlot(r, r.table[k])] == m.data[DataSlot(m, m.table[k])] {
      assert k != Index(e);
    }
  }

  /**
   * erase(e): requires has(e); removes the table entry, moves the back handle
   * (and its datum) into the vacated slot, and pops the back.
   */
  function Erase<D>(m: EntityMap<D>, e: Entity): (r: EntityMap<D>)
    requires Valid(m) && Has(m, e)
    ensures Valid(r) && !Has(r, e) && Size(r) == Size(m) - 1
    ensures forall x :: Index(x) != Index(e) ==> (Has(r, x) <==> Has(m, x))
    ensures Stored(r) == Stored(m) - {Index(e)}
    ensures Values(r) == Values(m) - {Index(e)}
    ensures r.emptyData == m.emptyData && (m.emptyData ==> r.data == m.data)
    ensures |r.dense| == |m.dense| - 1
    ensures forall s :: 0 <= s < m.table[Index(e)] ==> r.dense[s] == m.dense[s]
  {
    var index := m.table[Index(e)];
    var t := m.table - {Index(e)};
    var last := |m.dense| - 1;
    if index < last then
      var back := m.dense[last];
      var r := EntityMap(
        t[Index(back) := index],
        m.dense[index := back][..last],
        if m.emptyData then m.data else m.data[index := m.data[last]][..last],
        m.emptyData);
      EraseSwapFacts(m, e, r);
      r
    else
      var r := EntityMap(t, m.dense[..last], if m.emptyData then m.data else m.data[..last], m.emptyData);
      EraseBackFacts(m, e, r);
      r
  }

  lemma {:induction false} EraseSwapFacts<D>(m: EntityMap<D>, e: Entity, r: EntityMap<D>)
    requires Valid(m) && Has(m, e)
    requires m.table[Index(e)] < |m.dense| - 1
    requires var index := m.table[Index(e)]; var last := |m.dense| - 1; var back := m.dense[last];
      r == EntityMap((m.table - {Index(e)})[Index(back) := index], m.dense[index := back][..last],
        if m.emptyData then m.data else m.data[index := m.data[last]][..last], m.emptyData)
    ensures Valid(r) && !Has(r, e)
    ensures Stored(r) == Stored(m) - {Index(e)}
    ensures Values(r) == Values(m) - {Index(e)}
    ensures forall x :: Index(x) != Index(e) ==> (Has(r, x) <==> Has(m, x))
    ensures forall s :: 0 <= s < m.table[Index(e)] ==> r.dense[s] == m.dense[s]
  {
    EraseSwapValid(m, e, r);
    EraseSwapContents(m, e, r);
  }

  lemma {:induction false} EraseSwapValid<D>(m: EntityMap<D>, e: Entity, r: EntityMap<D>)
    requires Valid(m) && Has(m, e)
    requires m.table[Index(e)] < |m.dense| - 1
    requires var index := m.table[Index(e)]; var last := |m.dense| - 1; var back := m.dense[last];
      r == EntityMap((m.table - {Index(e)})[Index(back) := index], m.dense[index := back][..last],
        if m.emptyData then m.data else m.data[index := m.data[last]][..last], m.emptyData)
    ensures Valid(r)
  {
    var index := m.table[Index(e)];
    var last := |m.dense| - 1;
    var back := m.dense[last];
    assert Index(back) != Index(e);
    assert forall k :: k in r.table ==> 1 <= r.table[k] < |r.dense| && Index(r.dense[r.table[k]]) == k by {
      forall k | k in r.table ensures 1 <= r.table[k] < |r.dense| && Index(r.dense[r.table[k]]) == k {
        if k != Index(back) {
          assert m.table[k] != index && m.table[k] != last;
          assert r.dense[m.table[k]] == m.dense[m.table[k]];
        }
      }
    }
    assert forall s :: 1 <= s < |r.dense| ==> Index(r.dense[s]) in r.table && r.table[Index(r.dense[s])] == s by {
      forall s | 1 <= s < |r.dense| ensures Index(r.dense[s]) in r.table && r.table[Index(r.dense[s])] == s {
        if s != index {
          assert r.dense[s] == m.dense[s];
          assert Index(m.dense[s]) != Index(e);
          assert Index(m.dense[s]) != Index(back);
        }
      }
    }
  }

  lemma {:induction false} EraseSwapContents<D>(m: EntityMap<D>, e: Entity, r: EntityMap<D>)
    requires Valid(m) && Has(m, e) && Valid(r)
    requires m.table[Index(e)] < |m.dense| - 1
    requires var index := m.table[Index(e)]; var last := |m.dense| - 1; var back := m.dense[last];
      r == EntityMap((m.table - {Index(e)})[Index(back) := index], m.dense[index := back][..last],
        if m.emptyData then m.data else m.data[index := m.data[last]][..last], m.emptyData)
    ensures Stored(r) == Stored(m) - {Index(e)}
    ensures Values(r) == Values(m) - {Index(e)}
  {
    EraseSwapSlots(m, e, r);
    ContentsAgree(m, r, Index(e));
  }

  /** Two maps whose members read alike, one member apart, have contents one entry apart. */
  lemma {:induction false} ContentsAgree<D>(m: EntityMap<D>, r: EntityMap<D>, x: nat)
    requires Valid(m) && Valid(r) && r.table.Keys == m.table.Keys - {x}
    requires forall k :: k in r.table ==> r.dense[r.table[k]] == m.dense[m.table[k]]
    requires forall k :: k in r.table ==> r.data[DataSlot(r, r.table[k])] == m.data[DataSlot(m, m.table[k])]
    ensures Stored(r) == Stored(m) - {x}
    ensures Values(r) == Values(m) - {x}
  {
    assert Stored(r).Keys == (Stored(m) - {x}).Keys;
    assert Values(r).Keys == (Values(m) - {x}).Keys;
  }

  /** After the swap every remaining member reads the handle and datum it read before. */
  lemma {:induction false} EraseSwapSlots<D>(m: EntityMap<D>, e: Entity, r: EntityMap<D>)
    requires Valid(m) && Has(m, e) && |r.dense| == |m.dense| - 1
    requires m.table[Index(e)] < |m.dense| - 1
    requires var index := m.table[Index(e)]; var last := |m.dense| - 1; var back := m.dense[last];
      r == EntityMap((m.table - {Index(e)})[Index(back) := index], m.dense[index := back][..last],
        if m.emptyData then m.data else m.data[index := m.data[last]][..last], m.emptyData)
    ensures r.table.Keys == m.table.Keys - {Index(e)}
    ensures forall k :: k in r.table ==> r.table[k] < |r.dense| && DataSlot(r, r.table[k]) < |r.data|
    ensures forall k :: k in r.table ==> r.dense[r.table[k]] == m.dense[m.table[k]]
    ensures forall k :: k in r.table ==> r.data[DataSlot(r, r.table[k])] == m.data[DataSlot(m, m.table[k])]
  {
    var index := m.table[Index(e)];
    var last := |m.dense| - 1;
    var back := m.dense[last];
    assert Index(back) in m.table && m.table[Index(back)] == last;
    forall k | k in r.table
      ensures r.table[k] < |r.dense| && DataSlot(r, r.table[k]) < |r.data|
      ensures r.dense[r.table[k]] == m.dense[m.table[k]]
      ensures r.data[DataSlot(r, r.table[k])] == m.data[DataSlot(m, m.table[k])]
    {
      if k != Index(back) {
        assert m.table[k] != index && m.table[k] != last;
      }
    }
  }

  lemma {:induction false} EraseBackFacts<D>(m: EntityMap<D>, e: Entity, r: EntityMap<D>)
    requires Valid(m) && Has(m, e)
    requires m.table[Index(e)] >= |m.dense| - 1
    requires var last := |m.dense| - 1;
      r == EntityMap(m.table - {Index(e)}, m.dense[..last], if m.emptyData then m.data else m.data[..last], m.emptyData)
    ensures Valid(r) && !Has(r, e)
    ensures Stored(r) == Stored(m) - {Index(e)}
    ensures Values(r) == Values(m) - {Index(e)}
    ensures forall x :: Index(x) != Index(e) ==> (Has(r, x) <==> Has(m, x))
    ensures forall s :: 0 <= s < m.table[Index(e)] ==> r.dense[s] == m.dense[s]
  {
    assert forall s :: 1 <= s < |r.dense| ==> Index(r.dense[s]) in r.table && r.table[Index(r.dense[s])] == s by {
      forall s | 1 <= s < |r.dense| ensures Index(r.dense[s]) in r.table && r.table[Index(r.dense[s])] == s {
        assert r.dense[s] == m.dense[s];
      }
    }
    ContentsAgree(m, r, Index(e));
  }

  /** get(e): requires has(e); the datum in the member's slot, or data[0] for an empty type. */
  function Get<D>(m: EntityMap<D>, e: Entity): (d: D)
    requires Valid(m) && Has(m, e)
    ensures d == Values(m)[Index(e)]
    ensures m.emptyData ==> d == m.data[0]
  {
    m.data[DataSlot(m, m.table[Index(e)])]
  }

  /** get_or_create(e): emplace `init` when absent, then get. */
  function GetOrCreate<D>(m: EntityMap<D>, e: Entity, init: D): (r: (EntityMap<D>, D))
    requires Valid(m)
    ensures Valid(r.0) && Has(r.0, e) && r.1 == Get(r.0, e)
    ensures Has(m, e) ==> r.0 == m
    ensures !Has(m, e) ==> r.0 == Emplace(m, e, init).0
  {
    var m' := if Has(m, e) then m else Emplace(m, e, init).0;
    (m', Get(m', e))
  }

  /** get_or_default(e): the member's datum, or the placeholder datum when absent. */
  function GetOrDefault<D>(m: EntityMap<D>, e: Entity): (d: D)
    requires Valid(m)
    ensures Has(m, e) ==> d == Get(m, e)
    ensures !Has(m, e) ==> d == m.data[0]
  {
    if m.emptyData then m.data[0]
    else m.data[if Has(m, e) then m.table[Index(e)] else 0]
  }

  /** emplace_dyn(e): emplace with the type's default datum. */
  function EmplaceDyn<D>(m: EntityMap<D>, e: Entity, zero: D): (r: EntityMap<D>)
    requires Valid(m) && !Has(m, e)
    ensures Valid(r) && Has(r, e)
    ensures Stored(r) == Stored(m)[Index(e) := e]
    ensures !m.emptyData ==> Values(r) == Values(m)[Index(e) := zero]
  {
    Emplace(m, e, zero).0
  }

  /** erase_dyn(e): erase. */
  function EraseDyn<D>(m: EntityMap<D>, e: Entity): (r: EntityMap<D>)
    requires Valid(m) && Has(m, e)
    ensures Valid(r) && !Has(r, e)
    ensures Stored(r) == Stored(m) - {Index(e)}
  {
    Erase(m, e)
  }

  // ---- properties ----

  /** has(e) holds exactly when some member shares e's index, whatever its version. */
  lemma {:induction false} HasIffStoredIndex<D>(m: EntityMap<D>, e: Entity)
    requires Valid(m)
    ensures Has(m, e) <==> exists s :: 1 <= s < |m.dense| && Index(m.dense[s]) == Index(e)
  {
    if Has(m, e) {
      var s := m.table[Index(e)];
      assert 1 <= s < |m.dense| && Index(m.dense[s]) == Index(e);
    }
  }

  /** A handle with the same index and another version reads as present. */
  lemma {:induction false} HasIgnoresVersion<D>(m: EntityMap<D>, e: Entity, v: nat)
    requires Valid(m) && Has(m, e) && v <= VersionMask
    ensures Has(m, SetVersion(e, v))
  {
  }

  /** No two members share an index, so the member list has no duplicates. */
  lemma {:induction false} MembersDistinct<D>(m: EntityMap<D>)
    requires Valid(m)
    ensures Distinct(Members(m))
    ensures forall s, t :: 1 <= s < t < |m.dense| ==> Index(m.dense[s]) != Index(m.dense[t])
  {
    var ms := Members(m);
    forall i, j | 0 <= i < |ms| && 0 <= j < |ms| && i != j ensures ms[i] != ms[j] {
      assert ms[i] == m.dense[i + 1] && ms[j] == m.dense[j + 1];
    }
  }

  /** The members are exactly the stored handles, and there are size() of them. */
  lemma {:induction false} MembersAreStored<D>(m: EntityMap<D>)
    requires Valid(m)
    ensures Elems(Members(m)) == Stored(m).Values
    ensures |Elems(Members(m))| == Size(m)
  {
    var ms := Members(m);
    forall x | x in Elems(ms) ensures x in Stored(m).Values {
      var i :| 0 <= i < |ms| && ms[i] == x;
      assert m.dense[i + 1] == x;
      assert Stored(m)[Index(x)] == x;
    }
    forall x | x in Stored(m).Values ensures x in Elems(ms) {
      var k :| k in Stored(m) && Stored(m)[k] == x;
      assert ms[m.table[k] - 1] == x;
    }
    MembersDistinct(m);
    DistinctCard(ms);
  }

  /** A handle is a member exactly when its index is present and the stored handle is that very handle. */
  lemma {:induction false} MemberIffStored<D>(m: EntityMap<D>, e: Entity)
    requires Valid(m)
    ensures e in Members(m) <==> Has(m, e) && Stored(m)[Index(e)] == e
  {
    var ms := Members(m);
    if e in ms {
      var i :| 0 <= i < |ms| && ms[i] == e;
      assert m.dense[i + 1] == e;
    }
    if Has(m, e) && Stored(m)[Index(e)] == e {
      assert ms[m.table[Index(e)] - 1] == e;
    }
  }

  /** Emplacing a new handle and erasing it again restores the map exactly. */
  lemma {:induction false} EmplaceEraseRoundTrip<D>(m: EntityMap<D>, e: Entity, d: D)
    requires Valid(m) && !Has(m, e)
    ensures Erase(Emplace(m, e, d).0, e) == m
  {
    var r := Emplace(m, e, d).0;
    assert r.table - {Index(e)} == m.table;
    assert r.dense[..|r.dense| - 1] == m.dense;
    if !m.emptyData {
      assert r.data[..|r.dense| - 1] == m.data;
    }
  }

  /** Erasing one member leaves every other member's handle and datum in place. */
  lemma {:induction false} EraseKeepsOthers<D>(m: EntityMap<D>, e: Entity, x: Entity)
    requires Valid(m) && Has(m, e) && Has(m, x) && Index(x) != Index(e)
    ensures Has(Erase(m, e), x) && Get(Erase(m, e), x) == Get(m, x)
    ensures Stored(Erase(m, e))[Index(x)] == Stored(m)[Index(x)]
  {
  }
}

=== FILE: entity_pool.dfy ===
/**
 * The entity pool (entity_pool_t): a growable list of slots. A live slot holds
 * its own handle (its stored index equals its position); a free slot holds a
 * link to the next free slot in its index bits and the version the slot will
 * carry when it is reused. Slot 0 holds the null handle and is never issued.
 */
module EntityPool {
  import opened EntitySpec
  import opened EntityValue
  import opened Seqs

  datatype Pool = Pool(list: seq<Entity>, available: nat, next: nat)

  /** A slot is live when the handle stored there names that very slot. */
  predicate IsLiveSlot(list: seq<Entity>, j: nat)
  {
    j < |list| && Index(list[j]) == j
  }

  /**
   * The free list: `n` hops starting at `start`, following the stored index of
   * each free slot. It stops early if a link leaves the slot list.
   */
  function FreeChain(list: seq<Entity>, start: nat, n: nat): (c: seq<nat>)
    ensures |c| <= n
    ensures forall k :: 0 <= k < |c| ==> c[k] < |list|
    decreases n
  {
    if n == 0 || start >= |list| then []
    else [start] + FreeChain(list, Index(list[start]), n - 1)
  }

  /** The pool invariant: the free list and the live slots partition the slot list. */
  ghost predicate Valid(p: Pool)
  {
    && |p.list| >= 1 && p.list[0] == Null
    && |p.list| <= IndexCap
    && (forall j :: 0 <= j < |p.list| ==> Index(p.list[j]) < |p.list|)
    && p.next < |p.list|
    && ChainValid(p, FreeChain(p.list, p.next, p.available))
  }

  ghost predicate ChainValid(p: Pool, c: seq<nat>)
  {
    && |c| == p.available
    && (forall k :: 0 <= k < |c| ==> c[k] < |p.list|)
    && Distinct(c)
    && (forall k :: 0 <= k < |c| ==> !IsLiveSlot(p.list, c[k]))
    && (forall j: nat :: j < |p.list| && !IsLiveSlot(p.list, j) ==> j in c)
    && (p.available == 0 ==> p.next == 0)
    && (p.available > 0 ==> Index(p.list[c[p.available - 1]]) == 0)
  }

  /** entity_pool_t(): a single null slot. */
  function New(): (p: Pool)
    ensures Valid(p) && Size(p) == 0 && AvailableForRecycling(p) == 0
    ensures forall i: nat :: IsAlive(p, i) <==> i == 0
  {
    Pool([Null], 0, 0)
  }

  /** size(): slots minus recyclable slots minus the null slot. */
  function Size(p: Pool): (n: int)
    ensures n + AvailableForRecycling(p) + 1 == |p.list|
  {
    |p.list| - p.available - 1
  }

  /** available_for_recycling(): the length of the free list. */
  function AvailableForRecycling(p: Pool): (n: nat)
    ensures Valid(p) ==> n == |FreeChain(p.list, p.next, p.available)|
  {
    p.available
  }

  /** current(i): the version recorded for slot i, live or not. */
  function Current(p: Pool, i: nat): (v: nat)
    requires i < |p.list|
    ensures v <= VersionMask && (IsAlive(p, i) ==> p.list[i] == Make(i, v))
  {
    Decompose(p.list[i]);
    Version(p.list[i])
  }

  /** is_alive(i) */
  predicate IsAlive(p: Pool, i: nat)
  {
    i < |p.list| && i == Index(p.list[i])
  }

  /** The null slot reads as alive. */
  lemma {:induction false} NullSlotIsAlive(p: Pool)
    requires Valid(p)
    ensures IsAlive(p, 0)
  {
  }

  /** The slot the next `allocate` will hand out. */
  function NextIndex(p: Pool): nat
  {
    if p.available > 0 then p.next else |p.list|
  }

  /**
   * allocate(): pop the free-list head if there is one, else append a new slot
   * with version 0. The index capacity is a precondition.
   */
  function Allocate(p: Pool): (r: (Pool, Entity))
    requires Valid(p)
    requires p.available == 0 ==> |p.list| <= IndexMask
    ensures Valid(r.0)
    ensures Index(r.1) == NextIndex(p) && Index(r.1) != 0
    ensures p.available == 0 ==> r.1 == Make(|p.list|, 0) && r.0.list == p.list + [r.1]
    ensures p.available > 0 ==> Version(r.1) == Current(p, p.next) && |r.0.list| == |p.list|
    ensures !IsAlive(p, Index(r.1)) && IsAlive(r.0, Index(r.1))
    ensures r.0.list[Index(r.1)] == r.1
    ensures forall j :: 0 <= j < |p.list| && j != Index(r.1) ==> r.0.list[j] == p.list[j]
    ensures Size(r.0) == Size(p) + 1
    ensures AvailableForRecycling(r.0) == if p.available > 0 then p.available - 1 else 0
  {
    if p.available > 0 then
      HeadIsFree(p);
      var node := p.list[p.next];
      var e := Make(p.next, Current(p, p.next));
      var q := Pool(p.list[p.next := e], p.available - 1, Index(node));
      PopKeepsValid(p, q);
      (q, e)
    else
      var e := Entity(|p.list|);
      assert e == Make(|p.list|, 0);
      var q := Pool(p.list + [e], 0, p.next);
      AppendKeepsValid(p, q);
      (q, e)
  }

  /** Changing a slot that is not on a chain leaves the chain as it was. */
  lemma {:induction false} ChainFrame(list: seq<Entity>, x: nat, v: Entity, start: nat, n: nat)
    requires x < |list| && x !in FreeChain(list, start, n)
    ensures FreeChain(list[x := v], start, n) == FreeChain(list, start, n)
    decreases n
  {
    if n > 0 && start < |list| {
      ChainFrame(list, x, v, Index(list[start]), n - 1);
    }
  }

  /** Appending a slot leaves a chain inside the old slots as it was. */
  lemma {:induction false} ChainAppend(list: seq<Entity>, v: Entity, start: nat, n: nat)
    requires start < |list| || n == 0
    requires forall j :: 0 <= j < |list| ==> Index(list[j]) < |list|
    ensures FreeChain(list + [v], start, n) == FreeChain(list, start, n)
    decreases n
  {
    if n > 0 {
      assert (list + [v])[start] == list[start];
      ChainAppend(list, v, Index(list[start]), n - 1);
    }
  }

  /** With free slots, the head of the free list is a free slot other than the null slot. */
  lemma {:induction false} HeadIsFree(p: Pool)
    requires Valid(p) && p.available > 0
    ensures FreeChain(p.list, p.next, p.available)[0] == p.next
    ensures !IsLiveSlot(p.list, p.next) && p.next != 0
  {
    assert IsLiveSlot(p.list, 0);
  }

  /** Dropping the head of a duplicate-free sequence keeps it duplicate-free and drops the head. */
  lemma {:induction false} DistinctTail<T>(c: seq<T>)
    requires |c| > 0 && Distinct(c)
    ensures Distinct(c[1..]) && c[0] !in c[1..]
  {
  }

  lemma {:induction false} PopKeepsValid(p: Pool, q: Pool)
    requires Valid(p) && p.available > 0
    requires q == Pool(p.list[p.next := Make(p.next, Version(p.list[p.next]))],
                       p.available - 1, Index(p.list[p.next]))
    ensures Valid(q)
  {
    var c := FreeChain(p.list, p.next, p.available);
    PopChainShape(p, q);
    assert ChainValid(p, c);
    PopChainValid(p, q, c);
    forall j | 0 <= j < |q.list| ensures Index(q.list[j]) < |q.list| {
      if j != p.next { assert q.list[j] == p.list[j]; }
    }
  }

  /** Popping the head leaves the rest of the free list as the new chain. */
  lemma {:induction false} PopChainShape(p: Pool, q: Pool)
    requires Valid(p) && p.available > 0
    requires q == Pool(p.list[p.next := Make(p.next, Version(p.list[p.next]))],
                       p.available - 1, Index(p.list[p.next]))
    ensures p.next != 0 && q.next < |q.list|
    ensures FreeChain(p.list, p.next, p.available)[0] == p.next
    ensures FreeChain(q.list, q.next, q.available) == FreeChain(p.list, p.next, p.available)[1..]
  {
    HeadIsFree(p);
    var c := FreeChain(p.list, p.next, p.available);
    var rest := FreeChain(p.list, Index(p.list[p.next]), p.available - 1);
    assert c == [p.next] + rest;
    DistinctTail(c);
    ChainFrame(p.list, p.next, q.list[p.next], q.next, q.available);
  }

  /** The chain facts carry over from c to its tail once the head slot is made live. */
  lemma {:induction false} PopChainValid(p: Pool, q: Pool, c: seq<nat>)
    requires ChainValid(p, c) && |c| > 0 && c[0] == p.next
    requires p.next < |p.list| == |q.list| && q.list == p.list[p.next := q.list[p.next]] && Index(q.list[p.next]) == p.next
    requires q.available == p.available - 1 && q.next == Index(p.list[p.next])
    ensures ChainValid(q, c[1..])
  {
    var rest := c[1..];
    DistinctTail(c);
    assert IsLiveSlot(q.list, p.next);
    forall k | 0 <= k < |rest| ensures !IsLiveSlot(q.list, rest[k]) {
      assert rest[k] == c[k + 1];
    }
    forall j: nat | j < |q.list| && !IsLiveSlot(q.list, j) ensures j in rest {
      assert !IsLiveSlot(p.list, j);
    }
    if q.available > 0 {
      assert rest[q.available - 1] == c[p.available - 1];
    }
  }

  lemma {:induction false} AppendKeepsValid(p: Pool, q: Pool)
    requires Valid(p) && p.available == 0 && |p.list| <= IndexMask
    requires q == Pool(p.list + [Entity(|p.list|)], 0, p.next)
    ensures Valid(q)
  {
    assert IsLiveSlot(q.list, |p.list|);
    assert FreeChain(p.list, p.next, 0) == [];
    assert FreeChain(q.list, q.next, 0) == [];
    forall j: nat | j < |q.list| ensures IsLiveSlot(q.list, j) {
      if j < |p.list| {
        assert q.list[j] == p.list[j];
        assert IsLiveSlot(p.list, j);
      }
    }
  }

  /**
   * deallocate(e): slot e.index() becomes the free-list head, storing the old
   * head as its link and the version bumped by one (truncated to 12 bits).
   * The slot must be live and must not be the null slot.
   */
  function Deallocate(p: Pool, e: Entity): (r: Pool)
    requires Valid(p)
    requires Index(e) != 0 && IsAlive(p, Index(e))
    ensures Valid(r)
    ensures !IsAlive(r, Index(e)) && |r.list| == |p.list|
    ensures Current(r, Index(e)) == (Version(e) + 1) % VersionCap
    ensures Current(r, Index(e)) != Version(e)
    ensures NextIndex(r) == Index(e)
    ensures forall j :: 0 <= j < |p.list| && j != Index(e) ==> r.list[j] == p.list[j]
    ensures Size(r) == Size(p) - 1 && AvailableForRecycling(r) == p.available + 1
  {
    var i := Index(e);
    var q := Pool(p.list[i := Make(p.next, Version(e) + 1)], p.available + 1, i);
    PushKeepsValid(p, e, q);
    q
  }

  lemma {:induction false} PushChainShape(p: Pool, e: Entity, q: Pool)
    requires Valid(p) && Index(e) != 0 && IsAlive(p, Index(e))
    requires q == Pool(p.list[Index(e) := Make(p.next, Version(e) + 1)], p.available + 1, Index(e))
    ensures p.next != Index(e)
    ensures FreeChain(q.list, q.next, q.available) == [Index(e)] + FreeChain(p.list, p.next, p.available)
    ensures Index(e) !in FreeChain(p.list, p.next, p.available)
  {
    var i := Index(e);
    assert p.next != i by {
      if p.available > 0 { HeadIsFree(p); }
    }
    ChainFrame(p.list, i, q.list[i], p.next, p.available);
  }

  lemma {:induction false} PushKeepsValid(p: Pool, e: Entity, q: Pool)
    requires Valid(p) && Index(e) != 0 && IsAlive(p, Index(e))
    requires q == Pool(p.list[Index(e) := Make(p.next, Version(e) + 1)], p.available + 1, Index(e))
    ensures Valid(q) && Index(q.list[Index(e)]) != Index(e)
  {
    var i := Index(e);
    var c := FreeChain(p.list, p.next, p.available);
    PushChainShape(p, e, q);
    var c' := [i] + c;
    ConsDistinct(i, c);
    assert !IsLiveSlot(q.list, i);
    assert forall k :: 0 <= k < |c'| ==> !IsLiveSlot(q.list, c'[k]) by {
      forall k | 0 <= k < |c'| ensures !IsLiveSlot(q.list, c'[k]) {
        if k > 0 { assert c'[k] == c[k - 1]; }
      }
    }
    assert forall j: nat :: j < |q.list| && !IsLiveSlot(q.list, j) ==> j in c' by {
      forall j: nat | j < |q.list| && !IsLiveSlot(q.list, j) ensures j in c' {
        if j != i {
          assert !IsLiveSlot(p.list, j);
        }
      }
    }
    assert Index(q.list[c'[q.available - 1]]) == 0 by {
      if p.available > 0 {
        assert c'[q.available - 1] == c[p.available - 1];
      }
    }
    assert ChainValid(q, c');
  }

  /**
   * allocate(begin, end): n successive allocations, in order. The index
   * capacity must allow every new slot.
   */
  function AllocateMany(p: Pool, n: nat): (r: (Pool, seq<Entity>))
    requires Valid(p) && |p.list| + n <= IndexCap
    ensures Valid(r.0) && |r.1| == n
    ensures Size(r.0) == Size(p) + n
    ensures |p.list| <= |r.0.list| <= |p.list| + n
    ensures forall j :: 0 <= j < |p.list| && IsAlive(p, j) ==> r.0.list[j] == p.list[j]
    ensures FreshHandles(p, r.0, r.1)
    decreases n
  {
    if n == 0 then (p, [])
    else
      var (q, e) := Allocate(p);
      var (q', es) := AllocateMany(q, n - 1);
      FreshHandlesCons(p, q, e, q', es);
      (q', [e] + es)
  }

  /**
   * Every handle in es names a slot that was not live in p, is live in q
   * and holds exactly that handle, and no two handles share a slot.
   */
  ghost predicate FreshHandles(p: Pool, q: Pool, es: seq<Entity>) {
    (forall k :: 0 <= k < |es| ==>
      Index(es[k]) != 0 && !IsAlive(p, Index(es[k])) && IsAlive(q, Index(es[k])) && q.list[Index(es[k])] == es[k])
    && (forall k, l :: 0 <= k < l < |es| ==> Index(es[k]) != Index(es[l]))
  }

  lemma {:induction false} FreshHandlesCons(p: Pool, q: Pool, e: Entity, q': Pool, es: seq<Entity>)
    requires Index(e) != 0 && !IsAlive(p, Index(e)) && IsAlive(q, Index(e)) && q.list[Index(e)] == e
    requires |p.list| <= |q.list| <= |q'.list|
    requires forall j :: 0 <= j < |p.list| && j != Index(e) ==> q.list[j] == p.list[j]
    requires forall j :: 0 <= j < |q.list| && IsAlive(q, j) ==> q'.list[j] == q.list[j]
    requires FreshHandles(q, q', es)
    ensures FreshHandles(p, q', [e] + es)
  {
    var all := [e] + es;
    assert q'.list[Index(e)] == q.list[Index(e)];
    forall k | 0 <= k < |all|
      ensures Index(all[k]) != 0 && !IsAlive(p, Index(all[k])) && IsAlive(q', Index(all[k])) && q'.list[Index(all[k])] == all[k]
    {
      if k > 0 {
        var x := Index(es[k - 1]);
        assert all[k] == es[k - 1];
        if x < |p.list| {
          assert x != Index(e) by { assert !IsAlive(q, x); }
          assert q.list[x] == p.list[x];
        }
      }
    }
    forall k, l | 0 <= k < l < |all| ensures Index(all[k]) != Index(all[l]) {
      assert all[l] == es[l - 1];
      if k > 0 { assert all[k] == es[k - 1]; } else { assert !IsAlive(q, Index(es[l - 1])); }
    }
  }

  /** Without free slots, n allocations hand out the next n indices with version 0. */
  lemma {:induction false} FreshAllocationsAreContiguous(p: Pool, n: nat)
    requires Valid(p) && p.available == 0 && |p.list| + n <= IndexCap
    ensures forall k :: 0 <= k < n ==> AllocateMany(p, n).1[k] == Make(|p.list| + k, 0)
    decreases n
  {
    if n > 0 {
      var (q, e) := Allocate(p);
      FreshAllocationsAreContiguous(q, n - 1);
    }
  }

  /** A new pool hands out indices 1, 2, 3, ... */
  lemma {:induction false} NewPoolCountsFromOne(n: nat)
    requires n < IndexCap
    ensures forall k :: 0 <= k < n ==> AllocateMany(New(), n).1[k] == Make(k + 1, 0)
  {
    FreshAllocationsAreContiguous(New(), n);
  }

  /** Freeing a handle and allocating again reuses its slot with the next version. */
  lemma {:induction false} DeallocateThenAllocate(p: Pool, e: Entity)
    requires Valid(p) && Index(e) != 0 && IsAlive(p, Index(e))
    ensures var (q, f) := Allocate(Deallocate(p, e));
      && f == Make(Index(e), (Version(e) + 1) % VersionCap)
      && f != e
      && q == Pool(p.list[Index(e) := f], p.available, p.next)
  {
    var d := Deallocate(p, e);
    var (q, f) := Allocate(d);
    assert d.list[Index(e)] == Make(p.next, Version(e) + 1);
  }

  /** Recycling is last-in first-out. */
  lemma {:induction false} RecyclingIsLifo(p: Pool, a: Entity, b: Entity)
    requires Valid(p)
    requires Index(a) != 0 && IsAlive(p, Index(a))
    requires Index(b) != 0 && IsAlive(p, Index(b)) && Index(a) != Index(b)
    ensures var d := Deallocate(Deallocate(p, a), b);
      var (q1, f1) := Allocate(d);
      var (q2, f2) := Allocate(q1);
      Index(f1) == Index(b) && Index(f2) == Index(a)
  {
    var da := Deallocate(p, a);
    DeallocateThenAllocate(da, b);
  }

  /** After recycling, the stale handle's version no longer matches its slot. */
  lemma {:induction false} StaleHandleDetected(p: Pool, e: Entity)
    requires Valid(p) && Index(e) != 0 && IsAlive(p, Index(e))
    ensures var (q, f) := Allocate(Deallocate(p, e));
      Current(q, Index(e)) == Version(f) && Current(q, Index(e)) != Version(e)
  {
    DeallocateThenAllocate(p, e);
  }

  // ---- each(func) ----

  /** The live slots among 1 .. n-1, in ascending slot order. */
  function LiveUpTo(list: seq<Entity>, n: nat): (r: seq<Entity>)
    requires n <= |list|
    decreases n
  {
    if n <= 1 then []
    else LiveUpTo(list, n - 1) + (if IsLiveSlot(list, n - 1) then [list[n - 1]] else [])
  }

  /** The free slots among 1 .. n-1, in ascending slot order. */
  function DeadUpTo(list: seq<Entity>, n: nat): (r: seq<nat>)
    requires n <= |list|
    ensures forall k :: 0 <= k < |r| ==> 1 <= r[k] < n && !IsLiveSlot(list, r[k])
    ensures forall j: nat :: 1 <= j < n && !IsLiveSlot(list, j) ==> j in r
    ensures Increasing(r)
    decreases n
  {
    if n <= 1 then []
    else DeadUpTo(list, n - 1) + (if IsLiveSlot(list, n - 1) then [] else [n - 1])
  }

  lemma {:induction false} LiveDeadSplit(list: seq<Entity>, n: nat)
    requires 1 <= n <= |list|
    ensures |LiveUpTo(list, n)| + |DeadUpTo(list, n)| == n - 1
    decreases n
  {
    if n > 1 {
      LiveDeadSplit(list, n - 1);
    }
  }

  lemma {:induction false} LiveUpToShape(list: seq<Entity>, n: nat)
    requires n <= |list|
    ensures forall k :: 0 <= k < |LiveUpTo(list, n)| ==>
      1 <= Index(LiveUpTo(list, n)[k]) < n && IsLiveSlot(list, Index(LiveUpTo(list, n)[k]))
      && list[Index(LiveUpTo(list, n)[k])] == LiveUpTo(list, n)[k]
    ensures forall k, l :: 0 <= k < l < |LiveUpTo(list, n)| ==>
      Index(LiveUpTo(list, n)[k]) < Index(LiveUpTo(list, n)[l])
    ensures forall j: nat :: 1 <= j < n && IsLiveSlot(list, j) ==> list[j] in LiveUpTo(list, n)
  {
    LiveUpToSlots(list, n);
    LiveUpToAscending(list, n);
    LiveUpToComplete(list, n);
  }

  lemma {:induction false} LiveUpToSlots(list: seq<Entity>, n: nat)
    requires n <= |list|
    ensures forall k :: 0 <= k < |LiveUpTo(list, n)| ==>
      1 <= Index(LiveUpTo(list, n)[k]) < n && IsLiveSlot(list, Index(LiveUpTo(list, n)[k]))
      && list[Index(LiveUpTo(list, n)[k])] == LiveUpTo(list, n)[k]
    decreases n
  {
    if n > 1 {
      LiveUpToSlots(list, n - 1);
    }
  }

  lemma {:induction false} LiveUpToAscending(list: seq<Entity>, n: nat)
    requires n <= |list|
    ensures forall k, l :: 0 <= k < l < |LiveUpTo(list, n)| ==>
      Index(LiveUpTo(list, n)[k]) < Index(LiveUpTo(list, n)[l])
    decreases n
  {
    if n > 1 {
      LiveUpToAscending(list, n - 1);
      LiveUpToSlots(list, n - 1);
    }
  }

  lemma {:induction false} LiveUpToComplete(list: seq<Entity>, n: nat)
    requires n <= |list|
    ensures forall j: nat :: 1 <= j < n && IsLiveSlot(list, j) ==> list[j] in LiveUpTo(list, n)
    decreases n
  {
    if n > 1 {
      LiveUpToComplete(list, n - 1);
    }
  }

  /** The handles of the live slots 1 .. |list|-1, ascending. */
  function LiveHandles(p: Pool): seq<Entity>
    requires |p.list| >= 1
  {
    LiveUpTo(p.list, |p.list|)
  }

  /** In a valid pool the live handles are exactly size() many. */
  lemma {:induction false} LiveCountIsSize(p: Pool)
    requires Valid(p)
    ensures |LiveHandles(p)| == Size(p)
  {
    var c := FreeChain(p.list, p.next, p.available);
    assert ChainValid(p, c);
    assert IsLiveSlot(p.list, 0);
    LiveDeadSplit(p.list, |p.list|);
    DeadSlotsAreChain(p.list, c);
  }

  /** A duplicate-free list of exactly the free slots is as long as the ascending one. */
  lemma {:induction false} DeadSlotsAreChain(list: seq<Entity>, c: seq<nat>)
    requires |list| >= 1 && IsLiveSlot(list, 0) && Distinct(c)
    requires forall k :: 0 <= k < |c| ==> c[k] < |list| && !IsLiveSlot(list, c[k])
    requires forall j: nat :: j < |list| && !IsLiveSlot(list, j) ==> j in c
    ensures |DeadUpTo(list, |list|)| == |c|
  {
    var d := DeadUpTo(list, |list|);
    assert Elems(d) == Elems(c) by {
      forall x | x in c ensures x in d {
        assert x != 0;
      }
    }
    IncreasingDistinct(d);
    SameElemsSameLength(d, c);
  }

  /**
   * each(func): with free slots, visit every slot 1..n-1 whose stored index
   * matches; without free slots, visit every slot 1..n-1 unchecked. Returns the
   * handles passed to `func`, in call order.
   */
  method Each(p: Pool) returns (visited: seq<Entity>)
    requires Valid(p)
    ensures visited == LiveHandles(p)
    ensures |visited| == Size(p)
    ensures forall k :: 0 <= k < |visited| ==> Index(visited[k]) != 0 && IsAlive(p, Index(visited[k]))
    ensures forall k, l :: 0 <= k < l < |visited| ==> Index(visited[k]) < Index(visited[l])
    ensures forall j: nat :: j != 0 && IsAlive(p, j) ==> p.list[j] in visited
  {
    var end := |p.list|;
    visited := [];
    if p.available != 0 {
      var i := 1;
      while i != end
        invariant 1 <= i <= end
        invariant visited == LiveUpTo(p.list, i)
      {
        var e := p.list[i];
        if Index(e) == i {
          visited := visited + [e];
        }
        i := i + 1;
      }
    } else {
      var i := 1;
      while i != end
        invariant 1 <= i <= end
        invariant visited == LiveUpTo(p.list, i)
      {
        assert IsLiveSlot(p.list, i) by {
          assert FreeChain(p.list, p.next, p.available) == [];
        }
        visited := visited + [p.list[i]];
        i := i + 1;
      }
    }
    LiveCountIsSize(p);
    LiveUpToShape(p.list, end);
  }
}

=== FILE: entity_spec.dfy ===
/**
 * Bit layout of a 32-bit entity handle: a 20-bit slot index in the low bits
 * and a 12-bit version above it (entity_spec<uint32_t>).
 */
module EntitySpec {

  const ValueBits: nat := 32
  const IndexBits: nat := 20
  const VersionBits: nat := 12

  /** 2^20 and 2^12, written out because Dafny has no shift on int. */
  const IndexCap: nat := 0x10_0000
  const VersionCap: nat := 0x1000
  const ValueCap: nat := 0x1_0000_0000
  const IndexMask: nat := IndexCap - 1
  const VersionMask: nat := VersionCap - 1

  /** Widths of the storage types: value and index are uint32_t, version is uint16_t. */
  const Uint32Cap: nat := 0x1_0000_0000
  const Uint16Cap: nat := 0x1_0000

  /** The 32-bit layout described by the constants, as machine words. */
  function IndexMaskWord(): (m: bv32)
    ensures m as nat == IndexMask
  {
    (1 << 20) - 1
  }

  function VersionMaskWord(): (m: bv32)
    ensures m as nat == VersionMask
  {
    (1 << 12) - 1
  }

  lemma {:induction false} LayoutFacts()
    ensures IndexCap == Pow2(IndexBits) && VersionCap == Pow2(VersionBits)
    ensures IndexBits + VersionBits == ValueBits && ValueCap == Pow2(ValueBits)
    ensures IndexCap * VersionCap == ValueCap
    ensures VersionMask < Uint16Cap && IndexMask < Uint32Cap
  {
    Pow2Add(IndexBits, VersionBits);
  }

  /** The index bits and the shifted version bits do not overlap and together cover the word. */
  lemma {:induction false} MasksDisjoint()
    ensures IndexMaskWord() & (VersionMaskWord() << 20) == 0
    ensures IndexMaskWord() | (VersionMaskWord() << 20) == 0xFFFF_FFFF
  {
  }

  function Pow2(n: nat): (r: nat)
    ensures r >= 1
  {
    if n == 0 then 1 else 2 * Pow2(n - 1)
  }

  lemma {:induction false} Pow2Add(a: nat, b: nat)
    ensures Pow2(a + b) == Pow2(a) * Pow2(b)
    decreases a
  {
    if a > 0 {
      Pow2Add(a - 1, b);
      assert Pow2(a + b) == 2 * Pow2(a - 1 + b);
    }
  }
}

=== FILE: entity_value.dfy ===
/**
 * The packed entity handle (entity_value<uint32_t>): one 32-bit word holding
 * `index | (version << 20)`. The word is a natural below 2^32; masking with
 * 2^k - 1 is `% 2^k` and shifting right by 20 is `/ 2^20`, which is what the
 * bitwise operators of the source compute on unsigned words.
 */
module EntityValue {
  import opened EntitySpec

  /** value_type: an unsigned 32-bit word. */
  type Word = x: nat | x < 0x1_0000_0000

  datatype Entity = Entity(value: Word)

  /** The static null handle: a zero-initialised word, so index 0 and version 0. */
  const Null: Entity := Entity(0)

  /** `value_ & index_mask` */
  function Index(e: Entity): (i: nat)
    ensures i <= IndexMask
  {
    e.value % IndexCap
  }

  /** `(value_ >> index_bits) & version_mask` */
  function Version(e: Entity): (v: nat)
    ensures v <= VersionMask
  {
    (e.value / IndexCap) % VersionCap
  }

  /**
   * entity_value(i, v) = `i | (v << index_bits)`. The index must fit its 20 bits
   * (exceeding the index capacity is a documented precondition); the shifted
   * version is truncated to the 32-bit word, so only v mod 2^12 survives.
   */
  function Make(i: nat, v: nat): (e: Entity)
    requires i <= IndexMask && v < Uint16Cap
    ensures Index(e) == i && Version(e) == v % VersionCap
  {
    var e := Entity(i + (v % VersionCap) * IndexCap);
    DivModPacked(i, v % VersionCap);
    e
  }

  lemma {:induction false} DivModPacked(i: nat, w: nat)
    requires i < IndexCap && w < VersionCap
    ensures (i + w * IndexCap) % IndexCap == i
    ensures (i + w * IndexCap) / IndexCap == w
  {
  }

  /** Default construction yields the null handle. */
  function Default(): (e: Entity)
    ensures Index(e) == 0 && Version(e) == 0 && IsNull(e)
  {
    Null
  }

  /** Setter `version(v)`: keeps the index bits and replaces the version bits. */
  function SetVersion(e: Entity, v: nat): (r: Entity)
    requires v <= VersionMask
    ensures Index(r) == Index(e) && Version(r) == v
  {
    Make(Index(e), v)
  }

  /**
   * Setter `index(v)`: `(value_ & ~index_mask) | v`. The argument is not masked,
   * so it must fit the index bits for the version to survive.
   */
  function SetIndex(e: Entity, v: nat): (r: Entity)
    requires v <= IndexMask
    ensures Index(r) == v && Version(r) == Version(e)
  {
    var high := e.value - e.value % IndexCap;
    HighPart(e.value);
    Entity(high + v)
  }

  lemma {:induction false} HighPart(x: Word)
    ensures x - x % IndexCap == (x / IndexCap) * IndexCap
    ensures (x / IndexCap) < VersionCap
  {
  }

  /** `operator== nullptr`: the word equals the null word. */
  predicate IsNull(e: Entity): (b: bool)
    ensures b <==> e == Null
  {
    e.value == Null.value
  }

  /** `explicit operator bool`: the word differs from the null word. */
  predicate ToBool(e: Entity): (b: bool)
    ensures b <==> e != Null
  {
    e.value != Null.value
  }

  /** Every word is the packing of its own index and version. */
  lemma {:induction false} Decompose(e: Entity)
    ensures Make(Index(e), Version(e)) == e
  {
    HighPart(e.value);
  }

  /** Packing is injective on in-range pairs. */
  lemma {:induction false} MakeInjective(i: nat, v: nat, j: nat, w: nat)
    requires i <= IndexMask && v <= VersionMask && j <= IndexMask && w <= VersionMask
    requires Make(i, v) == Make(j, w)
    ensures i == j && v == w
  {
  }

  /** Equality compares the whole word, so index and version both matter. */
  lemma {:induction false} EqualityIsByWord(e: Entity, f: Entity)
    ensures e == f <==> Index(e) == Index(f) && Version(e) == Version(f)
  {
    Decompose(e);
    Decompose(f);
  }

  /** `== nullptr` and `operator bool` are exact opposites, and only null is null. */
  lemma {:induction false} NullTests(e: Entity)
    ensures IsNull(e) <==> !ToBool(e)
    ensures IsNull(e) <==> e == Null
    ensures IsNull(e) <==> Index(e) == 0 && Version(e) == 0
  {
    EqualityIsByWord(e, Null);
  }

  /**
   * The arithmetic reading of the word agrees with the source's bit operators:
   * on 32-bit words, masking is a remainder, shifting is a division, and the
   * packing OR is an addition that cannot carry (the formulas above, word for word).
   */
  lemma {:induction false} BitOperatorsAreArithmetic(w: bv32, i: bv32, v: bv32)
    requires i <= 0xF_FFFF && v <= 0xFFFF
    ensures w & 0xF_FFFF == w % 0x10_0000
    ensures (w >> 20) & 0xFFF == (w / 0x10_0000) % 0x1000
    ensures i | (v << 20) == i + (v % 0x1000) * 0x10_0000
  {
  }
}

=== FILE: family_aspect.dfy ===
/**
 * Aspect predicates over the legacy component database: a family aspect
 * built incrementally from required and excluded component types, and the
 * fixed all-of aspect of a component list. Both hold the masks of the
 * database by reference, so they read the masks' current contents; the model
 * keeps the component type ids and reads the database when testing.
 */
module FamilyAspects {
  import BitVectors
  import ComponentDbV1

  type Db<D> = ComponentDbV1.Db<D>

  /** Every listed type is registered and e is a valid entity id of a database sized to capacity. */
  ghost predicate Readable<D>(db: Db<D>, capacity: nat, ids: seq<nat>, e: nat)
  {
    ComponentDbV1.Valid(db, capacity) && e < capacity
    && forall k :: 0 <= k < |ids| ==> ComponentDbV1.Registered(db, ids[k])
  }

  /**
   * The inclusion loop: stop at the first mask where the entity's bit is
   * clear (`is_false`).
   */
  function AllHave<D>(db: Db<D>, capacity: nat, ids: seq<nat>, e: nat): (r: bool)
    requires Readable(db, capacity, ids, e)
    ensures r <==> forall k :: 0 <= k < |ids| ==> ComponentDbV1.Has(db, ids[k], e)
    decreases |ids|
  {
    if |ids| == 0 then true
    else if BitVectors.IsFalse(ComponentDbV1.ManagerOf(db, ids[0]).mask, e) then false
    else
      assert Readable(db, capacity, ids[1..], e);
      var rest := AllHave(db, capacity, ids[1..], e);
      assert forall k :: 1 <= k < |ids| ==> ids[k] == ids[1..][k - 1];
      rest
  }

  /**
   * The exclusion loop: stop at the first mask where the entity's bit is set
   * (`is_true`, which bit_vector spells `get`).
   */
  function NoneHas<D>(db: Db<D>, capacity: nat, ids: seq<nat>, e: nat): (r: bool)
    requires Readable(db, capacity, ids, e)
    ensures r <==> forall k :: 0 <= k < |ids| ==> !ComponentDbV1.Has(db, ids[k], e)
    decreases |ids|
  {
    if |ids| == 0 then true
    else if BitVectors.Get(ComponentDbV1.ManagerOf(db, ids[0]).mask, e) then false
    else
      assert Readable(db, capacity, ids[1..], e);
      var rest := NoneHas(db, capacity, ids[1..], e);
      assert forall k :: 1 <= k < |ids| ==> ids[k] == ids[1..][k - 1];
      rest
  }

  /** family_aspect_data: the required and the excluded component types. */
  datatype AspectData = AspectData(inclusion: seq<nat>, exclusion: seq<nat>)

  /** Both lists only name registered types. */
  ghost predicate DataReadable<D>(db: Db<D>, capacity: nat, a: AspectData, e: nat)
  {
    Readable(db, capacity, a.inclusion, e) && Readable(db, capacity, a.exclusion, e)
  }

  /** The constructor: nothing required, nothing excluded. */
  function NewData(): (a: AspectData)
    ensures |a.inclusion| == 0 && |a.exclusion| == 0
  {
    AspectData([], [])
  }

  /** With nothing required and nothing excluded, every entity passes. */
  lemma {:induction false} NewDataAcceptsAll<D>(db: Db<D>, capacity: nat, e: nat)
    requires ComponentDbV1.Valid(db, capacity) && e < capacity
    ensures DataReadable(db, capacity, NewData(), e) && Check(db, capacity, NewData(), e)
  {
  }

  /** check(entity) and operator(): every required mask has e and no excluded mask has it. */
  function Check<D>(db: Db<D>, capacity: nat, a: AspectData, e: nat): (r: bool)
    requires DataReadable(db, capacity, a, e)
    ensures r <==> (forall k :: 0 <= k < |a.inclusion| ==> ComponentDbV1.Has(db, a.inclusion[k], e))
                   && (forall k :: 0 <= k < |a.exclusion| ==> !ComponentDbV1.Has(db, a.exclusion[k], e))
  {
    AllHave(db, capacity, a.inclusion, e) && NoneHas(db, capacity, a.exclusion, e)
  }

  /** require<T>(): bits<T>() asserts the type is registered; its mask joins the inclusion list. */
  function Require<D>(db: Db<D>, a: AspectData, c: nat): (r: AspectData)
    requires ComponentDbV1.Registered(db, c)
    ensures r.exclusion == a.exclusion
    ensures forall t :: t in r.inclusion <==> t in a.inclusion || t == c
  {
    a.(inclusion := a.inclusion + [c])
  }

  /** exclude<T>(): the type's mask joins the exclusion list. */
  function Exclude<D>(db: Db<D>, a: AspectData, c: nat): (r: AspectData)
    requires ComponentDbV1.Registered(db, c)
    ensures r.inclusion == a.inclusion
    ensures forall t :: t in r.exclusion <==> t in a.exclusion || t == c
  {
    a.(exclusion := a.exclusion + [c])
  }

  /** After require<T>(), an entity passes exactly when it passed before and holds T. */
  lemma {:induction false} RequireThenCheck<D>(db: Db<D>, capacity: nat, a: AspectData, c: nat, e: nat)
    requires DataReadable(db, capacity, a, e) && ComponentDbV1.Registered(db, c)
    ensures DataReadable(db, capacity, Require(db, a, c), e)
    ensures Check(db, capacity, Require(db, a, c), e) <==> Check(db, capacity, a, e) && ComponentDbV1.Has(db, c, e)
  {
    var r := Require(db, a, c);
    assert forall k :: 0 <= k < |a.inclusion| ==> r.inclusion[k] == a.inclusion[k];
    assert r.inclusion[|a.inclusion|] == c;
  }

  /** After exclude<T>(), an entity passes exactly when it passed before and lacks T. */
  lemma {:induction false} ExcludeThenCheck<D>(db: Db<D>, capacity: nat, a: AspectData, c: nat, e: nat)
    requires DataReadable(db, capacity, a, e) && ComponentDbV1.Registered(db, c)
    ensures DataReadable(db, capacity, Exclude(db, a, c), e)
    ensures Check(db, capacity, Exclude(db, a, c), e) <==> Check(db, capacity, a, e) && !ComponentDbV1.Has(db, c, e)
  {
    var r := Exclude(db, a, c);
    assert forall k :: 0 <= k < |a.exclusion| ==> r.exclusion[k] == a.exclusion[k];
    assert r.exclusion[|a.exclusion|] == c;
  }

  /** family_aspect<Cs...>: the masks of a non-empty list of component types. */
  datatype FamilyAspect = FamilyAspect(masks: seq<nat>)

  /** The constructor: the list must not be empty and every type must be registered. */
  function NewFamilyAspect<D>(db: Db<D>, ids: seq<nat>): (f: FamilyAspect)
    requires |ids| > 0 && forall k :: 0 <= k < |ids| ==> ComponentDbV1.Registered(db, ids[k])
    ensures |f.masks| == |ids| > 0
    ensures forall k :: 0 <= k < |ids| ==> f.masks[k] == ids[k] && ComponentDbV1.Registered(db, f.masks[k])
  {
    FamilyAspect(ids)
  }

  /** test(entity) and operator(): every mask has e. */
  function Test<D>(db: Db<D>, capacity: nat, f: FamilyAspect, e: nat): (r: bool)
    requires Readable(db, capacity, f.masks, e)
    ensures r <==> forall k :: 0 <= k < |f.masks| ==> ComponentDbV1.Has(db, f.masks[k], e)
  {
    AllHave(db, capacity, f.masks, e)
  }

  /** A family aspect accepts exactly what the aspect data requiring the same types accepts. */
  lemma {:induction false} TestIsRequireAll<D>(db: Db<D>, capacity: nat, f: FamilyAspect, e: nat)
    requires Readable(db, capacity, f.masks, e)
    ensures DataReadable(db, capacity, AspectData(f.masks, []), e)
    ensures Test(db, capacity, f, e) == Check(db, capacity, AspectData(f.masks, []), e)
  {
  }
}

=== FILE: legacy_world.dfy ===
/**
 * The single-header world of ecxx.h: a fixed-capacity entity world whose ids
 * and version tags are 16 bits wide. Free ids wait on a stack, each id has a
 * version tag that deallocation bumps, an active bit per id says which ids
 * are allocated, and a counter `used` (starting at 1, for the null id 0)
 * bounds how many allocations remain. Its component database is the same
 * code as the v1 one and is modelled by ComponentDbV1; the world id it gets
 * from the registry is modelled by WorldsMap and is not kept here.
 */
module LegacyWorld {
  import opened Wrappers
  import opened Seqs
  import BitVectors
  import ActiveEntities

  /** entity_id_t and version_tag_t are 16 bits wide. */
  const Width: nat := 0x1_0000

  datatype World = World(pool: seq<nat>, versions: seq<nat>, end: nat, used: nat, active: BitVectors.BitVector)

  /** entity_t without its world id: an id and the version it was created under. */
  datatype Entity = Entity(id: nat, version: nat)

  /** What every reachable world satisfies, the source's accounting slip included. */
  ghost predicate Wf(w: World)
  {
    && 1 <= w.end < Width
    && |w.versions| == w.end
    && BitVectors.Valid(w.active) && BitVectors.Size(w.active) == w.end
    && 1 <= w.used <= w.end
    && |w.pool| + w.used >= w.end
    && (forall k :: 0 <= k < |w.pool| ==> w.pool[k] < w.end)
    && (forall x :: 0 <= x < w.end ==> w.versions[x] < Width)
  }

  /** Id x is allocated. */
  predicate Live(w: World, x: nat)
    requires Wf(w)
  {
    x < w.end && BitVectors.Get(w.active, x)
  }

  /**
   * The intended accounting: the stack holds each free id once, the free ids
   * are exactly the inactive non-null ones, the null id is never active, and
   * `used` counts the live ids plus the null id.
   */
  ghost predicate Accounted(w: World)
  {
    && Wf(w)
    && Distinct(w.pool)
    && |w.pool| + w.used == w.end
    && !BitVectors.Get(w.active, 0)
    && (forall k :: 0 <= k < |w.pool| ==> 1 <= w.pool[k])
    && (forall x :: 1 <= x < w.end ==> (x in w.pool <==> !BitVectors.Get(w.active, x)))
  }

  /**
   * world_t(capacity): the stack holds capacity-1 down to 1 (so 1 is on
   * top), every version is 1, no id is active and one slot (the null id)
   * is used.
   */
  function New(capacity: nat): (w: World)
    requires 0 < capacity < Width
    ensures Accounted(w) && w.end == capacity && Available(w) == capacity - 1
    ensures forall x :: 0 <= x < capacity ==> !Live(w, x) && w.versions[x] == 1
  {
    CountdownFree(capacity);
    World(Countdown(capacity), seq(capacity, _ => 1), capacity, 1, BitVectors.New(capacity))
  }

  /** The constructor's stack: capacity-1 down to 1, with 1 on top. */
  function Countdown(n: nat): (pool: seq<nat>)
    requires 0 < n
    ensures |pool| == n - 1
  {
    seq(n - 1, k => n - 1 - k)
  }

  /** The constructor's stack holds each non-null id below n exactly once. */
  lemma {:induction false} CountdownFree(n: nat)
    requires 0 < n
    ensures Distinct(Countdown(n))
    ensures forall k :: 0 <= k < n - 1 ==> 1 <= Countdown(n)[k] < n
    ensures forall x :: 1 <= x < n ==> x in Countdown(n)
  {
    var pool := Countdown(n);
    forall x | 1 <= x < n ensures x in pool {
      assert pool[n - 1 - x] == x;
    }
  }

  /** available(): end - used, the allocations still allowed. */
  function Available(w: World): nat
    requires Wf(w)
  {
    w.end - w.used
  }

  /** version(id). */
  function Version(w: World, id: nat): (v: nat)
    requires Wf(w) && id < w.end
    ensures v < Width
  {
    w.versions[id]
  }

  /** is_valid(id, version): the version matches the id's current one. */
  function IsValid(w: World, id: nat, version: nat): (b: bool)
    requires Wf(w) && id < w.end
    ensures b ==> version < Width
  {
    version == Version(w, id)
  }

  /** ref(id): a handle carrying the id's current version. */
  function Ref(w: World, id: nat): (e: Entity)
    requires Wf(w) && id < w.end
    ensures e.id == id && IsValid(w, e.id, e.version)
  {
    Entity(id, Version(w, id))
  }

  /**
   * allocate(): with used < end, count one more use, pop the id on top of
   * the stack and mark it active; None where the source's assertion fails.
   */
  function Allocate(w: World): (r: Option<(World, nat)>)
    requires Wf(w)
    ensures r.None? <==> Available(w) == 0
    ensures r.Some? ==> Wf(r.value.0) && r.value.1 < w.end
  {
    if w.used >= w.end then None
    else
      var id := w.pool[|w.pool| - 1];
      Some((w.(pool := w.pool[..|w.pool| - 1], used := w.used + 1, active := BitVectors.Enable(w.active, id)), id))
  }

  /** The id's version plus one, cut to 16 bits. */
  function Bump(v: nat): (r: nat)
    requires v < Width
    ensures r < Width && r != v
  {
    (v + 1) % Width
  }

  /**
   * deallocate(id) as written: bump the id's version, push the id and clear
   * its active bit. `used` is left alone.
   */
  function Deallocate(w: World, id: nat): (r: World)
    requires Wf(w) && id < w.end
    ensures Wf(r)
  {
    w.(versions := w.versions[id := Bump(w.versions[id])],
       pool := w.pool + [id],
       active := BitVectors.Disable(w.active, id))
  }

  /** create(): allocate and take a reference to the new id. */
  function Create(w: World): (r: Option<(World, Entity)>)
    requires Wf(w)
    ensures r.Some? ==> Wf(r.value.0) && r.value.1.id < r.value.0.end
  {
    match Allocate(w)
    case None => None
    case Some((w', id)) => Some((w', Ref(w', id)))
  }

  /** destroy(entity): deallocate the entity's id. */
  function Destroy(w: World, e: Entity): (r: World)
    requires Wf(w) && e.id < w.end
    ensures Wf(r)
  {
    Deallocate(w, e.id)
  }

  // ---- allocation and deallocation ----

  /**
   * allocate() hands out the top of the free stack, which was a free id, and
   * keeps the intended accounting: the id becomes live and nothing else moves.
   */
  lemma {:induction false} AllocateKeepsAccounted(w: World)
    requires Accounted(w) && Available(w) > 0
    ensures var (w', id) := Allocate(w).value;
      && id == w.pool[|w.pool| - 1] && 1 <= id && !Live(w, id)
      && Accounted(w') && Live(w', id) && Available(w') == Available(w) - 1
      && (forall x :: 0 <= x < w.end && x != id ==> Live(w', x) == Live(w, x))
      && w'.versions == w.versions
  {
    var (w', id) := Allocate(w).value;
    var n := |w.pool| - 1;
    assert w.pool == w'.pool + [id];
    DistinctPrefix(w.pool, n);
    forall x | 1 <= x < w.end ensures x in w'.pool <==> !BitVectors.Get(w'.active, x) {
      assert x in w.pool <==> x in w'.pool || x == id;
      if x == id {
        assert forall k :: 0 <= k < n ==> w'.pool[k] == w.pool[k] != w.pool[n];
      }
    }
  }

  /** deallocate(id) bumps only that id's version and pushes the id on top of the stack. */
  lemma {:induction false} DeallocateBumpsVersion(w: World, id: nat)
    requires Wf(w) && id < w.end
    ensures var w' := Deallocate(w, id);
      && !Live(w', id) && w'.pool[|w'.pool| - 1] == id
      && Version(w', id) == (Version(w, id) + 1) % Width
      && (forall x :: 0 <= x < w.end && x != id ==> Version(w', x) == Version(w, x) && Live(w', x) == Live(w, x))
  {
  }

  /** A handle taken before destroy(entity) is no longer valid after it; every other id's handles still are. */
  lemma {:induction false} DestroyInvalidates(w: World, e: Entity, x: nat, v: nat)
    requires Wf(w) && e.id < w.end && IsValid(w, e.id, e.version) && x < w.end && x != e.id
    ensures !IsValid(Destroy(w, e), e.id, e.version)
    ensures IsValid(Destroy(w, e), x, v) == IsValid(w, x, v)
  {
  }

  /** create() returns a live id and a handle that is valid for it. */
  lemma {:induction false} CreateIsValid(w: World)
    requires Accounted(w) && Available(w) > 0
    ensures Create(w).Some?
    ensures var (w', e) := Create(w).value; Live(w', e.id) && IsValid(w', e.id, e.version) && !Live(w, e.id)
  {
    AllocateKeepsAccounted(w);
  }

  /** While allocations remain, the id deallocate pushes is the one the next allocate returns. */
  lemma {:induction false} DeallocateThenAllocate(w: World, id: nat)
    requires Wf(w) && id < w.end && Available(w) > 0
    ensures Allocate(Deallocate(w, id)).Some?
    ensures Allocate(Deallocate(w, id)).value.1 == id
    ensures Live(Allocate(Deallocate(w, id)).value.0, id)
  {
  }

  /** allocate() spends one unit of available(), deallocate() gives none back. */
  lemma {:induction false} AvailableNeverGrows(w: World, id: nat)
    requires Wf(w) && id < w.end
    ensures Allocate(w).Some? ==> Available(Allocate(w).value.0) == Available(w) - 1
    ensures Available(Deallocate(w, id)) == Available(w)
  {
  }

  /** k allocations in a row, or None when one of them is refused. */
  function AllocateTimes(w: World, k: nat): (r: Option<World>)
    requires Wf(w)
    ensures r.Some? ==> Wf(r.value) && r.value.end == w.end
  {
    if k == 0 then Some(w)
    else match AllocateTimes(w, k - 1)
      case None => None
      case Some(v) => match Allocate(v)
        case None => None
        case Some((v', _)) => Some(v')
  }

  /**
   * On a fresh world of capacity n, after k allocations the stack holds
   * n-1 down to k+1, so the next allocation returns id k+1: ids come out
   * as 1, 2, 3, ... in order.
   */
  lemma {:induction false} NewAllocatesInOrder(n: nat, k: nat)
    requires 0 < n < Width && k < n - 1
    ensures AllocateTimes(New(n), k).Some?
    ensures var w := AllocateTimes(New(n), k).value;
      w.used == k + 1 && w.pool == seq(n - 1 - k, j => n - 1 - j)
    ensures Allocate(AllocateTimes(New(n), k).value).Some?
    ensures Allocate(AllocateTimes(New(n), k).value).value.1 == k + 1
  {
    if k > 0 {
      NewAllocatesInOrder(n, k - 1);
      var v := AllocateTimes(New(n), k - 1).value;
      var w := AllocateTimes(New(n), k).value;
      assert w == Allocate(v).value.0;
      assert w.pool == v.pool[..|v.pool| - 1];
    }
  }

  // ---- the used_ counter ----

  /**
   * Capacity 2 leaves one id. Allocate it and deallocate it: the stack holds
   * the id again, yet allocate() refuses, because `used` still counts it.
   */
  lemma {:induction false} RecycledIdStarves()
    ensures var (w1, id) := Allocate(New(2)).value;
      var w2 := Deallocate(w1, id);
      id == 1 && w2.pool == [1] && !Live(w2, 1) && Allocate(w2).None?
  {
    var w0 := New(2);
    assert w0.pool == [1];
  }

  /**
   * deallocate with the evidently intended bookkeeping: give the id's use
   * back. It refuses an id that is not live (the source does not check, and
   * pushing such an id twice hands it out twice).
   */
  function Release(w: World, id: nat): (r: Option<World>)
    requires Wf(w)
    ensures r.Some? ==> Wf(r.value)
  {
    if id == 0 || !Live(w, id) || w.used < 2 then None
    else Some(Deallocate(w, id).(used := w.used - 1))
  }

  /** A live id leaves the stack at most the other end - 2 non-null ids. */
  lemma {:induction false} LiveIdBoundsPool(w: World, id: nat)
    requires Accounted(w) && 1 <= id < w.end && Live(w, id)
    ensures |w.pool| <= w.end - 2
  {
    DistinctCard(w.pool);
    var free := Range(1, w.end) - {id};
    assert Range(1, w.end) == free + {id};
    assert |free| == w.end - 2;
    assert Elems(w.pool) <= free;
    assert free == Elems(w.pool) + (free - Elems(w.pool));
  }

  /**
   * Release keeps the intended accounting: it accepts every live non-null
   * id, frees it, gives one unit back to available(), and the next
   * allocation returns that id.
   */
  lemma {:induction false} ReleaseKeepsAccounted(w: World, id: nat)
    requires Accounted(w) && id < w.end
    ensures Release(w, id).Some? <==> 1 <= id && Live(w, id)
    ensures Release(w, id).Some? ==>
      var w' := Release(w, id).value;
      && Accounted(w') && !Live(w', id) && Available(w') == Available(w) + 1
      && !IsValid(w', id, Version(w, id))
      && Allocate(w').Some? && Allocate(w').value.1 == id
  {
    if 1 <= id && Live(w, id) {
      LiveIdBoundsPool(w, id);
      var w' := Release(w, id).value;
      assert id !in w.pool;
      DistinctConcat(w.pool, [id]);
      forall x | 1 <= x < w.end ensures x in w'.pool <==> !BitVectors.Get(w'.active, x) {
        assert x in w'.pool <==> x in w.pool || x == id;
      }
    }
  }

  /** With Release in place of deallocate, available() is exactly the number of free ids. */
  lemma {:induction false} AvailableCountsFree(w: World)
    requires Accounted(w)
    ensures Available(w) == |w.pool|
    ensures forall x :: 1 <= x < w.end ==> (x in w.pool <==> !Live(w, x))
  {
  }

  // ---- active_entities_view ----

  /** The active bit as a filter over ids below the world's end. */
  function ActiveFilter(w: World): (pass: nat --> bool)
    requires Wf(w)
    ensures ActiveEntities.ReadableOn(pass, 0, w.end)
    ensures forall x :: 0 <= x < w.end ==> pass(x) == Live(w, x)
  {
    (x: nat) requires x < BitVectors.Size(w.active) => BitVectors.Get(w.active, x)
  }

  /**
   * A range-for over active_entities() as written: begin() is id 1 without
   * any skip, and ++ skips inactive ids up to end. Every live id is yielded,
   * and so is id 1 whether it is live or not.
   */
  method ActiveIdsAsWritten(w: World) returns (ids: seq<nat>)
    requires Wf(w)
    ensures Increasing(ids)
    ensures forall x :: x in ids <==> 1 <= x < w.end && (x == 1 || Live(w, x))
  {
    var pass := ActiveFilter(w);
    ids := [];
    var id := 1;
    while id != w.end
      invariant 1 <= id <= w.end
      invariant forall k :: 0 <= k < |ids| ==> ids[k] < id
      invariant Increasing(ids)
      invariant id < w.end ==> id == 1 || pass(id)
      invariant forall x :: x in ids <==> 1 <= x < id && (x == 1 || pass(x))
      decreases w.end - id
    {
      ids := ids + [id];
      id := ActiveEntities.Next(pass, id, w.end);
    }
  }

  /**
   * A fresh world of capacity 2 has no live id, yet the view as written
   * yields id 1: any result of ActiveIdsAsWritten on New(2) is exactly [1].
   */
  lemma {:induction false} FreshViewYieldsInactiveId(ids: seq<nat>)
    requires Increasing(ids)
    requires forall x: nat :: x in ids <==> (x == 1 || Live(New(2), x)) && 1 <= x < New(2).end
    ensures ids == [1] && !Live(New(2), 1)
  {
    assert Elems(ids) == Elems([1]) by {
      assert 1 in ids;
      forall x | x in Elems(ids) ensures x == 1 {
        assert x in ids;
      }
    }
    IncreasingDistinct(ids);
    SameElemsSameLength(ids, [1]);
    assert ids[0] in ids;
  }

  /** The view with begin() skipping inactive ids, as the v1 view does: exactly the live ids. */
  method ActiveIds(w: World) returns (ids: seq<nat>)
    requires Wf(w)
    ensures Increasing(ids)
    ensures forall x :: x in ids <==> 1 <= x < w.end && Live(w, x)
  {
    ids := ActiveEntities.Iterate(ActiveFilter(w), w.end);
  }
}

=== FILE: managed_family.dfy ===
/**
 * Managed families of the v1 world: a family keeps a member mask over entity
 * ids, the number of members, a "changed" flag, and a list of the member ids
 * rebuilt from the mask's bytes when the world invalidates it.
 */
module ManagedFamilies {
  import opened Seqs
  import BitVectors
  import ComponentDbV1
  import FamilyAspects

  type BitVector = BitVectors.BitVector
  type Db<D> = ComponentDbV1.Db<D>

  // ---- fill_enabled_bits ----

  /** The ids in [lo, hi) whose bit is set, ascending; bits past the size read as clear. */
  ghost function SetBitsIn(b: BitVector, lo: nat, hi: nat): seq<nat>
    decreases hi - lo
  {
    if lo >= hi then []
    else
      var rest := SetBitsIn(b, lo + 1, hi);
      if BitVectors.BitOr0(b.bits, lo) then [lo] + rest else rest
  }

  /** The listed ids are exactly the set bits of the range, each inside it, in ascending order. */
  lemma {:induction false} SetBitsMeaning(b: BitVector, lo: nat, hi: nat)
    ensures var s := SetBitsIn(b, lo, hi);
      Increasing(s)
      && (forall k :: 0 <= k < |s| ==> lo <= s[k] < hi)
      && (forall x :: x in s <==> lo <= x < hi && BitVectors.BitOr0(b.bits, x))
    decreases hi - lo
  {
    if lo < hi {
      SetBitsMeaning(b, lo + 1, hi);
      var rest := SetBitsIn(b, lo + 1, hi);
      if BitVectors.BitOr0(b.bits, lo) {
        var s := [lo] + rest;
        assert forall k :: 1 <= k < |s| ==> s[k] == rest[k - 1];
      }
    }
  }

  /** Splitting the range splits the list. */
  lemma {:induction false} SplitSetBits(b: BitVector, lo: nat, mid: nat, hi: nat)
    requires lo <= mid <= hi
    ensures SetBitsIn(b, lo, hi) == SetBitsIn(b, lo, mid) + SetBitsIn(b, mid, hi)
    decreases mid - lo
  {
    if lo < mid {
      SplitSetBits(b, lo + 1, mid, hi);
    }
  }

  /** A range with no set bit lists nothing. */
  lemma {:induction false} ClearRangeEmpty(b: BitVector, lo: nat, hi: nat)
    requires forall x :: lo <= x < hi ==> !BitVectors.BitOr0(b.bits, x)
    ensures SetBitsIn(b, lo, hi) == []
    decreases hi - lo
  {
    if lo < hi {
      ClearRangeEmpty(b, lo + 1, hi);
    }
  }

  /** Extending the range by one id appends that id when its bit is set. */
  lemma {:induction false} ExtendSetBits(b: BitVector, lo: nat, x: nat)
    requires lo <= x
    ensures SetBitsIn(b, lo, x + 1) == SetBitsIn(b, lo, x) + (if BitVectors.BitOr0(b.bits, x) then [x] else [])
  {
    SplitSetBits(b, lo, x, x + 1);
  }

  /** Byte i of the storage read through `1 << j` is bit 8i + j. */
  lemma {:induction false} ReadStoredBit(b: BitVector, i: nat, j: nat)
    requires i < |BitVectors.Bytes(b)| && j < 8
    ensures (BitVectors.Bytes(b)[i] & BitVectors.Mask(j) != 0) == BitVectors.BitOr0(b.bits, i * 8 + j)
  {
    var x := i * 8 + j;
    assert BitVectors.Address(x) == i && x % 8 == j;
    BitVectors.ReadByte(b.bits, x);
  }

  /** A zero byte holds no set bit. */
  lemma {:induction false} ZeroByteClear(b: BitVector, i: nat)
    requires i < |BitVectors.Bytes(b)| && BitVectors.Bytes(b)[i] == 0
    ensures SetBitsIn(b, i * 8, i * 8 + 8) == []
  {
    forall x | i * 8 <= x < i * 8 + 8 ensures !BitVectors.BitOr0(b.bits, x) {
      ReadStoredBit(b, i, x - i * 8);
    }
    ClearRangeEmpty(b, i * 8, i * 8 + 8);
  }

  /** The byte range fill_enabled_bits scans: from begin_index / 8 up to ceil(end_index / 8). */
  function ByteRange(b: BitVector, beginIndex: nat, endIndex: nat): (r: (nat, nat))
    requires endIndex <= BitVectors.Size(b)
    ensures r.1 <= |BitVectors.Bytes(b)|
    ensures r.0 * 8 <= beginIndex
    ensures (if endIndex == 0 then BitVectors.Size(b) else endIndex) <= r.1 * 8
  {
    var last := if endIndex == 0 then BitVectors.Size(b) else endIndex;
    (beginIndex / 8, (last + 7) / 8)
  }

  /**
   * fill_enabled_bits(dst, src, begin, end): write the id of every set bit of
   * the scanned bytes into dst, in ascending order, then shrink dst to that
   * count. dst must already hold at least that many slots.
   */
  method FillEnabledBits(dst: seq<nat>, src: BitVector, beginIndex: nat, endIndex: nat) returns (r: seq<nat>)
    requires endIndex <= BitVectors.Size(src)
    requires var range := ByteRange(src, beginIndex, endIndex);
      |SetBitsIn(src, range.0 * 8, range.1 * 8)| <= |dst|
    ensures var range := ByteRange(src, beginIndex, endIndex);
      r == SetBitsIn(src, range.0 * 8, range.1 * 8)
  {
    var data := BitVectors.Bytes(src);
    var range := ByteRange(src, beginIndex, endIndex);
    var begin, end := range.0, range.1;
    ghost var lo, hi := begin * 8, end * 8;
    ghost var all := SetBitsIn(src, lo, hi);
    r := dst;
    var at: nat := 0;
    var i := begin;
    while i < end
      invariant begin <= i && (i <= end || i == begin)
      invariant |r| == |dst| && at <= |r|
      invariant r[..at] == SetBitsIn(src, lo, i * 8)
      decreases end - i
    {
      var value := data[i];
      if value != 0 {
        r, at := ScanByte(r, at, src, i, value, lo, hi);
      } else {
        ZeroByteClear(src, i);
        SplitSetBits(src, lo, i * 8, i * 8 + 8);
      }
      i := i + 1;
    }
    r := r[..at];
  }

  /** The inner loop of fill_enabled_bits over one non-zero byte: test each of its eight bits. */
  method ScanByte(r0: seq<nat>, at0: nat, src: BitVector, i: nat, value: bv8, ghost lo: nat, ghost hi: nat)
    returns (r: seq<nat>, at: nat)
    requires i < |BitVectors.Bytes(src)| && value == BitVectors.Bytes(src)[i]
    requires lo <= i * 8 && i * 8 + 8 <= hi && |SetBitsIn(src, lo, hi)| <= |r0|
    requires at0 <= |r0| && r0[..at0] == SetBitsIn(src, lo, i * 8)
    ensures |r| == |r0| && at <= |r| && r[..at] == SetBitsIn(src, lo, i * 8 + 8)
  {
    r, at := r0, at0;
    var index := i * 8;
    var j := 0;
    while j < 8
      invariant 0 <= j <= 8 && |r| == |r0| && at <= |r|
      invariant r[..at] == SetBitsIn(src, lo, index + j)
    {
      ScanBitStep(r, at, src, i, j, value, lo, hi);
      if value & BitVectors.Mask(j) != 0 {
        r := r[at := index + j];
        at := at + 1;
      }
      j := j + 1;
    }
  }

  /** One bit of the inner loop: a set bit is written at the cursor, which stays inside dst. */
  lemma {:induction false} ScanBitStep(r: seq<nat>, at: nat, src: BitVector, i: nat, j: nat, value: bv8, lo: nat, hi: nat)
    requires i < |BitVectors.Bytes(src)| && value == BitVectors.Bytes(src)[i] && j < 8
    requires lo <= i * 8 && i * 8 + 8 <= hi && |SetBitsIn(src, lo, hi)| <= |r|
    requires at <= |r| && r[..at] == SetBitsIn(src, lo, i * 8 + j)
    ensures value & BitVectors.Mask(j) != 0 ==>
      at < |r| && r[at := i * 8 + j][..at + 1] == SetBitsIn(src, lo, i * 8 + j + 1)
    ensures value & BitVectors.Mask(j) == 0 ==> r[..at] == SetBitsIn(src, lo, i * 8 + j + 1)
  {
    var x := i * 8 + j;
    ReadStoredBit(src, i, j);
    ExtendSetBits(src, lo, x);
    if value & BitVectors.Mask(j) != 0 {
      SplitSetBits(src, lo, x + 1, hi);
      assert |SetBitsIn(src, lo, x + 1)| == at + 1;
      WriteNext(r, at, x);
    }
  }

  /** dst[at++] = v extends the written prefix by v. */
  lemma {:induction false} WriteNext(r: seq<nat>, at: nat, v: nat)
    requires at < |r|
    ensures r[at := v][..at + 1] == r[..at] + [v]
  {
  }

  /** Scanning the whole vector lists exactly the set bits, ascending, as many as there are. */
  lemma {:induction false} WholeScan(b: BitVector)
    requires BitVectors.Valid(b)
    ensures var range := ByteRange(b, 0, 0); var s := SetBitsIn(b, range.0 * 8, range.1 * 8);
      Increasing(s)
      && (forall x: nat :: x in s <==> x < BitVectors.Size(b) && BitVectors.Get(b, x))
      && |s| == |BitVectors.Ones(b)|
  {
    var range := ByteRange(b, 0, 0);
    var s := SetBitsIn(b, range.0 * 8, range.1 * 8);
    SetBitsMeaning(b, range.0 * 8, range.1 * 8);
    assert Elems(s) == BitVectors.Ones(b);
    IncreasingDistinct(s);
    DistinctCard(s);
  }

  // ---- managed_family ----

  /** managed_family: aspect, member mask, member list, member count, changed flag. */
  datatype Family = Family(aspect: FamilyAspects.AspectData, mask: BitVector, list: seq<nat>, total: nat, changed: bool)

  /** The mask covers the world's ids and total_ counts its set bits. */
  ghost predicate Inv(f: Family, capacity: nat)
  {
    BitVectors.Valid(f.mask) && BitVectors.Size(f.mask) == capacity && f.total == |BitVectors.Ones(f.mask)|
  }

  /** The constructor: an empty aspect and an empty mask sized to the world's capacity. */
  function New(capacity: nat): (f: Family)
    requires capacity < BitVectors.SizeCap
    ensures Inv(f, capacity) && f.list == [] && !f.changed
    ensures forall e :: 0 <= e < capacity ==> !BitVectors.Get(f.mask, e)
  {
    var m := BitVectors.New(capacity);
    assert BitVectors.Ones(m) == {};
    Family(FamilyAspects.NewData(), m, [], 0, false)
  }

  /** The member bit of e, for an id inside the mask. */
  function Member(f: Family, e: nat): bool
    requires e < BitVectors.Size(f.mask)
  {
    BitVectors.Get(f.mask, e)
  }

  /** Only e's member bit may differ. */
  ghost predicate OthersKept(f: Family, r: Family, e: nat)
    requires BitVectors.Size(r.mask) == BitVectors.Size(f.mask)
  {
    forall x :: 0 <= x < BitVectors.Size(f.mask) && x != e ==> Member(r, x) == Member(f, x)
  }

  /** add_entity: admit e when it is not a member and the aspect accepts it. */
  function AddEntity<D>(db: Db<D>, capacity: nat, f: Family, e: nat): (r: Family)
    requires Inv(f, capacity) && e < capacity && FamilyAspects.DataReadable(db, capacity, f.aspect, e)
    ensures Inv(r, capacity) && r.aspect == f.aspect && r.list == f.list && OthersKept(f, r, e)
    ensures Member(r, e) == (Member(f, e) || FamilyAspects.Check(db, capacity, f.aspect, e))
    ensures var added := !Member(f, e) && Member(r, e);
      r.total == f.total + (if added then 1 else 0) && r.changed == (f.changed || added)
  {
    if !BitVectors.Get(f.mask, e) && FamilyAspects.Check(db, capacity, f.aspect, e) then
      BitVectors.EnableAddsOne(f.mask, e);
      f.(mask := BitVectors.Enable(f.mask, e), total := f.total + 1, changed := true)
    else f
  }

  /** remove_entity: drop e when it is a member. */
  function RemoveEntity(capacity: nat, f: Family, e: nat): (r: Family)
    requires Inv(f, capacity) && e < capacity
    ensures Inv(r, capacity) && r.aspect == f.aspect && r.list == f.list && OthersKept(f, r, e)
    ensures !Member(r, e)
    ensures r.total + (if Member(f, e) then 1 else 0) == f.total && r.changed == (f.changed || Member(f, e))
  {
    if BitVectors.Get(f.mask, e) then
      BitVectors.DisableRemovesOne(f.mask, e);
      f.(mask := BitVectors.Disable(f.mask, e), total := f.total - 1, changed := true)
    else f
  }

  /** change: bring e's membership in line with the aspect. */
  function Change<D>(db: Db<D>, capacity: nat, f: Family, e: nat): (r: Family)
    requires Inv(f, capacity) && e < capacity && FamilyAspects.DataReadable(db, capacity, f.aspect, e)
    ensures Inv(r, capacity) && r.aspect == f.aspect && r.list == f.list && OthersKept(f, r, e)
    ensures Member(r, e) == FamilyAspects.Check(db, capacity, f.aspect, e)
    ensures r.changed == (f.changed || Member(r, e) != Member(f, e))
  {
    var present := BitVectors.Get(f.mask, e);
    var c := FamilyAspects.Check(db, capacity, f.aspect, e);
    if c != present then
      if c then AddEntity(db, capacity, f, e) else RemoveEntity(capacity, f, e)
    else f
  }

  /** list_.resize(n): keep a prefix or pad with zeros. */
  function Resize(list: seq<nat>, n: nat): (r: seq<nat>)
    ensures |r| == n
    ensures forall k :: 0 <= k < n && k < |list| ==> r[k] == list[k]
    ensures forall k :: |list| <= k < n ==> r[k] == 0
  {
    if n <= |list| then list[..n] else list + seq(n - |list|, _ => 0)
  }

  /** invalidate: resize the list to total_, refill it from the mask, clear changed_. */
  method Invalidate(capacity: nat, f: Family) returns (r: Family)
    requires Inv(f, capacity)
    ensures Inv(r, capacity) && r.aspect == f.aspect && r.mask == f.mask && r.total == f.total && !r.changed
    ensures Increasing(r.list) && |r.list| == r.total
    ensures forall x: nat :: x in r.list <==> x < capacity && Member(r, x)
  {
    WholeScan(f.mask);
    var list := FillEnabledBits(Resize(f.list, f.total), f.mask, 0, 0);
    r := f.(list := list, changed := false);
  }
}

=== FILE: mutable_view.dfy ===
/**
 * basic_mutable_view: the same table as the static view, walked from the
 * back of the driver's dense list down to the placeholder in slot 0, so
 * the callback may erase the entity it is given from the driver.
 */
module MutableViews {
  import opened EntityValue
  import opened Seqs
  import EntityMaps
  import opened ViewTables
  import opened Scans
  import Views

  type EntityMap<D> = EntityMaps.EntityMap<D>
  type View<D> = Views.View<D>

  /** begin() .. end(): the entities the view yields, back to front. */
  method Iterate<D>(v: View<D>) returns (out: seq<Entity>)
    requires Views.Inv(v)
    ensures |Views.Driver(v)| >= 1 && out == BackwardYield(Views.Keep(v), Views.Driver(v))
  {
    assert EntityMaps.Valid(Views.Table(v)[0]);
    out := BackwardScan(Views.Keep(v), Views.Table(v)[0].dense);
  }

  /**
   * When no map holds a handle of index 0, the mutable view yields the
   * static view's entities in reverse order: the driver members every
   * listed map has, once each.
   */
  lemma {:induction false} YieldIsReversedIntersection<D>(v: View<D>, e: Entity)
    requires Views.Inv(v)
    requires forall j :: 0 <= j < |v.access| ==> !EntityMaps.Has(v.access[j], Null)
    ensures |Views.Driver(v)| >= 1
    ensures BackwardYield(Views.Keep(v), Views.Driver(v)) == Reverse(ForwardYield(Views.Keep(v), Views.Driver(v)))
    ensures e in BackwardYield(Views.Keep(v), Views.Driver(v)) <==>
      e in EntityMaps.Members(Views.Table(v)[0]) && forall j :: 0 <= j < |v.access| ==> EntityMaps.Has(v.access[j], e)
  {
    Views.DriverFacts(v);
    YieldsWithoutNull(Views.Keep(v), Views.Driver(v), e);
    Views.YieldIsIntersection(v, e);
  }

  /** each(func): one call per yielded entity, back to front; argument k is read from access[k]. */
  method Each<D>(v: View<D>) returns (out: seq<Entity>, calls: seq<seq<D>>)
    requires Views.Inv(v)
    requires forall j :: 0 <= j < |v.access| ==> !EntityMaps.Has(v.access[j], Null)
    ensures |Views.Driver(v)| >= 1 && out == BackwardYield(Views.Keep(v), Views.Driver(v))
    ensures |calls| == |out|
    ensures forall i :: 0 <= i < |calls| ==> |calls[i]| == |v.access|
    ensures forall i, k :: 0 <= i < |calls| && 0 <= k < |v.access| ==>
      EntityMaps.Has(v.access[k], out[i]) && calls[i][k] == EntityMaps.Get(v.access[k], out[i])
  {
    out := Iterate(v);
    assert forall a, k :: 0 <= a < |out| && 0 <= k < |v.access| ==> EntityMaps.Has(v.access[k], out[a]) by {
      forall a, k | 0 <= a < |out| && 0 <= k < |v.access| ensures EntityMaps.Has(v.access[k], out[a]) {
        YieldIsReversedIntersection(v, out[a]);
        assert out[a] in out;
      }
    }
    calls := Views.CallAll(v.access, out);
  }

  /**
   * each(func) where func erases the entity it is given from the driver
   * when the entity is in `drop`: the walk yields exactly what it yields
   * without erasure, and the driver ends without the dropped entities.
   */
  method EachErasing<D>(v: View<D>, drop: set<Entity>) returns (out: seq<Entity>, driver: EntityMap<D>)
    requires Views.Inv(v)
    ensures |Views.Driver(v)| >= 1 && out == BackwardYield(Views.Keep(v), Views.Driver(v))
    ensures EntityMaps.Valid(driver)
    ensures forall x :: x in out && x in drop ==> !EntityMaps.Has(driver, x)
  {
    Views.DriverValid(v);
    out, driver := BackwardWalkErasing(Views.Keep(v), Views.Table(v)[0], drop);
  }
}

=== FILE: runtime_view.dfy ===
/**
 * runtime_view_t: a view over a map list chosen at run time. The list is
 * kept in input order as `access` and walked in ascending size order, as
 * for the static view; `each` passes only the entity.
 */
module RuntimeViews {
  import opened EntityValue
  import opened Seqs
  import EntityMaps
  import opened SortOrder
  import opened ViewTables
  import opened Scans
  import Views

  type EntityMap<D> = EntityMaps.EntityMap<D>
  type View<D> = Views.View<D>

  /** runtime_view_t(table): copy the list and order the walk table by size. */
  function Make<D>(maps: seq<EntityMap<D>>): (v: View<D>)
    ensures v.access == maps
    ensures IsPermutation(v.perm, |maps|) && SortedBy(v.perm, Views.Sizes(maps))
    ensures |maps| >= 1 && AllValid(maps) ==> Views.Inv(v)
  {
    Views.View(maps, SortBySize(Views.Sizes(maps)))
  }

  /**
   * each(func): func(e) once per yielded entity, in walk order. begin() and
   * end() read table_[0], so the list must be non-empty; the walk is the
   * static view's forward walk.
   */
  method Each<D>(v: View<D>) returns (calls: seq<Entity>)
    requires Views.Inv(v)
    requires forall j :: 0 <= j < |v.access| ==> !EntityMaps.Has(v.access[j], Null)
    ensures |Views.Driver(v)| >= 1 && calls == ForwardYield(Views.Keep(v), Views.Driver(v))
    ensures Distinct(calls)
    ensures forall e :: e in calls <==>
      e in EntityMaps.Members(Views.Table(v)[0]) && forall j :: 0 <= j < |v.access| ==> EntityMaps.Has(v.access[j], e)
  {
    calls := Views.Iterate(v);
    forall e ensures e in calls <==>
      e in EntityMaps.Members(Views.Table(v)[0]) && forall j :: 0 <= j < |v.access| ==> EntityMaps.Has(v.access[j], e)
    {
      Views.YieldIsIntersection(v, e);
    }
    Views.YieldIsIntersection(v, Null);
  }
}

=== FILE: scans.dfy ===
/**
 * The iteration machinery shared by the three views. A view walks the dense
 * list of its driver map and yields the entries that pass the view's
 * `valid` check, here the parameter `keep`. Every iterator compares by its
 * current entity and the end iterator's entity is null, so a walk stops at
 * the first yielded null handle as well as at the end of the list.
 */
module Scans {
  import opened EntityValue
  import opened Seqs
  import EntityMaps

  type EntityMap<D> = EntityMaps.EntityMap<D>

  /** The entries of s that pass keep, in the order of s. */
  function Filter(keep: Entity -> bool, s: seq<Entity>): (r: seq<Entity>)
    ensures |r| <= |s|
  {
    if s == [] then []
    else (if keep(s[0]) then [s[0]] else []) + Filter(keep, s[1..])
  }

  /** The prefix before the first null handle. */
  function UntilNull(s: seq<Entity>): (r: seq<Entity>)
    ensures |r| <= |s| && r == s[..|r|] && Null !in r
    ensures Null !in s ==> r == s
  {
    if s == [] || s[0] == Null then [] else [s[0]] + UntilNull(s[1..])
  }

  function Reverse<T>(s: seq<T>): (r: seq<T>)
    ensures |r| == |s| && forall k :: 0 <= k < |s| ==> r[k] == s[|s| - 1 - k]
  {
    if s == [] then [] else Reverse(s[1..]) + [s[0]]
  }

  // ---- what a walk still yields, read slot by slot ----

  /** What a forward walk yields from dense slot `it` on. */
  function FwdRest(keep: Entity -> bool, dense: seq<Entity>, it: nat): seq<Entity>
    requires it <= |dense|
    decreases |dense| - it
  {
    if it == |dense| then []
    else if !keep(dense[it]) then FwdRest(keep, dense, it + 1)
    else if dense[it] == Null then []
    else [dense[it]] + FwdRest(keep, dense, it + 1)
  }

  /** What a backward walk yields from dense slot `it` down to slot 1. */
  function BwdRest(keep: Entity -> bool, dense: seq<Entity>, it: nat): seq<Entity>
    requires it < |dense|
  {
    if it == 0 then []
    else if !keep(dense[it]) then BwdRest(keep, dense, it - 1)
    else if dense[it] == Null then []
    else [dense[it]] + BwdRest(keep, dense, it - 1)
  }

  /** What a forward view yields: the passing driver members, cut at a null handle. */
  function ForwardYield(keep: Entity -> bool, dense: seq<Entity>): seq<Entity>
    requires |dense| >= 1
  {
    UntilNull(Filter(keep, dense[1..]))
  }

  /** What a back-to-front view yields: the same, walked from the back. */
  function BackwardYield(keep: Entity -> bool, dense: seq<Entity>): seq<Entity>
    requires |dense| >= 1
  {
    UntilNull(Reverse(Filter(keep, dense[1..])))
  }

  // ---- the iterators ----

  /** skips() of a forward iterator: the first slot from `it` on that passes keep, or the end. */
  method FwdSkip(keep: Entity -> bool, dense: seq<Entity>, it: nat) returns (j: nat)
    requires it <= |dense|
    ensures it <= j <= |dense|
    ensures j < |dense| ==> keep(dense[j])
    ensures forall k :: it <= k < j ==> !keep(dense[k])
    ensures FwdRest(keep, dense, j) == FwdRest(keep, dense, it)
  {
    j := it;
    while j != |dense| && !keep(dense[j])
      invariant it <= j <= |dense|
      invariant forall k :: it <= k < j ==> !keep(dense[k])
      invariant FwdRest(keep, dense, j) == FwdRest(keep, dense, it)
    {
      j := j + 1;
    }
  }

  /** skips() of a backward iterator: the first slot from `it` down that is 0 or passes keep. */
  method BwdSkip(keep: Entity -> bool, dense: seq<Entity>, it: nat) returns (j: nat)
    requires it < |dense|
    ensures j <= it
    ensures j != 0 ==> keep(dense[j])
    ensures forall k :: j < k <= it ==> !keep(dense[k])
    ensures BwdRest(keep, dense, j) == BwdRest(keep, dense, it)
  {
    j := it;
    while j != 0 && !keep(dense[j])
      invariant j <= it
      invariant forall k :: j < k <= it ==> !keep(dense[k])
      invariant BwdRest(keep, dense, j) == BwdRest(keep, dense, it)
    {
      j := j - 1;
    }
  }

  /**
   * Forward iteration over a driver's dense list: begin() at slot 1, skips()
   * over entries failing valid, ++ advancing past the current slot when it
   * still holds the yielded entity. Returns the yielded entities in order.
   */
  method ForwardScan(keep: Entity -> bool, dense: seq<Entity>) returns (out: seq<Entity>)
    requires |dense| >= 1
    ensures out == ForwardYield(keep, dense)
  {
    var end := |dense|;
    ghost var goal := FwdRest(keep, dense, 1);
    var it: nat := FwdSkip(keep, dense, 1);
    var ent := if it == end then Null else dense[it];
    out := [];
    while ent != Null
      invariant 1 <= it <= end
      invariant ent != Null ==> it < end && dense[it] == ent && keep(ent)
      invariant ent == Null ==> it == end || (dense[it] == Null && keep(dense[it]))
      invariant out + FwdRest(keep, dense, it) == goal
      decreases end - it
    {
      FwdRestPush(keep, dense, it, out, goal);
      out := out + [ent];
      if it != end && dense[it] == ent {
        it := it + 1;
      }
      it := FwdSkip(keep, dense, it);
      ent := if it == end then Null else dense[it];
    }
    FwdRestDone(keep, dense, it, out, goal);
    FwdRestIsFilter(keep, dense, 1);
  }

  /** A passing live slot moves from the rest of the walk to what it has yielded. */
  lemma {:induction false} FwdRestPush(keep: Entity -> bool, dense: seq<Entity>, it: nat, out: seq<Entity>, goal: seq<Entity>)
    requires it < |dense| && keep(dense[it]) && dense[it] != Null
    requires out + FwdRest(keep, dense, it) == goal
    ensures (out + [dense[it]]) + FwdRest(keep, dense, it + 1) == goal
  {
    var rest := FwdRest(keep, dense, it + 1);
    assert FwdRest(keep, dense, it) == [dense[it]] + rest;
    assert (out + [dense[it]]) + rest == out + ([dense[it]] + rest);
  }

  /** A walk at the end or on a passing null handle has yielded everything. */
  lemma {:induction false} FwdRestDone(keep: Entity -> bool, dense: seq<Entity>, it: nat, out: seq<Entity>, goal: seq<Entity>)
    requires it <= |dense| && (it == |dense| || (dense[it] == Null && keep(dense[it])))
    requires out + FwdRest(keep, dense, it) == goal
    ensures out == goal
  {
    assert FwdRest(keep, dense, it) == [];
    assert out + [] == out;
  }

  /**
   * Back-to-front iteration: begin() at slot size(), skips() moving down
   * while the slot is not 0 and fails valid, ++ decrementing first; the
   * current entity is read with at(), so slot 0 yields the null placeholder.
   */
  method BackwardScan(keep: Entity -> bool, dense: seq<Entity>) returns (out: seq<Entity>)
    requires |dense| >= 1 && dense[0] == Null
    ensures out == BackwardYield(keep, dense)
  {
    ghost var goal := BwdRest(keep, dense, |dense| - 1);
    var it: nat := BwdSkip(keep, dense, |dense| - 1);
    var ent := dense[it];
    out := [];
    while ent != Null
      invariant 0 <= it < |dense| && ent == dense[it]
      invariant it != 0 ==> keep(ent)
      invariant out + BwdRest(keep, dense, it) == goal
      decreases it
    {
      BwdRestPush(keep, dense, it, out, goal);
      out := out + [ent];
      it := BwdSkip(keep, dense, it - 1);
      ent := dense[it];
    }
    BwdRestDone(keep, dense, it, out, goal);
    BwdRestIsYield(keep, dense);
  }

  // ---- the walks against the reference filters ----

  lemma {:induction false} UntilNullCons(x: Entity, r: seq<Entity>)
    ensures x != Null ==> UntilNull([x] + r) == [x] + UntilNull(r)
    ensures x == Null ==> UntilNull([x] + r) == []
  {
    assert ([x] + r)[1..] == r;
  }

  /** The forward walk from slot it is the null-cut filter of dense[it..]. */
  lemma {:induction false} FwdRestIsFilter(keep: Entity -> bool, dense: seq<Entity>, it: nat)
    requires it <= |dense|
    ensures FwdRest(keep, dense, it) == UntilNull(Filter(keep, dense[it..]))
    decreases |dense| - it
  {
    if it < |dense| {
      FwdRestIsFilter(keep, dense, it + 1);
      var s := dense[it..];
      assert s[1..] == dense[it + 1..];
      if keep(dense[it]) {
        assert Filter(keep, s) == [dense[it]] + Filter(keep, dense[it + 1..]);
        UntilNullCons(dense[it], Filter(keep, dense[it + 1..]));
      } else {
        assert Filter(keep, s) == Filter(keep, dense[it + 1..]);
      }
    } else {
      assert dense[it..] == [];
    }
  }

  /** The backward walk from slot it is the null-cut reversed filter of slots 1 .. it. */
  lemma {:induction false} BwdRestIsReverseFilter(keep: Entity -> bool, dense: seq<Entity>, it: nat)
    requires it < |dense|
    ensures BwdRest(keep, dense, it) == UntilNull(Reverse(Filter(keep, dense[1..it + 1])))
  {
    if it > 0 {
      BwdRestIsReverseFilter(keep, dense, it - 1);
      BwdRestStep(keep, dense, it);
    } else {
      assert dense[1..it + 1] == [];
    }
  }

  /** One slot further down: the walk and the reversed filter grow alike. */
  lemma {:induction false} BwdRestStep(keep: Entity -> bool, dense: seq<Entity>, it: nat)
    requires 0 < it < |dense|
    requires BwdRest(keep, dense, it - 1) == UntilNull(Reverse(Filter(keep, dense[1..it])))
    ensures BwdRest(keep, dense, it) == UntilNull(Reverse(Filter(keep, dense[1..it + 1])))
  {
    var x := dense[it];
    var p := dense[1..it];
    SliceSnoc(dense, 1, it);
    ReverseFilterSnoc(keep, p, x);
    if !keep(x) {
      assert BwdRest(keep, dense, it) == BwdRest(keep, dense, it - 1);
    } else if x == Null {
      assert BwdRest(keep, dense, it) == [];
    } else {
      assert BwdRest(keep, dense, it) == [x] + BwdRest(keep, dense, it - 1);
    }
  }

  /** Reversing a filter of s + [x]: x, when it passes, comes first. */
  lemma {:induction false} ReverseFilterSnoc(keep: Entity -> bool, s: seq<Entity>, x: Entity)
    ensures keep(x) && x != Null ==>
      UntilNull(Reverse(Filter(keep, s + [x]))) == [x] + UntilNull(Reverse(Filter(keep, s)))
    ensures keep(x) && x == Null ==> UntilNull(Reverse(Filter(keep, s + [x]))) == []
    ensures !keep(x) ==> Reverse(Filter(keep, s + [x])) == Reverse(Filter(keep, s))
  {
    var f := if keep(x) then [x] else [];
    FilterSnoc(keep, s, x);
    ReverseAppend(Filter(keep, s), f);
    assert Reverse(f) == f;
    if keep(x) {
      UntilNullCons(x, Reverse(Filter(keep, s)));
    } else {
      assert Filter(keep, s + [x]) == Filter(keep, s);
    }
  }

  lemma {:induction false} BwdRestIsYield(keep: Entity -> bool, dense: seq<Entity>)
    requires |dense| >= 1
    ensures BwdRest(keep, dense, |dense| - 1) == BackwardYield(keep, dense)
  {
    BwdRestIsReverseFilter(keep, dense, |dense| - 1);
    assert dense[1..|dense|] == dense[1..];
  }

  lemma {:induction false} FilterSnoc(keep: Entity -> bool, s: seq<Entity>, x: Entity)
    ensures Filter(keep, s + [x]) == Filter(keep, s) + (if keep(x) then [x] else [])
  {
    if s == [] {
      assert s + [x] == [x] && [x][1..] == [];
    } else {
      var t := s + [x];
      assert t[0] == s[0] && t[1..] == s[1..] + [x];
      FilterSnoc(keep, s[1..], x);
    }
  }

  lemma {:induction false} ReverseAppend<T>(a: seq<T>, b: seq<T>)
    ensures Reverse(a + b) == Reverse(b) + Reverse(a)
  {
  }

  lemma {:induction false} ReverseElems<T>(s: seq<T>, x: T)
    ensures x in Reverse(s) <==> x in s
  {
    var r := Reverse(s);
    if x in s {
      var k :| 0 <= k < |s| && s[k] == x;
      assert r[|s| - 1 - k] == x;
    }
    if x in r {
      var k :| 0 <= k < |r| && r[k] == x;
      assert s[|s| - 1 - k] == x;
    }
  }

  lemma {:induction false} FilterMembers(keep: Entity -> bool, s: seq<Entity>, e: Entity)
    ensures e in Filter(keep, s) <==> e in s && keep(e)
  {
    if s != [] {
      FilterMembers(keep, s[1..], e);
      assert s == [s[0]] + s[1..];
    }
  }

  /** A filter of a duplicate-free list has no duplicates. */
  lemma {:induction false} FilterDistinct(keep: Entity -> bool, s: seq<Entity>)
    requires Distinct(s)
    ensures Distinct(Filter(keep, s))
  {
    if s != [] {
      var t := s[1..];
      assert Distinct(t) by {
        forall i, j | 0 <= i < |t| && 0 <= j < |t| && i != j ensures t[i] != t[j] {
          assert t[i] == s[i + 1] && t[j] == s[j + 1];
        }
      }
      FilterDistinct(keep, t);
      if keep(s[0]) {
        assert s[0] !in t by {
          forall k | 0 <= k < |t| ensures t[k] != s[0] {
            assert t[k] == s[k + 1];
          }
        }
        FilterMembers(keep, t, s[0]);
        ConsDistinct(s[0], Filter(keep, t));
      }
    }
  }

  /**
   * Without a null handle among the members, a forward walk yields exactly
   * the members that pass keep, in dense order, once each; a backward walk
   * yields the same list reversed.
   */
  lemma {:induction false} YieldsWithoutNull(keep: Entity -> bool, dense: seq<Entity>, e: Entity)
    requires |dense| >= 1 && Null !in dense[1..] && Distinct(dense[1..])
    ensures ForwardYield(keep, dense) == Filter(keep, dense[1..])
    ensures BackwardYield(keep, dense) == Reverse(ForwardYield(keep, dense))
    ensures e in ForwardYield(keep, dense) <==> e in dense[1..] && keep(e)
    ensures e in BackwardYield(keep, dense) <==> e in dense[1..] && keep(e)
    ensures Distinct(ForwardYield(keep, dense))
  {
    var ms := dense[1..];
    FilterMembers(keep, ms, Null);
    FilterMembers(keep, ms, e);
    FilterDistinct(keep, ms);
    ReverseElems(Filter(keep, ms), Null);
    ReverseElems(Filter(keep, ms), e);
  }

  // ---- erasing the yielded entity from the driver inside a back-to-front walk ----

  /** The walk down from slot it reads only slots 1 .. it. */
  lemma {:induction false} BwdRestPrefix(keep: Entity -> bool, a: seq<Entity>, b: seq<Entity>, it: nat)
    requires it < |a| && it < |b| && forall s :: 0 <= s <= it ==> a[s] == b[s]
    ensures BwdRest(keep, a, it) == BwdRest(keep, b, it)
  {
    if it > 0 {
      BwdRestPrefix(keep, a, b, it - 1);
    }
  }

  /** The callback's erase of the entity in driver slot it. */
  method EraseCurrent<D>(driver: EntityMap<D>, dense0: seq<Entity>, it: nat) returns (r: EntityMap<D>)
    requires EntityMaps.Valid(driver) && 1 <= it < |driver.dense| && it < |dense0|
    requires forall s :: 0 <= s <= it ==> driver.dense[s] == dense0[s]
    ensures EntityMaps.Valid(r) && |r.dense| == |driver.dense| - 1
    ensures forall s :: 0 <= s < it ==> r.dense[s] == dense0[s]
    ensures !EntityMaps.Has(r, dense0[it])
    ensures forall x :: EntityMaps.Has(r, x) ==> EntityMaps.Has(driver, x)
  {
    var ent := dense0[it];
    assert driver.dense[it] == ent;
    assert driver.table[Index(ent)] == it;
    r := EntityMaps.Erase(driver, ent);
  }

  /**
   * One round of the walk below: the callback erases the entity in slot it
   * when it is in `drop`, then ++ moves down and skips().
   */
  method CallbackStep<D>(keep: Entity -> bool, driver: EntityMap<D>, dense0: seq<Entity>, it: nat, drop: set<Entity>)
    returns (r: EntityMap<D>, next: nat)
    requires EntityMaps.Valid(driver) && 1 <= it < |driver.dense| && |driver.dense| <= |dense0|
    requires forall s :: 0 <= s <= it ==> driver.dense[s] == dense0[s]
    ensures EntityMaps.Valid(r) && next < it && next < |r.dense| && |r.dense| <= |dense0|
    ensures forall s :: 0 <= s <= next ==> r.dense[s] == dense0[s]
    ensures next != 0 ==> keep(dense0[next])
    ensures BwdRest(keep, dense0, next) == BwdRest(keep, dense0, it - 1)
    ensures dense0[it] in drop ==> !EntityMaps.Has(r, dense0[it])
    ensures forall x :: EntityMaps.Has(r, x) ==> EntityMaps.Has(driver, x)
  {
    r := Callback(driver, dense0, it, drop);
    next := BwdSkip(keep, r.dense, it - 1);
    SkipAgrees(keep, r.dense, dense0, next, it - 1);
    assert r.dense[next] == dense0[next];
  }

  /** The callback on the entity in slot it: erase it from the driver when it is in `drop`. */
  method Callback<D>(driver: EntityMap<D>, dense0: seq<Entity>, it: nat, drop: set<Entity>) returns (r: EntityMap<D>)
    requires EntityMaps.Valid(driver) && 1 <= it < |driver.dense| && it < |dense0|
    requires forall s :: 0 <= s <= it ==> driver.dense[s] == dense0[s]
    ensures EntityMaps.Valid(r) && it <= |r.dense| <= |driver.dense|
    ensures forall s :: 0 <= s < it ==> r.dense[s] == dense0[s]
    ensures dense0[it] in drop ==> !EntityMaps.Has(r, dense0[it])
    ensures forall x :: EntityMaps.Has(r, x) ==> EntityMaps.Has(driver, x)
  {
    if dense0[it] in drop {
      r := EraseCurrent(driver, dense0, it);
    } else {
      r := driver;
    }
  }

  /** A skip computed on one slot list holds for any list that agrees with it up to the start slot. */
  lemma {:induction false} SkipAgrees(keep: Entity -> bool, a: seq<Entity>, b: seq<Entity>, j: nat, it: nat)
    requires j <= it < |a| && it < |b| && forall s :: 0 <= s <= it ==> a[s] == b[s]
    requires BwdRest(keep, a, j) == BwdRest(keep, a, it)
    ensures BwdRest(keep, b, j) == BwdRest(keep, b, it)
  {
    BwdRestPrefix(keep, a, b, it);
    BwdRestPrefix(keep, a, b, j);
  }

  /**
   * basic_mutable_view::each where the callback erases the yielded entity
   * from the driver whenever it is in `drop`. Erasure moves only the back
   * handle, which sits in an already visited slot, so the walk neither skips
   * nor revisits: it yields what the walk over the unmodified driver yields.
   */
  method BackwardScanErasing<D>(keep: Entity -> bool, driver0: EntityMap<D>, drop: set<Entity>)
    returns (out: seq<Entity>, driver: EntityMap<D>)
    requires EntityMaps.Valid(driver0)
    ensures out == BwdRest(keep, driver0.dense, |driver0.dense| - 1)
    ensures EntityMaps.Valid(driver)
    ensures forall x :: x in out && x in drop ==> !EntityMaps.Has(driver, x)
  {
    driver := driver0;
    var dense0 := driver0.dense;
    ghost var goal := BwdRest(keep, dense0, |dense0| - 1);
    var it: nat := BwdSkip(keep, driver.dense, EntityMaps.Size(driver));
    var ent := EntityMaps.At(driver, it);
    out := [];
    while ent != Null
      invariant EntityMaps.Valid(driver)
      invariant it < |driver.dense| && |driver.dense| <= |dense0|
      invariant forall s :: 0 <= s <= it ==> driver.dense[s] == dense0[s]
      invariant ent == dense0[it]
      invariant it != 0 ==> keep(ent)
      invariant out + BwdRest(keep, dense0, it) == goal
      invariant forall x :: x in out && x in drop ==> !EntityMaps.Has(driver, x)
      decreases it
    {
      BwdRestPush(keep, dense0, it, out, goal);
      out := out + [ent];
      driver, it := CallbackStep(keep, driver, dense0, it, drop);
      ent := EntityMaps.At(driver, it);
    }
    BwdRestDone(keep, dense0, it, out, goal);
  }

  /** The erasing walk against the reference: it yields the reversed filter, cut at a null handle. */
  method BackwardWalkErasing<D>(keep: Entity -> bool, driver0: EntityMap<D>, drop: set<Entity>)
    returns (out: seq<Entity>, driver: EntityMap<D>)
    requires EntityMaps.Valid(driver0)
    ensures |driver0.dense| >= 1 && out == BackwardYield(keep, driver0.dense)
    ensures EntityMaps.Valid(driver)
    ensures forall x :: x in out && x in drop ==> !EntityMaps.Has(driver, x)
  {
    out, driver := BackwardScanErasing(keep, driver0, drop);
    BwdRestIsYield(keep, driver0.dense);
  }

  /** A passing live slot moves from the rest of the walk to what it has yielded. */
  lemma {:induction false} BwdRestPush(keep: Entity -> bool, dense: seq<Entity>, it: nat, out: seq<Entity>, goal: seq<Entity>)
    requires 0 < it < |dense| && keep(dense[it]) && dense[it] != Null
    requires out + BwdRest(keep, dense, it) == goal
    ensures (out + [dense[it]]) + BwdRest(keep, dense, it - 1) == goal
  {
    var rest := BwdRest(keep, dense, it - 1);
    assert BwdRest(keep, dense, it) == [dense[it]] + rest;
    assert (out + [dense[it]]) + rest == out + ([dense[it]] + rest);
  }

  /** A walk that stands on a null handle has yielded everything. */
  lemma {:induction false} BwdRestDone(keep: Entity -> bool, dense: seq<Entity>, it: nat, out: seq<Entity>, goal: seq<Entity>)
    requires it < |dense| && dense[it] == Null && (it != 0 ==> keep(dense[it]))
    requires out + BwdRest(keep, dense, it) == goal
    ensures out == goal
  {
    assert BwdRest(keep, dense, it) == [];
    assert out + [] == out;
  }
}

=== FILE: seqs.dfy ===
/** Sequence and counting facts shared by the pool, the sparse set and the views. */
module Seqs {

  /** No element occurs twice. */
  ghost predicate Distinct<T>(s: seq<T>)
  {
    forall i, j :: 0 <= i < |s| && 0 <= j < |s| && i != j ==> s[i] != s[j]
  }

  /** The set of elements of a sequence. */
  function Elems<T>(s: seq<T>): set<T>
  {
    set x | x in s
  }

  lemma {:induction false} DistinctCard<T>(s: seq<T>)
    requires Distinct(s)
    ensures |Elems(s)| == |s|
  {
    if |s| > 0 {
      var t := s[1..];
      assert Distinct(t) by {
        forall i, j | 0 <= i < |t| && 0 <= j < |t| && i != j
          ensures t[i] != t[j]
        {
          assert t[i] == s[i + 1] && t[j] == s[j + 1];
        }
      }
      DistinctCard(t);
      assert Elems(s) == {s[0]} + Elems(t) by {
        forall x | x in Elems(s) ensures x in {s[0]} + Elems(t) {
          var k :| 0 <= k < |s| && s[k] == x;
          if k > 0 { assert t[k - 1] == x; }
        }
        forall x | x in Elems(t) ensures x in Elems(s) {
          var k :| 0 <= k < |t| && t[k] == x;
          assert s[k + 1] == x;
        }
      }
    }
  }

  /** Putting a new element in front keeps a sequence duplicate-free. */
  lemma {:induction false} ConsDistinct<T>(x: T, c: seq<T>)
    requires x !in c && Distinct(c)
    ensures Distinct([x] + c)
  {
    var d := [x] + c;
    forall k, l | 0 <= k < |d| && 0 <= l < |d| && k != l ensures d[k] != d[l] {
      if k > 0 && l > 0 {
        assert d[k] == c[k - 1] && d[l] == c[l - 1];
      } else if k == 0 {
        assert d[l] == c[l - 1];
      } else {
        assert d[k] == c[k - 1];
      }
    }
  }

  /** Two duplicate-free sequences with the same elements have the same length. */
  lemma {:induction false} SameElemsSameLength<T>(a: seq<T>, b: seq<T>)
    requires Distinct(a) && Distinct(b) && Elems(a) == Elems(b)
    ensures |a| == |b|
  {
    DistinctCard(a);
    DistinctCard(b);
  }

  /** Strictly increasing sequences of naturals. */
  ghost predicate Increasing(s: seq<nat>)
  {
    forall i, j :: 0 <= i < j < |s| ==> s[i] < s[j]
  }

  lemma {:induction false} IncreasingDistinct(s: seq<nat>)
    requires Increasing(s)
    ensures Distinct(s)
  {
  }

  /** Joining two duplicate-free sequences with no common element keeps them duplicate-free. */
  lemma {:induction false} DistinctConcat<T>(a: seq<T>, b: seq<T>)
    requires Distinct(a) && Distinct(b) && forall x :: x in a ==> x !in b
    ensures Distinct(a + b)
  {
    var d := a + b;
    forall i, j | 0 <= i < |d| && 0 <= j < |d| && i != j ensures d[i] != d[j] {
      if i < |a| && j >= |a| {
        assert d[i] in a && d[j] == b[j - |a|];
      } else if j < |a| && i >= |a| {
        assert d[j] in a && d[i] == b[i - |a|];
      } else if i >= |a| {
        assert d[i] == b[i - |a|] && d[j] == b[j - |a|];
      }
    }
  }

  /** A prefix of a duplicate-free sequence is duplicate-free. */
  lemma {:induction false} DistinctPrefix<T>(s: seq<T>, n: nat)
    requires Distinct(s) && n <= |s|
    ensures Distinct(s[..n])
  {
    assert forall k :: 0 <= k < n ==> s[..n][k] == s[k];
  }

  /** The naturals in [lo, hi), built one at a time so its size can be counted. */
  ghost function Range(lo: nat, hi: nat): (r: set<nat>)
    ensures forall x :: x in r <==> lo <= x < hi
    ensures lo <= hi ==> |r| == hi - lo
    decreases hi - lo
  {
    if lo < hi then {lo} + Range(lo + 1, hi) else {}
  }

  /** A duplicate-free sequence of naturals drawn from [lo, hi) has at most hi - lo elements. */
  lemma {:induction false} DistinctBounded(s: seq<nat>, lo: nat, hi: nat)
    requires lo <= hi && Distinct(s) && forall k :: 0 <= k < |s| ==> lo <= s[k] < hi
    ensures |s| <= hi - lo
  {
    DistinctCard(s);
    var e := Elems(s);
    assert e <= Range(lo, hi);
    assert Range(lo, hi) == e + (Range(lo, hi) - e);
  }

  /** Appending a non-empty sequence is appending its head, then its tail. */
  lemma {:induction false} AppendFirst<T>(a: seq<T>, s: seq<T>)
    requires |s| > 0
    ensures a + s == a + [s[0]] + s[1..]
  {
    assert s == [s[0]] + s[1..];
  }

  /** A slice one longer is the slice with its last element appended. */
  lemma {:induction false} SliceSnoc<T>(s: seq<T>, lo: nat, hi: nat)
    requires lo <= hi < |s|
    ensures s[lo..hi + 1] == s[lo..hi] + [s[hi]]
  {
  }

  /** Growing a prefix by one adds exactly the next element, which a duplicate-free sequence did not hold yet. */
  lemma {:induction false} PrefixSnoc<T>(s: seq<T>, n: nat, x: T)
    requires n < |s|
    ensures x in s[..n + 1] <==> x in s[..n] || x == s[n]
    ensures Distinct(s) ==> s[n] !in s[..n]
  {
    assert s[..n + 1] == s[..n] + [s[n]];
  }
}

=== FILE: sort_order.dfy ===
/**
 * The view constructors reorder their map table by ascending size
 * (`std::sort` with `a->size() < b->size()`). The reordering is modelled as a
 * permutation of table positions; `SortBySize` is one stable such
 * permutation, and the view properties hold for any sorted permutation.
 */
module SortOrder {
  import opened Seqs

  /** perm lists every position 0 .. n-1 exactly once. */
  ghost predicate IsPermutation(perm: seq<nat>, n: nat)
  {
    |perm| == n && (forall k :: 0 <= k < |perm| ==> perm[k] < n) && Distinct(perm)
  }

  /** The keys read through perm are in ascending order. */
  ghost predicate SortedBy(perm: seq<nat>, keys: seq<int>)
    requires forall k :: 0 <= k < |perm| ==> perm[k] < |keys|
  {
    forall k, l :: 0 <= k < l < |perm| ==> keys[perm[k]] <= keys[perm[l]]
  }

  /** Insert position j into an ascending list, after every key not larger than keys[j]. */
  function Insert(sorted: seq<nat>, j: nat, keys: seq<int>): (r: seq<nat>)
    requires j < |keys| && forall k :: 0 <= k < |sorted| ==> sorted[k] < |keys|
    requires SortedBy(sorted, keys)
    ensures |r| == |sorted| + 1
    ensures forall k :: 0 <= k < |r| ==> r[k] < |keys|
    ensures SortedBy(r, keys)
    ensures multiset(r) == multiset(sorted) + multiset{j}
    decreases |sorted|
  {
    if |sorted| == 0 then [j]
    else if keys[sorted[|sorted| - 1]] <= keys[j] then
      AppendLargest(sorted, j, keys);
      sorted + [j]
    else
      var init := sorted[..|sorted| - 1];
      var last := sorted[|sorted| - 1];
      assert sorted == init + [last];
      var front := Insert(init, j, keys);
      InsertBeforeLast(sorted, init, last, front, j, keys);
      front + [last]
  }

  /** A key not smaller than the last one can go at the end. */
  lemma {:induction false} AppendLargest(sorted: seq<nat>, j: nat, keys: seq<int>)
    requires j < |keys| && |sorted| > 0 && forall k :: 0 <= k < |sorted| ==> sorted[k] < |keys|
    requires SortedBy(sorted, keys) && keys[sorted[|sorted| - 1]] <= keys[j]
    ensures forall k :: 0 <= k < |sorted + [j]| ==> (sorted + [j])[k] < |keys|
    ensures SortedBy(sorted + [j], keys)
  {
    var r := sorted + [j];
    forall k, l | 0 <= k < l < |r| ensures keys[r[k]] <= keys[r[l]] {
      if l < |sorted| {
        assert r[k] == sorted[k] && r[l] == sorted[l];
      } else if k < |sorted| - 1 {
        assert keys[sorted[k]] <= keys[sorted[|sorted| - 1]];
      }
    }
  }

  lemma {:induction false} InsertBeforeLast(sorted: seq<nat>, init: seq<nat>, last: nat, front: seq<nat>, j: nat, keys: seq<int>)
    requires j < |keys| && last < |keys| && sorted == init + [last]
    requires forall k :: 0 <= k < |sorted| ==> sorted[k] < |keys|
    requires forall k :: 0 <= k < |front| ==> front[k] < |keys|
    requires SortedBy(sorted, keys) && SortedBy(front, keys) && keys[j] < keys[last]
    requires multiset(front) == multiset(init) + multiset{j}
    ensures forall k :: 0 <= k < |front + [last]| ==> (front + [last])[k] < |keys|
    ensures SortedBy(front + [last], keys)
    ensures multiset(front + [last]) == multiset(sorted) + multiset{j}
  {
    var r := front + [last];
    forall k, l | 0 <= k < l < |r| ensures keys[r[k]] <= keys[r[l]] {
      if l == |r| - 1 {
        var x := front[k];
        assert x in multiset(front);
        if x != j {
          assert x in multiset(init);
          var i :| 0 <= i < |init| && init[i] == x;
          assert sorted[i] == x && sorted[|sorted| - 1] == last;
        }
      } else {
        assert r[k] == front[k] && r[l] == front[l];
      }
    }
  }

  /** Insertion sort of the positions 0 .. n-1 by key, stable on ties. */
  function SortPrefix(keys: seq<int>, n: nat): (perm: seq<nat>)
    requires n <= |keys|
    ensures |perm| == n && (forall k :: 0 <= k < n ==> perm[k] < n)
    ensures SortedBy(perm, keys)
    ensures multiset(perm) == multiset(Positions(n))
    decreases n
  {
    if n == 0 then []
    else
      var p := SortPrefix(keys, n - 1);
      var r := Insert(p, n - 1, keys);
      assert Positions(n) == Positions(n - 1) + [n - 1];
      InsertedBelow(p, r, n);
      r
  }

  /** Adding n-1 to positions below n-1 leaves every position below n. */
  lemma {:induction false} InsertedBelow(p: seq<nat>, r: seq<nat>, n: nat)
    requires 0 < n && (forall k :: 0 <= k < |p| ==> p[k] < n - 1)
    requires multiset(r) == multiset(p) + multiset{(n - 1) as nat}
    ensures forall k :: 0 <= k < |r| ==> r[k] < n
  {
    forall k | 0 <= k < |r| ensures r[k] < n {
      assert r[k] in multiset(r);
      if r[k] != n - 1 {
        assert r[k] in p;
      }
    }
  }

  /** The positions 0 .. n-1 in order. */
  function Positions(n: nat): (r: seq<nat>)
    ensures |r| == n && forall k :: 0 <= k < n ==> r[k] == k
  {
    seq(n, k => k)
  }

  /** The view table order: all positions, ascending by key. */
  function SortBySize(keys: seq<int>): (perm: seq<nat>)
    ensures IsPermutation(perm, |keys|) && SortedBy(perm, keys)
  {
    var perm := SortPrefix(keys, |keys|);
    MultisetOfPositions(perm, |keys|);
    perm
  }

  /** A sequence with the multiset of 0 .. n-1 has no duplicates. */
  lemma {:induction false} MultisetOfPositions(perm: seq<nat>, n: nat)
    requires multiset(perm) == multiset(Positions(n))
    ensures Distinct(perm)
  {
    forall i, j | 0 <= i < |perm| && 0 <= j < |perm| && i != j ensures perm[i] != perm[j] {
      if perm[i] == perm[j] {
        var x := perm[i];
        PositionsOnce(n, x);
        if i < j { TwoOccurrences(perm, i, j); } else { TwoOccurrences(perm, j, i); }
      }
    }
  }

  lemma {:induction false} PositionsOnce(n: nat, x: nat)
    ensures multiset(Positions(n))[x] <= 1
  {
    if n > 0 {
      assert Positions(n) == Positions(n - 1) + [n - 1];
      PositionsOnce(n - 1, x);
      if x == n - 1 {
        assert x !in Positions(n - 1);
      }
    }
  }

  lemma {:induction false} TwoOccurrences<T>(s: seq<T>, i: nat, j: nat)
    requires i < j < |s| && s[i] == s[j]
    ensures multiset(s)[s[i]] >= 2
  {
    var x := s[i];
    assert s == s[..i] + [x] + s[i + 1..j] + [x] + s[j + 1..];
  }

  /** Reading the table through the permutation: table[k] = access[perm[k]]. */
  function Permute<T>(access: seq<T>, perm: seq<nat>): (table: seq<T>)
    requires forall k :: 0 <= k < |perm| ==> perm[k] < |access|
    ensures |table| == |perm| && forall k :: 0 <= k < |perm| ==> table[k] == access[perm[k]]
  {
    seq(|perm|, k requires 0 <= k < |perm| => access[perm[k]])
  }

  /** Under a permutation every position appears somewhere. */
  lemma {:induction false} PermutationCovers(perm: seq<nat>, n: nat, j: nat)
    requires IsPermutation(perm, n) && j < n
    ensures exists k :: 0 <= k < n && perm[k] == j
  {
    var all := Positions(n);
    assert Distinct(all);
    DistinctCard(perm);
    DistinctCard(all);
    assert Elems(perm) <= Elems(all) by {
      forall x | x in Elems(perm) ensures x in Elems(all) {
        assert all[x] == x;
      }
    }
    assert Elems(perm) == Elems(all) by {
      if Elems(perm) != Elems(all) {
        var y :| y in Elems(all) && y !in Elems(perm);
        assert Elems(perm) <= Elems(all) - {y};
        assert |Elems(all) - {y}| == n - 1;
        SubsetCard(Elems(perm), Elems(all) - {y});
      }
    }
    assert all[j] == j;
    assert j in Elems(perm);
  }

  lemma {:induction false} SubsetCard<T>(a: set<T>, b: set<T>)
    requires a <= b
    ensures |a| <= |b|
  {
    assert b == a + (b - a);
  }
}

=== FILE: view.dfy ===
/**
 * basic_view: the static intersection view over a list of component types.
 * Construction ensures every listed map, keeps them in declaration order in
 * `access` and orders the walk table by ascending size, so the smallest map
 * drives. `perm` records the order: table[k] = access[perm[k]]. The
 * properties below hold for every size-sorted order, whatever order
 * std::sort leaves equal sizes in.
 */
module Views {
  import opened Wrappers
  import opened EntityValue
  import opened Seqs
  import EntityMaps
  import ComponentsDb
  import opened SortOrder
  import opened ViewTables
  import opened Scans

  type EntityMap<D> = EntityMaps.EntityMap<D>
  type ComponentType<D> = ComponentsDb.ComponentType<D>
  type Db<D> = ComponentsDb.Db<D>

  datatype View<D> = View(access: seq<EntityMap<D>>, perm: seq<nat>)

  function Sizes<D>(ms: seq<EntityMap<D>>): (keys: seq<int>)
    ensures |keys| == |ms| && forall k :: 0 <= k < |ms| ==> keys[k] == EntityMaps.Size(ms[k])
  {
    seq(|ms|, k requires 0 <= k < |ms| => EntityMaps.Size(ms[k]))
  }

  /** The view invariant: well-formed maps, walked in some size-sorted order. */
  ghost predicate Inv<D>(v: View<D>)
  {
    && |v.access| >= 1
    && AllValid(v.access)
    && IsPermutation(v.perm, |v.access|)
    && SortedBy(v.perm, Sizes(v.access))
  }

  /** table_: the maps in walk order. */
  function Table<D>(v: View<D>): (table: seq<EntityMap<D>>)
    requires IsPermutation(v.perm, |v.access|)
    ensures |table| == |v.access|
  {
    Permute(v.access, v.perm)
  }

  /**
   * The fold `access_[i] = &db.ensure<C>()` over the component list, left to
   * right: every listed type gets a map and the maps come back in list order.
   */
  function EnsureAll<D>(db: Db<D>, cs: seq<ComponentType<D>>): (r: (Db<D>, seq<EntityMap<D>>))
    requires ComponentsDb.Valid(db)
    ensures ComponentsDb.Valid(r.0) && |r.1| == |cs| && AllValid(r.1)
    ensures forall k :: 0 <= k < |cs| ==> ComponentsDb.TryGet(r.0, cs[k].id) == Some(r.1[k])
    ensures forall t :: ComponentsDb.TryGet(db, t).Some? ==> ComponentsDb.TryGet(r.0, t) == ComponentsDb.TryGet(db, t)
    ensures forall t, e :: ComponentsDb.HasIn(r.0, t, e) <==> ComponentsDb.HasIn(db, t, e)
    decreases |cs|
  {
    if cs == [] then (db, [])
    else
      var first := ComponentsDb.Ensure(db, cs[0]);
      var rest := EnsureAll(first.0, cs[1..]);
      EnsureAllStep(db, cs, first.0, first.1, rest.0, rest.1);
      (rest.0, [first.1] + rest.1)
  }

  lemma {:induction false} EnsureAllStep<D>(db: Db<D>, cs: seq<ComponentType<D>>, db1: Db<D>, m: EntityMap<D>, db2: Db<D>, ms: seq<EntityMap<D>>)
    requires ComponentsDb.Valid(db) && |cs| >= 1 && (db1, m) == ComponentsDb.Ensure(db, cs[0])
    requires |ms| == |cs| - 1
    requires forall k :: 0 <= k < |cs| - 1 ==> ComponentsDb.TryGet(db2, cs[k + 1].id) == Some(ms[k])
    requires forall t :: ComponentsDb.TryGet(db1, t).Some? ==> ComponentsDb.TryGet(db2, t) == ComponentsDb.TryGet(db1, t)
    ensures forall k :: 0 <= k < |cs| ==> ComponentsDb.TryGet(db2, cs[k].id) == Some(([m] + ms)[k])
    ensures forall t :: ComponentsDb.TryGet(db, t).Some? ==> ComponentsDb.TryGet(db2, t) == ComponentsDb.TryGet(db, t)
  {
    forall k | 0 <= k < |cs| ensures ComponentsDb.TryGet(db2, cs[k].id) == Some(([m] + ms)[k]) {
      if k > 0 {
        assert cs[1..][k - 1] == cs[k];
      }
    }
    forall t | ComponentsDb.TryGet(db, t).Some? ensures ComponentsDb.TryGet(db2, t) == ComponentsDb.TryGet(db, t) {
      if t == cs[0].id {
        assert ComponentsDb.TryGet(db1, t) == ComponentsDb.TryGet(db, t);
      }
    }
  }

  /**
   * basic_view(db): ensure every listed map, then order the table by
   * ascending size. A view over no component type has no table_[0] to
   * start from, so the list must be non-empty.
   */
  function Make<D>(db: Db<D>, cs: seq<ComponentType<D>>): (r: (Db<D>, View<D>))
    requires ComponentsDb.Valid(db) && |cs| >= 1
    ensures Inv(r.1) && |r.1.access| == |cs|
    ensures forall k :: 0 <= k < |cs| ==> ComponentsDb.TryGet(r.0, cs[k].id) == Some(r.1.access[k])
    ensures forall t, e :: ComponentsDb.HasIn(r.0, t, e) <==> ComponentsDb.HasIn(db, t, e)
    ensures forall k :: 0 <= k < |cs| ==> EntityMaps.Size(Table(r.1)[0]) <= EntityMaps.Size(r.1.access[k])
  {
    var ens := EnsureAll(db, cs);
    var perm := SortBySize(Sizes(ens.1));
    var v := View(ens.1, perm);
    SmallestDrives(v);
    (ens.0, v)
  }

  /** The driver table_[0] is no larger than any listed map. */
  lemma {:induction false} SmallestDrives<D>(v: View<D>)
    requires Inv(v)
    ensures forall k :: 0 <= k < |v.access| ==> EntityMaps.Size(Table(v)[0]) <= EntityMaps.Size(v.access[k])
  {
    forall j | 0 <= j < |v.access| ensures EntityMaps.Size(Table(v)[0]) <= EntityMaps.Size(v.access[j]) {
      PermutationCovers(v.perm, |v.access|, j);
      var k :| 0 <= k < |v.access| && v.perm[k] == j;
      if k > 0 {
        assert Sizes(v.access)[v.perm[0]] <= Sizes(v.access)[v.perm[k]];
      }
    }
  }

  /** The walk table holds the same maps as access, and a map is in one iff in the other. */
  lemma {:induction false} TableIsAccess<D>(v: View<D>, e: Entity)
    requires Inv(v)
    ensures AllValid(Table(v))
    ensures (forall k :: 0 <= k < |v.access| ==> EntityMaps.Has(Table(v)[k], e))
        <==> (forall j :: 0 <= j < |v.access| ==> EntityMaps.Has(v.access[j], e))
  {
    var table := Table(v);
    if forall k :: 0 <= k < |v.access| ==> EntityMaps.Has(table[k], e) {
      forall j | 0 <= j < |v.access| ensures EntityMaps.Has(v.access[j], e) {
        PermutationCovers(v.perm, |v.access|, j);
        var k :| 0 <= k < |v.access| && v.perm[k] == j;
        assert table[k] == v.access[j];
      }
    }
  }

  /** The view's valid check, as the walk consumes it. */
  function Keep<D>(v: View<D>): (keep: Entity -> bool)
    requires IsPermutation(v.perm, |v.access|)
    ensures forall e :: keep(e) <==> InRest(Table(v), e)
  {
    e => IsValid(Table(v), e)
  }

  /** The driver's dense list. */
  function Driver<D>(v: View<D>): seq<Entity>
    requires Inv(v)
  {
    Table(v)[0].dense
  }

  /** begin() .. end(): the entities the view yields, in order. */
  method Iterate<D>(v: View<D>) returns (out: seq<Entity>)
    requires Inv(v) && |Driver(v)| >= 1
    ensures out == ForwardYield(Keep(v), Driver(v))
  {
    out := ForwardScan(Keep(v), Table(v)[0].dense);
  }

  /**
   * When no map holds a handle of index 0, the view yields the driver's
   * members that every listed map has, in driver order, once each.
   */
  lemma {:induction false} YieldIsIntersection<D>(v: View<D>, e: Entity)
    requires Inv(v)
    requires forall j :: 0 <= j < |v.access| ==> !EntityMaps.Has(v.access[j], Null)
    ensures |Driver(v)| >= 1
    ensures ForwardYield(Keep(v), Driver(v)) == Filter(Keep(v), EntityMaps.Members(Table(v)[0]))
    ensures Distinct(ForwardYield(Keep(v), Driver(v)))
    ensures e in ForwardYield(Keep(v), Driver(v)) <==>
      e in EntityMaps.Members(Table(v)[0]) && forall j :: 0 <= j < |v.access| ==> EntityMaps.Has(v.access[j], e)
  {
    var table := Table(v);
    TableIsAccess(v, e);
    DriverFacts(v);
    YieldsWithoutNull(Keep(v), Driver(v), e);
    if e in EntityMaps.Members(table[0]) {
      MemberInAll(table, e);
    }
  }

  /** The driving map is one of the listed maps, so it is valid. */
  lemma {:induction false} DriverValid<D>(v: View<D>)
    requires Inv(v)
    ensures EntityMaps.Valid(Table(v)[0])
  {
    assert Table(v)[0] == v.access[v.perm[0]];
  }

  /** The driver's members exclude the null handle and have no duplicates. */
  lemma {:induction false} DriverFacts<D>(v: View<D>)
    requires Inv(v)
    requires forall j :: 0 <= j < |v.access| ==> !EntityMaps.Has(v.access[j], Null)
    ensures |Driver(v)| >= 1 && Null !in Driver(v)[1..] && Distinct(Driver(v)[1..])
  {
    var d := Table(v)[0];
    assert d == v.access[v.perm[0]];
    EntityMaps.MembersDistinct(d);
  }

  /** Every yielded entity is in every listed map. */
  lemma {:induction false} YieldedInAll<D>(v: View<D>)
    requires Inv(v)
    requires forall j :: 0 <= j < |v.access| ==> !EntityMaps.Has(v.access[j], Null)
    ensures |Driver(v)| >= 1
    ensures forall x, k :: x in ForwardYield(Keep(v), Driver(v)) && 0 <= k < |v.access| ==> EntityMaps.Has(v.access[k], x)
  {
    forall x, k | x in ForwardYield(Keep(v), Driver(v)) && 0 <= k < |v.access| ensures EntityMaps.Has(v.access[k], x) {
      YieldIsIntersection(v, x);
    }
  }

  /**
   * each(func): one call per yielded entity; argument k is component k's
   * datum, read from access[k] (the pairing the i++ in the argument pack is
   * meant to produce).
   */
  method Each<D>(v: View<D>) returns (out: seq<Entity>, calls: seq<seq<D>>)
    requires Inv(v)
    requires forall j :: 0 <= j < |v.access| ==> !EntityMaps.Has(v.access[j], Null)
    ensures |Driver(v)| >= 1 && out == ForwardYield(Keep(v), Driver(v))
    ensures |calls| == |out|
    ensures forall i :: 0 <= i < |calls| ==> |calls[i]| == |v.access|
    ensures forall i, k :: 0 <= i < |calls| && 0 <= k < |v.access| ==>
      EntityMaps.Has(v.access[k], out[i]) && calls[i][k] == EntityMaps.Get(v.access[k], out[i])
  {
    YieldedInAll(v);
    out := Iterate(v);
    assert forall a, k :: 0 <= a < |out| && 0 <= k < |v.access| ==> EntityMaps.Has(v.access[k], out[a]) by {
      forall a, k | 0 <= a < |out| && 0 <= k < |v.access| ensures EntityMaps.Has(v.access[k], out[a]) {
        assert out[a] in out;
      }
    }
    calls := CallAll(v.access, out);
  }

  /** One argument list per entity of `out`, in order. */
  method CallAll<D>(access: seq<EntityMap<D>>, out: seq<Entity>) returns (calls: seq<seq<D>>)
    requires AllValid(access)
    requires forall a, k :: 0 <= a < |out| && 0 <= k < |access| ==> EntityMaps.Has(access[k], out[a])
    ensures |calls| == |out|
    ensures forall i :: 0 <= i < |calls| ==> |calls[i]| == |access|
    ensures forall i, k :: 0 <= i < |calls| && 0 <= k < |access| ==> calls[i][k] == EntityMaps.Get(access[k], out[i])
  {
    calls := [];
    var i := 0;
    while i < |out|
      invariant 0 <= i <= |out| && |calls| == i
      invariant forall a :: 0 <= a < i ==> calls[a] == Args(access, out[a])
    {
      calls := calls + [Args(access, out[i])];
      i := i + 1;
    }
  }

  /** The argument list of one call: component k's datum for e, from access[k]. */
  function Args<D>(access: seq<EntityMap<D>>, e: Entity): (args: seq<D>)
    requires AllValid(access) && forall k :: 0 <= k < |access| ==> EntityMaps.Has(access[k], e)
    ensures |args| == |access| && forall k :: 0 <= k < |access| ==> args[k] == EntityMaps.Get(access[k], e)
  {
    seq(|access|, k requires 0 <= k < |access| => EntityMaps.Get(access[k], e))
  }
}

=== FILE: view_filters.dfy ===
/**
 * The entity filters of the legacy views: a plain mask filter, and the
 * component mask filter that admits an entity when it is active and the
 * aspect accepts it. The by-reference and by-copy variants of the component
 * mask filter differ only in how the aspect is held, so one constructor
 * stands for both.
 */
module ViewFilters {
  import BitVectors
  import ComponentDbV1
  import FamilyAspects

  type Db<D> = ComponentDbV1.Db<D>
  type BitVector = BitVectors.BitVector

  /** The aspect of a component mask filter: aspect data or a family aspect. */
  datatype Aspect =
    | DataAspect(data: FamilyAspects.AspectData)
    | ListAspect(family: FamilyAspects.FamilyAspect)

  /** The aspect can be evaluated for e. */
  ghost predicate AspectReadable<D>(db: Db<D>, capacity: nat, a: Aspect, e: nat)
  {
    match a
    case DataAspect(d) => FamilyAspects.DataReadable(db, capacity, d, e)
    case ListAspect(f) => FamilyAspects.Readable(db, capacity, f.masks, e)
  }

  /** The aspect's operator(): check for aspect data, test for a family aspect. */
  function Accepts<D>(db: Db<D>, capacity: nat, a: Aspect, e: nat): (r: bool)
    requires AspectReadable(db, capacity, a, e)
    ensures a.DataAspect? ==> (r <==>
      (forall k :: 0 <= k < |a.data.inclusion| ==> ComponentDbV1.Has(db, a.data.inclusion[k], e))
      && (forall k :: 0 <= k < |a.data.exclusion| ==> !ComponentDbV1.Has(db, a.data.exclusion[k], e)))
    ensures a.ListAspect? ==> (r <==> forall k :: 0 <= k < |a.family.masks| ==> ComponentDbV1.Has(db, a.family.masks[k], e))
  {
    match a
    case DataAspect(d) => FamilyAspects.Check(db, capacity, d, e)
    case ListAspect(f) => FamilyAspects.Test(db, capacity, f, e)
  }

  /** mask_filter, and component_mask_filter(_ref) over the active mask and an aspect. */
  datatype Filter =
    | MaskFilter(mask: BitVector)
    | ComponentMaskFilter(active: BitVector, aspect: Aspect)

  /**
   * The filter can be applied to e: e is inside the mask, and the aspect is
   * readable whenever the active bit lets evaluation reach it.
   */
  ghost predicate Readable<D>(db: Db<D>, capacity: nat, f: Filter, e: nat)
  {
    match f
    case MaskFilter(m) => e < BitVectors.Size(m)
    case ComponentMaskFilter(active, a) =>
      e < BitVectors.Size(active) && (BitVectors.Get(active, e) ==> AspectReadable(db, capacity, a, e))
  }

  /** operator(): the mask bit, or the active bit and then the aspect. */
  function Pass<D>(db: Db<D>, capacity: nat, f: Filter, e: nat): (r: bool)
    requires Readable(db, capacity, f, e)
    ensures f.MaskFilter? ==> r == BitVectors.Get(f.mask, e)
    ensures f.ComponentMaskFilter? ==> (r <==> BitVectors.Get(f.active, e) && Accepts(db, capacity, f.aspect, e))
  {
    match f
    case MaskFilter(m) => BitVectors.Get(m, e)
    case ComponentMaskFilter(active, a) => BitVectors.Get(active, e) && Accepts(db, capacity, a, e)
  }

  /**
   * The conjunction short-circuits: an inactive entity is rejected without
   * consulting the aspect, which may then name types that are not registered.
   */
  lemma {:induction false} InactiveSkipsAspect<D>(db: Db<D>, capacity: nat, active: BitVector, a: Aspect, e: nat)
    requires e < BitVectors.Size(active) && !BitVectors.Get(active, e)
    ensures Readable(db, capacity, ComponentMaskFilter(active, a), e)
    ensures !Pass(db, capacity, ComponentMaskFilter(active, a), e)
  {
  }

  /** A component mask filter admits exactly the active entities holding every required type and no excluded one. */
  lemma {:induction false} ComponentFilterMeaning<D>(db: Db<D>, capacity: nat, active: BitVector, d: FamilyAspects.AspectData, e: nat)
    requires e < BitVectors.Size(active) && FamilyAspects.DataReadable(db, capacity, d, e)
    ensures Readable(db, capacity, ComponentMaskFilter(active, DataAspect(d)), e)
    ensures Pass(db, capacity, ComponentMaskFilter(active, DataAspect(d)), e) <==>
      BitVectors.Get(active, e)
      && (forall k :: 0 <= k < |d.inclusion| ==> ComponentDbV1.Has(db, d.inclusion[k], e))
      && (forall k :: 0 <= k < |d.exclusion| ==> !ComponentDbV1.Has(db, d.exclusion[k], e))
  {
  }
}

=== FILE: view_table.dfy ===
/**
 * The map table of a view and its `valid` check: table[0] is the driver
 * whose dense list is walked, and an entity passes when every later map of
 * the table has it.
 */
module ViewTables {
  import opened EntityValue
  import EntityMaps

  type EntityMap<D> = EntityMaps.EntityMap<D>

  ghost predicate AllValid<D>(table: seq<EntityMap<D>>)
  {
    forall i :: 0 <= i < |table| ==> EntityMaps.Valid(table[i])
  }

  /** The reference condition: every non-driver map of the table has e. */
  predicate InRest<D>(table: seq<EntityMap<D>>, e: Entity)
  {
    forall j :: 1 <= j < |table| ==> EntityMaps.Has(table[j], e)
  }

  /** The loop over table positions i .. |table|-1 that fails at the first map without e. */
  function CheckFrom<D>(table: seq<EntityMap<D>>, i: nat, e: Entity): (b: bool)
    requires i <= |table|
    ensures b <==> forall j :: i <= j < |table| ==> EntityMaps.Has(table[j], e)
    decreases |table| - i
  {
    if i == |table| then true
    else if !EntityMaps.Has(table[i], e) then false
    else CheckFrom(table, i + 1, e)
  }

  /** iterator::valid(e): the check starts at table position 1. */
  function IsValid<D>(table: seq<EntityMap<D>>, e: Entity): (b: bool)
    ensures b <==> InRest(table, e)
  {
    if |table| <= 1 then true else CheckFrom(table, 1, e)
  }

  /** For a driver member, passing valid is being in every map of the table. */
  lemma {:induction false} MemberInAll<D>(table: seq<EntityMap<D>>, e: Entity)
    requires |table| >= 1 && AllValid(table) && e in EntityMaps.Members(table[0])
    ensures InRest(table, e) <==> forall j :: 0 <= j < |table| ==> EntityMaps.Has(table[j], e)
  {
    var ms := EntityMaps.Members(table[0]);
    var k :| 0 <= k < |ms| && ms[k] == e;
    assert table[0].dense[k + 1] == e;
  }
}

=== FILE: world.dfy ===
/**
 * base_world: an entity pool and a component registry side by side. The
 * world invariant ties them together: every member of every component map
 * names a live, non-null pool slot that holds exactly that handle.
 */
module Worlds {
  import opened Wrappers
  import opened EntitySpec
  import opened EntityValue
  import opened Seqs
  import EntityPool
  import EntityMaps
  import ComponentsDb

  type EntityMap<D> = EntityMaps.EntityMap<D>
  type ComponentType<D> = ComponentsDb.ComponentType<D>
  type Db<D> = ComponentsDb.Db<D>
  type Pool = EntityPool.Pool

  datatype World<D> = World(pool: Pool, db: Db<D>)

  /** e is the handle the pool currently issues for its slot. */
  predicate LiveHandle(pool: Pool, e: Entity)
  {
    Index(e) != 0 && EntityPool.IsAlive(pool, Index(e)) && pool.list[Index(e)] == e
  }

  /** Every member of m is the live handle of its slot. */
  ghost predicate Tracks<D>(pool: Pool, m: EntityMap<D>)
    requires EntityMaps.Valid(m)
  {
    forall k :: k in EntityMaps.Stored(m) ==> LiveHandle(pool, EntityMaps.Stored(m)[k])
  }

  /** The world invariant. */
  ghost predicate Inv<D>(w: World<D>)
  {
    && EntityPool.Valid(w.pool)
    && ComponentsDb.Valid(w.db)
    && forall t :: ComponentsDb.TryGet(w.db, t).Some? ==> Tracks(w.pool, ComponentsDb.TryGet(w.db, t).value)
  }

  /** The map registered under t. */
  function MapOf<D>(db: Db<D>, t: nat): (m: EntityMap<D>)
    requires ComponentsDb.Valid(db) && ComponentsDb.TryGet(db, t).Some?
    ensures EntityMaps.Valid(m)
  {
    ComponentsDb.TryGet(db, t).value
  }

  /** Under the invariant, a component map has e exactly when it stores e's live handle. */
  lemma {:induction false} MemberIsLive<D>(w: World<D>, t: nat, e: Entity)
    requires Inv(w) && ComponentsDb.HasIn(w.db, t, e)
    ensures Index(e) != 0 && EntityPool.IsAlive(w.pool, Index(e))
    ensures EntityMaps.Stored(MapOf(w.db, t))[Index(e)] == w.pool.list[Index(e)]
  {
    var m := MapOf(w.db, t);
    assert Index(e) in EntityMaps.Stored(m);
    assert LiveHandle(w.pool, EntityMaps.Stored(m)[Index(e)]);
  }

  /** base_world(): an empty pool and an empty registry. */
  function New<D>(): (w: World<D>)
    ensures Inv(w) && EntityPool.Size(w.pool) == 0
    ensures forall t :: ComponentsDb.TryGet(w.db, t) == None
  {
    World(EntityPool.New(), ComponentsDb.Empty())
  }

  /**
   * assign<C>(e, d): ensure C's map and emplace; emplace requires that e is
   * not yet a member. Returns the world and the stored datum.
   */
  function Assign<D>(w: World<D>, c: ComponentType<D>, e: Entity, d: D): (r: (World<D>, D))
    requires ComponentsDb.Valid(w.db) && !ComponentsDb.HasIn(w.db, c.id, e)
    ensures ComponentsDb.Valid(r.0.db) && r.0.pool == w.pool
    ensures ComponentsDb.HasIn(r.0.db, c.id, e)
    ensures EntityMaps.Stored(MapOf(r.0.db, c.id)) == EntityMaps.Stored(ComponentsDb.Ensure(w.db, c).1)[Index(e) := e]
    ensures EntityMaps.Values(MapOf(r.0.db, c.id)) == EntityMaps.Values(ComponentsDb.Ensure(w.db, c).1)[Index(e) := r.1]
    ensures !ComponentsDb.Ensure(w.db, c).1.emptyData ==> r.1 == d
    ensures forall t :: t != c.id ==> ComponentsDb.TryGet(r.0.db, t) == ComponentsDb.TryGet(w.db, t)
    ensures forall t, x :: Index(x) != Index(e) ==> (ComponentsDb.HasIn(r.0.db, t, x) <==> ComponentsDb.HasIn(w.db, t, x))
    ensures Inv(w) && LiveHandle(w.pool, e) ==> Inv(r.0)
  {
    var ens := ComponentsDb.Ensure(w.db, c);
    var em := EntityMaps.Emplace(ens.1, e, d);
    var db := ComponentsDb.Put(ens.0, c.id, em.0);
    var r := World(w.pool, db);
    AssignTracks(w, c, e, r);
    (r, em.1)
  }

  lemma {:induction false} AssignTracks<D>(w: World<D>, c: ComponentType<D>, e: Entity, r: World<D>)
    requires ComponentsDb.Valid(w.db) && r.pool == w.pool && ComponentsDb.Valid(r.db)
    requires ComponentsDb.TryGet(r.db, c.id).Some?
    requires EntityMaps.Stored(MapOf(r.db, c.id)) == EntityMaps.Stored(ComponentsDb.Ensure(w.db, c).1)[Index(e) := e]
    requires forall t :: t != c.id ==> ComponentsDb.TryGet(r.db, t) == ComponentsDb.TryGet(w.db, t)
    ensures Inv(w) && LiveHandle(w.pool, e) ==> Inv(r)
  {
    if !(Inv(w) && LiveHandle(w.pool, e)) {
      return;
    }
    var old_ := ComponentsDb.Ensure(w.db, c).1;
    assert Tracks(w.pool, old_) by {
      if ComponentsDb.TryGet(w.db, c.id).None? {
        assert EntityMaps.Stored(old_) == map[];
      }
    }
    forall t | ComponentsDb.TryGet(r.db, t).Some? ensures Tracks(r.pool, ComponentsDb.TryGet(r.db, t).value) {
      if t != c.id {
        assert ComponentsDb.TryGet(r.db, t) == ComponentsDb.TryGet(w.db, t);
      }
    }
  }

  /** has<C>(e): ensures C's map (possibly creating it) and asks it. */
  function Has<D>(w: World<D>, c: ComponentType<D>, e: Entity): (r: (World<D>, bool))
    requires ComponentsDb.Valid(w.db)
    ensures r.1 <==> ComponentsDb.HasIn(w.db, c.id, e)
    ensures r.0.pool == w.pool && ComponentsDb.Valid(r.0.db)
    ensures forall t, x :: ComponentsDb.HasIn(r.0.db, t, x) <==> ComponentsDb.HasIn(w.db, t, x)
    ensures Inv(w) ==> Inv(r.0)
  {
    var ens := ComponentsDb.Ensure(w.db, c);
    forall t, x ensures ComponentsDb.HasIn(ens.0, t, x) <==> ComponentsDb.HasIn(w.db, t, x) {
      ComponentsDb.EnsureKeepsMembership(w.db, c, t, x);
    }
    HasTracks(w, c, ens.0);
    (World(w.pool, ens.0), EntityMaps.Has(ens.1, e))
  }

  lemma {:induction false} HasTracks<D>(w: World<D>, c: ComponentType<D>, db: Db<D>)
    requires ComponentsDb.Valid(w.db) && db == ComponentsDb.Ensure(w.db, c).0
    ensures Inv(w) ==> Inv(World(w.pool, db))
  {
    if !Inv(w) {
      return;
    }
    forall t | ComponentsDb.TryGet(db, t).Some? ensures Tracks(w.pool, ComponentsDb.TryGet(db, t).value) {
      if t == c.id && ComponentsDb.TryGet(w.db, t).None? {
        assert EntityMaps.Stored(ComponentsDb.TryGet(db, t).value) == map[];
      }
    }
  }

  /** get<C>(e): C's map must exist (the assert on the pointer) and must have e. */
  function Get<D>(w: World<D>, c: ComponentType<D>, e: Entity): (d: D)
    requires ComponentsDb.Valid(w.db) && ComponentsDb.HasIn(w.db, c.id, e)
    ensures d == EntityMaps.Values(MapOf(w.db, c.id))[Index(e)]
  {
    EntityMaps.Get(MapOf(w.db, c.id), e)
  }

  /** remove<C>(e): C's map must exist and have e; e is erased from it. */
  function Remove<D>(w: World<D>, c: ComponentType<D>, e: Entity): (r: World<D>)
    requires ComponentsDb.Valid(w.db) && ComponentsDb.HasIn(w.db, c.id, e)
    ensures ComponentsDb.Valid(r.db) && r.pool == w.pool
    ensures ComponentsDb.TryGet(r.db, c.id).Some? && !ComponentsDb.HasIn(r.db, c.id, e)
    ensures EntityMaps.Stored(MapOf(r.db, c.id)) == EntityMaps.Stored(MapOf(w.db, c.id)) - {Index(e)}
    ensures EntityMaps.Values(MapOf(r.db, c.id)) == EntityMaps.Values(MapOf(w.db, c.id)) - {Index(e)}
    ensures forall t :: t != c.id ==> ComponentsDb.TryGet(r.db, t) == ComponentsDb.TryGet(w.db, t)
    ensures Inv(w) ==> Inv(r)
  {
    var m := EntityMaps.Erase(MapOf(w.db, c.id), e);
    var r := World(w.pool, ComponentsDb.Put(w.db, c.id, m));
    RemoveTracks(w, c, r);
    r
  }

  lemma {:induction false} RemoveTracks<D>(w: World<D>, c: ComponentType<D>, r: World<D>)
    requires ComponentsDb.Valid(w.db) && r.pool == w.pool && ComponentsDb.Valid(r.db)
    requires ComponentsDb.TryGet(w.db, c.id).Some? && ComponentsDb.TryGet(r.db, c.id).Some?
    requires forall k :: k in EntityMaps.Stored(MapOf(r.db, c.id)) ==>
      k in EntityMaps.Stored(MapOf(w.db, c.id)) && EntityMaps.Stored(MapOf(r.db, c.id))[k] == EntityMaps.Stored(MapOf(w.db, c.id))[k]
    requires forall t :: t != c.id ==> ComponentsDb.TryGet(r.db, t) == ComponentsDb.TryGet(w.db, t)
    ensures Inv(w) ==> Inv(r)
  {
    if !Inv(w) {
      return;
    }
    forall t | ComponentsDb.TryGet(r.db, t).Some? ensures Tracks(r.pool, ComponentsDb.TryGet(r.db, t).value) {
      if t != c.id {
        assert ComponentsDb.TryGet(r.db, t) == ComponentsDb.TryGet(w.db, t);
      } else {
        var a := MapOf(w.db, c.id);
        var b := MapOf(r.db, c.id);
        assert Tracks(w.pool, a);
        forall k | k in EntityMaps.Stored(b) ensures LiveHandle(r.pool, EntityMaps.Stored(b)[k]) {
          assert EntityMaps.Stored(b)[k] == EntityMaps.Stored(a)[k];
        }
      }
    }
  }

  /**
   * destroy(e): erase e from every component map, then free its slot. The
   * pool's deallocate requires a live, non-null slot.
   */
  function Destroy<D>(w: World<D>, e: Entity): (r: World<D>)
    requires EntityPool.Valid(w.pool) && ComponentsDb.Valid(w.db)
    requires Index(e) != 0 && EntityPool.IsAlive(w.pool, Index(e))
    ensures EntityPool.Valid(r.pool) && ComponentsDb.Valid(r.db)
    ensures EntityPool.Size(r.pool) == EntityPool.Size(w.pool) - 1
    ensures forall t :: !ComponentsDb.HasIn(r.db, t, e)
    ensures forall t, x :: Index(x) != Index(e) ==> (ComponentsDb.HasIn(r.db, t, x) <==> ComponentsDb.HasIn(w.db, t, x))
    ensures Index(e) < |r.pool.list| && !EntityPool.IsAlive(r.pool, Index(e)) && !IsValid(r, e)
    ensures Inv(w) ==> Inv(r)
  {
    var r := World(EntityPool.Deallocate(w.pool, e), ComponentsDb.RemoveAll(w.db, e));
    forall t, x ensures !ComponentsDb.HasIn(r.db, t, e)
      && (Index(x) != Index(e) ==> (ComponentsDb.HasIn(r.db, t, x) <==> ComponentsDb.HasIn(w.db, t, x)))
    {
      ComponentsDb.RemoveAllMembership(w.db, e, t, x);
    }
    DestroyTracks(w, e, r);
    r
  }

  lemma {:induction false} DestroyTracks<D>(w: World<D>, e: Entity, r: World<D>)
    requires EntityPool.Valid(w.pool) && ComponentsDb.Valid(w.db) && ComponentsDb.Valid(r.db) && EntityPool.Valid(r.pool)
    requires |r.pool.list| == |w.pool.list|
    requires forall j :: 0 <= j < |w.pool.list| && j != Index(e) ==> r.pool.list[j] == w.pool.list[j]
    requires forall t :: ComponentsDb.TryGet(r.db, t).Some? <==> ComponentsDb.TryGet(w.db, t).Some?
    requires forall t :: ComponentsDb.TryGet(r.db, t).Some? ==> !EntityMaps.Has(ComponentsDb.TryGet(r.db, t).value, e)
    requires forall t :: ComponentsDb.TryGet(w.db, t).Some? && EntityMaps.Has(ComponentsDb.TryGet(w.db, t).value, e) ==>
      EntityMaps.Stored(ComponentsDb.TryGet(r.db, t).value) == EntityMaps.Stored(ComponentsDb.TryGet(w.db, t).value) - {Index(e)}
    requires forall t :: ComponentsDb.TryGet(w.db, t).Some? && !EntityMaps.Has(ComponentsDb.TryGet(w.db, t).value, e) ==>
      ComponentsDb.TryGet(r.db, t) == ComponentsDb.TryGet(w.db, t)
    ensures Inv(w) ==> Inv(r)
  {
    if !Inv(w) {
      return;
    }
    forall t | ComponentsDb.TryGet(r.db, t).Some? ensures Tracks(r.pool, ComponentsDb.TryGet(r.db, t).value) {
      var a := MapOf(w.db, t);
      var b := MapOf(r.db, t);
      assert Tracks(w.pool, a);
      forall k | k in EntityMaps.Stored(b) ensures LiveHandle(r.pool, EntityMaps.Stored(b)[k]) {
        assert k != Index(e);
        assert k in EntityMaps.Stored(a) && EntityMaps.Stored(b)[k] == EntityMaps.Stored(a)[k];
        assert LiveHandle(w.pool, EntityMaps.Stored(a)[k]);
        assert Index(EntityMaps.Stored(a)[k]) == k;
      }
    }
  }

  /**
   * valid(e), as written: a non-null handle whose version equals the version
   * recorded in its slot. Liveness of the slot is not consulted. Reading the
   * slot requires the index to be in range.
   */
  function IsValid<D>(w: World<D>, e: Entity): (b: bool)
    requires e == Null || Index(e) < |w.pool.list|
    ensures b ==> e != Null
    ensures IsValidAlive(w, e) ==> b
  {
    e != Null && EntityPool.Current(w.pool, Index(e)) == Version(e)
  }

  /**
   * valid(e) with a liveness test: e is non-null and equals the handle its
   * slot currently stores (is_alive and current() together), so it accepts
   * exactly the handles the pool currently issues.
   */
  function IsValidAlive<D>(w: World<D>, e: Entity): (b: bool)
    requires e == Null || Index(e) < |w.pool.list|
    ensures b <==> e != Null && w.pool.list[Index(e)] == e
  {
    if e == Null then false
    else
      EqualityIsByWord(w.pool.list[Index(e)], e);
      EntityPool.IsAlive(w.pool, Index(e)) && EntityPool.Current(w.pool, Index(e)) == Version(e)
  }

  /** Every live handle passes both checks. */
  lemma {:induction false} LiveHandleIsValid<D>(w: World<D>, e: Entity)
    requires EntityPool.Valid(w.pool) && LiveHandle(w.pool, e)
    ensures e != Null && IsValid(w, e) && IsValidAlive(w, e)
  {
  }

  /**
   * A handle whose slot is free but records the handle's version reads as
   * valid: after creating and destroying (1, 0), slot 1 records version 1,
   * so the never-issued handle (1, 1) passes valid.
   */
  lemma {:induction false} ValidAcceptsUnissuedHandle()
    ensures var p := EntityPool.Allocate(EntityPool.New()).0;
      var q := EntityPool.Deallocate(p, Make(1, 0));
      var w := World(q, ComponentsDb.Empty<int>());
      Index(Make(1, 1)) < |q.list| && !EntityPool.IsAlive(q, 1)
      && IsValid(w, Make(1, 1)) && !IsValidAlive(w, Make(1, 1))
  {
    var p := EntityPool.Allocate(EntityPool.New()).0;
    assert p.list == [Null, Make(1, 0)];
    var q := EntityPool.Deallocate(p, Make(1, 0));
    assert q.list[1] == Make(0, 1);
    assert Make(1, 1) != Null;
  }

  /** The ids of a component list. */
  function Ids<D>(cs: seq<ComponentType<D>>): (ids: set<nat>)
    ensures forall k :: 0 <= k < |cs| ==> cs[k].id in ids
    ensures forall t :: t in ids ==> exists k :: 0 <= k < |cs| && cs[k].id == t
  {
    set k | 0 <= k < |cs| :: cs[k].id
  }

  /** No two component types of a list share an id. */
  predicate DistinctIds<D>(cs: seq<ComponentType<D>>)
  {
    forall k, l :: 0 <= k < l < |cs| ==> cs[k].id != cs[l].id
  }

  /** The fold (assign<C>(e), ...) over the component list, each with its default datum. */
  function AssignAll<D>(w: World<D>, e: Entity, cs: seq<ComponentType<D>>): (r: World<D>)
    requires ComponentsDb.Valid(w.db) && DistinctIds(cs)
    requires forall k :: 0 <= k < |cs| ==> !ComponentsDb.HasIn(w.db, cs[k].id, e)
    ensures ComponentsDb.Valid(r.db) && r.pool == w.pool
    ensures forall k :: 0 <= k < |cs| ==> ComponentsDb.HasIn(r.db, cs[k].id, e)
    ensures forall t :: t !in Ids(cs) ==> ComponentsDb.TryGet(r.db, t) == ComponentsDb.TryGet(w.db, t)
    ensures forall t, x :: Index(x) != Index(e) ==> (ComponentsDb.HasIn(r.db, t, x) <==> ComponentsDb.HasIn(w.db, t, x))
    ensures Inv(w) && LiveHandle(w.pool, e) ==> Inv(r)
    decreases |cs|
  {
    if cs == [] then w
    else
      var first := Assign(w, cs[0], e, cs[0].zero).0;
      AssignAllPre(w, e, cs, first);
      var r := AssignAll(first, e, cs[1..]);
      AssignAllPost(w, e, cs, first, r);
      r
  }

  lemma {:induction false} AssignAllPre<D>(w: World<D>, e: Entity, cs: seq<ComponentType<D>>, first: World<D>)
    requires |cs| >= 1 && DistinctIds(cs)
    requires forall t :: t != cs[0].id ==> ComponentsDb.TryGet(first.db, t) == ComponentsDb.TryGet(w.db, t)
    requires forall k :: 0 <= k < |cs| ==> !ComponentsDb.HasIn(w.db, cs[k].id, e)
    ensures DistinctIds(cs[1..])
    ensures forall k :: 0 <= k < |cs| - 1 ==> !ComponentsDb.HasIn(first.db, cs[1..][k].id, e)
  {
    forall k | 0 <= k < |cs| - 1 ensures !ComponentsDb.HasIn(first.db, cs[1..][k].id, e) {
      assert cs[1..][k] == cs[k + 1];
      assert ComponentsDb.TryGet(first.db, cs[k + 1].id) == ComponentsDb.TryGet(w.db, cs[k + 1].id);
    }
  }

  lemma {:induction false} AssignAllPost<D>(w: World<D>, e: Entity, cs: seq<ComponentType<D>>, first: World<D>, r: World<D>)
    requires |cs| >= 1 && ComponentsDb.Valid(first.db)
    requires ComponentsDb.HasIn(first.db, cs[0].id, e)
    requires forall t :: t != cs[0].id ==> ComponentsDb.TryGet(first.db, t) == ComponentsDb.TryGet(w.db, t)
    requires forall t, x :: Index(x) != Index(e) ==> (ComponentsDb.HasIn(first.db, t, x) <==> ComponentsDb.HasIn(w.db, t, x))
    requires forall k :: 0 <= k < |cs| - 1 ==> ComponentsDb.HasIn(r.db, cs[1..][k].id, e)
    requires forall t :: t !in Ids(cs[1..]) ==> ComponentsDb.TryGet(r.db, t) == ComponentsDb.TryGet(first.db, t)
    requires forall t, x :: Index(x) != Index(e) ==> (ComponentsDb.HasIn(r.db, t, x) <==> ComponentsDb.HasIn(first.db, t, x))
    requires DistinctIds(cs)
    ensures forall k :: 0 <= k < |cs| ==> ComponentsDb.HasIn(r.db, cs[k].id, e)
    ensures forall t :: t !in Ids(cs) ==> ComponentsDb.TryGet(r.db, t) == ComponentsDb.TryGet(w.db, t)
    ensures forall t, x :: Index(x) != Index(e) ==> (ComponentsDb.HasIn(r.db, t, x) <==> ComponentsDb.HasIn(w.db, t, x))
  {
    var rest := cs[1..];
    assert forall k :: 0 <= k < |rest| ==> rest[k] == cs[k + 1];
    assert ComponentsDb.TryGet(r.db, cs[0].id) == ComponentsDb.TryGet(first.db, cs[0].id);
    forall t | t !in Ids(cs) ensures ComponentsDb.TryGet(r.db, t) == ComponentsDb.TryGet(w.db, t) {
      assert t !in Ids(rest);
    }
  }

  /**
   * create<Cs...>(): allocate a handle and assign every listed component.
   * Listing a type twice would emplace twice, which emplace's assertion
   * forbids, so the ids must be distinct.
   */
  function Create<D>(w: World<D>, cs: seq<ComponentType<D>>): (r: (World<D>, Entity))
    requires Inv(w) && DistinctIds(cs)
    requires w.pool.available == 0 ==> |w.pool.list| <= IndexMask
    ensures Inv(r.0) && LiveHandle(r.0.pool, r.1) && !EntityPool.IsAlive(w.pool, Index(r.1))
    ensures EntityPool.Size(r.0.pool) == EntityPool.Size(w.pool) + 1
    ensures forall k :: 0 <= k < |cs| ==> ComponentsDb.HasIn(r.0.db, cs[k].id, r.1)
    ensures forall t :: t !in Ids(cs) ==> !ComponentsDb.HasIn(r.0.db, t, r.1)
    ensures forall t :: t !in Ids(cs) ==> ComponentsDb.TryGet(r.0.db, t) == ComponentsDb.TryGet(w.db, t)
    ensures forall t, x :: Index(x) != Index(r.1) ==> (ComponentsDb.HasIn(r.0.db, t, x) <==> ComponentsDb.HasIn(w.db, t, x))
  {
    var a := EntityPool.Allocate(w.pool);
    var e := a.1;
    var w1 := World(a.0, w.db);
    AllocateTracks(w, a.0);
    FreshIsInNoMap(w, e);
    var r := AssignAll(w1, e, cs);
    forall t | t !in Ids(cs) ensures !ComponentsDb.HasIn(r.db, t, e) {
      assert !ComponentsDb.HasIn(w.db, t, e);
    }
    (r, e)
  }

  /** Allocation keeps every live slot, so the maps still track the pool. */
  lemma {:induction false} AllocateTracks<D>(w: World<D>, q: Pool)
    requires Inv(w) && EntityPool.Valid(q) && |q.list| >= |w.pool.list|
    requires forall j :: 0 <= j < |w.pool.list| && EntityPool.IsAlive(w.pool, j) ==> q.list[j] == w.pool.list[j]
    ensures Inv(World(q, w.db))
  {
    forall t | ComponentsDb.TryGet(w.db, t).Some? ensures Tracks(q, ComponentsDb.TryGet(w.db, t).value) {
      var m := MapOf(w.db, t);
      assert Tracks(w.pool, m);
      forall k | k in EntityMaps.Stored(m) ensures LiveHandle(q, EntityMaps.Stored(m)[k]) {
        assert LiveHandle(w.pool, EntityMaps.Stored(m)[k]);
      }
    }
  }

  /** A slot that is not live is in no component map. */
  lemma {:induction false} FreshIsInNoMap<D>(w: World<D>, e: Entity)
    requires Inv(w) && !EntityPool.IsAlive(w.pool, Index(e))
    ensures forall t :: !ComponentsDb.HasIn(w.db, t, e)
  {
    forall t | ComponentsDb.HasIn(w.db, t, e) ensures false {
      MemberIsLive(w, t, e);
    }
  }

  /** The loop over a handle range assigning every listed component to each handle. */
  function AssignEvery<D>(w: World<D>, es: seq<Entity>, cs: seq<ComponentType<D>>): (r: World<D>)
    requires ComponentsDb.Valid(w.db) && DistinctIds(cs)
    requires forall i, j :: 0 <= i < j < |es| ==> Index(es[i]) != Index(es[j])
    requires forall i, k :: 0 <= i < |es| && 0 <= k < |cs| ==> !ComponentsDb.HasIn(w.db, cs[k].id, es[i])
    ensures ComponentsDb.Valid(r.db) && r.pool == w.pool
    ensures forall i, k :: 0 <= i < |es| && 0 <= k < |cs| ==> ComponentsDb.HasIn(r.db, cs[k].id, es[i])
    ensures forall t, x :: (forall i :: 0 <= i < |es| ==> Index(x) != Index(es[i])) ==>
      (ComponentsDb.HasIn(r.db, t, x) <==> ComponentsDb.HasIn(w.db, t, x))
    ensures Inv(w) && (forall i :: 0 <= i < |es| ==> LiveHandle(w.pool, es[i])) ==> Inv(r)
    decreases |es|
  {
    if es == [] then w
    else
      var first := AssignAll(w, es[0], cs);
      AssignEveryPre(w, es, cs, first);
      var r := AssignEvery(first, es[1..], cs);
      AssignEveryPost(w, es, cs, first, r);
      r
  }

  lemma {:induction false} AssignEveryPre<D>(w: World<D>, es: seq<Entity>, cs: seq<ComponentType<D>>, first: World<D>)
    requires |es| >= 1
    requires forall i, j :: 0 <= i < j < |es| ==> Index(es[i]) != Index(es[j])
    requires forall i, k :: 0 <= i < |es| && 0 <= k < |cs| ==> !ComponentsDb.HasIn(w.db, cs[k].id, es[i])
    requires forall t, x :: Index(x) != Index(es[0]) ==> (ComponentsDb.HasIn(first.db, t, x) <==> ComponentsDb.HasIn(w.db, t, x))
    ensures forall i, j :: 0 <= i < j < |es| - 1 ==> Index(es[1..][i]) != Index(es[1..][j])
    ensures forall i, k :: 0 <= i < |es| - 1 && 0 <= k < |cs| ==> !ComponentsDb.HasIn(first.db, cs[k].id, es[1..][i])
    ensures (forall i :: 0 <= i < |es| ==> LiveHandle(w.pool, es[i])) ==>
      LiveHandle(w.pool, es[0]) && forall i :: 0 <= i < |es| - 1 ==> LiveHandle(w.pool, es[1..][i])
  {
    forall i, k | 0 <= i < |es| - 1 && 0 <= k < |cs| ensures !ComponentsDb.HasIn(first.db, cs[k].id, es[1..][i]) {
      assert es[1..][i] == es[i + 1];
      assert !ComponentsDb.HasIn(w.db, cs[k].id, es[i + 1]);
    }
  }

  lemma {:induction false} AssignEveryPost<D>(w: World<D>, es: seq<Entity>, cs: seq<ComponentType<D>>, first: World<D>, r: World<D>)
    requires |es| >= 1
    requires forall i, j :: 0 <= i < j < |es| ==> Index(es[i]) != Index(es[j])
    requires forall k :: 0 <= k < |cs| ==> ComponentsDb.HasIn(first.db, cs[k].id, es[0])
    requires forall t, x :: Index(x) != Index(es[0]) ==> (ComponentsDb.HasIn(first.db, t, x) <==> ComponentsDb.HasIn(w.db, t, x))
    requires forall i, k :: 0 <= i < |es| - 1 && 0 <= k < |cs| ==> ComponentsDb.HasIn(r.db, cs[k].id, es[1..][i])
    requires forall t, x :: (forall i :: 0 <= i < |es| - 1 ==> Index(x) != Index(es[1..][i])) ==>
      (ComponentsDb.HasIn(r.db, t, x) <==> ComponentsDb.HasIn(first.db, t, x))
    ensures forall i, k :: 0 <= i < |es| && 0 <= k < |cs| ==> ComponentsDb.HasIn(r.db, cs[k].id, es[i])
    ensures forall t, x :: (forall i :: 0 <= i < |es| ==> Index(x) != Index(es[i])) ==>
      (ComponentsDb.HasIn(r.db, t, x) <==> ComponentsDb.HasIn(w.db, t, x))
  {
    var rest := es[1..];
    forall i, k | 0 <= i < |es| && 0 <= k < |cs| ensures ComponentsDb.HasIn(r.db, cs[k].id, es[i]) {
      if i == 0 {
        assert forall j :: 0 <= j < |rest| ==> Index(es[0]) != Index(rest[j]) by {
          forall j | 0 <= j < |rest| ensures Index(es[0]) != Index(rest[j]) {
            assert rest[j] == es[j + 1];
          }
        }
        assert ComponentsDb.HasIn(first.db, cs[k].id, es[0]);
      } else {
        assert es[i] == rest[i - 1];
      }
    }
    forall t, x | (forall i :: 0 <= i < |es| ==> Index(x) != Index(es[i]))
      ensures ComponentsDb.HasIn(r.db, t, x) <==> ComponentsDb.HasIn(w.db, t, x)
    {
      assert forall j :: 0 <= j < |rest| ==> Index(x) != Index(rest[j]) by {
        forall j | 0 <= j < |rest| ensures Index(x) != Index(rest[j]) {
          assert rest[j] == es[j + 1];
        }
      }
      assert ComponentsDb.HasIn(first.db, t, x) <==> ComponentsDb.HasIn(w.db, t, x);
    }
  }

  /**
   * create<Cs...>(begin, end): a bulk allocation of n handles, then every
   * listed component assigned to each of them.
   */
  function CreateMany<D>(w: World<D>, n: nat, cs: seq<ComponentType<D>>): (r: (World<D>, seq<Entity>))
    requires Inv(w) && DistinctIds(cs) && |w.pool.list| + n <= IndexCap
    ensures Inv(r.0) && |r.1| == n
    ensures EntityPool.Size(r.0.pool) == EntityPool.Size(w.pool) + n
    ensures forall i :: 0 <= i < n ==> LiveHandle(r.0.pool, r.1[i]) && !EntityPool.IsAlive(w.pool, Index(r.1[i]))
    ensures forall i, j :: 0 <= i < j < n ==> Index(r.1[i]) != Index(r.1[j])
    ensures forall i, k :: 0 <= i < n && 0 <= k < |cs| ==> ComponentsDb.HasIn(r.0.db, cs[k].id, r.1[i])
  {
    var a := EntityPool.AllocateMany(w.pool, n);
    var es := a.1;
    FreshHandlesInWorld(w, n, a.0, es);
    var r := AssignEvery(World(a.0, w.db), es, cs);
    (r, es)
  }

  /** The handles of a bulk allocation are live in the new pool and in no component map yet. */
  lemma {:induction false} FreshHandlesInWorld<D>(w: World<D>, n: nat, q: Pool, es: seq<Entity>)
    requires Inv(w) && |w.pool.list| + n <= IndexCap && (q, es) == EntityPool.AllocateMany(w.pool, n)
    ensures Inv(World(q, w.db))
    ensures forall i :: 0 <= i < |es| ==> LiveHandle(q, es[i]) && !EntityPool.IsAlive(w.pool, Index(es[i]))
    ensures forall i, j :: 0 <= i < j < |es| ==> Index(es[i]) != Index(es[j])
    ensures forall i, t :: 0 <= i < |es| ==> !ComponentsDb.HasIn(w.db, t, es[i])
  {
    AllocateTracks(w, q);
    forall i | 0 <= i < |es| ensures forall t :: !ComponentsDb.HasIn(w.db, t, es[i]) {
      FreshIsInNoMap(w, es[i]);
    }
  }

  // ---- properties ----

  /** get after assign returns the assigned datum for a non-empty type. */
  lemma {:induction false} AssignThenGet<D>(w: World<D>, c: ComponentType<D>, e: Entity, d: D)
    requires ComponentsDb.Valid(w.db) && !ComponentsDb.HasIn(w.db, c.id, e)
    requires !ComponentsDb.Ensure(w.db, c).1.emptyData
    ensures Get(Assign(w, c, e, d).0, c, e) == d
  {
  }

  /** remove after assign restores the type's map contents and leaves every other type's map as it was. */
  lemma {:induction false} AssignThenRemove<D>(w: World<D>, c: ComponentType<D>, e: Entity, d: D)
    requires ComponentsDb.Valid(w.db) && !ComponentsDb.HasIn(w.db, c.id, e)
    ensures var r := Remove(Assign(w, c, e, d).0, c, e);
      && EntityMaps.Stored(MapOf(r.db, c.id)) == EntityMaps.Stored(ComponentsDb.Ensure(w.db, c).1)
      && EntityMaps.Values(MapOf(r.db, c.id)) == EntityMaps.Values(ComponentsDb.Ensure(w.db, c).1)
      && forall t :: t != c.id ==> ComponentsDb.TryGet(r.db, t) == ComponentsDb.TryGet(w.db, t)
  {
    var m := ComponentsDb.Ensure(w.db, c).1;
    assert !EntityMaps.Has(m, e);
    var i := Index(e);
    assert i !in EntityMaps.Stored(m) && i !in EntityMaps.Values(m);
    var a := Assign(w, c, e, d);
    UpdateThenRemove(EntityMaps.Stored(m), i, e);
    UpdateThenRemove(EntityMaps.Values(m), i, a.1);
  }

  lemma {:induction false} UpdateThenRemove<K, V>(m: map<K, V>, k: K, v: V)
    requires k !in m
    ensures m[k := v] - {k} == m
  {
  }
}

=== FILE: world_v1.dfy ===
/**
 * The v1 world: a stack of free entity ids with a version per id, four
 * entity masks (active, alive, removed, changed), the bitmask component
 * database and the managed families. Destruction and change are deferred:
 * `deallocate` and `mark_entity_as_changed` queue an id, and `invalidate`
 * later destroys the queued entities, re-evaluates the changed ones in every
 * family and rebuilds the families' lists.
 *
 * `Deallocate` is the code as written, which pushes the id onto the free
 * stack at once and again when the entity is destroyed; `DeallocateDeferred`
 * leaves the push to the destroy step, and the invariant `Inv` in module
 * WorldV1Proofs is proved for the world that uses it.
 */
module WorldV1 {
  import opened Seqs
  import BitVectors
  import ComponentDbV1
  import FamilyAspects
  import ManagedFamilies
  import ViewFilters
  import ActiveEntities

  type BitVector = BitVectors.BitVector
  type Db<D> = ComponentDbV1.Db<D>
  type Family = ManagedFamilies.Family

  /** version_tag_t is uint16_t, so a version bump wraps at 2^16. */
  const VersionCap: nat := 0x1_0000

  /** entity_id_t is uint32_t, so arithmetic on end_ and used_ wraps at 2^32. */
  const IdCap: nat := 0x1_0000_0000

  /**
   * world_v1_t. The component type of every manager is one data type D; the
   * world's own id in the worlds map is not modelled here.
   */
  datatype World<D> = World(
    pool: seq<nat>,
    versions: seq<nat>,
    end: nat,
    used: nat,
    db: Db<D>,
    families: seq<Family>,
    active: BitVector,
    alive: BitVector,
    removed: BitVector,
    changed: BitVector,
    removedList: seq<nat>,
    changedList: seq<nat>)

  /** A mask sized to the world's end. */
  ghost predicate Fits(m: BitVector, end: nat)
  {
    BitVectors.Valid(m) && BitVectors.Size(m) == end
  }

  /** Every entity id in s is below end. */
  ghost predicate Below(s: seq<nat>, end: nat)
  {
    forall k :: 0 <= k < |s| ==> s[k] < end
  }

  /** Every type the aspect names is registered, so it can be checked for any valid id. */
  ghost predicate AspectRegistered<D>(db: Db<D>, a: FamilyAspects.AspectData)
  {
    (forall j :: 0 <= j < |a.inclusion| ==> ComponentDbV1.Registered(db, a.inclusion[j]))
    && (forall j :: 0 <= j < |a.exclusion| ==> ComponentDbV1.Registered(db, a.exclusion[j]))
  }

  /** Every family is sized to the world and its aspect names registered types. */
  ghost predicate FamiliesFit<D>(db: Db<D>, fs: seq<Family>, end: nat)
  {
    forall k :: 0 <= k < |fs| ==> ManagedFamilies.Inv(fs[k], end) && AspectRegistered(db, fs[k].aspect)
  }

  /**
   * The shape every operation keeps, as written or corrected: tables and
   * masks sized to end_, versions and used_ inside their integer widths, and
   * every queued or pooled id below end_.
   */
  ghost predicate Shape<D>(w: World<D>)
  {
    0 < w.end < BitVectors.SizeCap && |w.versions| == w.end && w.used < IdCap
    && (forall k :: 0 <= k < |w.versions| ==> w.versions[k] < VersionCap)
    && Fits(w.active, w.end) && Fits(w.alive, w.end) && Fits(w.removed, w.end) && Fits(w.changed, w.end)
    && ComponentDbV1.Valid(w.db, w.end) && FamiliesFit(w.db, w.families, w.end)
    && Below(w.pool, w.end) && Below(w.removedList, w.end) && Below(w.changedList, w.end)
  }

  /** Only bit e may differ between two masks of the same size. */
  ghost predicate KeptBut(a: BitVector, b: BitVector, e: nat)
  {
    BitVectors.Size(b) == BitVectors.Size(a)
    && forall x :: 0 <= x < BitVectors.Size(a) && x != e ==> BitVectors.Get(b, x) == BitVectors.Get(a, x)
  }

  /**
   * The constructor: capacity must be positive; the free stack holds
   * capacity - 1 down to 1, so allocation hands out 1, 2, ... in order; every
   * version starts at 1 and used_ at 1, for the null id.
   */
  function New<D>(capacity: nat): (w: World<D>)
    requires 0 < capacity < BitVectors.SizeCap
    ensures Shape(w) && w.end == capacity && w.used == 1 && |w.pool| == capacity - 1
    ensures forall k :: 0 <= k < |w.pool| ==> w.pool[k] == capacity - 1 - k
    ensures forall x :: 0 <= x < capacity ==>
      w.versions[x] == 1 && !BitVectors.Get(w.active, x) && !BitVectors.Get(w.alive, x)
      && !BitVectors.Get(w.removed, x) && !BitVectors.Get(w.changed, x)
    ensures w.removedList == [] && w.changedList == [] && w.families == []
    ensures forall c: nat :: !ComponentDbV1.Registered(w.db, c)
  {
    var z := BitVectors.New(capacity);
    World(seq(capacity - 1, k => capacity - 1 - k), seq(capacity, _ => 1), capacity, 1,
          ComponentDbV1.Empty(), [], z, z, z, z, [], [])
  }

  /** make_component_type: register a manager sized to the world for type id ci. */
  function MakeComponentType<D>(w: World<D>, ci: nat, zero: D): (r: World<D>)
    requires Shape(w) && !ComponentDbV1.Registered(w.db, ci)
    ensures r == w.(db := r.db)
    ensures Shape(r) && ComponentDbV1.Registered(r.db, ci)
    ensures forall e :: 0 <= e < w.end ==> !ComponentDbV1.Has(r.db, ci, e)
    ensures forall c :: c != ci ==> (ComponentDbV1.Registered(r.db, c) <==> ComponentDbV1.Registered(w.db, c))
  {
    var m := ComponentDbV1.NewManager(w.end, zero);
    var db := ComponentDbV1.RegisterType(w.db, ci, m);
    ComponentDbV1.RegisterKeepsValid(w.db, ci, m, w.end);
    w.(db := db)
  }

  /**
   * mark_entity_as_changed: set the changed bit, and queue the id the first
   * time only.
   */
  function MarkChanged<D>(w: World<D>, e: nat): (r: World<D>)
    requires Shape(w) && e < w.end
    ensures r == w.(changed := r.changed, changedList := r.changedList)
    ensures Shape(r) && BitVectors.Get(r.changed, e) && KeptBut(w.changed, r.changed, e)
    ensures r.changedList == w.changedList + (if BitVectors.Get(w.changed, e) then [] else [e])
  {
    var (c, added) := BitVectors.EnableIfNot(w.changed, e);
    w.(changed := c, changedList := if added then w.changedList + [e] else w.changedList)
  }

  /**
   * allocate: used_ must be below end_; the top of the free stack is popped,
   * made active and alive, and marked changed. An empty stack is undefined
   * behaviour in the source, so it is a precondition here.
   */
  function Allocate<D>(w: World<D>): (res: (World<D>, nat))
    requires Shape(w) && w.used < w.end && |w.pool| > 0
    ensures var (r, id) := res;
      r == w.(pool := r.pool, used := r.used, active := r.active, alive := r.alive,
              changed := r.changed, changedList := r.changedList)
      && Shape(r) && id == w.pool[|w.pool| - 1] && r.pool == w.pool[..|w.pool| - 1] && r.used == w.used + 1
      && BitVectors.Get(r.active, id) && BitVectors.Get(r.alive, id) && BitVectors.Get(r.changed, id)
      && KeptBut(w.active, r.active, id) && KeptBut(w.alive, r.alive, id) && KeptBut(w.changed, r.changed, id)
      && r.changedList == w.changedList + (if BitVectors.Get(w.changed, id) then [] else [id])
  {
    var id := w.pool[|w.pool| - 1];
    var w1 := w.(used := w.used + 1, pool := w.pool[..|w.pool| - 1],
                 active := BitVectors.Enable(w.active, id), alive := BitVectors.Enable(w.alive, id));
    (MarkChanged(w1, id), id)
  }

  /** a - b in uint32_t arithmetic. */
  function Sub32(a: nat, b: nat): (r: nat)
    ensures r < IdCap
    ensures b <= a < IdCap ==> r == a - b
  {
    (a - b) % IdCap
  }

  /** versions[id] + 1 as a uint16_t. */
  function Bump(v: nat): (r: nat)
    requires v < VersionCap
    ensures r < VersionCap && r != v
  {
    (v + 1) % VersionCap
  }

  /**
   * deallocate, as written: bump the version, push the id onto the free
   * stack now, and queue it for destruction the first time only. The
   * destroy step pushes it a second time.
   */
  function Deallocate<D>(w: World<D>, id: nat): (r: World<D>)
    requires Shape(w) && id < w.end
    ensures r == w.(versions := r.versions, pool := r.pool, removed := r.removed, removedList := r.removedList)
    ensures Shape(r) && r.pool == w.pool + [id]
    ensures r.versions == w.versions[id := Bump(w.versions[id])]
    ensures BitVectors.Get(r.removed, id) && KeptBut(w.removed, r.removed, id)
    ensures r.removedList == w.removedList + (if BitVectors.Get(w.removed, id) then [] else [id])
  {
    var (m, added) := BitVectors.EnableIfNot(w.removed, id);
    w.(versions := w.versions[id := Bump(w.versions[id])], pool := w.pool + [id],
       removed := m, removedList := if added then w.removedList + [id] else w.removedList)
  }

  /**
   * deallocate, corrected: the same without the early push, so the id
   * returns to the free stack once, when it is destroyed.
   */
  function DeallocateDeferred<D>(w: World<D>, id: nat): (r: World<D>)
    requires Shape(w) && id < w.end
    ensures r == Deallocate(w, id).(pool := w.pool)
    ensures Shape(r) && r.pool == w.pool
    ensures r.versions == w.versions[id := Bump(w.versions[id])]
    ensures BitVectors.Get(r.removed, id) && KeptBut(w.removed, r.removed, id)
    ensures r.removedList == w.removedList + (if BitVectors.Get(w.removed, id) then [] else [id])
  {
    var (m, added) := BitVectors.EnableIfNot(w.removed, id);
    w.(versions := w.versions[id := Bump(w.versions[id])],
       removed := m, removedList := if added then w.removedList + [id] else w.removedList)
  }

  /** is_valid(id, version): the handle's version is the id's current version. */
  function IsValid<D>(w: World<D>, id: nat, version: nat): bool
    requires id < |w.versions|
  {
    version == w.versions[id]
  }

  /** available(): end_ - used_ in uint32_t arithmetic. */
  function Available<D>(w: World<D>): (n: nat)
    ensures w.used <= w.end < IdCap ==> n == w.end - w.used
  {
    Sub32(w.end, w.used)
  }

  /** destroy_components: clear every component bit of e and mark it changed. */
  function DestroyComponents<D>(w: World<D>, e: nat): (r: World<D>)
    requires Shape(w) && e < w.end
    ensures r == w.(db := r.db, changed := r.changed, changedList := r.changedList)
    ensures Shape(r) && BitVectors.Get(r.changed, e) && KeptBut(w.changed, r.changed, e)
    ensures r.changedList == w.changedList + (if BitVectors.Get(w.changed, e) then [] else [e])
    ensures ComponentDbV1.SameTypes(w.db, r.db)
    ensures forall c :: ComponentDbV1.Registered(r.db, c) ==> !ComponentDbV1.Has(r.db, c, e)
    ensures forall c, x :: ComponentDbV1.Registered(r.db, c) && 0 <= x < w.end && x != e ==>
      ComponentDbV1.Has(r.db, c, x) == ComponentDbV1.Has(w.db, c, x)
  {
    var db := ComponentDbV1.DisableAll(w.db, w.end, e);
    MarkChanged(w.(db := db), e)
  }

  // ---- the families ----

  /** The member bit of x in every family. */
  ghost predicate SameMembers(fs: seq<Family>, gs: seq<Family>, x: nat)
    requires |fs| == |gs|
    requires forall k :: 0 <= k < |fs| ==> x < BitVectors.Size(fs[k].mask) && x < BitVectors.Size(gs[k].mask)
  {
    forall k :: 0 <= k < |fs| ==> ManagedFamilies.Member(gs[k], x) == ManagedFamilies.Member(fs[k], x)
  }

  /** The families after a step that touches e only: sizes, aspects and other ids' membership are kept. */
  ghost predicate FamiliesKeptBut(fs: seq<Family>, gs: seq<Family>, end: nat, e: nat)
  {
    |gs| == |fs|
    && forall k :: 0 <= k < |fs| ==>
      ManagedFamilies.Inv(gs[k], end) && gs[k].aspect == fs[k].aspect
      && BitVectors.Size(gs[k].mask) == BitVectors.Size(fs[k].mask)
      && ManagedFamilies.OthersKept(fs[k], gs[k], e)
  }

  /** family->remove_entity(e) for every family. */
  function RemoveFromAll(end: nat, fs: seq<Family>, e: nat): (r: seq<Family>)
    requires e < end && forall k :: 0 <= k < |fs| ==> ManagedFamilies.Inv(fs[k], end)
    ensures FamiliesKeptBut(fs, r, end, e)
    ensures forall k :: 0 <= k < |r| ==> !ManagedFamilies.Member(r[k], e)
  {
    seq(|fs|, k requires 0 <= k < |fs| => ManagedFamilies.RemoveEntity(end, fs[k], e))
  }

  /** family->change(e) for every family. */
  function ChangeAll<D>(db: Db<D>, end: nat, fs: seq<Family>, e: nat): (r: seq<Family>)
    requires e < end && ComponentDbV1.Valid(db, end) && FamiliesFit(db, fs, end)
    ensures FamiliesKeptBut(fs, r, end, e)
    ensures forall k :: 0 <= k < |r| ==> ManagedFamilies.Member(r[k], e) == FamilyAspects.Check(db, end, fs[k].aspect, e)
  {
    seq(|fs|, k requires 0 <= k < |fs| => ManagedFamilies.Change(db, end, fs[k], e))
  }

  // ---- destroy_entities ----

  /**
   * One iteration of destroy_entities: leave every family, lose every
   * component, clear the active, alive and removed bits, and return to the
   * free stack.
   */
  function DestroyOne<D>(w: World<D>, e: nat): (r: World<D>)
    requires Shape(w) && e < w.end
    ensures r == w.(pool := r.pool, db := r.db, families := r.families,
                    active := r.active, alive := r.alive, removed := r.removed)
    ensures Shape(r) && r.pool == w.pool + [e] && |r.families| == |w.families|
  {
    var fs := RemoveFromAll(w.end, w.families, e);
    var db := ComponentDbV1.DisableAll(w.db, w.end, e);
    assert FamiliesFit(db, fs, w.end) by {
      assert forall c :: ComponentDbV1.Registered(db, c) <==> ComponentDbV1.Registered(w.db, c);
    }
    w.(families := fs, db := db,
       active := BitVectors.Disable(w.active, e), alive := BitVectors.Disable(w.alive, e),
       removed := BitVectors.Disable(w.removed, e), pool := w.pool + [e])
  }

  /**
   * What one iteration of destroy_entities does to e and leaves alone for
   * every other id: e is inactive, dead, no longer queued, in no family and
   * holds no component.
   */
  lemma {:induction false} DestroyOneEffect<D>(w: World<D>, e: nat)
    requires Shape(w) && e < w.end
    ensures var r := DestroyOne(w, e);
      !BitVectors.Get(r.active, e) && !BitVectors.Get(r.alive, e) && !BitVectors.Get(r.removed, e)
      && KeptBut(w.active, r.active, e) && KeptBut(w.alive, r.alive, e) && KeptBut(w.removed, r.removed, e)
      && FamiliesKeptBut(w.families, r.families, w.end, e)
      && (forall k :: 0 <= k < |r.families| ==> !ManagedFamilies.Member(r.families[k], e))
      && ComponentDbV1.SameTypes(w.db, r.db)
      && (forall c :: ComponentDbV1.Registered(r.db, c) ==> !ComponentDbV1.Has(r.db, c, e))
      && (forall c, x :: ComponentDbV1.Registered(r.db, c) && 0 <= x < w.end && x != e ==>
            ComponentDbV1.Has(r.db, c, x) == ComponentDbV1.Has(w.db, c, x))
  {
  }

  /** The iterations of destroy_entities over the queued ids es, in order. */
  function DestroyList<D>(w: World<D>, es: seq<nat>): (r: World<D>)
    requires Shape(w) && Below(es, w.end)
    ensures r == w.(pool := r.pool, db := r.db, families := r.families,
                    active := r.active, alive := r.alive, removed := r.removed)
    ensures Shape(r) && r.pool == w.pool + es && |r.families| == |w.families|
    decreases |es|
  {
    if |es| == 0 then w
    else
      var r := DestroyList(DestroyOne(w, es[0]), es[1..]);
      AppendFirst(w.pool, es);
      r
  }

  /**
   * destroy_entities: run the iterations over the queue, lower used_ by its
   * length in uint32_t arithmetic, and empty it. No iteration queues an id,
   * so one pass over the queue as it stood is the whole loop.
   */
  function DestroyEntities<D>(w: World<D>): (r: World<D>)
    requires Shape(w)
    ensures Shape(r) && r.removedList == [] && r.pool == w.pool + w.removedList
    ensures r.used == Sub32(w.used, |w.removedList|)
    ensures r.end == w.end && r.changed == w.changed && r.changedList == w.changedList && r.versions == w.versions
    ensures |r.families| == |w.families|
  {
    var d := DestroyList(w, w.removedList);
    d.(used := Sub32(w.used, |w.removedList|), removedList := [])
  }

  // ---- change_entities ----

  /**
   * One iteration of change_entities: an alive entity is re-evaluated in
   * every family when active and removed from every family when not; the
   * changed bit is cleared either way.
   */
  function ChangeOne<D>(w: World<D>, e: nat): (r: World<D>)
    requires Shape(w) && e < w.end
    ensures r == w.(families := r.families, changed := r.changed)
    ensures Shape(r) && |r.families| == |w.families|
  {
    var fs :=
      if !BitVectors.Get(w.alive, e) then w.families
      else if BitVectors.Get(w.active, e) then ChangeAll(w.db, w.end, w.families, e)
      else RemoveFromAll(w.end, w.families, e);
    assert FamiliesKeptBut(w.families, fs, w.end, e);
    w.(families := fs, changed := BitVectors.Disable(w.changed, e))
  }

  /**
   * What one iteration of change_entities does: e's changed bit is cleared;
   * an alive and active e is a member exactly of the families whose aspect
   * accepts it, an alive inactive e of none, and a dead e keeps its
   * memberships; no other id's membership moves.
   */
  lemma {:induction false} ChangeOneEffect<D>(w: World<D>, e: nat)
    requires Shape(w) && e < w.end
    ensures var r := ChangeOne(w, e);
      !BitVectors.Get(r.changed, e) && KeptBut(w.changed, r.changed, e)
      && FamiliesKeptBut(w.families, r.families, w.end, e)
      && (BitVectors.Get(w.alive, e) && BitVectors.Get(w.active, e) ==>
           forall k :: 0 <= k < |r.families| ==>
             ManagedFamilies.Member(r.families[k], e) == FamilyAspects.Check(w.db, w.end, w.families[k].aspect, e))
      && (BitVectors.Get(w.alive, e) && !BitVectors.Get(w.active, e) ==>
           forall k :: 0 <= k < |r.families| ==> !ManagedFamilies.Member(r.families[k], e))
      && (!BitVectors.Get(w.alive, e) ==> r.families == w.families)
  {
  }

  /** The iterations of change_entities over the queued ids es, in order. */
  function ChangeList<D>(w: World<D>, es: seq<nat>): (r: World<D>)
    requires Shape(w) && Below(es, w.end)
    ensures Shape(r) && r == w.(families := r.families, changed := r.changed)
    ensures |r.families| == |w.families|
    decreases |es|
  {
    if |es| == 0 then w else ChangeList(ChangeOne(w, es[0]), es[1..])
  }

  /**
   * change_entities: run the iterations over the queue and empty it. No
   * iteration queues an id, so one pass over the queue is the whole loop.
   */
  function ChangeEntities<D>(w: World<D>): (r: World<D>)
    requires Shape(w)
    ensures r == w.(families := r.families, changed := r.changed, changedList := [])
    ensures Shape(r) && r.changedList == [] && |r.families| == |w.families|
  {
    ChangeList(w, w.changedList).(changedList := [])
  }

  // ---- update_families and invalidate ----

  /** update_families: rebuild the list of every family whose changed flag is set. */
  method UpdateFamilies<D>(w: World<D>) returns (r: World<D>)
    requires Shape(w)
    ensures Shape(r) && r == w.(families := r.families) && |r.families| == |w.families|
    ensures forall k :: 0 <= k < |r.families| ==>
      !r.families[k].changed && r.families[k].mask == w.families[k].mask && r.families[k].aspect == w.families[k].aspect
    ensures forall k :: 0 <= k < |r.families| && w.families[k].changed ==>
      Increasing(r.families[k].list) && |r.families[k].list| == r.families[k].total
      && forall x: nat :: x in r.families[k].list <==> x < w.end && ManagedFamilies.Member(r.families[k], x)
    ensures forall k :: 0 <= k < |r.families| && !w.families[k].changed ==> r.families[k] == w.families[k]
  {
    var fs := w.families;
    var k := 0;
    while k < |fs|
      invariant 0 <= k <= |fs| && |fs| == |w.families|
      invariant FamiliesFit(w.db, fs, w.end)
      invariant forall j :: k <= j < |fs| ==> fs[j] == w.families[j]
      invariant forall j :: 0 <= j < k ==>
        !fs[j].changed && fs[j].mask == w.families[j].mask && fs[j].aspect == w.families[j].aspect
      invariant forall j :: 0 <= j < k && w.families[j].changed ==>
        Increasing(fs[j].list) && |fs[j].list| == fs[j].total
        && forall x: nat :: x in fs[j].list <==> x < w.end && ManagedFamilies.Member(fs[j], x)
      invariant forall j :: 0 <= j < k && !w.families[j].changed ==> fs[j] == w.families[j]
    {
      if fs[k].changed {
        var f := ManagedFamilies.Invalidate(w.end, fs[k]);
        fs := fs[k := f];
      }
      k := k + 1;
    }
    r := w.(families := fs);
  }

  /** destroy_entities, then change_entities: both queues are consumed. */
  function Flush<D>(w: World<D>): (r: World<D>)
    requires Shape(w)
    ensures Shape(r) && r.removedList == [] && r.changedList == [] && |r.families| == |w.families|
    ensures r.end == w.end && r.pool == w.pool + w.removedList && r.used == Sub32(w.used, |w.removedList|)
  {
    ChangeEntities(DestroyEntities(w))
  }

  /**
   * invalidate: when either queue is non-empty, destroy the queued
   * entities, then re-evaluate the changed ones, then rebuild the families;
   * otherwise nothing happens.
   */
  method Invalidate<D>(w: World<D>) returns (r: World<D>)
    requires Shape(w)
    ensures Shape(r) && r.removedList == [] && r.changedList == []
    ensures w.removedList == [] && w.changedList == [] ==> r == w
    ensures w.removedList != [] || w.changedList != [] ==>
      r == Flush(w).(families := r.families) && forall k :: 0 <= k < |r.families| ==> !r.families[k].changed
  {
    if w.removedList == [] && w.changedList == [] {
      r := w;
    } else {
      var f := Flush(w);
      r := UpdateFamilies(f);
    }
  }

  // ---- views ----

  /** active_entities(): the ids in [1, end_) whose active bit is set, ascending. */
  method ActiveEntitiesView<D>(w: World<D>) returns (ids: seq<nat>)
    requires Shape(w)
    ensures Increasing(ids)
    ensures forall x :: x in ids <==> 1 <= x < w.end && BitVectors.Get(w.active, x)
  {
    var f := ViewFilters.MaskFilter(w.active);
    ids := ActiveEntities.Iterate((x: nat) requires ViewFilters.Readable(w.db, w.end, f, x) => ViewFilters.Pass(w.db, w.end, f, x), w.end);
  }

  /**
   * aspect_entities(aspect) and aspect_entities_ref(aspect): the active ids
   * the aspect accepts, ascending; the aspect's types must be registered.
   */
  method AspectEntities<D>(w: World<D>, a: FamilyAspects.AspectData) returns (ids: seq<nat>)
    requires Shape(w) && AspectRegistered(w.db, a)
    ensures Increasing(ids)
    ensures forall x :: x in ids <==> 1 <= x < w.end && BitVectors.Get(w.active, x) && FamilyAspects.Check(w.db, w.end, a, x)
  {
    var f := ViewFilters.ComponentMaskFilter(w.active, ViewFilters.DataAspect(a));
    ids := ActiveEntities.Iterate((x: nat) requires ViewFilters.Readable(w.db, w.end, f, x) => ViewFilters.Pass(w.db, w.end, f, x), w.end);
  }

  /** view<Cs...>(): the active ids holding every listed type, ascending. */
  method View<D>(w: World<D>, cs: seq<nat>) returns (ids: seq<nat>)
    requires Shape(w) && |cs| > 0 && forall k :: 0 <= k < |cs| ==> ComponentDbV1.Registered(w.db, cs[k])
    ensures Increasing(ids)
    ensures forall x :: x in ids <==>
      1 <= x < w.end && BitVectors.Get(w.active, x) && forall k :: 0 <= k < |cs| ==> ComponentDbV1.Has(w.db, cs[k], x)
  {
    var fa := FamilyAspects.NewFamilyAspect(w.db, cs);
    var f := ViewFilters.ComponentMaskFilter(w.active, ViewFilters.ListAspect(fa));
    ids := ActiveEntities.Iterate((x: nat) requires ViewFilters.Readable(w.db, w.end, f, x) => ViewFilters.Pass(w.db, w.end, f, x), w.end);
  }
}

=== FILE: world_v1_proofs.dfy ===
/**
 * Properties of the v1 world: allocation order and stale handles, what the
 * destroy and change passes of `invalidate` do to each queued entity, the
 * double allocation that the early push in `deallocate` allows, and the
 * invariant of the world whose deallocation leaves the push to the destroy
 * pass, under which every allocation hands out an id that is not alive.
 */
module WorldV1Proofs {
  import opened Seqs
  import BitVectors
  import ComponentDbV1
  import FamilyAspects
  import ManagedFamilies
  import opened WorldV1

  // ---- allocation, versions and availability ----

  /** A new world hands out 1, then 2, and a fresh handle is valid. */
  lemma {:induction false} NewAllocatesInOrder(capacity: nat)
    requires 3 <= capacity < BitVectors.SizeCap
    ensures var w := New<int>(capacity);
      var (w1, a) := Allocate(w);
      a == 1 && IsValid(w1, a, 1) && w1.used < w1.end && |w1.pool| > 0 && Allocate(w1).1 == 2
  {
    var w := New<int>(capacity);
    assert w.pool[|w.pool| - 1] == 1;
    var (w1, a) := Allocate(w);
    assert w1.pool[|w1.pool| - 1] == w.pool[|w.pool| - 2] == 2;
  }

  /** deallocate makes every handle carrying the old version stale and the bumped version current. */
  lemma {:induction false} StaleAfterDeallocate<D>(w: World<D>, id: nat)
    requires Shape(w) && id < w.end
    ensures var v := w.versions[id];
      IsValid(w, id, v) && !IsValid(Deallocate(w, id), id, v) && IsValid(Deallocate(w, id), id, Bump(v))
      && !IsValid(DeallocateDeferred(w, id), id, v)
  {
  }

  /** Allocation takes one id from available(); deallocation returns none until the destroy pass. */
  lemma {:induction false} AvailableCounts<D>(w: World<D>, id: nat)
    requires Shape(w) && w.used < w.end && |w.pool| > 0 && id < w.end
    ensures Available(w) == w.end - w.used
    ensures Available(Allocate(w).0) == Available(w) - 1
    ensures Available(Deallocate(w, id)) == Available(w) == Available(DeallocateDeferred(w, id))
  {
  }

  /** Marking twice queues the id once: the second mark changes nothing. */
  lemma {:induction false} MarkChangedOnce<D>(w: World<D>, e: nat)
    requires Shape(w) && e < w.end
    ensures MarkChanged(MarkChanged(w, e), e) == MarkChanged(w, e)
    ensures |MarkChanged(w, e).changedList| <= |w.changedList| + 1
  {
    var r := MarkChanged(w, e);
    BitVectors.EnableIfNotTwice(w.changed, e);
  }

  // ---- the destroy pass ----

  /** destroy_entities over es: the listed ids are inactive, dead and unqueued; other ids keep their bits. */
  lemma {:induction false} DestroyListMasks<D>(w: World<D>, es: seq<nat>)
    requires Shape(w) && Below(es, w.end)
    ensures var r := DestroyList(w, es);
      forall x :: 0 <= x < w.end ==>
        (x in es ==> !BitVectors.Get(r.active, x) && !BitVectors.Get(r.alive, x) && !BitVectors.Get(r.removed, x))
        && (x !in es ==> BitVectors.Get(r.active, x) == BitVectors.Get(w.active, x)
                         && BitVectors.Get(r.alive, x) == BitVectors.Get(w.alive, x)
                         && BitVectors.Get(r.removed, x) == BitVectors.Get(w.removed, x))
    decreases |es|
  {
    if |es| > 0 {
      var w1 := DestroyOne(w, es[0]);
      DestroyOneEffect(w, es[0]);
      DestroyListMasks(w1, es[1..]);
      assert forall x :: x in es <==> x == es[0] || x in es[1..];
    }
  }

  /** destroy_entities over es, for one id x: listed, x leaves every family; unlisted, x keeps its memberships. */
  lemma {:induction false} DestroyListMember<D>(w: World<D>, es: seq<nat>, x: nat)
    requires Shape(w) && Below(es, w.end) && x < w.end
    ensures var r := DestroyList(w, es);
      (x in es ==> forall k :: 0 <= k < |r.families| ==> !ManagedFamilies.Member(r.families[k], x))
      && (x !in es ==> SameMembers(w.families, r.families, x))
    decreases |es|
  {
    if |es| > 0 {
      var w1 := DestroyOne(w, es[0]);
      DestroyOneEffect(w, es[0]);
      DestroyListMember(w1, es[1..], x);
      assert x in es[1..] ==> forall k :: 0 <= k < |DestroyList(w1, es[1..]).families| ==>
        !ManagedFamilies.Member(DestroyList(w1, es[1..]).families[k], x);
      assert x in es <==> x == es[0] || x in es[1..];
      var r := DestroyList(w1, es[1..]);
      assert DestroyList(w, es) == r;
      if x !in es[1..] {
        assert SameMembers(w1.families, r.families, x);
        if x == es[0] {
          forall k | 0 <= k < |r.families| ensures !ManagedFamilies.Member(r.families[k], x) {
            assert !ManagedFamilies.Member(w1.families[k], x);
          }
        } else {
          assert SameMembers(w.families, w1.families, x);
        }
      }
    }
  }

  /** destroy_entities over es: the listed ids leave every family; other ids keep their memberships. */
  lemma {:induction false} DestroyListFamilies<D>(w: World<D>, es: seq<nat>)
    requires Shape(w) && Below(es, w.end)
    ensures var r := DestroyList(w, es);
      forall x :: 0 <= x < w.end ==>
        (x in es ==> forall k :: 0 <= k < |r.families| ==> !ManagedFamilies.Member(r.families[k], x))
        && (x !in es ==> SameMembers(w.families, r.families, x))
  {
    forall x | 0 <= x < w.end
      ensures var r := DestroyList(w, es);
        (x in es ==> forall k :: 0 <= k < |r.families| ==> !ManagedFamilies.Member(r.families[k], x))
        && (x !in es ==> SameMembers(w.families, r.families, x))
    {
      DestroyListMember(w, es, x);
    }
  }

  /** destroy_entities over es: the listed ids hold no component; other ids keep theirs. */
  lemma {:induction false} DestroyListComponents<D>(w: World<D>, es: seq<nat>)
    requires Shape(w) && Below(es, w.end)
    ensures var r := DestroyList(w, es);
      ComponentDbV1.SameTypes(w.db, r.db)
      && forall c, x :: ComponentDbV1.Registered(r.db, c) && 0 <= x < w.end ==>
        (x in es ==> !ComponentDbV1.Has(r.db, c, x))
        && (x !in es ==> ComponentDbV1.Has(r.db, c, x) == ComponentDbV1.Has(w.db, c, x))
    decreases |es|
  {
    if |es| > 0 {
      var w1 := DestroyOne(w, es[0]);
      DestroyOneEffect(w, es[0]);
      DestroyListComponents(w1, es[1..]);
      assert forall x :: x in es <==> x == es[0] || x in es[1..];
    }
  }

  // ---- the change pass ----

  /**
   * Where change_entities leaves x's memberships, judged against the world
   * before the pass: alive and active, a member exactly where the aspect
   * accepts it; alive and inactive, in no family; dead, unchanged.
   */
  ghost predicate Settled<D>(w: World<D>, fs: seq<Family>, x: nat)
    requires Shape(w) && x < w.end && |fs| == |w.families|
    requires forall k :: 0 <= k < |fs| ==> BitVectors.Size(fs[k].mask) == w.end
  {
    if BitVectors.Get(w.alive, x) && BitVectors.Get(w.active, x) then
      forall k :: 0 <= k < |fs| ==>
        ManagedFamilies.Member(fs[k], x) == FamilyAspects.Check(w.db, w.end, w.families[k].aspect, x)
    else if BitVectors.Get(w.alive, x) then
      forall k :: 0 <= k < |fs| ==> !ManagedFamilies.Member(fs[k], x)
    else
      SameMembers(w.families, fs, x)
  }

  /** A settled id stays settled when a later step keeps its memberships. */
  lemma {:induction false} SettledThenKept<D>(w: World<D>, fs: seq<Family>, gs: seq<Family>, x: nat)
    requires Shape(w) && x < w.end && |fs| == |w.families| && |gs| == |fs|
    requires forall k :: 0 <= k < |fs| ==> BitVectors.Size(fs[k].mask) == w.end && BitVectors.Size(gs[k].mask) == w.end
    requires Settled(w, fs, x) && SameMembers(fs, gs, x)
    ensures Settled(w, gs, x)
  {
  }

  /** A step that keeps x's memberships and the world's masks and database keeps x settled. */
  lemma {:induction false} SettledAcross<D>(w: World<D>, w1: World<D>, gs: seq<Family>, x: nat)
    requires Shape(w) && Shape(w1) && w1 == w.(families := w1.families, changed := w1.changed)
    requires x < w.end && |gs| == |w.families| && |w1.families| == |w.families|
    requires forall k :: 0 <= k < |w.families| ==> w1.families[k].aspect == w.families[k].aspect
    requires forall k :: 0 <= k < |gs| ==> BitVectors.Size(gs[k].mask) == w.end
    requires SameMembers(w.families, w1.families, x) && Settled(w1, gs, x)
    ensures Settled(w, gs, x)
  {
  }

  /**
   * What change_entities over es leaves for one id x, r against w: listed,
   * x has its changed bit cleared and is settled; unlisted, x keeps its
   * changed bit and memberships.
   */
  ghost predicate ChangedAt<D>(w: World<D>, r: World<D>, es: seq<nat>, x: nat)
    requires Shape(w) && Shape(r) && r.end == w.end && |r.families| == |w.families| && x < w.end
  {
    (x in es ==> !BitVectors.Get(r.changed, x) && Settled(w, r.families, x))
    && (x !in es ==> BitVectors.Get(r.changed, x) == BitVectors.Get(w.changed, x)
                     && SameMembers(w.families, r.families, x))
  }

  /** One iteration in front of the rest: what the rest leaves against change_one's result, the whole leaves against w. */
  lemma {:induction false} ChangeStepAt<D>(w: World<D>, es: seq<nat>, x: nat, r: World<D>)
    requires Shape(w) && |es| > 0 && Below(es, w.end) && x < w.end
    requires Shape(r) && r.end == w.end && |r.families| == |w.families|
    requires ChangedAt(ChangeOne(w, es[0]), r, es[1..], x)
    ensures ChangedAt(w, r, es, x)
  {
    var e := es[0];
    var w1 := ChangeOne(w, e);
    ChangeOneEffect(w, e);
    assert x in es <==> x == e || x in es[1..];
    assert forall k :: 0 <= k < |w.families| ==> w1.families[k].aspect == w.families[k].aspect;
    if x in es[1..] {
      if x != e || !BitVectors.Get(w.alive, x) {
        assert SameMembers(w.families, w1.families, x);
        SettledAcross(w, w1, r.families, x);
      }
    } else if x == e {
      assert Settled(w, w1.families, x);
      SettledThenKept(w, w1.families, r.families, x);
    } else {
      assert SameMembers(w.families, w1.families, x);
    }
  }

  /** change_entities over es, for one id x. */
  lemma {:induction false} ChangeListAt<D>(w: World<D>, es: seq<nat>, x: nat)
    requires Shape(w) && Below(es, w.end) && x < w.end
    ensures ChangedAt(w, ChangeList(w, es), es, x)
    decreases |es|
  {
    if |es| > 0 {
      ChangeListAt(ChangeOne(w, es[0]), es[1..], x);
      ChangeStepAt(w, es, x, ChangeList(w, es));
    }
  }

  /**
   * change_entities over es: every listed id has its changed bit cleared
   * and is settled; every other id keeps its changed bit and memberships.
   */
  lemma {:induction false} ChangeListEffect<D>(w: World<D>, es: seq<nat>)
    requires Shape(w) && Below(es, w.end)
    ensures var r := ChangeList(w, es);
      forall x :: 0 <= x < w.end ==>
        (x in es ==> !BitVectors.Get(r.changed, x) && Settled(w, r.families, x))
        && (x !in es ==> BitVectors.Get(r.changed, x) == BitVectors.Get(w.changed, x)
                         && SameMembers(w.families, r.families, x))
  {
    forall x | 0 <= x < w.end
      ensures var r := ChangeList(w, es);
        (x in es ==> !BitVectors.Get(r.changed, x) && Settled(w, r.families, x))
        && (x !in es ==> BitVectors.Get(r.changed, x) == BitVectors.Get(w.changed, x)
                         && SameMembers(w.families, r.families, x))
    {
      ChangeListAt(w, es, x);
      assert ChangedAt(w, ChangeList(w, es), es, x);
    }
  }

  /**
   * change_entities: every queued id is settled and unmarked, every other id
   * keeps its memberships, and the queue is empty.
   */
  lemma {:induction false} ChangeEntitiesEffect<D>(w: World<D>)
    requires Shape(w)
    ensures var r := ChangeEntities(w);
      r.changedList == [] && r.alive == w.alive && r.active == w.active && r.db == w.db
      && forall x :: 0 <= x < w.end ==>
        (x in w.changedList ==> !BitVectors.Get(r.changed, x) && Settled(w, r.families, x))
        && (x !in w.changedList ==> SameMembers(w.families, r.families, x))
  {
    ChangeListEffect(w, w.changedList);
  }

  /** One queued id after invalidate's two passes: dead, inactive and in no family. */
  lemma {:induction false} DestroyedAt<D>(w: World<D>, x: nat)
    requires Shape(w) && x in w.removedList
    ensures var r := Flush(w);
      x < w.end && !BitVectors.Get(r.alive, x) && !BitVectors.Get(r.active, x)
      && forall k :: 0 <= k < |r.families| ==> !ManagedFamilies.Member(r.families[k], x)
  {
    var d0 := DestroyList(w, w.removedList);
    DestroyListMasks(w, w.removedList);
    DestroyListMember(w, w.removedList, x);
    var d := DestroyEntities(w);
    assert d == d0.(used := Sub32(w.used, |w.removedList|), removedList := []);
    ChangeListAt(d, d.changedList, x);
    var c := ChangeList(d, d.changedList);
    assert ChangedAt(d, c, d.changedList, x);
    assert SameMembers(d.families, c.families, x);
    assert Flush(w) == c.(changedList := []);
  }

  /**
   * A destroyed entity re-enters no family: destroy clears alive before the
   * change pass, which then leaves the entity's memberships alone, even when
   * it was also queued as changed.
   */
  lemma {:induction false} DestroyedReentersNoFamily<D>(w: World<D>)
    requires Shape(w)
    ensures var r := Flush(w);
      forall x :: x in w.removedList ==>
        x < w.end && !BitVectors.Get(r.alive, x) && !BitVectors.Get(r.active, x)
        && forall k :: 0 <= k < |r.families| ==> !ManagedFamilies.Member(r.families[k], x)
  {
    forall x | x in w.removedList
      ensures var r := Flush(w);
        x < w.end && !BitVectors.Get(r.alive, x) && !BitVectors.Get(r.active, x)
        && forall k :: 0 <= k < |r.families| ==> !ManagedFamilies.Member(r.families[k], x)
    {
      DestroyedAt(w, x);
    }
  }

  // ---- the double allocation ----

  /** The first allocation from a world of capacity 3 returns 1 and leaves 2 on the free stack. */
  lemma {:induction false} FirstAllocation()
    ensures var (w1, a) := Allocate(New<int>(3));
      a == 1 && w1.end == 3 && w1.pool == [2] && w1.used == 2
      && w1.removedList == [] && !BitVectors.Get(w1.removed, 1)
  {
    var w0 := New<int>(3);
    assert w0.pool == [2, 1];
  }

  /** Deallocating 1, as written, and invalidating leaves 1 on the free stack twice. */
  lemma {:induction false} ReleaseAsWritten<D>(w1: World<D>)
    requires Shape(w1) && w1.end == 3 && w1.pool == [2] && w1.used == 2
    requires w1.removedList == [] && !BitVectors.Get(w1.removed, 1)
    ensures var w3 := Flush(Deallocate(w1, 1));
      w3.end == 3 && w3.pool == [2, 1, 1] && w3.used == 1
  {
    var w2 := Deallocate(w1, 1);
    assert w2.pool == [2, 1] && w2.removedList == [1];
  }

  /** Deallocating 1 with the deferred push and invalidating leaves 1 on the free stack once. */
  lemma {:induction false} ReleaseDeferred<D>(w1: World<D>)
    requires Shape(w1) && w1.end == 3 && w1.pool == [2] && w1.used == 2
    requires w1.removedList == [] && !BitVectors.Get(w1.removed, 1)
    ensures var w3 := Flush(DeallocateDeferred(w1, 1));
      w3.end == 3 && w3.pool == [2, 1] && w3.used == 1
  {
    var w2 := DeallocateDeferred(w1, 1);
    assert w2.pool == [2] && w2.removedList == [1];
  }

  /**
   * With the code as written, capacity 3: allocate returns 1, deallocate(1)
   * pushes 1, invalidate pushes 1 again, and the next two allocations both
   * return 1, the second while 1 is alive.
   */
  lemma {:induction false} DoubleAllocation()
    ensures var w0 := New<int>(3);
      var (w1, a) := Allocate(w0);
      var w3 := Flush(Deallocate(w1, a));
      w3.used < w3.end && |w3.pool| > 0
      && var (w4, b) := Allocate(w3);
         w4.used < w4.end && |w4.pool| > 0
         && var (w5, c) := Allocate(w4);
            a == 1 && b == 1 && c == 1 && BitVectors.Get(w4.alive, c)
  {
    FirstAllocation();
    var (w1, a) := Allocate(New<int>(3));
    ReleaseAsWritten(w1);
    var w3 := Flush(Deallocate(w1, a));
    var (w4, b) := Allocate(w3);
    assert b == 1 && w4.pool == [2, 1] && w4.used == 2;
  }

  /** The same steps with the corrected deallocate hand out 1, then 1 again after destruction, then 2. */
  lemma {:induction false} NoDoubleAllocation()
    ensures var w0 := New<int>(3);
      var (w1, a) := Allocate(w0);
      var w3 := Flush(DeallocateDeferred(w1, a));
      w3.used < w3.end && |w3.pool| > 0
      && var (w4, b) := Allocate(w3);
         w4.used < w4.end && |w4.pool| > 0
         && var (w5, c) := Allocate(w4);
            a == 1 && b == 1 && c == 2
  {
    FirstAllocation();
    var (w1, a) := Allocate(New<int>(3));
    ReleaseDeferred(w1);
    var w3 := Flush(DeallocateDeferred(w1, a));
    var (w4, b) := Allocate(w3);
    assert b == 1 && w4.pool == [2] && w4.used == 2;
  }

  // ---- the invariant of the corrected world ----

  /**
   * The free stack holds distinct non-null ids that are not alive, exactly
   * end_ - used_ of them; null is never alive; only alive entities are
   * queued for removal; each queue lists exactly the ids whose bit is set,
   * once each.
   */
  ghost predicate Inv<D>(w: World<D>)
  {
    Shape(w)
    && Distinct(w.pool) && (forall k :: 0 <= k < |w.pool| ==> 1 <= w.pool[k] && !BitVectors.Get(w.alive, w.pool[k]))
    && !BitVectors.Get(w.alive, 0)
    && (forall x :: 0 <= x < w.end && BitVectors.Get(w.removed, x) ==> BitVectors.Get(w.alive, x))
    && Distinct(w.removedList) && (forall x :: 0 <= x < w.end ==> (x in w.removedList <==> BitVectors.Get(w.removed, x)))
    && Distinct(w.changedList) && (forall x :: 0 <= x < w.end ==> (x in w.changedList <==> BitVectors.Get(w.changed, x)))
    && w.used + |w.pool| == w.end
  }

  lemma {:induction false} NewInv(capacity: nat)
    requires 0 < capacity < BitVectors.SizeCap
    ensures Inv(New<int>(capacity))
  {
  }

  /** Registering a component type does not touch the allocator. */
  lemma {:induction false} MakeComponentTypeInv<D>(w: World<D>, ci: nat, zero: D)
    requires Inv(w) && !ComponentDbV1.Registered(w.db, ci)
    ensures Inv(MakeComponentType(w, ci, zero))
  {
  }

  /** Queuing e as changed keeps the changed queue in step with the changed bits. */
  lemma {:induction false} MarkChangedInv<D>(w: World<D>, e: nat)
    requires Inv(w) && e < w.end
    ensures Inv(MarkChanged(w, e))
  {
    var r := MarkChanged(w, e);
    if !BitVectors.Get(w.changed, e) {
      assert e !in w.changedList;
      DistinctConcat(w.changedList, [e]);
    }
    assert forall x :: 0 <= x < w.end ==> (x in r.changedList <==> x in w.changedList || (x == e && !BitVectors.Get(w.changed, e)));
  }

  /** destroy_components keeps the invariant: it clears component bits and marks e changed. */
  lemma {:induction false} DestroyComponentsInv<D>(w: World<D>, e: nat)
    requires Inv(w) && e < w.end
    ensures Inv(DestroyComponents(w, e))
  {
    var db := ComponentDbV1.DisableAll(w.db, w.end, e);
    var v := w.(db := db);
    assert FamiliesFit(db, w.families, w.end) by {
      assert forall c :: ComponentDbV1.Registered(db, c) <==> ComponentDbV1.Registered(w.db, c);
    }
    assert Inv(v);
    MarkChangedInv(v, e);
  }

  /**
   * Under the invariant there is an id to hand out whenever used_ < end_,
   * and allocate hands out a non-null id that was not alive, keeping the
   * invariant.
   */
  lemma {:induction false} AllocateInv<D>(w: World<D>)
    requires Inv(w) && w.used < w.end
    ensures |w.pool| > 0
    ensures var (r, id) := Allocate(w);
      1 <= id < w.end && !BitVectors.Get(w.alive, id) && Inv(r)
  {
    var n := |w.pool|;
    var id := w.pool[n - 1];
    var p := w.pool[..n - 1];
    DistinctPrefix(w.pool, n - 1);
    assert forall k :: 0 <= k < n - 1 ==> p[k] == w.pool[k] && p[k] != id;
    var w1 := w.(used := w.used + 1, pool := p,
                 active := BitVectors.Enable(w.active, id), alive := BitVectors.Enable(w.alive, id));
    assert Inv(w1);
    MarkChangedInv(w1, id);
  }

  /**
   * The corrected deallocate of an alive entity keeps the invariant: the id
   * stays off the free stack until the destroy pass.
   */
  lemma {:induction false} DeallocateDeferredInv<D>(w: World<D>, id: nat)
    requires Inv(w) && id < w.end && BitVectors.Get(w.alive, id)
    ensures Inv(DeallocateDeferred(w, id))
  {
    var r := DeallocateDeferred(w, id);
    if !BitVectors.Get(w.removed, id) {
      assert id !in w.removedList;
      DistinctConcat(w.removedList, [id]);
    }
    assert forall x :: 0 <= x < w.end ==> (x in r.removedList <==> x in w.removedList || (x == id && !BitVectors.Get(w.removed, id)));
  }

  /** The queued ids and the free ids are distinct non-null ids, so together they number at most end_ - 1. */
  lemma {:induction false} QueueFits<D>(w: World<D>)
    requires Inv(w)
    ensures Distinct(w.pool + w.removedList)
    ensures |w.removedList| < w.used
    ensures forall k :: 0 <= k < |w.removedList| ==> 1 <= w.removedList[k] && BitVectors.Get(w.alive, w.removedList[k])
  {
    forall k | 0 <= k < |w.removedList|
      ensures 1 <= w.removedList[k] && BitVectors.Get(w.alive, w.removedList[k])
    {
      assert w.removedList[k] in w.removedList;
    }
    forall x | x in w.pool ensures x !in w.removedList {
      var k :| 0 <= k < |w.pool| && w.pool[k] == x;
    }
    DistinctConcat(w.pool, w.removedList);
    var s := w.pool + w.removedList;
    assert forall k :: 0 <= k < |s| ==> 1 <= s[k] < w.end by {
      forall k | 0 <= k < |s| ensures 1 <= s[k] < w.end {
        if k >= |w.pool| {
          assert s[k] == w.removedList[k - |w.pool|];
        }
      }
    }
    DistinctBounded(s, 1, w.end);
  }

  /** The destroy pass keeps the invariant: the queued ids return to the free stack once each. */
  lemma {:induction false} DestroyEntitiesInv<D>(w: World<D>)
    requires Inv(w)
    ensures Inv(DestroyEntities(w))
  {
    QueueFits(w);
    DestroyListMasks(w, w.removedList);
    var d0 := DestroyList(w, w.removedList);
    var r := DestroyEntities(w);
    assert r.alive == d0.alive && r.removed == d0.removed;
    forall k | 0 <= k < |r.pool| ensures 1 <= r.pool[k] && !BitVectors.Get(r.alive, r.pool[k]) {
      if k < |w.pool| {
        assert r.pool[k] == w.pool[k];
      } else {
        assert r.pool[k] == w.removedList[k - |w.pool|] && r.pool[k] in w.removedList;
      }
    }
  }

  /** The change pass keeps the invariant: it empties the changed queue and clears the bits it listed. */
  lemma {:induction false} ChangeEntitiesInv<D>(w: World<D>)
    requires Inv(w)
    ensures Inv(ChangeEntities(w))
  {
    ChangeListEffect(w, w.changedList);
  }

  /** destroy, then change: the invariant survives both passes of invalidate. */
  lemma {:induction false} FlushInv<D>(w: World<D>)
    requires Inv(w)
    ensures Inv(Flush(w))
  {
    DestroyEntitiesInv(w);
    ChangeEntitiesInv(DestroyEntities(w));
  }

  /** Rebuilding the families' lists does not touch the allocator, so invalidate keeps the invariant. */
  lemma {:induction false} FamiliesOnlyInv<D>(w: World<D>, r: World<D>)
    requires Inv(w) && Shape(r) && r == w.(families := r.families)
    ensures Inv(r)
  {
  }
}

=== FILE: world_views.dfy ===
/**
 * Views over a world's registry. Under the world invariant every member of
 * every map is the live handle of its pool slot, so a view yields exactly
 * the live handles present in every listed map. base_world::runtime_view
 * builds its map list from the ids that already have a map and drops the
 * rest, so the conjunction it walks can be narrower than the one requested.
 */
module WorldViews {
  import opened Wrappers
  import opened EntityValue
  import opened Seqs
  import EntityMaps
  import ComponentsDb
  import opened ViewTables
  import opened Scans
  import Views
  import RuntimeViews
  import opened Worlds

  type View<D> = Views.View<D>
  type EntityMap<D> = EntityMaps.EntityMap<D>

  /** Every map of ms is registered under some type id of db. */
  ghost predicate AllRegistered<D>(db: Db<D>, ms: seq<EntityMap<D>>)
  {
    forall k :: 0 <= k < |ms| ==> exists t :: ComponentsDb.TryGet(db, t) == Some(ms[k])
  }

  /** A map registered in a world under its invariant never has a handle of index 0. */
  lemma {:induction false} RegisteredHasNoNull<D>(w: World<D>, m: EntityMap<D>, t: nat)
    requires Inv(w) && ComponentsDb.TryGet(w.db, t) == Some(m)
    ensures !EntityMaps.Has(m, Null)
  {
    assert Tracks(w.pool, m);
    assert forall k :: k in EntityMaps.Stored(m) ==> k != 0 by {
      forall k | k in EntityMaps.Stored(m) ensures k != 0 {
        assert LiveHandle(w.pool, EntityMaps.Stored(m)[k]);
      }
    }
    assert 0 !in EntityMaps.Stored(m);
  }

  /**
   * Any view over registered maps yields exactly the live handles that every
   * listed map has: the driver's dense entries are the live handles of
   * their slots, and the other maps are asked by index.
   */
  lemma {:induction false} WorldYield<D>(w: World<D>, v: View<D>, e: Entity)
    requires Inv(w) && Views.Inv(v) && AllRegistered(w.db, v.access)
    ensures forall j :: 0 <= j < |v.access| ==> !EntityMaps.Has(v.access[j], Null)
    ensures |Views.Driver(v)| >= 1
    ensures e in ForwardYield(Views.Keep(v), Views.Driver(v)) <==>
      LiveHandle(w.pool, e) && forall j :: 0 <= j < |v.access| ==> EntityMaps.Has(v.access[j], e)
  {
    forall j | 0 <= j < |v.access| ensures !EntityMaps.Has(v.access[j], Null) {
      var t :| ComponentsDb.TryGet(w.db, t) == Some(v.access[j]);
      RegisteredHasNoNull(w, v.access[j], t);
    }
    Views.YieldIsIntersection(v, e);
    var d := Views.Table(v)[0];
    assert d == v.access[v.perm[0]];
    var t :| ComponentsDb.TryGet(w.db, t) == Some(d);
    assert Tracks(w.pool, d);
    EntityMaps.MemberIffStored(d, e);
    if LiveHandle(w.pool, e) && EntityMaps.Has(d, e) {
      assert LiveHandle(w.pool, EntityMaps.Stored(d)[Index(e)]);
    }
  }

  /** Ensuring maps keeps the world invariant: a new map is empty. */
  lemma {:induction false} EnsureAllTracks<D>(w: World<D>, cs: seq<ComponentType<D>>)
    requires Inv(w)
    ensures Inv(World(w.pool, Views.EnsureAll(w.db, cs).0))
    decreases |cs|
  {
    if cs != [] {
      var first := ComponentsDb.Ensure(w.db, cs[0]);
      HasTracks(w, cs[0], first.0);
      EnsureAllTracks(World(w.pool, first.0), cs[1..]);
    }
  }

  /** view<Cs...>(): a static view over the world's registry. */
  function StaticView<D>(w: World<D>, cs: seq<ComponentType<D>>): (r: (World<D>, View<D>))
    requires Inv(w) && |cs| >= 1
    ensures Inv(r.0) && r.0.pool == w.pool && Views.Inv(r.1) && |r.1.access| == |cs|
    ensures forall k :: 0 <= k < |cs| ==> ComponentsDb.TryGet(r.0.db, cs[k].id) == Some(r.1.access[k])
    ensures forall t, e :: ComponentsDb.HasIn(r.0.db, t, e) <==> ComponentsDb.HasIn(w.db, t, e)
  {
    var made := Views.Make(w.db, cs);
    EnsureAllTracks(w, cs);
    (World(w.pool, made.0), made.1)
  }

  /** A static view yields exactly the live entities holding every listed component. */
  lemma {:induction false} StaticViewYieldsHolders<D>(w: World<D>, cs: seq<ComponentType<D>>, e: Entity)
    requires Inv(w) && |cs| >= 1
    ensures var r := StaticView(w, cs);
      && |Views.Driver(r.1)| >= 1
      && (e in ForwardYield(Views.Keep(r.1), Views.Driver(r.1)) <==>
          LiveHandle(w.pool, e) && forall k :: 0 <= k < |cs| ==> ComponentsDb.HasIn(w.db, cs[k].id, e))
  {
    var r := StaticView(w, cs);
    assert AllRegistered(r.0.db, r.1.access) by {
      forall k | 0 <= k < |r.1.access| ensures exists t :: ComponentsDb.TryGet(r.0.db, t) == Some(r.1.access[k]) {
        assert ComponentsDb.TryGet(r.0.db, cs[k].id) == Some(r.1.access[k]);
      }
    }
    WorldYield(r.0, r.1, e);
    if forall j :: 0 <= j < |r.1.access| ==> EntityMaps.Has(r.1.access[j], e) {
      forall k | 0 <= k < |cs| ensures ComponentsDb.HasIn(w.db, cs[k].id, e) {
        assert EntityMaps.Has(r.1.access[k], e);
        assert ComponentsDb.HasIn(r.0.db, cs[k].id, e);
      }
    }
    if forall k :: 0 <= k < |cs| ==> ComponentsDb.HasIn(w.db, cs[k].id, e) {
      forall j | 0 <= j < |r.1.access| ensures EntityMaps.Has(r.1.access[j], e) {
        assert ComponentsDb.HasIn(r.0.db, cs[j].id, e);
      }
    }
  }

  // ---- runtime_view ----

  /** The maps of the ids that already have one, in input order; the others are dropped. */
  function RegisteredMaps<D>(db: Db<D>, ids: seq<nat>): (ms: seq<EntityMap<D>>)
    requires ComponentsDb.Valid(db)
    ensures AllValid(ms) && |ms| <= |ids|
    ensures forall k :: 0 <= k < |ms| ==> exists j :: 0 <= j < |ids| && ComponentsDb.TryGet(db, ids[j]) == Some(ms[k])
    ensures forall j :: 0 <= j < |ids| && ComponentsDb.TryGet(db, ids[j]).Some? ==> ComponentsDb.TryGet(db, ids[j]).value in ms
    decreases |ids|
  {
    if ids == [] then []
    else
      var rest := RegisteredMaps(db, ids[1..]);
      RegisteredMapsStep(db, ids, rest);
      match ComponentsDb.TryGet(db, ids[0])
      case Some(m) => [m] + rest
      case None => rest
  }

  lemma {:induction false} RegisteredMapsStep<D>(db: Db<D>, ids: seq<nat>, rest: seq<EntityMap<D>>)
    requires ComponentsDb.Valid(db) && |ids| >= 1 && AllValid(rest) && |rest| <= |ids| - 1
    requires forall k :: 0 <= k < |rest| ==> exists j :: 0 <= j < |ids| - 1 && ComponentsDb.TryGet(db, ids[1..][j]) == Some(rest[k])
    requires forall j :: 0 <= j < |ids| - 1 && ComponentsDb.TryGet(db, ids[1..][j]).Some? ==> ComponentsDb.TryGet(db, ids[1..][j]).value in rest
    ensures var ms := if ComponentsDb.TryGet(db, ids[0]).Some? then [ComponentsDb.TryGet(db, ids[0]).value] + rest else rest;
      && AllValid(ms) && |ms| <= |ids|
      && (forall k :: 0 <= k < |ms| ==> exists j :: 0 <= j < |ids| && ComponentsDb.TryGet(db, ids[j]) == Some(ms[k]))
      && (forall j :: 0 <= j < |ids| && ComponentsDb.TryGet(db, ids[j]).Some? ==> ComponentsDb.TryGet(db, ids[j]).value in ms)
  {
    var first := ComponentsDb.TryGet(db, ids[0]);
    var ms := if first.Some? then [first.value] + rest else rest;
    forall k | 0 <= k < |ms| ensures exists j :: 0 <= j < |ids| && ComponentsDb.TryGet(db, ids[j]) == Some(ms[k]) {
      if first.Some? && k == 0 {
        assert ComponentsDb.TryGet(db, ids[0]) == Some(ms[k]);
      } else {
        var r := if first.Some? then k - 1 else k;
        assert ms[k] == rest[r];
        var j :| 0 <= j < |ids| - 1 && ComponentsDb.TryGet(db, ids[1..][j]) == Some(rest[r]);
        assert ComponentsDb.TryGet(db, ids[j + 1]) == Some(ms[k]);
      }
    }
    forall j | 0 <= j < |ids| && ComponentsDb.TryGet(db, ids[j]).Some? ensures ComponentsDb.TryGet(db, ids[j]).value in ms {
      if j > 0 {
        assert ids[j] == ids[1..][j - 1];
      }
    }
  }

  /** A registered map list is asked about e exactly as the registered ids are. */
  lemma {:induction false} RegisteredHas<D>(db: Db<D>, ids: seq<nat>, e: Entity)
    requires ComponentsDb.Valid(db)
    ensures var ms := RegisteredMaps(db, ids);
      (forall k :: 0 <= k < |ms| ==> EntityMaps.Has(ms[k], e)) <==>
      (forall j :: 0 <= j < |ids| && ComponentsDb.TryGet(db, ids[j]).Some? ==> ComponentsDb.HasIn(db, ids[j], e))
  {
    var ms := RegisteredMaps(db, ids);
    if forall k :: 0 <= k < |ms| ==> EntityMaps.Has(ms[k], e) {
      forall j | 0 <= j < |ids| && ComponentsDb.TryGet(db, ids[j]).Some? ensures ComponentsDb.HasIn(db, ids[j], e) {
        var m := ComponentsDb.TryGet(db, ids[j]).value;
        assert m in ms;
      }
    }
    if forall j :: 0 <= j < |ids| && ComponentsDb.TryGet(db, ids[j]).Some? ==> ComponentsDb.HasIn(db, ids[j], e) {
      forall k | 0 <= k < |ms| ensures EntityMaps.Has(ms[k], e) {
        var j :| 0 <= j < |ids| && ComponentsDb.TryGet(db, ids[j]) == Some(ms[k]);
        assert ComponentsDb.HasIn(db, ids[j], e);
      }
    }
  }

  /** runtime_view(begin, end): a runtime view over the maps of the registered ids only. */
  function RuntimeView<D>(w: World<D>, ids: seq<nat>): (v: View<D>)
    requires ComponentsDb.Valid(w.db)
    ensures AllRegistered(w.db, v.access) && |v.access| <= |ids|
    ensures |v.access| >= 1 ==> Views.Inv(v)
  {
    var ms := RegisteredMaps(w.db, ids);
    assert AllRegistered(w.db, ms) by {
      forall k | 0 <= k < |ms| ensures exists t :: ComponentsDb.TryGet(w.db, t) == Some(ms[k]) {
        var j :| 0 <= j < |ids| && ComponentsDb.TryGet(w.db, ids[j]) == Some(ms[k]);
      }
    }
    RuntimeViews.Make(ms)
  }

  /**
   * runtime_view(...).each(func) as written: begin() reads table_[0], so
   * at least one id must be registered, and the walk checks only the
   * registered ids.
   */
  method RuntimeEach<D>(w: World<D>, ids: seq<nat>) returns (calls: seq<Entity>)
    requires Inv(w) && |RegisteredMaps(w.db, ids)| >= 1
    ensures Distinct(calls)
    ensures forall e :: e in calls <==> (LiveHandle(w.pool, e) &&
      forall j :: 0 <= j < |ids| && ComponentsDb.TryGet(w.db, ids[j]).Some? ==> ComponentsDb.HasIn(w.db, ids[j], e))
  {
    var v := RuntimeView(w, ids);
    WorldYield(w, v, Null);
    calls := RuntimeViews.Each(v);
    forall e ensures e in calls <==> (LiveHandle(w.pool, e) &&
      forall j :: 0 <= j < |ids| && ComponentsDb.TryGet(w.db, ids[j]).Some? ==> ComponentsDb.HasIn(w.db, ids[j], e))
    {
      WorldYield(w, v, e);
      RegisteredHas(w.db, ids, e);
    }
  }

  /**
   * The runtime view over a registered id t and an unregistered id u yields
   * an entity holding t's component, although it lacks u's.
   */
  lemma {:induction false} RuntimeViewIgnoresUnregistered<D>(w: World<D>, t: nat, u: nat, e: Entity)
    requires Inv(w) && LiveHandle(w.pool, e) && ComponentsDb.HasIn(w.db, t, e)
    requires ComponentsDb.TryGet(w.db, u) == None
    ensures |RegisteredMaps(w.db, [t, u])| >= 1
    ensures var v := RuntimeView(w, [t, u]);
      |Views.Driver(v)| >= 1 && e in ForwardYield(Views.Keep(v), Views.Driver(v))
    ensures !ComponentsDb.HasIn(w.db, u, e)
  {
    var ids := [t, u];
    var ms := RegisteredMaps(w.db, ids);
    assert ComponentsDb.TryGet(w.db, ids[0]).value in ms;
    var v := RuntimeView(w, ids);
    WorldYield(w, v, e);
    RegisteredHas(w.db, ids, e);
  }

  /** Such a world exists: a fresh world after create<C0>() registers type 0 only. */
  lemma {:induction false} UnregisteredWitness()
    ensures var r := Create(Worlds.New<int>(), [ComponentsDb.ComponentType(0, 0, false)]);
      && Inv(r.0) && LiveHandle(r.0.pool, r.1) && ComponentsDb.HasIn(r.0.db, 0, r.1)
      && ComponentsDb.TryGet(r.0.db, 1) == None
  {
    var cs := [ComponentsDb.ComponentType(0, 0, false)];
    assert 1 !in Ids(cs);
  }

  /** With no id registered the table is empty, and begin() has no table_[0] to read. */
  lemma {:induction false} NoRegisteredIdEmptyTable<D>(w: World<D>, ids: seq<nat>)
    requires ComponentsDb.Valid(w.db)
    requires forall j :: 0 <= j < |ids| ==> ComponentsDb.TryGet(w.db, ids[j]) == None
    ensures RuntimeView(w, ids).access == []
  {
    NoneRegisteredNoMaps(w.db, ids);
  }

  /** When no id of the list has a map, no map is collected. */
  lemma {:induction false} NoneRegisteredNoMaps<D>(db: Db<D>, ids: seq<nat>)
    requires ComponentsDb.Valid(db)
    requires forall j :: 0 <= j < |ids| ==> ComponentsDb.TryGet(db, ids[j]) == None
    ensures RegisteredMaps(db, ids) == []
    decreases |ids|
  {
    if ids != [] {
      assert ComponentsDb.TryGet(db, ids[0]) == None;
      NoneRegisteredNoMaps(db, ids[1..]);
    }
  }

  /** Every id of the list has a map. */
  function AllIdsRegistered<D>(db: Db<D>, ids: seq<nat>): (b: bool)
    ensures b <==> forall j :: 0 <= j < |ids| ==> ComponentsDb.TryGet(db, ids[j]).Some?
    decreases |ids|
  {
    if ids == [] then true
    else ComponentsDb.TryGet(db, ids[0]).Some? && AllIdsRegistered(db, ids[1..])
  }

  /**
   * The runtime view's evident intent: an unregistered id means no entity
   * can hold that component, so nothing is yielded; an empty id list yields
   * nothing instead of reading a missing table_[0].
   */
  method RuntimeEachChecked<D>(w: World<D>, ids: seq<nat>) returns (calls: seq<Entity>)
    requires Inv(w)
    ensures Distinct(calls)
    ensures forall e :: e in calls <==> (|ids| >= 1 && LiveHandle(w.pool, e) &&
      forall j :: 0 <= j < |ids| ==> ComponentsDb.HasIn(w.db, ids[j], e))
  {
    if ids == [] || !AllIdsRegistered(w.db, ids) {
      calls := [];
      return;
    }
    assert ComponentsDb.TryGet(w.db, ids[0]).value in RegisteredMaps(w.db, ids);
    calls := RuntimeEach(w, ids);
  }
}

=== FILE: worlds_map.dfy ===
/**
 * The registry of live v1 worlds: a growable table of world handles in
 * which a removed world leaves a null slot. A world's id is its slot index,
 * stored in an 8-bit world id. Handles are any type with equality; a null
 * slot is None.
 */
module WorldsMap {
  import opened Wrappers

  /** world_id_t is 8 bits wide. */
  const IdRange: nat := 256

  /** The lookup table. */
  type Lookup<W> = seq<Option<W>>

  /** std::find for a null slot: the first one, or the table's length when there is none. */
  function FirstFree<W>(m: Lookup<W>): (i: nat)
    ensures i <= |m|
    ensures forall j :: 0 <= j < i ==> m[j].Some?
    ensures i < |m| ==> m[i].None?
  {
    if m == [] || m[0].None? then 0 else 1 + FirstFree(m[1..])
  }

  /** world_id_t: an id is an 8-bit unsigned value. */
  type WorldId = x: nat | x < IdRange

  /**
   * add(w): find the first null slot, or append a slot for w. The slot index
   * is stored in an 8-bit world id, and the reuse branch writes the slot that
   * id names, which is the found slot cut to 8 bits.
   */
  function Add<W>(m: Lookup<W>, w: W): (r: (Lookup<W>, WorldId))
    ensures |r.0| == (if FirstFree(m) == |m| then |m| + 1 else |m|)
    ensures r.1 < |r.0| && r.0[r.1].Some?
  {
    var i := FirstFree(m);
    if i == |m| then (m + [Some(w)], i % IdRange)
    else (m[i % IdRange := Some(w)], i % IdRange)
  }

  /** get(id): the world in slot id; None where the source's assertions (slot exists, slot not null) fail. */
  function Get<W>(m: Lookup<W>, id: WorldId): (r: Option<W>)
    ensures r.Some? <==> id < |m| && m[id].Some?
  {
    if id < |m| && m[id].Some? then m[id] else None
  }

  /**
   * remove(w), with id the id w was given: null the slot; None where the
   * source's assertions (slot exists, slot holds w) fail.
   */
  function Remove<W(==)>(m: Lookup<W>, w: W, id: WorldId): (r: Option<Lookup<W>>)
    ensures r.Some? <==> id < |m| && m[id] == Some(w)
  {
    if id < |m| && m[id] == Some(w) then Some(m[id := None]) else None
  }

  /**
   * add(w) takes the lowest null slot, or appends one. Appending puts w in
   * the new last slot; reusing writes slot i mod 256 and no other. While the
   * slot is below 256 the returned id is the slot, so get finds w under it.
   */
  lemma {:induction false} AddFillsLowestFree<W>(m: Lookup<W>, w: W)
    ensures var (m', id) := Add(m, w);
      var i := FirstFree(m);
      (forall j :: 0 <= j < i ==> m[j].Some?)
      && (i == |m| ==> m' == m + [Some(w)])
      && (i < |m| ==>
            m'[i % IdRange] == Some(w) && forall j :: 0 <= j < |m| && j != i % IdRange ==> m'[j] == m[j])
      && id == i % IdRange
      && (i < IdRange ==> id == i && m'[i] == Some(w) && Get(m', id) == Some(w))
  {
  }

  /** remove(w) frees exactly w's slot: get fails there and answers as before everywhere else. */
  lemma {:induction false} RemoveFreesSlot<W>(m: Lookup<W>, w: W, id: WorldId)
    requires Remove(m, w, id).Some?
    ensures var m' := Remove(m, w, id).value;
      Get(m', id).None? && forall j: WorldId :: j != id ==> Get(m', j) == Get(m, j)
  {
  }

  /** After removing the world in the lowest used slot of a full prefix, the next add reuses its id. */
  lemma {:induction false} RemoveThenAddReuses<W>(m: Lookup<W>, w: W, id: WorldId, v: W)
    requires Remove(m, w, id).Some? && forall j :: 0 <= j < id ==> m[j].Some?
    ensures FirstFree(Remove(m, w, id).value) == id
    ensures Add(Remove(m, w, id).value, v).1 == id
  {
    var m' := Remove(m, w, id).value;
    FirstFreeIsLowest(m', id);
  }

  // ---- slots past the id range ----

  /**
   * Every slot from 256 on is in use. remove only reaches slots an 8-bit id
   * names, so a table built by add and remove from empty keeps this.
   */
  ghost predicate NoHoleAbove<W>(m: Lookup<W>)
  {
    forall j :: IdRange <= j < |m| ==> m[j].Some?
  }

  /**
   * add and remove keep every slot from 256 on in use. So in such a table
   * add's reuse branch finds a slot below 256, and the slot it writes is
   * the found slot itself.
   */
  lemma {:induction false} NoHoleAboveKept<W>(m: Lookup<W>, w: W, id: WorldId)
    requires NoHoleAbove(m)
    ensures NoHoleAbove(Add(m, w).0)
    ensures Remove(m, w, id).Some? ==> NoHoleAbove(Remove(m, w, id).value)
    ensures FirstFree(m) < |m| ==>
      FirstFree(m) < IdRange && Add(m, w).0 == m[FirstFree(m) := Some(w)] && Add(m, w).1 == FirstFree(m)
  {
    var i := FirstFree(m);
    if i < |m| {
      assert m[i].None?;
    } else {
      assert Add(m, w).0 == m + [Some(w)];
    }
  }

  /** Starting from the empty table, any sequence of adds and removes keeps every slot from 256 on in use. */
  lemma {:induction false} BuiltTablesHaveNoHoleAbove<W>(ops: seq<(bool, W, WorldId)>)
    ensures NoHoleAbove(Replay([], ops))
    decreases |ops|
  {
    if ops != [] {
      var pre := ops[..|ops| - 1];
      var (isAdd, w, id) := ops[|ops| - 1];
      BuiltTablesHaveNoHoleAbove(pre);
      NoHoleAboveKept(Replay([], pre), w, id);
    }
  }

  /**
   * Replays operations: (true, w, _) is add(w); (false, w, id) is remove(w)
   * for the world with id, and a remove whose assertions fail changes nothing.
   */
  function Replay<W(==)>(m: Lookup<W>, ops: seq<(bool, W, WorldId)>): (r: Lookup<W>)
    ensures |r| >= |m|
    decreases |ops|
  {
    if ops == [] then m
    else
      var m0 := Replay(m, ops[..|ops| - 1]);
      var (isAdd, w, id) := ops[|ops| - 1];
      if isAdd then Add(m0, w).0
      else match Remove(m0, w, id) case Some(m1) => m1 case None => m0
  }

  /** Any null slot with only full slots before it is the one std::find returns. */
  lemma {:induction false} FirstFreeIsLowest<W>(m: Lookup<W>, i: nat)
    requires i < |m| && m[i].None? && forall j :: 0 <= j < i ==> m[j].Some?
    ensures FirstFree(m) == i
  {
    if i > 0 {
      FirstFreeIsLowest(m[1..], i - 1);
    }
  }

  // ---- the 8-bit id ----

  /**
   * With 256 worlds registered and no null slot, add(w) appends slot 256 but
   * returns id 0, and get(0) is the first world, not w.
   */
  lemma {:induction false} AddWrapsAround<W>(m: Lookup<W>, w: W)
    requires |m| == IdRange && (forall j :: 0 <= j < |m| ==> m[j].Some?) && m[0] != Some(w)
    ensures Add(m, w).1 == 0
    ensures Get(Add(m, w).0, Add(m, w).1) == m[0] != Some(w)
  {
    assert FirstFree(m) == |m|;
  }

  /** add with the id range respected: refuse when the slot it would use has no 8-bit id. */
  function AddChecked<W>(m: Lookup<W>, w: W): (r: Option<(Lookup<W>, nat)>)
    ensures r.Some? ==> r.value == Add(m, w)
  {
    if FirstFree(m) < IdRange then Some(Add(m, w)) else None
  }

  /**
   * The checked add refuses exactly when every one of the 256 ids is taken,
   * and otherwise the id it returns names w.
   */
  lemma {:induction false} AddCheckedRoundTrip<W>(m: Lookup<W>, w: W)
    ensures AddChecked(m, w).None? <==> |m| >= IdRange && forall j :: 0 <= j < IdRange ==> m[j].Some?
    ensures AddChecked(m, w).Some? ==>
      var (m', id) := AddChecked(m, w).value;
      Get(m', id) == Some(w) && forall j: WorldId :: j != id ==> Get(m', j) == Get(m, j)
  {
    AddFillsLowestFree(m, w);
  }
}

=== FILE: wrappers.dfy ===
/** Optional values, standing in for the nullable pointers of the source. */
module Wrappers {

  datatype Option<+T> = None | Some(value: T)
}
